=== FILE: README.md ===
# open_pdks text and stream filters in Dafny

This project models the small, deterministic transformers that open_pdks
uses to build and repair PDK files, and proves properties of them. Each
script becomes a module of pure functions over token lists, line lists or
byte sequences.

- `common/cdl2spi.py`: the token rewriting of CDL netlist lines (`Cdl2Spi`).
- `common/natural_sort.py` (`NaturalSort`).
- `runtime/cace_gensim.py`: `bindigits`, `twos_comp`, `uniquify`,
  `condition_gen`, the condition product and pin-vector expansion
  (`CaceGensim`).
- The GDSII walkers:
  - the date rewrite of `runtime/change_gds_date.py` and the date read of
    `common/get_gds_date.py` (`GdsDate`);
  - the string substitution of `common/change_gds_string.py`
    (`GdsString`);
  - the cell splice of `runtime/change_gds_cell.py` (`GdsCell`).
  - Shared record helpers are in `GdsStream` and `GdsRecords`.
- The Magic `.mag` editors: `common/insert_property.py`
  (`InsertProperty`), `common/insert_layer.py` (`InsertLayer`),
  `common/remove_label.py` (`RemoveLabel`) and `common/port_order.py`
  (`PortOrder`).
- The SPICE, Verilog and LEF filters:
  - `runtime/makestub.py` (`MakeStub`);
  - `common/remove_specify.py` (`RemoveSpecify`);
  - `common/fix_subckt_params.py` (`SubcktParams`);
  - `common/create_lef_library.py` (`LefLibrary`, with `Glob` for
    `fnmatch`);
  - `common/create_verilog_library.py` (`VerilogLibrary`).
- The liberty and font helpers: `sky130/custom/scripts/fix_related_bias_pins.py`
  (`BiasPins`) and `sky130/custom/scripts/text2mag.py` (`FontCell`).

Shared modules:

- `Wrappers`: `Option` and `Result`.
- `Text`: characters, `str.split`, `str.replace`, decimal digits and case
  folding.
- `Seqs`: filters and subsequences.
- `Lines`: `splitlines` and the two shapes of a line loop: `Run` for a loop
  that cannot raise, `Try` for one that can.
- `Arith`: facts about Euclidean division.

Every loop over a file's lines is a `Step` function folded over the lines.
Each editor is proved against an independent description of its output:
which lines are kept, which are inserted, and where.

## Model

| member | source | states |
|---|---|---|
| Cdl2Spi.GetAreaScale | common/cdl2spi.py:21-29 | The area suffix has twice the decimal exponent of the length suffix (m to u, u to p, n to a). Any other length suffix gives the empty suffix, and only those. |
| Cdl2Spi.UniqInm | common/cdl2spi.py:38-51 | A name not yet used in the subcircuit (ignoring case) comes back unchanged. Otherwise the result is `nm_q<i>` for the smallest `i` whose name is free. The result was free before and is recorded as used. The call raises exactly when all 1000000 suffixes are taken. |
| Cdl2Spi.MapInm | common/cdl2spi.py:58-64 | The result has no '/'. Every character of the name reappears at its place, with '/' turned into '\|'. The result is a name not used before. |
| Cdl2Spi.MapSubcktDef | common/cdl2spi.py:81-96 | `.subckt` and the name are never touched. The line is unchanged exactly when no token from the third up to the first assignment starts with '/'. Otherwise only the first such token loses its slash, and a bare "/" is deleted. |
| Cdl2Spi.MapSubcktInst | common/cdl2spi.py:127-151 | The instance name is kept, and the result is one of three shapes: unchanged, one standalone "/" before the first assignment deleted, or one token before it stripped of a leading '/' with only "/" tokens after it up to the assignment. Which shape applies is fixed by `MapSubcktInstIs`. |
| Cdl2Spi.MapSubcktInstIs | common/cdl2spi.py:135-151 | The model token is found by starting at the token before the first assignment (the last token when there is none) and skipping "/" tokens backwards, never past token 1. `ModelIndex` characterises it, and it is unique. A "/" just before it is deleted. Otherwise a leading '/' on the model token is stripped. Otherwise the line is unchanged. |
| Cdl2Spi.DollarParamByScan | common/cdl2spi.py:203-214 | The `find("=")` scan recognises exactly the tokens `$name=value` whose name is not `sub` or `.model` in any case. |
| Cdl2Spi.MapCDLparam | common/cdl2spi.py:203-214 | The number of tokens is kept, as is the first token. A later token changes exactly when it is such a `$name=` parameter, and then it only loses its '$'. |
| Cdl2Spi.TermModelDirectives | common/cdl2spi.py:229-256 | For a line of positional tokens, then a bare model token, then only `$` directives: the terminal is the rightmost non-empty `$SUB=` value. The model is the rightmost non-empty `$.model=`/`$[...]` value, or else the bare token, which is then dropped. The other tokens stay in order without the directives. |
| Cdl2Spi.MapCDLtermModel | common/cdl2spi.py:229-256 | The first token stays. The remaining tokens are a subsequence of the input, and only `$` directives or one bare model token were removed. The terminal comes from a `$SUB=` token and the model from a bare token, `$.model=` or `$[...]`. |
| Cdl2Spi.TermModelBareModel | common/cdl2spi.py:229-256 | With plain assignments after it, the last bare token is the model, there is no terminal, and only that token is removed. |
| Cdl2Spi.MapDiscard | common/cdl2spi.py:278-291 | The first token stays first in what is left, and the three lists together are as long as the input. The `Discard…` rows below state what each list holds. |
| Cdl2Spi.DiscardRestByFilter | common/cdl2spi.py:278-291 | What is left is the first token followed by the later tokens that do not start with '$', in order. |
| Cdl2Spi.DiscardAssignByFilter | common/cdl2spi.py:278-291 | The assignments are the later `$` tokens that contain '=', in reverse line order. |
| Cdl2Spi.DiscardDirectiveByFilter | common/cdl2spi.py:278-291 | The directives are the later `$` tokens without '=', in reverse line order. |
| Cdl2Spi.DiscardKeepsAll | common/cdl2spi.py:278-291 | The three lists together hold exactly the input tokens, counted with multiplicity. |
| Cdl2Spi.DiscardNoDollar | common/cdl2spi.py:278-291 | No token after the first starts with '$'. |
| Cdl2Spi.MapPartAssign | common/cdl2spi.py:301-310 | Each part is a subsequence of the input. One part holds only assignments and the other holds none. |
| Cdl2Spi.PartAssignKeepsAll | common/cdl2spi.py:301-310 | The two parts hold exactly the input tokens, counted with multiplicity, so their lengths add up to the input's. |
| Cdl2Spi.LookupValueFound | common/cdl2spi.py:322-334 | A non-empty value found is that of the rightmost `nm=` token after the first whose value is non-empty. The name is compared ignoring case. |
| Cdl2Spi.LookupValueEmpty | common/cdl2spi.py:322-334 | When no `nm=` token has a value, the lookup finds "". |
| Cdl2Spi.LookupRestByDropKey | common/cdl2spi.py:322-334 | An editing lookup keeps the first token and exactly the later tokens that do not assign to `nm`, in order. |
| Cdl2Spi.MapLookup | common/cdl2spi.py:322-334 | Without editing the tokens are returned unchanged. The first token always stays. |
| Cdl2Spi.LookupValueIs | common/cdl2spi.py:322-334 | When token `i` assigns a value to the name and every later assignment to it is empty, the value found is token `i`'s value: the last non-empty assignment wins. |
| Cdl2Spi.LookupAllByDropKeys | common/cdl2spi.py:391-403 | A run of editing lookups leaves the first token and the later tokens that assign to none of the keys. |
| Cdl2Spi.DropKeysRemovesKeys | common/cdl2spi.py:391-403 | Whatever the lookups leave comes from the input and assigns to none of the keys. |
| Cdl2Spi.MapMos | common/cdl2spi.py:387-438 | The instance name stays first. No `$` token is left after it. |
| Cdl2Spi.MosPositionalValues | common/cdl2spi.py:408-438 | The six leading tokens are kept. The first two bare values after them become `W=` and `L=` with the length suffix, in place of any `W=`/`L=` assignment. The remaining bare values follow in order. |
| Cdl2Spi.MosPositionalOneWL | common/cdl2spi.py:386-438 | Every `w=` and `l=` assignment on the line is taken out: after the head, no token assigns W except in the first place and none assigns L except in the first two, where `MosPositionalValues` puts them. |
| Cdl2Spi.MapRes | common/cdl2spi.py:505-536 | The instance name stays first. |
| Cdl2Spi.ResPositionalShort | common/cdl2spi.py:516-536 | The three leading tokens are kept. A `0` appears behind them exactly when the first bare value is `short`. No bare token other than the terminal, the model and that `0` is written. |
| NaturalSort.KeyAlternates | common/natural_sort.py:9-10 | A key splits the name into text, number, text, and so on. It starts and ends with text, and texts and numbers alternate, so parts at one position are always of the same kind. |
| NaturalSort.NaturalSort | common/natural_sort.py:8-11 | The output is a permutation of the input, and no name sorts before its predecessor. |
| NaturalSort.SortStable | common/natural_sort.py:11 | The sort is stable: the names with any one key appear in input order. |
| NaturalSort.SortSortedIdentity | common/natural_sort.py:11 | A list already in natural order is returned unchanged. |
| NaturalSort.SortIdempotent | common/natural_sort.py:11 | Sorting twice is the same as sorting once. |
| NaturalSort.KeyIgnoresCase | common/natural_sort.py:9 | A name and its lower-case form have the same key, so text compares ignoring case. |
| NaturalSort.NumbersCompareByValue | common/natural_sort.py:9-10 | With the same digit-free text in front, the smaller number sorts first ("a2" before "a10"). |
| NaturalSort.KeyOfTextNumber | common/natural_sort.py:9-10 | A digit-free text followed by a number has the key: the lower-cased text, the number's value, the empty text. |
| NaturalSort.KeyLessAsym | common/natural_sort.py:11 | No two keys are each less than the other. |
| CaceGensim.BinDigits | runtime/cace_gensim.py:204-206 | The result is exactly `bits` characters, all '0' or '1', reading as `n mod 2^bits`. The call raises exactly when `bits` is 0. |
| CaceGensim.BinDigitsRoundTrip | runtime/cace_gensim.py:204-206 | Printing a bit string's value back at its own width gives the same string. |
| CaceGensim.TwosComp | runtime/cace_gensim.py:208-212 | The result is the value or the value less `2^bits`. The call raises exactly when `bits` is 0. |
| CaceGensim.TwosCompRange | runtime/cace_gensim.py:208-212 | For `0 <= val < 2^bits` the result lies in `[-2^(bits-1), 2^(bits-1))` and is congruent to `val` modulo `2^bits`. |
| CaceGensim.TwosCompInverse | runtime/cace_gensim.py:208-212 | Reading back the `bits`-bit encoding of a signed value in range gives that value. |
| CaceGensim.TwosCompDigits | runtime/cace_gensim.py:204-212 | The signed reading prints the same bits as the unsigned value. |
| CaceGensim.UniquifySpec | runtime/cace_gensim.py:362-364 | The result is a subsequence of the input with no repeated printed form. Every form of the input is represented, and each kept item is the first item of its form. |
| CaceGensim.UniquifyIdempotent | runtime/cace_gensim.py:362-364 | Uniquifying twice is uniquifying once. |
| CaceGensim.Uniquify | runtime/cace_gensim.py:362-364 | The result is no longer than the input. `UniquifySpec` and `UniquifyIdempotent` state what it keeps. |
| CaceGensim.ConditionGen | runtime/cace_gensim.py:249-255 | There is one triple per value. Each carries the record's condition and its unit, or "" when the record has no unit. |
| CaceGensim.ConditionGenEnum | runtime/cace_gensim.py:256-258 | An enumerated condition yields its items in order. |
| CaceGensim.ConditionGenLimits | runtime/cace_gensim.py:269-287 | Without an enumeration or a step, each of `min`, `typ` and `max` is yielded once if present. `min` leads, `max` closes, and nothing else appears. |
| CaceGensim.ProductAppend | runtime/cace_gensim.py:1178 | The product of the lengths of two lists is the product of their separate products. |
| CaceGensim.ColumnAt | runtime/cace_gensim.py:1183-1189 | Entry `r` of column `i` is value `(r / m) % n` of condition `i`. Here `m` is the product of the earlier lengths and `n` is the condition's own length. |
| CaceGensim.ColumnLength | runtime/cace_gensim.py:1183-1189 | Every column has as many entries as the product of all lengths. |
| CaceGensim.SimTuplesShape | runtime/cace_gensim.py:1172-1192 | There are as many tuples as the product of the generator lengths, each with one value per condition. Tuple `r` takes from condition `i` the value its mixed-radix digit selects. |
| CaceGensim.Expand | runtime/cace_gensim.py:1004-1015 | A vector `base[a:b]` gives `\|a-b\|+1` pins named `base[i]` for ascending `i`, each keeping the pin's other fields. |
| CaceGensim.ExpandPinBracket | runtime/cace_gensim.py:1005-1015 | A pin whose name reads as `base[a:b]` expands to `\|a-b\|+1` pins named `base[i]` for `i` from `min(a,b)` to `max(a,b)`. |
| CaceGensim.MatchBracketedRoundTrip | runtime/cace_gensim.py:1001-1007 | The bracket pattern reads back the base and the two range ends that a vector name spells. |
| CaceGensim.ExpandScalar | runtime/cace_gensim.py:1043-1044 | A name without ':' is not a vector and is passed through unchanged. |
| CaceGensim.ExpandPinsAppend | runtime/cace_gensim.py:1004-1044 | Expansion works pin by pin and keeps datasheet order. |
| CaceGensim.ExpandPinsScalars | runtime/cace_gensim.py:1004-1044 | A pin list without vectors is unchanged. |
| GdsStream.U16 | runtime/change_gds_date.py:71-76 | `to_bytes(2, 'big')` succeeds exactly for `0 <= n < 65536`, and then gives two bytes that read back big-endian as `n`. |
| GdsStream.U16RoundTrip | runtime/change_gds_date.py:71-76 | Two bytes read big-endian and written back are the same two bytes. |
| GdsStream.Slice | runtime/change_gds_date.py:107 | A Python slice is clamped to the data: its length is what is left of `[i, j)` inside it, and byte `k` of the slice is byte `i+k` of the data. |
| GdsStream.UnpadPad | runtime/change_gds_cell.py:108-112 | A string without nulls, padded with a null to an even length, loses exactly that padding when read back. |
| GdsStream.EncodeAscii | common/change_gds_string.py:81-82 | `bytes(s, 'ascii')` succeeds exactly when every character is below 128, and then keeps every code point. |
| GdsStream.AsciiRoundTrip | runtime/change_gds_cell.py:112 | `decode('ascii')` inverts `bytes(s, 'ascii')`, in both directions. |
| GdsRecords.WalkIsFold | runtime/change_gds_date.py:103-137 | The record loop that starts at `ptr`, reads each length field and advances by it is the same as applying its body to each record in turn. |
| GdsRecords.WalkFails | runtime/change_gds_date.py:105-114 | The loop fails wherever a record header is cut short. |
| GdsRecords.RecordsChained | runtime/change_gds_date.py:105-137 | The records visited start at `ptr`, each starts where the one before ends, and none has length zero. |
| GdsRecords.LengthsSpan | runtime/change_gds_cell.py:188-190 | The lengths of adjacent records add up to the bytes they span. |
| GdsDate.EffectiveModStamp | runtime/change_gds_date.py:40-46 | A modification stamp of zero or less is replaced by the creation stamp. Any other stamp is kept. |
| GdsDate.ModStampDefault | runtime/change_gds_date.py:40-46 | A non-positive modification stamp gives the same file as passing the creation stamp twice. |
| GdsDate.EncodeStamp | runtime/change_gds_date.py:69-78 | The 12 stamp bytes are written exactly when the year less 1900, the month and the day each fit in 16 unsigned bits. |
| GdsDate.StampRoundTrip | common/get_gds_date.py:76-108 | Reading the six big-endian fields of an encoded stamp, adding 1900 to the year, gives back the time that was written. |
| GdsDate.StampDecodeEncode | runtime/change_gds_date.py:69-95 | Any twelve bytes are the encoding of the stamp they decode to. |
| GdsDate.RestampKeeps | runtime/change_gds_date.py:128-134 | Rebuilding a 28-byte BGNLIB or BGNSTR record keeps the data's length, its header and every byte outside the record's stamps. Bytes 4-16 become the creation stamp and bytes 16-28 the modification stamp. |
| GdsDate.DateWalkKeeps | runtime/change_gds_date.py:103-137 | When every stamped record is 28 bytes long, the rewritten data has the input's length and keeps every byte before the current record's stamps. |
| GdsDate.DateWalkFrame | runtime/change_gds_date.py:103-137 | Over the whole walk, every byte that is not one of the 24 stamp bytes of a BGNLIB or BGNSTR record on the record chain equals the input's byte. The chain is followed by an independent predicate, `InStamp`. |
| GdsDate.ChangeThenRead | common/get_gds_date.py:55-114 | After `change_gds_date` rewrites the stamps, `get_gds_date` reports exactly the stamps written, provided the file has a BGNLIB record. Without one it reports nothing, as it does on the input. |
| GdsDate.ChangeGdsDate | runtime/change_gds_date.py:40-137 | A file is written only when both stamps convert to calendar times. When every stamped record fits, the file keeps its length, and the read-back reports the two stamps written exactly when the input has a BGNLIB record. |
| GdsDate.DateRead | common/get_gds_date.py:55-114 | The read-back fails only where the record list also fails, with the same error. |
| GdsDate.DateReadFirst | common/get_gds_date.py:55-114 | Where the records can be read, the read-back reports the two stamps of the first BGNLIB record, and nothing when there is none. |
| GdsString.EveryOther | common/change_gds_string.py:54-60 | `s[start::2]`: every second argument from `start`, in order. |
| GdsString.Strings | common/change_gds_string.py:51-60 | The strings are the arguments before the path or paths. There are two paths when the next-to-last argument is an existing file. |
| GdsString.CommandPairsAccepts | common/change_gds_string.py:51-64 | With at least three arguments, an odd number of strings is reported as unpaired. The command line is accepted exactly when there are enough arguments, the strings pair up and all are ASCII. |
| GdsString.CommandPairsContents | common/change_gds_string.py:54-82 | Pair `i` is the ASCII bytes of the strings `2i` and `2i+1`. |
| GdsString.VerbatimSkips | common/change_gds_string.py:114-119 | In verbatim mode a pair is skipped exactly when its search string is not as long as the record's string less its padding null. `bstring[-1]` raises on an empty string. |
| GdsString.FixParity | common/change_gds_string.py:124-135 | An odd-length replacement loses the trailing null of a padded original or gains one. The result always has even length, and an even-length replacement is kept as it is. |
| GdsString.PairStepShape | common/change_gds_string.py:120-146 | A change writes a whole new record: its length field is the new length, which is even and below 65536, followed by the type bytes and the new string, spliced over the old record. |
| GdsString.PairsReplaceRecord | common/change_gds_string.py:112-146 | For the corrected pair loop: the pairs, applied in turn, replace the record at `ptr` by one record whose length field is its length. Every byte before and after it is kept, and the loop bound stays equal to the stream's length. |
| GdsString.PairsPayload | common/change_gds_string.py:112-146 | Outside verbatim mode, with search strings free of nulls, the record ends up holding the padded result of applying every pair in turn to its string. |
| GdsString.VerbatimWhole | common/change_gds_string.py:114-121 | In verbatim mode a pair changes a record only when its search string is the record's whole string. The record then holds exactly the padded replacement. |
| GdsString.AsWrittenAgrees | common/change_gds_string.py:112-146 | The pair loop as written gives the same result as the corrected loop whenever every pair before the last leaves the record unchanged, as with a single pair. |
| GdsString.AsWrittenReplacesRecord | common/change_gds_string.py:112-146 | In that case the loop as written replaces the record by one record whose length field is its length, and keeps every byte around it and the loop bound. |
| GdsString.EditRecord | common/change_gds_string.py:104-146 | With the corrected pair loop, whether or not the record is edited, the loop bound moves by exactly the change in the record's length, and the new length is positive. |
| GdsString.ChangeGdsString | common/change_gds_string.py:51-91 | A command line that is refused ends the script before the stream is read, with the refusal as the result. |
| GdsString.WalkKeepsPrefix | common/change_gds_string.py:91-156 | For any per-record edit that keeps the bytes before the record it edits, the walk from `ptr` keeps every byte before `ptr`. |
| GdsString.WalkPlain | common/change_gds_string.py:91-156 | For any per-record edit that passes over records of kinds it does not edit, a stream with none of the edited kinds comes out unchanged, and a header cut short fails as the list of records does. |
| GdsString.StringWalkKeepsPrefix | common/change_gds_string.py:91-156 | The script's walk never changes a byte before the offset it starts from. |
| GdsString.StringWalkCopiesPlain | common/change_gds_string.py:104-156 | Records that are not LIBNAME, STRNAME, SNAME or STRING records holding an ASCII string, read in full from the start of the walk, come out byte for byte. If they cover the whole stream, the output is the input. |
| GdsString.StringWalkPlain | common/change_gds_string.py:91-156 | A stream with no string record of the edited kinds comes out of the walk unchanged, and a record header cut short fails as the list of records does. |
| GdsString.ChangeGdsStringPlain | common/change_gds_string.py:51-156 | Once the command line is accepted, a stream with no string record of the edited kinds is written back unchanged. |
| GdsString.ChangeGdsStringKeeps | common/change_gds_string.py:91-156 | The script copies every byte of the stream up to the first record of an edited kind. |
| GdsCell.StructName | runtime/change_gds_cell.py:163-172 | A STRNAME record is read only when it holds a string. A record of another data type stops the script, and so does an empty payload. |
| GdsCell.ChangeGdsCell | runtime/change_gds_cell.py:82-219 | The script writes a stream only when the cell is found in the cell stream. With a non-zero checksum, it writes only when the target's cell is found and its checksum equals the one given. `ChangeGdsCellOutcome` and `ChangeGdsCellKeeps` state the rest. |
| GdsCell.NameRoundTrip | runtime/change_gds_cell.py:168-172 | A name written padded with a null to an even length reads back as itself. |
| GdsCell.CellStep | runtime/change_gds_cell.py:160-190 | The cell's start changes only at a STRNAME record, and then to the position of the latest BGNSTR. |
| GdsCell.CellExtent | runtime/change_gds_cell.py:141-193 | In a stream holding one STRNAME with the cell's name, the cell runs from the last BGNSTR before that record to the end of the first ENDSTR after it. Its checksum is the sum of the lengths from the STRNAME through that ENDSTR. This holds whatever BGNSTR position the scan starts with. |
| GdsCell.ChangeGdsCellOutcome | runtime/change_gds_cell.py:129-206 | A stream is written exactly when the cell is found in both streams and the checksum is zero or right. The scan of the target starts with the last BGNSTR position of the cell stream's scan. A failed scan is reported with its own error, a wrong checksum with the sum found, and a cell missing from either stream as not found. |
| GdsCell.ChangeGdsCellKeeps | runtime/change_gds_cell.py:213-219 | The written stream keeps every byte before the old cell's start and after its end, and holds the new cell's bytes between them. |
| GdsCell.SpliceSelf | runtime/change_gds_cell.py:199-219 | Replacing a cell by itself, taken from the same stream with no checksum, gives the stream back. |
| GdsCell.UnreadableFails | runtime/change_gds_cell.py:146-193 | When the records of either stream cannot all be read, the script writes nothing. |
| GdsCell.SeedIrrelevant | runtime/change_gds_cell.py:141-175 | Starting a scan with a BGNSTR position changes nothing for a stream the scan gets through without one. It finds the same start, end and checksum. |
| GdsCell.NameBeforeBegin | runtime/change_gds_cell.py:141-175 | A target whose STRNAME comes before any BGNSTR of its own cannot be scanned alone. The script still writes it, using the cell stream's last BGNSTR position as the cell's start. |
| MakeStub.DropCommentsExact | runtime/makestub.py:45-50 | The first pass keeps exactly the non-empty lines that do not start with `*`, in their order. |
| MakeStub.MergeClean | runtime/makestub.py:52-54 | After folding, no line but the first starts with `+`, and no line is empty or holds a newline. |
| MakeStub.UnfoldIsMerge | runtime/makestub.py:52-54 | Joining the lines, replacing each newline followed by `+` with a space and splitting again is the same as appending each `+` line to the line before it, its `+` becoming a space. |
| MakeStub.SubcktNameParses | runtime/makestub.py:57 | A line of blanks, `.subckt` in any case, blanks, a name, blanks and anything matches, and the name is the first group. |
| MakeStub.SubcktName | runtime/makestub.py:57 | A name that matches is non-empty and holds no blank. |
| MakeStub.StubsOutside | runtime/makestub.py:69-78 | Lines outside any subcircuit are copied unchanged. |
| MakeStub.StubsBody | runtime/makestub.py:64-68 | Inside a subcircuit every line before `.ends` is dropped. |
| MakeStub.StubsSubckt | runtime/makestub.py:62-78 | A subcircuit from `.subckt` to `.ends` becomes the five-line banner naming it, then the `.subckt` and `.ends` lines, and the pass ends outside any subcircuit. |
| MakeStub.StubsBlock | runtime/makestub.py:62-78 | A subcircuit between other lines becomes its banner and its two end lines. Everything before it is kept, and what follows is processed afresh. |
| MakeStub.StubsOpen | runtime/makestub.py:62-78 | A subcircuit without `.ends` keeps only its banner and its `.subckt` line. |
| MakeStub.Banner | runtime/makestub.py:73-77 | The banner is five lines, and the middle one names the subcircuit. |
| MakeStub.RewrapReadBack | runtime/makestub.py:84-87 | A wrapped line reads back as its first piece followed by one continuation line, starting with `+ `, per further piece. |
| MakeStub.RewrapShort | runtime/makestub.py:84-87 | Lines that `textwrap.wrap` leaves whole are written unchanged. |
| MakeStub.StubInput | runtime/makestub.py:42-54 | The stub pass sees the input's non-comment lines, with continuation lines folded in. |
| MakeStub.GenerateStubs | runtime/makestub.py:42-87 | When no line needs wrapping, the output is the stub pass over the input's non-comment lines with continuation lines folded in. |
| RemoveSpecify.UnescapeJoins | common/remove_specify.py:32-37 | A line ending in the backslashes of the pattern is joined to the next line, whose leading blanks and tabs are dropped. The line itself is kept as it is. |
| RemoveSpecify.UnescapeNoNewline | common/remove_specify.py:37 | Text without a newline has nothing to join. |
| RemoveSpecify.UnescapeKeeps | common/remove_specify.py:37 | Text in front of a continuation that holds no newline is kept. |
| RemoveSpecify.SearchFirst | common/remove_specify.py:41 | `search` finds the leftmost match. |
| RemoveSpecify.SearchNone | common/remove_specify.py:41-42 | The search fails exactly when no position matches. |
| RemoveSpecify.SpecAtOf | common/remove_specify.py:39 | A newline, blanks, `specify` and a run of blanks and newlines match the `specify` pattern, and the match ends after the whole run. |
| RemoveSpecify.SpecAtShape | common/remove_specify.py:39 | Conversely, every `specify` match is a newline, blanks, the keyword and a non-empty run of blanks and newlines, with no blank or newline after it. |
| RemoveSpecify.EndAtOf | common/remove_specify.py:40 | A newline, blanks and `endspecify` match the end pattern, which ends after the keyword. |
| RemoveSpecify.EndAtShape | common/remove_specify.py:40 | Conversely, every end match is a newline, blanks and the keyword, ending right after the keyword. |
| RemoveSpecify.Step | common/remove_specify.py:41-49 | A round finds no block exactly when no `specify` match is left. Otherwise it works at the first match, and a cut shortens the text and keeps everything up to and including the newline that starts the block. |
| RemoveSpecify.StepCut | common/remove_specify.py:41-49 | A cut removes one block: from after the `specify` match's newline to one character past the first `endspecify` match at or after where the search starts (the end of the `specify` match as written, the end of its keyword when corrected). The text before and after it is kept. |
| RemoveSpecify.RemovesAll | common/remove_specify.py:42-49 | When the loop ends, no `specify` match is left anywhere in the text. |
| RemoveSpecify.NoBlockUnchanged | common/remove_specify.py:41-42 | Text without a `specify` match is left as it is. |
| RemoveSpecify.KeepsPrefix | common/remove_specify.py:42-49 | The text in front of the first block, with the newline that starts it, survives the whole loop. |
| RemoveSpecify.StepOrder | common/remove_specify.py:42-49 | Each round's block starts no earlier than the one before. |
| RemoveSpecify.RoundFails | common/remove_specify.py:45-46 | A round whose `endspecify` search fails makes the loop raise at `ematch.end()`. |
| RemoveSpecify.RoundCuts | common/remove_specify.py:47-49 | A round that cuts hands what is left to the next round. |
| RemoveSpecify.WriteTo | common/remove_specify.py:51-67 | Nothing is written exactly when the text is unchanged and the output is the input file. Otherwise the output file, or the input file when none is given, is written. |
| RemoveSpecify.RemoveSpecify | common/remove_specify.py:32-49 | A result leaves no `specify` match anywhere. Text without a match is returned joined and otherwise unchanged. |
| InsertProperty.AddProp | common/insert_property.py:20-24 | The script stops before writing exactly when the property text has no token to name it. |
| InsertProperty.AddPropSection | common/insert_property.py:28-57 | In a file with a properties section, every `string` line naming the property is replaced by the new entry (kept under `noupdate`) and every other line is copied in order. When no line named the property, the entry goes just before `<< end >>`. |
| InsertProperty.AddPropNewSection | common/insert_property.py:48-57 | A file without a properties section gets one just before `<< end >>`, holding only the new entry. |
| InsertProperty.AddPropRaises | common/insert_property.py:37-41 | A blank line in the section, or a `string` line with fewer than three tokens, stops the script. |
| InsertProperty.NoUpdateKeeps | common/insert_property.py:42-46 | Under `noupdate`, a file whose section already names the property is written back unchanged. |
| InsertProperty.EndOutside | common/insert_property.py:48-56 | Outside the section, the end marker is preceded by the section header and the entry. |
| InsertProperty.HeaderNotEnd | common/insert_property.py:25-26 | No line is both the properties header and the end marker. |
| InsertProperty.EntryNamed | common/insert_property.py:39-44 | With a value after its name, the entry is a well-formed `string` line naming the property. |
| InsertProperty.RewrittenStable | common/insert_property.py:37-46 | The section the first run leaves is well formed and names the property, and replacing in it again changes nothing. |
| InsertProperty.AddPropIdempotent | common/insert_property.py:1-6 | Without `noupdate`, a second run on the script's own output changes nothing, provided the property has a value after its name. |
| InsertProperty.NewSectionIdempotent | common/insert_property.py:1-6 | The same for a file that had no properties section: the second run finds the section the first one made. |
| InsertLayer.RectsParse | common/insert_layer.py:45-46 | There is one `rect` line per complete group of four coordinates, and a last group of fewer than four is dropped. Each line splits back into `rect` and the four coordinates of its group. |
| InsertLayer.GeometryRects | common/insert_layer.py:45-46 | The same for the geometry argument, cut into tokens at blanks. |
| InsertLayer.AddLayerKeeps | common/insert_layer.py:36-60 | Every line of the file is written back, in order; the script only ever adds lines. |
| InsertLayer.AnchorStep | common/insert_layer.py:38-51 | Before the first labels, properties or end line, the layer's header and rectangles are written. |
| InsertLayer.NextStep | common/insert_layer.py:52-58 | Inside the layer's section, the next section header is preceded by the rectangles and closes the section. |
| InsertLayer.ExistingSection | common/insert_layer.py:36-60 | When the layer's section comes before any labels, properties or end line, its rectangles are written just before the next section header and nothing else changes. |
| InsertLayer.NewSection | common/insert_layer.py:38-47 | Without the layer's section, one is opened with the rectangles in front of the first labels, properties or end line, and nothing else changes. |
| InsertLayer.AfterRun | common/insert_layer.py:38-51 | Once the rectangles are written, lines that are not the layer's header pass through. A stale properties match keeps the loop inside a section, so it never writes the rectangles again. |
| InsertLayer.NoPlace | common/insert_layer.py:36-60 | A file with neither the layer nor any labels, properties or end line is written back unchanged. |
| InsertLayer.AddLayer | common/insert_layer.py:36-60 | The file written back has at least as many lines as were read. `AddLayerKeeps`, `ExistingSection` and `NewSection` state which lines are added. |
| RemoveLabel.SurvivorsKept | common/remove_label.py:44-57 | What is left of the labels section is a subsequence of it in order, and no line left names a label matching the pattern. |
| RemoveLabel.SurvivorsComplete | common/remove_label.py:44-57 | Every line of the section that neither matches nor is a `port` line right after a dropped line is left. |
| RemoveLabel.RemoveLabelSection | common/remove_label.py:37-57 | In a file with a labels section, only lines of that section are dropped: those whose label matches, and `port` lines right after a dropped line. Every other line is written back in order. |
| RemoveLabel.NoLabels | common/remove_label.py:37-57 | A file without a labels section is written back unchanged. |
| RemoveLabel.BlankRaises | common/remove_label.py:49 | A blank line in the labels section stops the script (`split()[-1]` on no tokens). |
| RemoveLabel.LabelsIsSection | common/remove_label.py:30-31 | The labels header also starts a section. |
| RemoveLabel.RemoveLabel | common/remove_label.py:37-57 | The script stops only on a line that holds no token. `RemoveLabelSection` and `NoLabels` state what is written. |
| Glob.GlobLiteral | common/remove_label.py:50 | A pattern without `*`, `?` or `[` matches exactly itself. |
| Glob.GlobStar | common/remove_label.py:50 | A lone `*` matches every name. |
| Glob.GlobPrefix | common/create_lef_library.py:50-55 | A literal prefix followed by `*` matches exactly the names that start with that prefix. |
| Glob.OneClass | common/remove_label.py:50 | A pattern that is one bracketed class matches a single character exactly when the class admits it. |
| Glob.GlobNegates | common/remove_label.py:50 | `[...]` and `[!...]` with the same items split the characters between them. |
| PortOrder.Position | common/port_order.py:45-50 | `portnames.index(pin) + 1` is the position of the pin's first occurrence in the list. The error path gives 0, exactly when the pin is not listed. |
| PortOrder.RenumberParse | common/port_order.py:40 | A renumbered port line reads back as `port`, the index and the name. |
| PortOrder.OrderPorts | common/port_order.py:30-55 | A file written back has as many lines as it had. |
| PortOrder.PortAfterFlabel | common/port_order.py:38-51 | A `port` line after an `flabel` line, with no other `port` or `flabel` line between them, takes the pin's position in the list. It stays as it is when the pin is not listed. |
| PortOrder.OnlyPortsChange | common/port_order.py:36-53 | Only `port` lines change. A changed line reads back as `port`, the waiting index and the line's own third token. |
| PortOrder.PendingFrom | common/port_order.py:43-50 | The index waiting for a `port` line is set by the last `flabel` line before it, when no `port` line lies in between. |
| PortOrder.PendingNone | common/port_order.py:28 | Without an `flabel` line in front, no index is waiting. |
| PortOrder.OrderPortsSection | common/port_order.py:30-55 | The lines up to the labels header are written back unchanged, and every line after it is renumbered. |
| PortOrder.NoLabels | common/port_order.py:30-55 | A file without a labels header is written back unchanged. |
| PortOrder.BlankRaises | common/port_order.py:37-38 | A blank line after the labels header stops the script (`linetok[0]` on no tokens). |
| SubcktParams.Next | common/fix_subckt_params.py:43-81 | A match takes a non-empty name and what follows it, and the pieces put back together are the text. Nothing matches exactly when the text is empty or starts with `=`, a blank or a tab. The name is the whole leading `[^= \t]+` run. Group 2 is either blanks, `=`, blanks, a value and blanks, each run as long as it goes (parm3rex), or, when no value follows an `=`, the blanks alone (parm4rex). |
| SubcktParams.Params | common/fix_subckt_params.py:64-89 | The parameters read, put back together with the text no pattern matched, are the rest of the line. That leftover text is empty or starts with a character no name can start with. |
| SubcktParams.ParamSplit | common/fix_subckt_params.py:52-62 | A line that is neither `.param` with blanks nor `+` comes back whole with an empty second part. A parsed line's first part starts with its prefix, and the second part is empty or a `+ ` continuation. |
| SubcktParams.ParamSplitParts | common/fix_subckt_params.py:64-93 | The second part is `+ ` followed by the parameters named in the list; the first part is the prefix, or `+ `, followed by the others. Both keep the order of the line, and every parameter goes to exactly one part. |
| SubcktParams.SortIs | common/fix_subckt_params.py:69-89 | The loop appends the listed parameters to the second part and the others to the first, each in line order. |
| SubcktParams.ParamPrefixKept | common/fix_subckt_params.py:52-55 | A `.param` line keeps `.param` and its blanks at the head of the first part. |
| SubcktParams.Unparsable | common/fix_subckt_params.py:56-62 | A line that is neither `.param` with blanks nor `+` comes back as it is. |
| SubcktParams.ParamSplitAsWritten | common/fix_subckt_params.py:64-89 | When the loop as written ends, it gives the same parts as the corrected split. |
| SubcktParams.BareEqualsHangs | common/fix_subckt_params.py:64-89 | On `.param a=` and every line like it, the loop as written never ends. |
| SubcktParams.BareEqualsKept | common/fix_subckt_params.py:64-89 | Corrected, the `=` of such a line stays on the first part, and the name goes to the part it is sorted to. |
| LefLibrary.LastIndex | common/create_lef_library.py:39 | The index of the last occurrence of the character, or -1 when there is none. |
| LefLibrary.Root | common/create_lef_library.py:38-39 | `splitext(p)[0]` is a prefix of `p`. |
| LefLibrary.RootOfExtension | common/create_lef_library.py:38-39 | A name with an extension loses exactly the extension. |
| LefLibrary.RootNoDot | common/create_lef_library.py:38-39 | A name without a dot is its own root. |
| LefLibrary.RemoveFirst | common/create_lef_library.py:47-48 | `list.remove` drops the first entry equal to the library file when it was globbed, keeping the others in order, and changes nothing otherwise. |
| LefLibrary.NotListIs | common/create_lef_library.py:50-55 | A name is excluded exactly when one of the globbed files has that name and some exclude pattern matches it. |
| LefLibrary.InputsAre | common/create_lef_library.py:46-61 | The merged files are the globbed files, in their order, without the library file's first occurrence and without every excluded file. |
| LefLibrary.LibraryNotInput | common/create_lef_library.py:46-48 | When the globbed paths are distinct, the library file is never one of its own inputs. |
| LefLibrary.FileLinesIs | common/create_lef_library.py:72-86 | The loop writes a file's lines without its `END LIBRARY` lines. For every file after the first, it starts at the first `MACRO` line. |
| LefLibrary.MergeIs | common/create_lef_library.py:65-87 | The library is the files' bodies in order, each followed by the end-of-file marker and an empty line. |
| LefLibrary.OneEndLibrary | common/create_lef_library.py:81-91 | The library holds exactly one `END LIBRARY` line, its last. |
| LefLibrary.CreateLefLibrary | common/create_lef_library.py:36-99 | A library is written exactly when more than one input remains. It is written to `destlibdir/root.lef` and ends with `END LIBRARY`. Under `-compile-only` exactly the inputs are deleted, otherwise nothing is. |
| LefLibrary.LibraryOfInputs | common/create_lef_library.py:63-91 | The library's lines are the merge of the inputs' contents in order: the first input's body, then each later input from its first `MACRO` line, each followed by the end-of-file marker, then `END LIBRARY`. |
| VerilogLibrary.NoComment | common/create_verilog_library.py:150 | Removing the comment leaves a prefix of the line with no `//` in it. What is cut is the first `//` and the rest of the line, with the whole run of blanks in front of it. |
| VerilogLibrary.NoSlash | common/create_verilog_library.py:150 | A line without `/` has no comment to remove. |
| VerilogLibrary.EndNotModule | common/create_verilog_library.py:136-137 | No line both opens and closes a module. |
| VerilogLibrary.KeptFirst | common/create_verilog_library.py:138-191 | Every line kept inside a module starts, after its indentation, with `i`, `o`, a backquote or `s`. |
| VerilogLibrary.OpenStep | common/create_verilog_library.py:151-157 | Outside a module, a module line is written after the blackbox attribute and opens the module at depth one. |
| VerilogLibrary.CloseStep | common/create_verilog_library.py:168-173 | An end line is written, lowers the depth by one, and leaves the module when the depth reaches zero. |
| VerilogLibrary.NoModules | common/create_verilog_library.py:148-157 | A file without module lines is copied. |
| VerilogLibrary.OneModule | common/create_verilog_library.py:133-194 | With the end test as written or corrected: in one module among other lines, the blackbox attribute goes in front of the module line. The module keeps only its port, conditional and supply lines and its end, and everything around it is copied. |
| VerilogLibrary.NestedModule | common/create_verilog_library.py:160-173 | With either end test, a module defined again inside a module gives only the attribute, keeps its `endmodule`, and the outer module ends at the second `endmodule`. |
| VerilogLibrary.BareEnds | common/create_verilog_library.py:137 | A line that reads `endmodule` after its indentation does not match the end pattern as written, and does once the end of the line is accepted. |
| VerilogLibrary.BareEndAsWritten | common/create_verilog_library.py:137-192 | As written, a module closed by a bare `endmodule` line never ends. That line is dropped, and so is a following line that is not a port, conditional or supply line. |
| VerilogLibrary.BareEndCorrected | common/create_verilog_library.py:137-173 | With `endmodule` accepted at the end of the line, the same file keeps the `endmodule` line and copies the line after it. |
| VerilogLibrary.CreateBlackboxes | common/create_verilog_library.py:133-194 | With `endmodule` accepted at the end of a line, a file without module lines comes back as it was. `OneModule` and `NestedModule` state how modules are reduced. |
| BiasPins.Swap | sky130/custom/scripts/fix_related_bias_pins.py:46-53 | A related bias pin VPB under the power pin VGND becomes VNB, and VNB under VPWR becomes VPB. Every other pairing is left alone. |
| BiasPins.FixBiasPins | sky130/custom/scripts/fix_related_bias_pins.py:38-77 | Without an output name the lines are printed. A named output is left alone exactly when it is a link and no line changed. Whatever is printed or written has one line per input line, as the loop fixed them. |
| BiasPins.LineFixed | sky130/custom/scripts/fix_related_bias_pins.py:43-56 | A line is written as read unless its related bias pin is one of the two wrong pairings with the power pin in effect. Such a line has every occurrence of the pin's name replaced by the other bias pin. |
| BiasPins.HeldFromPg | sky130/custom/scripts/fix_related_bias_pins.py:39-41 | After a `pg_pin` line, its pin is the one in effect until the next `pg_pin` or related bias line. |
| BiasPins.HeldCleared | sky130/custom/scripts/fix_related_bias_pins.py:54 | After a related bias line, no power pin is in effect until the next `pg_pin` line. |
| BiasPins.SwapUnder | sky130/custom/scripts/fix_related_bias_pins.py:38-56 | Take a `pg_pin` line, lines matching neither pattern, then a related bias line in a wrong pairing with it. The file is written with that last line naming the other bias pin, and every other line as read. |
| BiasPins.Untouched | sky130/custom/scripts/fix_related_bias_pins.py:59-69 | When no line changes, a link is left alone and any other file is written back unchanged. |
| BiasPins.RelatedRoundTrip | sky130/custom/scripts/fix_related_bias_pins.py:35-36 | A related bias line built around a pin name reads back as that pin. |
| BiasPins.PgRoundTrip | sky130/custom/scripts/fix_related_bias_pins.py:35-36 | A `pg_pin` line built around a pin name reads back as that pin. |
| FontCell.CellName | sky130/custom/scripts/text2mag.py:64-78 | The name is `font_` followed by upper-case hexadecimal digits whose value is the code point: two, four or six digits depending on its size, or more than six without a leading zero. |
| FontCell.CodePointOfCellName | sky130/custom/scripts/text2mag.py:64-78 | Reading a cell name back gives the code point. |
| FontCell.CellNameInjective | sky130/custom/scripts/text2mag.py:64-78 | Distinct characters are stored in distinct cells. |
| FontCell.CellNameIff | sky130/custom/scripts/text2mag.py:64-78 | A name is the cell of a code point exactly when it reads back as that code point and its digits are padded the way `get_cellname` pads them. |
| FontCell.HexValueOfHex | sky130/custom/scripts/text2mag.py:70-76 | The `{:X}` digits of a number read back as that number. |

## Left out

- Reading and writing files, globbing, `os.remove`, `os.unlink`, `chmod`, printed messages and exit codes. Each script is modelled on its lines or bytes in and its lines or bytes out, and a failure becomes a `Failure` value.
- `os.path.isfile`, `os.path.islink` and the directory listing are parameters: `secondLastIsFile` in `GdsString`, `isLink` in `BiasPins`, `llist` in `LefLibrary`.
- The order of `glob.glob` is whatever the caller passes in.
- The `os.remove` calls of `-compile-only` are file-system work. The model returns the inputs to delete as `deleted` instead (see `LefLibrary.CreateLefLibrary`).
- Python's Unicode-aware `str.split`, `str.lower` and `\s` are modelled on ASCII blanks and letters. Strings are sequences of code points, with no encoding.
- Regular expressions are written out as hand-made matchers with the same greedy outcome on the inputs the scripts see. `re.sub` in `common/change_gds_string.py` is a parameter of the string walk, and the content lemmas pass literal replacement (`ReplaceAll`).
- CaceGensim.ConditionGen: the stepped ranges (`linseq`, `logseq`, `bcount`, `bshift`) use floating point and `eval`, so their values come in as the `steps` parameter.
- CaceGensim.SimTuplesShape: sorting the conditions by their `order` key happens before the product and is not modelled.
- MakeStub.Rewrap: `textwrap.wrap(line, 100)` is a parameter, so the 100-character limit is not modelled.
- GdsDate.ChangeGdsDate: `fromtimestamp` and `strptime` depend on the local time zone, so the conversion from a stamp to a calendar time is a parameter.
- GdsDate.ChangeThenRead: stated for files whose BGNLIB and BGNSTR records are 28 bytes long, as the scripts expect. For other lengths they only print a warning.
- GdsString.PairsPayload: stated for search strings without null bytes, outside verbatim mode.
- GdsString.PairsReplaceRecord: proved for the corrected pair loop. The loop as written agrees with it only while every pair before the last leaves the record unchanged (`AsWrittenAgrees`). Beyond that it loses edits or leaves stray bytes, as the first finding shows.
- GdsString.EditRecord: uses the corrected pair loop, for the same reason.
- GdsString.StringWalk: the walk edits each record with the corrected pair loop `Pairs`, not `PairsAsWritten`. The loop as written is the subject of the first finding. The same holds for `GdsString.ChangeGdsString` and the walk lemmas built on it.
- Lines.SplitLines: breaks only at `\n`. Python's `splitlines` also breaks at `\r`, `\r\n`, `\v`, `\f`, `\x1c`-`\x1e`, `\x85`, `\u2028` and `\u2029`, and universal-newline reading turns `\r` into `\n`. The model takes text whose only line break is `\n`.
- Cdl2Spi.UniqInm: the global dictionary of used names is a set passed in and returned.
- Cdl2Spi.MapMos: its own contract only keeps the instance name first and removes every `$` token. The placement of W and L is proved in `MosPositionalValues`, for lines whose six leading tokens are in place.
- Cdl2Spi.MapRes: its own contract only keeps the instance name first. The `short` rule is proved in `ResPositionalShort`, for a bare first value.
- Cdl2Spi.MapLookup: its own contract covers the non-editing call. The editing call is described by `LookupRestByDropKey` and the found value by `LookupValueFound`.
- PortOrder.OrderPortsSection: a renumbered `port` line keeps only its first three tokens, as the script writes it. The lemmas state that behaviour, not a fuller one.
- InsertLayer.NewSection: the lemmas assume the layer's header does not appear after the place where a new section was opened. A file with the header after its labels gets the rectangles twice, which no lemma describes.
- LefLibrary.LibraryNotInput: assumes the globbed paths are distinct, as a directory listing's are.
- FontCell.CellName: Python code points stop at 0x10FFFF, but the model takes any natural number, so the unpadded branch is reachable.
- `sky130/custom/scripts/patch_gds.rb` drives KLayout and is not part of this model.

## Findings

| source | as written | input that shows it | evidently intended | confidence | as-written member | corrected member |
|---|---|---|---|---|---|---|
| common/change_gds_string.py:112-146 | Every pair is matched against the record's original string and spliced over the original record length. | The STRNAME record "AB" with the pairs A→C, B→D gives "AD", and with A→XX, B→D it writes a six-byte record holding "AD", then two stray bytes ("B" and its padding null), which the walk next reads as the start of a record. | Each pair works on the record the previous pair left, giving "CD" and "XXD". | high, not executed | GdsString.LostEdit, GdsString.StaleSplice | GdsString.LostEditCorrected, GdsString.StaleSpliceCorrected, GdsString.PairsPayload |
| common/remove_specify.py:37 | The pattern `r'\\\\\n[ \t]*'` needs two backslashes before the newline. | The text `a\` followed by a newline and `b` is left as it is. | One backslash before a newline joins the lines, as the comment above the call says; the text becomes `ab`. | medium, not executed | RemoveSpecify.AsWrittenKeepsContinuation | RemoveSpecify.UnescapeJoins, RemoveSpecify.RemoveSpecify |
| common/remove_specify.py:44-46 | The search for `endspecify` starts after the `[ \t\n]+` gap of the `specify` match, which has already taken the newline the end pattern needs. | The text "\nspecify\nendspecify\n" makes `ematch.end()` raise on `None`. | An empty block is removed, leaving "\n". | medium, not executed | RemoveSpecify.EmptyBlockAsWritten, RemoveSpecify.EmptyFails | RemoveSpecify.EmptyCuts, RemoveSpecify.EmptyBlockExample |
| common/create_verilog_library.py:137 | `endmodule[ \t\n]+` needs a character after the keyword, but lines from `splitlines` have no newline. | A module closed by a line reading `endmodule` never ends: that line and every following line other than ports, conditionals and supplies are dropped. | `endmodule` at the end of the line closes the module. | high, not executed | VerilogLibrary.BareEndAsWritten | VerilogLibrary.BareEndCorrected, VerilogLibrary.CreateBlackboxes |
| common/fix_subckt_params.py:64-89 | The loop only shortens `rest` when a pattern matches, and neither matches text starting with `=`. | `.param a=` loops for ever. | Text no pattern matches ends the loop and stays on the first part. | high, not executed | SubcktParams.BareEqualsHangs, SubcktParams.ParamSplitAsWritten | SubcktParams.BareEqualsKept, SubcktParams.ParamSplit |

=== FILE: arith.dfy ===
/** Facts about Euclidean division that the solver does not find on its
    own. */
module Arith {

  lemma MulAtLeast(a: int, d: int)
    requires a >= 1 && d > 0
    ensures a * d >= d
  {
  }

  /** Quotient and remainder are determined by `x == q * d + r` with
      `0 <= r < d`. */
  lemma {:induction false} DivModUnique(x: int, d: int, q: int, r: int)
    requires d > 0 && x == q * d + r && 0 <= r < d
    ensures x / d == q && x % d == r
  {
    var q0 := x / d;
    var r0 := x % d;
    assert x == q0 * d + r0;
    if q0 > q {
      MulAtLeast(q0 - q, d);
    } else if q0 < q {
      MulAtLeast(q - q0, d);
    }
  }

  lemma MulLeft(x: int, y: int, b: int)
    requires x <= y && b >= 0
    ensures x * b <= y * b
  {
  }

  lemma MulPositive(x: int, y: int)
    requires x >= 0 && y >= 0 && x * y > 0
    ensures x > 0 && y > 0
  {
  }

  /** Digit `b`-then-`a` of a mixed-radix number: taking the remainder by
      `a * b` and then dividing by `b` is dividing by `b` and then taking
      the remainder by `a`. */
  lemma {:induction false} ModDivSwap(r: int, a: int, b: int)
    requires a > 0 && b > 0
    ensures (r % (a * b)) / b == (r / b) % a
  {
    var q1 := r / b;
    var r1 := r % b;
    var q2 := q1 / a;
    var r2 := q1 % a;
    assert r == (q2 * a + r2) * b + r1;
    assert r == q2 * (a * b) + (r2 * b + r1);
    MulLeft(r2, a - 1, b);
    DivModUnique(r, a * b, q2, r2 * b + r1);
    DivModUnique(r2 * b + r1, b, r2, r1);
  }

  predicate Even(n: int) {
    n % 2 == 0
  }

  /** Rounding a half up and down agree exactly on even numbers. */
  lemma {:induction false} HalvesAgree(n: nat)
    ensures (n + 1) / 2 == n / 2 <==> Even(n)
  {
    DivModUnique(n, 2, n / 2, n % 2);
    if n % 2 == 0 {
      DivModUnique(n + 1, 2, n / 2, 1);
    } else {
      DivModUnique(n + 1, 2, n / 2 + 1, 0);
    }
  }
}

=== FILE: bias_pins.dfy ===
/** Swapping the related bias pins of the sky130 standard cell liberty
    files (sky130/custom/scripts/fix_related_bias_pins.py, `filter`). The
    script remembers the pin of the last `pg_pin` line; a
    `related_bias_pin` line naming VPB under `VGND` becomes `VNB`, a `VNB`
    line under `VPWR` becomes `VPB`, and every `related_bias_pin` line
    forgets the remembered pin. Every other line is copied. */
module BiasPins {
  import opened Wrappers
  import opened Text
  import opened Lines

  // ---------------------------------------------------------------------
  // The two regular expressions

  /** Length of the leading `\s*` run. */
  function SpaceLen(s: String): (n: nat)
    ensures n <= |s|
    decreases |s|
  {
    if |s| == 0 || !IsSpace(s[0]) then 0 else 1 + SpaceLen(s[1..])
  }

  lemma {:induction false} SpaceLenOf(p: String, s: String)
    requires forall k :: 0 <= k < |p| ==> IsSpace(p[k])
    requires |s| > 0 ==> !IsSpace(s[0])
    ensures SpaceLen(p + s) == |p|
    decreases |p|
  {
    if |p| > 0 {
      assert (p + s)[1..] == p[1..] + s;
      SpaceLenOf(p[1..], s);
    } else {
      assert p + s == s;
    }
  }

  predicate Spaces(s: String) {
    forall k :: 0 <= k < |s| ==> IsSpace(s[k])
  }

  /** What must follow the closing quote: blanks and a semicolon, or blanks,
      a closing parenthesis, blanks and an opening brace. */
  datatype Tail = Semi | Brace

  /** The punctuation of a Liberty pin line, by code point. */
  const Quote: char := '\U{22}'
  const LParen: char := '\U{28}'
  const RParen: char := '\U{29}'
  const LBrace: char := '\U{7B}'

  /** The text after `\s*` begins with `c`; the rest is returned. */
  function After(t: String, c: char): Option<String> {
    var a := SpaceLen(t);
    if a < |t| && t[a] == c then Some(t[a + 1..]) else None
  }

  predicate TailOk(kind: Tail, t: String) {
    match kind
    case Semi => After(t, ';').Some?
    case Brace => After(t, RParen).Some? && After(After(t, RParen).value, LBrace).Some?
  }

  /** The opening of both patterns: blanks, `kw`, blanks, `p`, blanks and a
      double quote; the text after the quote is returned. */
  function Opening(line: String, kw: String, p: char): Option<String> {
    Opened(line[SpaceLen(line)..], kw, p)
  }

  /** `kw`, blanks, `p`, blanks and a double quote at the start of `t`. */
  function Opened(t: String, kw: String, p: char): Option<String> {
    if !StartsWith(t, kw) then None else AfterQuote(After(t[|kw|..], p))
  }

  function AfterQuote(o: Option<String>): Option<String> {
    if o.None? then None else After(o.value, Quote)
  }

  /** The quote at `j` closes the group `(.+)`: the group is not empty,
      holds no newline (which `.` does not match), and the tail follows. */
  predicate Closes(s: String, kind: Tail, j: nat) {
    1 <= j < |s| && s[j] == Quote && '\n' !in s[..j] && TailOk(kind, s[j + 1..])
  }

  /** The greedy group: the last closing quote before `e`. */
  function LastClose(s: String, kind: Tail, e: nat): (r: Option<nat>)
    requires e <= |s|
    ensures r.Some? ==> r.value < e && Closes(s, kind, r.value)
    decreases e
  {
    if e <= 1 then None
    else if Closes(s, kind, e - 1) then Some(e - 1)
    else LastClose(s, kind, e - 1)
  }

  /** No quote after the one `LastClose` finds closes the group. */
  lemma {:induction false} LastCloseIsLast(s: String, kind: Tail, e: nat, j: nat)
    requires e <= |s| && LastClose(s, kind, e).Some? && LastClose(s, kind, e).value < j < e
    ensures !Closes(s, kind, j)
    decreases e
  {
    if !Closes(s, kind, e - 1) && j < e - 1 {
      LastCloseIsLast(s, kind, e - 1, j);
    }
  }

  /** When `LastClose` finds nothing, no quote closes the group. */
  lemma {:induction false} LastCloseNone(s: String, kind: Tail, e: nat, j: nat)
    requires e <= |s| && LastClose(s, kind, e).None? && j < e
    ensures !Closes(s, kind, j)
    decreases e
  {
    if e > 1 && j < e - 1 {
      LastCloseNone(s, kind, e - 1, j);
    }
  }

  /** The group between the opening and a later double quote that is
      followed by the tail, as `re.match` finds it. */
  function Group(line: String, kw: String, p: char, kind: Tail): (r: Option<String>)
    ensures r.Some? ==> |r.value| > 0 && '\n' !in r.value
  {
    match Opening(line, kw, p)
    case None => None
    case Some(s) =>
      match LastClose(s, kind, |s|)
      case None => None
      case Some(j) => Some(s[..j])
  }

  const RelatedKw: String := "related_bias_pin"
  const PgKw: String := "pg_pin"

  /** `related_re`: `related_bias_pin`, a colon, the pin in double quotes
      and a semicolon, with blanks between. */
  function RelatedPin(line: String): Option<String> {
    Group(line, RelatedKw, ':', Semi)
  }

  /** `pg_re`: `pg_pin`, the pin in double quotes within parentheses, and an
      opening brace, with blanks between. */
  function PgPin(line: String): Option<String> {
    Group(line, PgKw, LParen, Brace)
  }

  // ---------------------------------------------------------------------
  // The loop

  const Vpb: String := "VPB"
  const Vnb: String := "VNB"
  const Vgnd: String := "VGND"
  const Vpwr: String := "VPWR"

  /** The pin a related bias pin becomes under the current power pin, if
      it is one of the two wrong pairs. */
  function Swap(pin: String, cur: String): (r: Option<String>)
    ensures r.Some? ==> (pin == Vpb && cur == Vgnd && r.value == Vnb) || (pin == Vnb && cur == Vpwr && r.value == Vpb)
    ensures (pin == Vpb && cur == Vgnd) || (pin == Vnb && cur == Vpwr) ==> r.Some?
  {
    if pin == Vpb && cur == Vgnd then Some(Vnb)
    else if pin == Vnb && cur == Vpwr then Some(Vpb)
    else None
  }

  /** A line with what the two patterns find in it. */
  datatype Info = Info(line: String, pg: Option<String>, rel: Option<String>)

  function Scan(line: String): Info {
    Info(line, PgPin(line), RelatedPin(line))
  }

  function Scans(lines: Lines): (r: seq<Info>)
    ensures |r| == |lines|
    ensures forall i :: 0 <= i < |r| ==> r[i].line == lines[i]
  {
    seq(|lines|, i requires 0 <= i < |lines| => Scan(lines[i]))
  }

  /** `current_pin` once the line's own `pg_pin` has been read. */
  function InEffect(info: Info, held: String): String {
    if info.pg.Some? then info.pg.value else held
  }

  /** The line as written: a related bias pin that is swapped has every
      occurrence of its name in the line replaced (`str.replace`). */
  function FixedLine(info: Info, cur: String): String {
    if info.rel.None? then info.line
    else
      match Swap(info.rel.value, cur)
      case None => info.line
      case Some(to) => ReplaceAll(info.line, info.rel.value, to)
  }

  /** `current_pin` and `modified`. */
  datatype St = St(pin: String, modified: bool)

  const Start := St("", false)

  function Step(info: Info, st: St): Out<St> {
    var cur := InEffect(info, st.pin);
    if info.rel.None? then Out([info.line], St(cur, st.modified))
    else Out([FixedLine(info, cur)], St("", st.modified || Swap(info.rel.value, cur).Some?))
  }

  /** The loop over the lines, one line at a time from the first. */
  function Loop(infos: seq<Info>): Out<St>
    decreases |infos|
  {
    if |infos| == 0 then Out([], Start)
    else
      var o := Loop(infos[..|infos| - 1]);
      var last := Step(infos[|infos| - 1], o.st);
      Out(o.lines + last.lines, last.st)
  }

  // ---------------------------------------------------------------------
  // What the loop computes, line by line

  /** The pin remembered before line `k`. */
  function Held(infos: seq<Info>, k: nat): String
    requires k <= |infos|
    decreases k
  {
    if k == 0 then ""
    else if infos[k - 1].rel.Some? then ""
    else InEffect(infos[k - 1], Held(infos, k - 1))
  }

  /** The pin line `i`'s related bias pin is compared with. */
  function Cur(infos: seq<Info>, i: nat): String
    requires i < |infos|
  {
    InEffect(infos[i], Held(infos, i))
  }

  predicate Swaps(info: Info, cur: String) {
    info.rel.Some? && Swap(info.rel.value, cur).Some?
  }

  /** Some line among the first `k` is swapped. */
  predicate Changed(infos: seq<Info>, k: nat)
    requires k <= |infos|
  {
    exists i :: 0 <= i < k && Swaps(infos[i], Cur(infos, i))
  }

  /** The first `k` lines as the filter writes them. */
  function FixedUpTo(infos: seq<Info>, k: nat): (r: Lines)
    requires k <= |infos|
    ensures |r| == k
  {
    seq(k, i requires 0 <= i < k => FixedLine(infos[i], Cur(infos, i)))
  }

  lemma {:induction false} ChangedNext(infos: seq<Info>, k: nat)
    requires k < |infos|
    ensures Changed(infos, k + 1) <==> Changed(infos, k) || Swaps(infos[k], Cur(infos, k))
  {
    if Changed(infos, k) {
      var i :| 0 <= i < k && Swaps(infos[i], Cur(infos, i));
      assert 0 <= i < k + 1 && Swaps(infos[i], Cur(infos, i));
    }
    if Swaps(infos[k], Cur(infos, k)) {
      assert 0 <= k < k + 1 && Swaps(infos[k], Cur(infos, k));
    }
  }

  lemma {:induction false} StepIs(infos: seq<Info>, k: nat)
    requires k < |infos|
    ensures Step(infos[k], St(Held(infos, k), Changed(infos, k)))
         == Out([FixedLine(infos[k], Cur(infos, k))], St(Held(infos, k + 1), Changed(infos, k + 1)))
  {
    ChangedNext(infos, k);
  }

  lemma {:induction false} LoopIs(infos: seq<Info>, k: nat)
    requires k <= |infos|
    ensures Loop(infos[..k]) == Out(FixedUpTo(infos, k), St(Held(infos, k), Changed(infos, k)))
    decreases k
  {
    if k == 0 {
      assert !Changed(infos, 0);
    } else {
      var a := infos[..k];
      assert a[..k - 1] == infos[..k - 1] && a[k - 1] == infos[k - 1];
      LoopIs(infos, k - 1);
      StepIs(infos, k - 1);
      FixedUpToNext(infos, k);
    }
  }

  lemma {:induction false} FixedUpToNext(infos: seq<Info>, k: nat)
    requires 0 < k <= |infos|
    ensures FixedUpTo(infos, k - 1) + [FixedLine(infos[k - 1], Cur(infos, k - 1))] == FixedUpTo(infos, k)
  {
    var f := FixedUpTo(infos, k - 1) + [FixedLine(infos[k - 1], Cur(infos, k - 1))];
    assert forall i :: 0 <= i < k ==> f[i] == FixedUpTo(infos, k)[i];
  }

  // ---------------------------------------------------------------------
  // Which pin is in effect

  /** No `pg_pin` and no `related_bias_pin` between `j` and `i`. */
  predicate Quiet(infos: seq<Info>, j: nat, i: nat)
    requires j <= i <= |infos|
  {
    forall k :: j <= k < i ==> infos[k].pg.None? && infos[k].rel.None?
  }

  /** After a `pg_pin` line that is not also a `related_bias_pin` line, its
      pin is remembered until the next `pg_pin` or `related_bias_pin`
      line. */
  lemma {:induction false} HeldFromPg(infos: seq<Info>, j: nat, i: nat)
    requires j < i <= |infos| && infos[j].pg.Some? && infos[j].rel.None?
    requires Quiet(infos, j + 1, i)
    ensures Held(infos, i) == infos[j].pg.value
    decreases i
  {
    if i > j + 1 {
      HeldFromPg(infos, j, i - 1);
    }
  }

  /** After a `related_bias_pin` line no pin is remembered until the next
      `pg_pin` line. */
  lemma {:induction false} HeldCleared(infos: seq<Info>, j: nat, i: nat)
    requires j < i <= |infos| && infos[j].rel.Some?
    requires forall k :: j < k < i ==> infos[k].pg.None?
    ensures Held(infos, i) == ""
    decreases i
  {
    if i > j + 1 {
      HeldCleared(infos, j, i - 1);
    }
  }

  /** Before the first `pg_pin` line no pin is remembered. */
  lemma {:induction false} HeldStart(infos: seq<Info>, i: nat)
    requires i <= |infos|
    requires forall k :: 0 <= k < i ==> infos[k].pg.None?
    ensures Held(infos, i) == ""
    decreases i
  {
    if i > 0 {
      HeldStart(infos, i - 1);
    }
  }

  // ---------------------------------------------------------------------
  // The filter

  /** What the script does with the result: print it, leave a symbolic
      link that needs no change alone, or write the file. */
  datatype Action = Print(lines: Lines) | Leave | Write(lines: Lines)

  /** `filter(inname, outname)` on the lines read; `isLink` says whether
      the output is a symbolic link. */
  function FixBiasPins(lines: Lines, outname: Option<String>, isLink: bool): (a: Action)
    ensures a.Leave? <==> outname.Some? && isLink && !Changed(Scans(lines), |lines|)
    ensures a.Print? <==> outname.None?
    ensures !a.Leave? ==> a.lines == FixedUpTo(Scans(lines), |lines|) && |a.lines| == |lines|
  {
    var infos := Scans(lines);
    var o := Loop(infos);
    LoopIs(infos, |infos|);
    assert infos[..|infos|] == infos;
    if outname.None? then Print(o.lines)
    else if isLink && !o.st.modified then Leave
    else Write(o.lines)
  }

  /** Every written line is its input line, except a swapped
      `related_bias_pin` line, whose old pin is replaced by the new one. */
  lemma LineFixed(infos: seq<Info>, i: nat)
    requires i < |infos|
    ensures !Swaps(infos[i], Cur(infos, i)) ==> FixedUpTo(infos, |infos|)[i] == infos[i].line
    ensures Swaps(infos[i], Cur(infos, i)) ==>
      var pin := infos[i].rel.value;
      FixedUpTo(infos, |infos|)[i] == ReplaceAll(infos[i].line, pin, if pin == Vpb then Vnb else Vpb)
  {
  }

  /** When no line is swapped, every line is written as read. */
  lemma {:induction false} UnchangedCopies(infos: seq<Info>, lines: Lines)
    requires |infos| == |lines| && forall i :: 0 <= i < |infos| ==> infos[i].line == lines[i]
    requires !Changed(infos, |infos|)
    ensures FixedUpTo(infos, |infos|) == lines
  {
    forall i | 0 <= i < |infos|
      ensures FixedUpTo(infos, |infos|)[i] == lines[i]
    {
      assert !Swaps(infos[i], Cur(infos, i));
    }
  }

  /** A file in which no line needs a change is written as read, and left
      alone when the output is a symbolic link. */
  lemma {:induction false} Untouched(lines: Lines, out: String, isLink: bool)
    requires !Changed(Scans(lines), |lines|)
    ensures FixBiasPins(lines, Some(out), isLink) == if isLink then Leave else Write(lines)
  {
    UnchangedCopies(Scans(lines), lines);
  }

  // ---------------------------------------------------------------------
  // Lines in the liberty format

  /** A line whose text after its opening (blanks, `kw`, blanks, `p`,
      blanks and a double quote) is `s`. */
  function Opener(ind: String, kw: String, sp1: String, p: char, sp2: String, s: String): String {
    ind + (kw + (sp1 + ([p] + (sp2 + ([Quote] + s)))))
  }

  lemma {:induction false} AfterOf(sp: String, c: char, rest: String)
    requires Spaces(sp) && !IsSpace(c)
    ensures After(sp + ([c] + rest), c) == Some(rest)
  {
    SpaceLenOf(sp, [c] + rest);
    assert (sp + ([c] + rest))[|sp| + 1..] == rest;
  }

  lemma {:induction false} OpenedOf(kw: String, sp1: String, p: char, sp2: String, s: String)
    requires Spaces(sp1) && Spaces(sp2) && !IsSpace(p)
    ensures Opened(kw + (sp1 + ([p] + (sp2 + ([Quote] + s)))), kw, p) == Some(s)
  {
    var v := sp2 + ([Quote] + s);
    var u := sp1 + ([p] + v);
    var t := kw + u;
    AfterOf(sp2, Quote, s);
    AfterOf(sp1, p, v);
    assert t[..|kw|] == kw && t[|kw|..] == u;
  }

  lemma {:induction false} OpeningOf(ind: String, kw: String, sp1: String, p: char, sp2: String, s: String)
    requires Spaces(ind) && Spaces(sp1) && Spaces(sp2)
    requires |kw| > 0 && !IsSpace(kw[0]) && !IsSpace(p)
    ensures Opening(Opener(ind, kw, sp1, p, sp2, s), kw, p) == Some(s)
  {
    var t := kw + (sp1 + ([p] + (sp2 + ([Quote] + s))));
    OpenedOf(kw, sp1, p, sp2, s);
    SpaceLenOf(ind, t);
    assert (ind + t)[|ind|..] == t;
  }

  /** A closing quote with no quote after it is the one `LastClose`
      finds. */
  lemma {:induction false} LastCloseAt(s: String, kind: Tail, j: nat)
    requires Closes(s, kind, j) && forall k :: j < k < |s| ==> s[k] != Quote
    ensures LastClose(s, kind, |s|) == Some(j)
  {
    var r := LastClose(s, kind, |s|);
    if r.None? {
      LastCloseNone(s, kind, |s|, j);
    } else if r.value < j {
      LastCloseIsLast(s, kind, |s|, j);
    }
  }

  lemma {:induction false} LastCloseOf(pin: String, kind: Tail, tail: String)
    requires |pin| > 0 && '\n' !in pin && Quote !in tail && TailOk(kind, tail)
    ensures var s := pin + ([Quote] + tail); LastClose(s, kind, |s|) == Some(|pin|)
  {
    var s := pin + ([Quote] + tail);
    assert s[..|pin|] == pin && s[|pin| + 1..] == tail;
    assert Closes(s, kind, |pin|);
    forall k | |pin| < k < |s|
      ensures s[k] != Quote
    {
      assert s[k] == tail[k - |pin| - 1];
    }
    LastCloseAt(s, kind, |pin|);
  }

  lemma GroupFrom(line: String, kw: String, p: char, kind: Tail, s: String, j: nat)
    requires Opening(line, kw, p) == Some(s) && j <= |s| && LastClose(s, kind, |s|) == Some(j)
    ensures Group(line, kw, p, kind) == Some(s[..j])
  {
  }

  lemma {:induction false} GroupOf(ind: String, kw: String, sp1: String, p: char, sp2: String, pin: String, kind: Tail, tail: String)
    requires Spaces(ind) && Spaces(sp1) && Spaces(sp2)
    requires |kw| > 0 && !IsSpace(kw[0]) && !IsSpace(p)
    requires |pin| > 0 && '\n' !in pin && Quote !in tail && TailOk(kind, tail)
    ensures Group(Opener(ind, kw, sp1, p, sp2, pin + ([Quote] + tail)), kw, p, kind) == Some(pin)
  {
    var s := pin + ([Quote] + tail);
    OpeningOf(ind, kw, sp1, p, sp2, s);
    LastCloseOf(pin, kind, tail);
    GroupFrom(Opener(ind, kw, sp1, p, sp2, s), kw, p, kind, s, |pin|);
    assert s[..|pin|] == pin;
  }

  /** A `related_bias_pin` line naming `pin`, after an indentation. */
  function RelatedLine(ind: String, pin: String): String {
    Opener(ind, RelatedKw, [' '], ':', [' '], pin + ([Quote] + [';']))
  }

  /** A `pg_pin` line naming `pin` and opening its group, after an
      indentation. */
  function PgLine(ind: String, pin: String): String {
    Opener(ind, PgKw, [' '], LParen, [], pin + ([Quote] + [RParen, ' ', LBrace]))
  }

  lemma {:induction false} SemiTail()
    ensures TailOk(Semi, [';']) && Quote !in [';']
  {
    AfterOf([], ';', []);
    assert [] + ([';'] + []) == [';'];
  }

  lemma {:induction false} BraceTail()
    ensures TailOk(Brace, [RParen, ' ', LBrace]) && Quote !in [RParen, ' ', LBrace]
  {
    AfterOf([], RParen, [' ', LBrace]);
    assert [] + ([RParen] + [' ', LBrace]) == [RParen, ' ', LBrace];
    AfterOf([' '], LBrace, []);
    assert [' '] + ([LBrace] + []) == [' ', LBrace];
  }

  lemma KeywordsStart()
    ensures RelatedKw[0] == 'r' && PgKw[0] == 'p'
    ensures 'V' !in RelatedKw
  {
  }

  /** The related bias pin of a `related_bias_pin` line is read back. */
  lemma {:induction false} RelatedRoundTrip(ind: String, pin: String)
    requires Spaces(ind) && |pin| > 0 && '\n' !in pin
    ensures RelatedPin(RelatedLine(ind, pin)) == Some(pin)
  {
    KeywordsStart();
    SemiTail();
    GroupOf(ind, RelatedKw, [' '], ':', [' '], pin, Semi, [';']);
  }

  /** The pin of a `pg_pin` line is read back. */
  lemma {:induction false} PgRoundTrip(ind: String, pin: String)
    requires Spaces(ind) && |pin| > 0 && '\n' !in pin
    ensures PgPin(PgLine(ind, pin)) == Some(pin)
  {
    KeywordsStart();
    BraceTail();
    GroupOf(ind, PgKw, [' '], LParen, [], pin, Brace, [RParen, ' ', LBrace]);
  }

  /** After its indentation a line begins with its keyword's first
      letter, so it cannot match the other pattern. */
  lemma {:induction false} OpeningNeeds(ind: String, rest: String, kw: String, p: char)
    requires Spaces(ind) && |rest| > 0 && !IsSpace(rest[0])
    requires |kw| > 0 && kw[0] != rest[0]
    ensures Opening(ind + rest, kw, p).None?
  {
    SpaceLenOf(ind, rest);
    assert (ind + rest)[|ind|..] == rest;
  }

  lemma {:induction false} RelatedNotPg(ind: String, pin: String)
    requires Spaces(ind)
    ensures PgPin(RelatedLine(ind, pin)).None?
  {
    KeywordsStart();
    OpeningNeeds(ind, RelatedKw + ([' '] + ([':'] + ([' '] + ([Quote] + (pin + ([Quote] + [';'])))))), PgKw, LParen);
  }

  lemma {:induction false} PgNotRelated(ind: String, pin: String)
    requires Spaces(ind)
    ensures RelatedPin(PgLine(ind, pin)).None?
  {
    KeywordsStart();
    OpeningNeeds(ind, PgKw + ([' '] + ([LParen] + ([] + ([Quote] + (pin + ([Quote] + [RParen, ' ', LBrace])))))), RelatedKw, ':');
  }

  lemma {:induction false} NoV(s: String)
    requires Spaces(s)
    ensures 'V' !in s
  {
    forall k | 0 <= k < |s|
      ensures s[k] != 'V'
    {
      assert IsSpace(s[k]);
    }
  }

  /** The swap rewrites the pin of a `related_bias_pin` line and nothing
      else. */
  lemma {:induction false} SwapRelated(ind: String, from: String, to: String)
    requires Spaces(ind) && from in {Vpb, Vnb}
    ensures ReplaceAll(RelatedLine(ind, from), from, to) == RelatedLine(ind, to)
  {
    assert from[0] == 'V';
    KeywordsStart();
    NoV(ind);
    var q := [Quote] + [';'];
    ReplaceLeading(from, to, q);
    var x := [Quote] + (from + q);
    ReplaceFree([Quote], from + q, from, to);
    ReplaceFree([' '], x, from, to);
    ReplaceFree([':'], [' '] + x, from, to);
    ReplaceFree([' '], [':'] + ([' '] + x), from, to);
    ReplaceFree(RelatedKw, [' '] + ([':'] + ([' '] + x)), from, to);
    ReplaceFree(ind, RelatedKw + ([' '] + ([':'] + ([' '] + x))), from, to);
  }

  /** The scan of a `pg_pin` line. */
  lemma {:induction false} ScanPg(ind: String, pin: String)
    requires Spaces(ind) && |pin| > 0 && '\n' !in pin
    ensures Scan(PgLine(ind, pin)) == Info(PgLine(ind, pin), Some(pin), None)
  {
    PgRoundTrip(ind, pin);
    PgNotRelated(ind, pin);
  }

  /** The scan of a `related_bias_pin` line. */
  lemma {:induction false} ScanRelated(ind: String, pin: String)
    requires Spaces(ind) && |pin| > 0 && '\n' !in pin
    ensures Scan(RelatedLine(ind, pin)) == Info(RelatedLine(ind, pin), None, Some(pin))
  {
    RelatedRoundTrip(ind, pin);
    RelatedNotPg(ind, pin);
  }

  /** A power pin line followed, after lines that match neither pattern,
      by a wrong related bias pin: that line is swapped and all the others
      are copied. */
  lemma {:induction false} SwapAfterPg(infos: seq<Info>, from: String, to: String)
    requires |infos| >= 2 && infos[0].pg.Some? && infos[0].rel.None?
    requires Quiet(infos, 1, |infos| - 1)
    requires infos[|infos| - 1].pg.None? && infos[|infos| - 1].rel == Some(from)
    requires Swap(from, infos[0].pg.value) == Some(to)
    ensures forall i :: 0 <= i < |infos| - 1 ==> FixedUpTo(infos, |infos|)[i] == infos[i].line
    ensures FixedUpTo(infos, |infos|)[|infos| - 1] == ReplaceAll(infos[|infos| - 1].line, from, to)
    ensures Changed(infos, |infos|)
  {
    var n := |infos|;
    HeldFromPg(infos, 0, n - 1);
    assert Cur(infos, n - 1) == infos[0].pg.value;
    assert Swaps(infos[n - 1], Cur(infos, n - 1));
    forall i | 0 <= i < n - 1
      ensures FixedUpTo(infos, n)[i] == infos[i].line
    {
      assert infos[i].rel.None?;
    }
  }

  lemma {:induction false} ScansFirst(first: String, mid: Lines, last: String)
    ensures Scans([first] + mid + [last])[0] == Scan(first)
  {
    assert ([first] + mid + [last])[0] == first;
  }

  lemma {:induction false} ScansLast(first: String, mid: Lines, last: String)
    ensures var n := |mid| + 2; Scans([first] + mid + [last])[n - 1] == Scan(last)
  {
    var lines := [first] + mid + [last];
    assert lines[|lines| - 1] == last;
  }

  /** Lines that match neither pattern scan as such. */
  lemma {:induction false} ScansQuiet(first: String, mid: Lines, last: String)
    requires forall k :: 0 <= k < |mid| ==> Scan(mid[k]).pg.None? && Scan(mid[k]).rel.None?
    ensures var infos := Scans([first] + mid + [last]); Quiet(infos, 1, |infos| - 1)
  {
    var lines := [first] + mid + [last];
    var infos := Scans(lines);
    forall k | 1 <= k < |infos| - 1
      ensures infos[k].pg.None? && infos[k].rel.None?
    {
      assert lines[k] == mid[k - 1];
    }
  }

  /** A file that needs a change, or whose output is no symbolic link, is
      written. */
  lemma Written(lines: Lines, out: String, isLink: bool)
    requires Changed(Scans(lines), |lines|) || !isLink
    ensures FixBiasPins(lines, Some(out), isLink) == Write(FixedUpTo(Scans(lines), |lines|))
  {
  }

  /** The records of a power pin line, lines matching neither pattern and
      a wrong related bias pin line: that line is swapped and the others
      are copied. */
  lemma {:induction false} SwapRecords(infos: seq<Info>, first: String, pg: String, mid: Lines, last: String, from: String, to: String)
    requires |infos| == |mid| + 2 && forall i :: 1 <= i < |infos| - 1 ==> infos[i].line == mid[i - 1]
    requires infos[0] == Info(first, Some(pg), None) && Quiet(infos, 1, |infos| - 1)
    requires infos[|infos| - 1] == Info(last, None, Some(from))
    requires Swap(from, pg) == Some(to)
    ensures FixedUpTo(infos, |infos|) == [first] + mid + [ReplaceAll(last, from, to)]
    ensures Changed(infos, |infos|)
  {
    SwapAfterPg(infos, from, to);
    var f := FixedUpTo(infos, |infos|);
    forall i | 0 < i < |f| - 1
      ensures f[i] == mid[i - 1]
    {
    }
    CopiedBut(f, first, mid, ReplaceAll(last, from, to));
  }

  /** Lines that agree with the first line, the middle lines and the last
      line, one by one, are those lines. */
  lemma {:induction false} CopiedBut(f: Lines, first: String, mid: Lines, x: String)
    requires |f| == |mid| + 2 && f[0] == first && f[|f| - 1] == x
    requires forall i :: 0 < i < |f| - 1 ==> f[i] == mid[i - 1]
    ensures f == [first] + mid + [x]
  {
    var want := [first] + mid + [x];
    forall i | 0 <= i < |f|
      ensures f[i] == want[i]
    {
      if 0 < i < |f| - 1 {
        assert want[i] == mid[i - 1];
      }
    }
  }

  /** A cell's `pg_pin` line for VGND (or VPWR) followed, after lines
      that match neither pattern, by its wrong `related_bias_pin` line: the
      file is rewritten with the pin swapped and every other line
      copied. */
  lemma {:induction false} SwapUnder(ind1: String, pg: String, mid: Lines, ind2: String, from: String, to: String, out: String, isLink: bool)
    requires Spaces(ind1) && Spaces(ind2) && '\n' !in pg && |pg| > 0
    requires Swap(from, pg) == Some(to)
    requires forall k :: 0 <= k < |mid| ==> Scan(mid[k]).pg.None? && Scan(mid[k]).rel.None?
    ensures FixBiasPins([PgLine(ind1, pg)] + mid + [RelatedLine(ind2, from)], Some(out), isLink)
         == Write([PgLine(ind1, pg)] + mid + [RelatedLine(ind2, to)])
  {
    var first := PgLine(ind1, pg);
    var last := RelatedLine(ind2, from);
    assert from in {Vpb, Vnb};
    ScanPg(ind1, pg);
    ScanRelated(ind2, from);
    ScansFirst(first, mid, last);
    ScansLast(first, mid, last);
    ScansQuiet(first, mid, last);
    SwapLines([first] + mid + [last], first, pg, mid, last, from, to, out, isLink);
    SwapRelated(ind2, from, to);
  }

  /** Lines whose records are a power pin line, lines matching neither
      pattern and a wrong related bias pin line: the file is written with
      that last line swapped. */
  lemma {:induction false} SwapLines(lines: Lines, first: String, pg: String, mid: Lines, last: String, from: String, to: String, out: String, isLink: bool)
    requires lines == [first] + mid + [last]
    requires Scans(lines)[0] == Info(first, Some(pg), None)
    requires Scans(lines)[|lines| - 1] == Info(last, None, Some(from))
    requires Quiet(Scans(lines), 1, |lines| - 1)
    requires Swap(from, pg) == Some(to)
    ensures FixBiasPins(lines, Some(out), isLink) == Write([first] + mid + [ReplaceAll(last, from, to)])
  {
    ScansMid(lines, first, mid, last);
    SwapRecords(Scans(lines), first, pg, mid, last, from, to);
    Written(lines, out, isLink);
  }

  /** The records of the middle lines hold those lines. */
  lemma {:induction false} ScansMid(lines: Lines, first: String, mid: Lines, last: String)
    requires lines == [first] + mid + [last]
    ensures forall i :: 1 <= i < |lines| - 1 ==> Scans(lines)[i].line == mid[i - 1]
  {
    forall i | 1 <= i < |lines| - 1
      ensures Scans(lines)[i].line == mid[i - 1]
    {
      assert lines[i] == mid[i - 1];
    }
  }
}

=== FILE: cace_gensim.dfy ===
/** The integer and list helpers of the CACE simulation generator: binary
    digit strings for digital conditions, two's complement, duplicate
    removal, the values a condition record yields, the cartesian product of
    all condition values, and the expansion of vector pin names. */
module CaceGensim {
  import opened Text
  import opened Seqs
  import opened Wrappers
  import opened Arith

  function Pow2(n: nat): (r: int)
    ensures r >= 1
  {
    if n == 0 then 1 else 2 * Pow2(n - 1)
  }

  predicate IsBit(c: char) {
    c == '0' || c == '1'
  }

  predicate AllBits(s: String) {
    forall k :: 0 <= k < |s| ==> IsBit(s[k])
  }

  function BitChar(b: nat): (c: char)
    requires b < 2
    ensures IsBit(c) && (c == '1' <==> b == 1)
  {
    if b == 0 then '0' else '1'
  }

  function BitValue(c: char): nat {
    if c == '1' then 1 else 0
  }

  /** `int(s, 2)` for a string of bits; the empty string reads as 0. */
  function BinValue(s: String): nat
    requires AllBits(s)
    decreases |s|
  {
    if |s| == 0 then 0 else 2 * BinValue(s[..|s| - 1]) + BitValue(s[|s| - 1])
  }

  /** `bin(m)[2:]`: the binary digits of `m` without leading zeros, "0"
      for zero. */
  function Bin(m: nat): (r: String)
    ensures |r| > 0 && AllBits(r)
    decreases m
  {
    if m < 2 then [BitChar(m)] else Bin(m / 2) + [BitChar(m % 2)]
  }

  function Zeros(n: nat): (r: String)
    ensures |r| == n && AllBits(r)
  {
    seq(n, _ => '0')
  }

  /** `"{0:0>w}".format(s)`: `s` padded on the left with '0' to width `w`;
      a longer `s` is not cut. */
  function PadZeros(s: String, w: nat): (r: String)
    ensures |r| == if |s| < w then w else |s|
    ensures |s| <= w ==> r == Zeros(w - |s|) + s
  {
    if |s| < w then Zeros(w - |s|) + s else s
  }

  lemma {:induction false} BinValueOfBin(m: nat)
    ensures BinValue(Bin(m)) == m
    decreases m
  {
    if m >= 2 {
      var s := Bin(m);
      assert s[..|s| - 1] == Bin(m / 2);
      BinValueOfBin(m / 2);
    }
  }

  lemma {:induction false} BinLength(m: nat, w: nat)
    requires w > 0 && m < Pow2(w)
    ensures |Bin(m)| <= w
    decreases m
  {
    if m >= 2 {
      assert w > 1;
      BinLength(m / 2, w - 1);
    }
  }

  lemma {:induction false} ZerosValue(n: nat)
    ensures BinValue(Zeros(n)) == 0
    decreases n
  {
    if n > 0 {
      assert Zeros(n)[..n - 1] == Zeros(n - 1);
      ZerosValue(n - 1);
    }
  }

  /** Leading zeros do not change the value. */
  lemma {:induction false} LeadingZeros(n: nat, s: String)
    requires AllBits(s)
    ensures BinValue(Zeros(n) + s) == BinValue(s)
    decreases |s|
  {
    if |s| == 0 {
      assert Zeros(n) + s == Zeros(n);
      ZerosValue(n);
    } else {
      var t := Zeros(n) + s;
      assert t[..|t| - 1] == Zeros(n) + s[..|s| - 1];
      LeadingZeros(n, s[..|s| - 1]);
    }
  }

  lemma {:induction false} BinValueBound(s: String)
    requires AllBits(s)
    ensures BinValue(s) < Pow2(|s|)
    decreases |s|
  {
    if |s| > 0 {
      BinValueBound(s[..|s| - 1]);
    }
  }

  /** Two bit strings of one length with one value are equal. */
  lemma {:induction false} BinValueInjective(a: String, b: String)
    requires |a| == |b| && AllBits(a) && AllBits(b)
    requires BinValue(a) == BinValue(b)
    ensures a == b
    decreases |a|
  {
    if |a| > 0 {
      var n := |a| - 1;
      assert IsBit(a[n]) && IsBit(b[n]);
      assert a[n] == b[n];
      BinValueInjective(a[..n], b[..n]);
      assert a == a[..n] + [a[n]] && b == b[..n] + [b[n]];
    }
  }

  /** `bindigits(n, bits)`: the low `bits` bits of `n` (`n & 0b11...1`,
      which for a negative `n` is its two's complement) as exactly `bits`
      characters. With `bits == 0`, `int("", 2)` raises. */
  function BinDigits(n: int, bits: nat): (r: Option<String>)
    ensures r.Some? <==> bits > 0
    ensures r.Some? ==> |r.value| == bits && AllBits(r.value)
    ensures r.Some? ==> BinValue(r.value) == n % Pow2(bits)
  {
    if bits == 0 then None
    else
      var m := n % Pow2(bits);
      BinLength(m, bits);
      BinValueOfBin(m);
      LeadingZeros(bits - |Bin(m)|, Bin(m));
      Some(PadZeros(Bin(m), bits))
  }

  /** Reading a bit string and printing it back at its own width gives
      the same string. */
  lemma {:induction false} BinDigitsRoundTrip(s: String)
    requires |s| > 0 && AllBits(s)
    ensures BinDigits(BinValue(s), |s|) == Some(s)
  {
    BinValueBound(s);
    DivModUnique(BinValue(s), Pow2(|s|), 0, BinValue(s));
    BinValueInjective(BinDigits(BinValue(s), |s|).value, s);
  }

  /** `twos_comp(val, bits)`: when bit `bits - 1` of `val` is set, the value
      less `2^bits`; otherwise `val` itself. With `bits == 0`, `1 << -1`
      raises. */
  function TwosComp(val: int, bits: nat): (r: Option<int>)
    ensures r.Some? <==> bits > 0
    ensures r.Some? ==> r.value == val || r.value == val - Pow2(bits)
  {
    if bits == 0 then None
    else if (val / Pow2(bits - 1)) % 2 != 0 then Some(val - Pow2(bits))
    else Some(val)
  }

  lemma {:induction false} SignBit(val: int, p: int)
    requires p > 0 && 0 <= val < 2 * p
    ensures (val / p) % 2 != 0 <==> val >= p
  {
    if val < p {
      DivModUnique(val, p, 0, val);
    } else {
      DivModUnique(val, p, 1, val - p);
    }
  }

  /** An unsigned `bits`-bit value read as signed lies in
      `[-2^(bits-1), 2^(bits-1))` and is congruent to it modulo `2^bits`. */
  lemma {:induction false} TwosCompRange(val: int, bits: nat)
    requires bits > 0 && 0 <= val < Pow2(bits)
    ensures -Pow2(bits - 1) <= TwosComp(val, bits).value < Pow2(bits - 1)
    ensures (TwosComp(val, bits).value - val) % Pow2(bits) == 0
  {
    var p := Pow2(bits - 1);
    var big := Pow2(bits);
    assert big == 2 * p;
    SignBit(val, p);
    if val >= p {
      DivModUnique(-big, big, -1, 0);
    } else {
      DivModUnique(0, big, 0, 0);
    }
  }

  /** `twos_comp` undoes the `bits`-bit encoding of a signed value. */
  lemma {:induction false} TwosCompInverse(v: int, bits: nat)
    requires bits > 0 && -Pow2(bits - 1) <= v < Pow2(bits - 1)
    ensures TwosComp(v % Pow2(bits), bits) == Some(v)
  {
    var p := Pow2(bits - 1);
    var big := Pow2(bits);
    assert big == 2 * p;
    if v >= 0 {
      DivModUnique(v, big, 0, v);
      SignBit(v, p);
    } else {
      DivModUnique(v, big, -1, v + big);
      SignBit(v + big, p);
    }
  }

  /** The signed reading has the same digits as the unsigned value. */
  lemma {:induction false} TwosCompDigits(val: int, bits: nat)
    requires bits > 0 && 0 <= val < Pow2(bits)
    ensures BinDigits(TwosComp(val, bits).value, bits) == BinDigits(val, bits)
  {
    var big := Pow2(bits);
    var t := TwosComp(val, bits).value;
    DivModUnique(val, big, 0, val);
    if t != val {
      DivModUnique(t, big, -1, val);
    }
    BinValueInjective(BinDigits(t, bits).value, BinDigits(val, bits).value);
  }

  /** `uniquify` with the forms in `seen` already taken: the items of `l`
      whose printed form `form(x)` (Python's `str(x)`) has not occurred
      yet, in order. */
  function UniqFrom<T>(l: seq<T>, form: T -> String, seen: set<String>): seq<T>
    decreases |l|
  {
    if |l| == 0 then []
    else if form(l[0]) in seen then UniqFrom(l[1..], form, seen)
    else [l[0]] + UniqFrom(l[1..], form, seen + {form(l[0])})
  }

  /** `uniquify(l)`: later items whose form repeats an earlier one are
      dropped. */
  function Uniquify<T>(l: seq<T>, form: T -> String): (r: seq<T>)
    ensures |r| <= |l|
  {
    UniqFromLength(l, form, {});
    UniqFrom(l, form, {})
  }

  lemma {:induction false} UniqFromLength<T>(l: seq<T>, form: T -> String, seen: set<String>)
    ensures |UniqFrom(l, form, seen)| <= |l|
    decreases |l|
  {
    if |l| > 0 {
      UniqFromLength(l[1..], form, seen);
      UniqFromLength(l[1..], form, seen + {form(l[0])});
    }
  }

  lemma {:induction false} UniqFromSubseq<T>(l: seq<T>, form: T -> String, seen: set<String>)
    ensures IsSubseq(UniqFrom(l, form, seen), l)
    decreases |l|
  {
    if |l| > 0 {
      var rest := UniqFrom(l[1..], form, seen + {form(l[0])});
      UniqFromSubseq(l[1..], form, seen);
      UniqFromSubseq(l[1..], form, seen + {form(l[0])});
      if form(l[0]) in seen {
        var r := UniqFrom(l[1..], form, seen);
        if |r| > 0 {
          UniqFromFresh(l[1..], form, seen, r[0]);
        }
      } else {
        assert ([l[0]] + rest)[1..] == rest;
      }
    }
  }

  /** No kept item has a form in `seen`. */
  lemma {:induction false} UniqFromFresh<T>(l: seq<T>, form: T -> String, seen: set<String>, y: T)
    requires y in UniqFrom(l, form, seen)
    ensures form(y) !in seen
    decreases |l|
  {
    if form(l[0]) in seen {
      UniqFromFresh(l[1..], form, seen, y);
    } else if y != l[0] {
      UniqFromFresh(l[1..], form, seen + {form(l[0])}, y);
    }
  }

  /** The kept items have pairwise different forms. */
  lemma {:induction false} UniqFromDistinct<T>(l: seq<T>, form: T -> String, seen: set<String>)
    ensures Distinct(UniqFrom(l, form, seen), form)
    decreases |l|
  {
    if |l| > 0 {
      if form(l[0]) in seen {
        UniqFromDistinct(l[1..], form, seen);
      } else {
        var rest := UniqFrom(l[1..], form, seen + {form(l[0])});
        UniqFromDistinct(l[1..], form, seen + {form(l[0])});
        var r := [l[0]] + rest;
        forall i, j | 0 <= i < j < |r|
          ensures form(r[i]) != form(r[j])
        {
          if i == 0 {
            UniqFromFresh(l[1..], form, seen + {form(l[0])}, r[j]);
          } else {
            assert r[i] == rest[i - 1] && r[j] == rest[j - 1];
          }
        }
      }
    }
  }

  predicate Distinct<T>(l: seq<T>, form: T -> String) {
    forall i, j :: 0 <= i < j < |l| ==> form(l[i]) != form(l[j])
  }

  /** Every item is either kept or shares its form with a kept item or with
      `seen`. */
  lemma {:induction false} UniqFromCovers<T>(l: seq<T>, form: T -> String, seen: set<String>, x: T)
    requires x in l
    ensures form(x) in seen || exists y :: y in UniqFrom(l, form, seen) && form(y) == form(x)
    decreases |l|
  {
    if x != l[0] {
      assert x in l[1..];
      if form(l[0]) in seen {
        UniqFromCovers(l[1..], form, seen, x);
      } else {
        UniqFromCovers(l[1..], form, seen + {form(l[0])}, x);
        if form(x) == form(l[0]) {
          assert l[0] in UniqFrom(l, form, seen);
        } else if form(x) !in seen {
          var y :| y in UniqFrom(l[1..], form, seen + {form(l[0])}) && form(y) == form(x);
          assert y in UniqFrom(l, form, seen);
        }
      }
    } else if form(x) !in seen {
      assert l[0] in UniqFrom(l, form, seen);
    }
  }

  /** Every kept item is the first item of `l` with its form. */
  lemma {:induction false} UniqFromFirst<T>(l: seq<T>, form: T -> String, seen: set<String>, y: T)
    requires y in UniqFrom(l, form, seen)
    ensures exists i :: 0 <= i < |l| && l[i] == y && forall j :: 0 <= j < i ==> form(l[j]) != form(y)
    decreases |l|
  {
    if form(l[0]) in seen {
      UniqFromFresh(l, form, seen, y);
      UniqFromFirst(l[1..], form, seen, y);
      var i :| 0 <= i < |l[1..]| && l[1..][i] == y && forall j :: 0 <= j < i ==> form(l[1..][j]) != form(y);
      assert l[i + 1] == y;
      assert forall j :: 0 <= j < i + 1 ==> form(l[j]) != form(y) by {
        assert forall j :: 1 <= j < i + 1 ==> l[j] == l[1..][j - 1];
      }
    } else if y != l[0] {
      var seen' := seen + {form(l[0])};
      UniqFromFresh(l[1..], form, seen', y);
      UniqFromFirst(l[1..], form, seen', y);
      var i :| 0 <= i < |l[1..]| && l[1..][i] == y && forall j :: 0 <= j < i ==> form(l[1..][j]) != form(y);
      assert l[i + 1] == y;
      assert forall j :: 0 <= j < i + 1 ==> form(l[j]) != form(y) by {
        assert forall j :: 1 <= j < i + 1 ==> l[j] == l[1..][j - 1];
      }
    } else {
      assert l[0] == y;
    }
  }

  /** A list whose forms are already distinct and fresh is kept whole. */
  lemma {:induction false} UniqFromDistinctKept<T>(l: seq<T>, form: T -> String, seen: set<String>)
    requires Distinct(l, form)
    requires forall i :: 0 <= i < |l| ==> form(l[i]) !in seen
    ensures UniqFrom(l, form, seen) == l
    decreases |l|
  {
    if |l| > 0 {
      var seen' := seen + {form(l[0])};
      forall i | 0 <= i < |l[1..]|
        ensures form(l[1..][i]) !in seen'
      {
        assert l[1..][i] == l[i + 1];
      }
      assert Distinct(l[1..], form) by {
        forall i, j | 0 <= i < j < |l[1..]|
          ensures form(l[1..][i]) != form(l[1..][j])
        {
          assert l[1..][i] == l[i + 1] && l[1..][j] == l[j + 1];
        }
      }
      UniqFromDistinctKept(l[1..], form, seen');
    }
  }

  /** `uniquify` keeps, in order, the first item of every form and nothing
      else: its result is a subsequence of the input, has no repeated form,
      represents every form of the input, and holds only first
      occurrences. */
  lemma {:induction false} UniquifySpec<T>(l: seq<T>, form: T -> String)
    ensures IsSubseq(Uniquify(l, form), l)
    ensures Distinct(Uniquify(l, form), form)
    ensures forall x :: x in l ==> exists y :: y in Uniquify(l, form) && form(y) == form(x)
    ensures forall y :: y in Uniquify(l, form) ==>
      exists i :: 0 <= i < |l| && l[i] == y && forall j :: 0 <= j < i ==> form(l[j]) != form(y)
  {
    UniqFromSubseq(l, form, {});
    UniqFromDistinct(l, form, {});
    forall x | x in l
      ensures exists y :: y in Uniquify(l, form) && form(y) == form(x)
    {
      UniqFromCovers(l, form, {}, x);
    }
    forall y | y in Uniquify(l, form)
      ensures exists i :: 0 <= i < |l| && l[i] == y && forall j :: 0 <= j < i ==> form(l[j]) != form(y)
    {
      UniqFromFirst(l, form, {}, y);
    }
  }

  lemma {:induction false} UniquifyIdempotent<T>(l: seq<T>, form: T -> String)
    ensures Uniquify(Uniquify(l, form), form) == Uniquify(l, form)
  {
    UniqFromDistinct(l, form, {});
    UniqFromDistinctKept(Uniquify(l, form), form, {});
  }

  /** A condition record of a datasheet, with the keys it carries. Values
      are kept as their text. */
  datatype Condition = Condition(
    condition: String,
    unit: Option<String>,
    enumValues: Option<seq<String>>,
    min: Option<String>,
    max: Option<String>,
    typ: Option<String>,
    linstep: Option<String>,
    logstep: Option<String>)

  /** One yielded `(condition, unit, value)` triple. */
  datatype Entry = Entry(condition: String, unit: String, value: String)

  /** A record with `min`, `max` and a step yields a stepped range. */
  predicate Stepped(c: Condition) {
    c.enumValues.None? && c.min.Some? && c.max.Some? && (c.linstep.Some? || c.logstep.Some?)
  }

  /** The values `condition_gen(c)` yields. The stepped ranges are computed
      by the floating-point and `eval`-based generators `linseq`, `logseq`,
      `bcount` and `bshift`; their values come in as `steps`. */
  function ConditionValues(c: Condition, steps: seq<String>): seq<String> {
    if c.enumValues.Some? then c.enumValues.value
    else if Stepped(c) then steps
    else if c.min.Some? && c.max.Some? && c.typ.Some? then [c.min.value, c.typ.value, c.max.value]
    else if c.min.Some? && c.max.Some? then [c.min.value, c.max.value]
    else if c.min.Some? && c.typ.Some? then [c.min.value, c.typ.value]
    else if c.max.Some? && c.typ.Some? then [c.typ.value, c.max.value]
    else if c.min.Some? then [c.min.value]
    else if c.max.Some? then [c.max.value]
    else if c.typ.Some? then [c.typ.value]
    else []
  }

  /** `condition_gen(c)`: one triple per value, all carrying the record's
      condition and unit (empty when it has none). */
  function ConditionGen(c: Condition, steps: seq<String>): (r: seq<Entry>)
    ensures |r| == |ConditionValues(c, steps)|
    ensures forall i :: 0 <= i < |r| ==>
      r[i].condition == c.condition && r[i].value == ConditionValues(c, steps)[i] &&
      r[i].unit == if c.unit.Some? then c.unit.value else ""
  {
    var vals := ConditionValues(c, steps);
    var unit := if c.unit.Some? then c.unit.value else "";
    seq(|vals|, i requires 0 <= i < |vals| => Entry(c.condition, unit, vals[i]))
  }

  /** An enumerated condition yields its items in order. */
  lemma ConditionGenEnum(c: Condition, steps: seq<String>)
    requires c.enumValues.Some?
    ensures |ConditionGen(c, steps)| == |c.enumValues.value|
    ensures forall i :: 0 <= i < |c.enumValues.value| ==> ConditionGen(c, steps)[i].value == c.enumValues.value[i]
  {
  }

  /** Without an enumeration or a stepped range, a record yields each of
      its `min`, `typ` and `max` once, smallest first: `min` (if given)
      leads, `max` (if given) closes, and nothing else appears. */
  lemma ConditionGenLimits(c: Condition, steps: seq<String>)
    requires c.enumValues.None? && !Stepped(c)
    ensures var v := ConditionValues(c, steps);
      && |v| == (if c.min.Some? then 1 else 0) + (if c.typ.Some? then 1 else 0) + (if c.max.Some? then 1 else 0)
      && (c.min.Some? ==> v[0] == c.min.value)
      && (c.max.Some? ==> v[|v| - 1] == c.max.value)
      && (c.typ.Some? ==> c.typ.value in v)
      && (forall x :: x in v ==> Some(x) == c.min || Some(x) == c.typ || Some(x) == c.max)
  {
  }

  /** `reduce(lambda x, y: x * y, l, 1)`. */
  function Product(l: seq<nat>): nat
    decreases |l|
  {
    if |l| == 0 then 1 else Product(l[..|l| - 1]) * l[|l| - 1]
  }

  lemma {:induction false} ProductAppend(a: seq<nat>, b: seq<nat>)
    ensures Product(a + b) == Product(a) * Product(b)
    decreases |b|
  {
    if |b| > 0 {
      var b' := b[..|b| - 1];
      assert (a + b)[..|a + b| - 1] == a + b';
      ProductAppend(a, b');
    } else {
      assert a + b == a;
    }
  }

  function Lengths<T>(ls: seq<seq<T>>): (r: seq<nat>)
    ensures |r| == |ls|
    ensures forall i :: 0 <= i < |ls| ==> r[i] == |ls[i]|
  {
    seq(|ls|, i requires 0 <= i < |ls| => |ls[i]|)
  }

  /** `[item for item in l for j in range(m)]`: each item `m` times. */
  function RepeatEach<T>(l: seq<T>, m: nat): (r: seq<T>)
    ensures |r| == |l| * m
    decreases |l|
  {
    if |l| == 0 then [] else seq(m, _ => l[0]) + RepeatEach(l[1..], m)
  }

  /** `l * t`: `l` repeated `t` times. */
  function Cycle<T>(l: seq<T>, t: nat): (r: seq<T>)
    ensures |r| == |l| * t
    decreases t
  {
    if t == 0 then [] else l + Cycle(l, t - 1)
  }

  lemma {:induction false} RepeatEachAt<T>(l: seq<T>, m: nat, k: nat)
    requires k < |l| * m
    ensures m > 0 && k / m < |l| && RepeatEach(l, m)[k] == l[k / m]
    decreases |l|
  {
    MulPositive(|l|, m);
    if k < m {
      DivModUnique(k, m, 0, k);
    } else {
      assert |l| * m == m + (|l| - 1) * m;
      RepeatEachAt(l[1..], m, k - m);
      DivModUnique(k, m, (k - m) / m + 1, (k - m) % m);
    }
  }

  lemma {:induction false} CycleAt<T>(l: seq<T>, t: nat, k: nat)
    requires k < |l| * t
    ensures |l| > 0 && Cycle(l, t)[k] == l[k % |l|]
    decreases t
  {
    MulPositive(|l|, t);
    if k < |l| {
      DivModUnique(k, |l|, 0, k);
    } else {
      assert |l| * t == |l| + |l| * (t - 1);
      CycleAt(l, t - 1, k - |l|);
      DivModUnique(k, |l|, (k - |l|) / |l| + 1, (k - |l|) % |l|);
    }
  }

  /** The product of the lengths before condition `i`. */
  function PlaceValue<T>(ls: seq<seq<T>>, i: nat): nat
    requires i <= |ls|
  {
    Product(Lengths(ls)[..i])
  }

  /** `cgensim[i]`: condition `i`'s values, each repeated once per
      combination of the conditions before it, the whole repeated once per
      combination of the conditions after it. */
  function Column<T>(ls: seq<seq<T>>, i: nat): seq<T>
    requires i < |ls|
  {
    var lens := Lengths(ls);
    Cycle(RepeatEach(ls[i], Product(lens[..i])), Product(lens[i + 1..]))
  }

  lemma {:induction false} ProductSplit(lens: seq<nat>, i: nat)
    requires i < |lens|
    ensures Product(lens) == Product(lens[..i]) * lens[i] * Product(lens[i + 1..])
  {
    assert lens == lens[..i] + [lens[i]] + lens[i + 1..];
    ProductAppend(lens[..i] + [lens[i]], lens[i + 1..]);
    assert (lens[..i] + [lens[i]])[..i] == lens[..i];
  }

  lemma {:induction false} ColumnLength<T>(ls: seq<seq<T>>, i: nat)
    requires i < |ls|
    ensures |Column(ls, i)| == Product(Lengths(ls))
  {
    var lens := Lengths(ls);
    ProductSplit(lens, i);
    var a, n, b := Product(lens[..i]), |ls[i]|, Product(lens[i + 1..]);
    assert |Column(ls, i)| == (n * a) * b;
    assert (n * a) * b == a * n * b;
  }

  /** Entry `r` of column `i` is value number `(r / m) % n` of condition
      `i`, with `m` the product of the lengths before it and `n` its own
      length: the columns count through all combinations like the digits
      of a mixed-radix number. */
  lemma {:induction false} ColumnAt<T>(ls: seq<seq<T>>, i: nat, r: nat)
    requires i < |ls| && r < Product(Lengths(ls))
    ensures PlaceValue(ls, i) > 0 && |ls[i]| > 0 && r < |Column(ls, i)|
    ensures Column(ls, i)[r] == ls[i][(r / PlaceValue(ls, i)) % |ls[i]|]
  {
    var lens := Lengths(ls);
    var m := Product(lens[..i]);
    var rep := RepeatEach(ls[i], m);
    ColumnLength(ls, i);
    CycleAt(rep, Product(lens[i + 1..]), r);
    RepeatEachAt(ls[i], m, r % |rep|);
    MulPositive(|ls[i]|, m);
    ModDivSwap(r, |ls[i]|, m);
  }

  /** The length of the shortest list, 0 for none. */
  function MinLength<T>(cols: seq<seq<T>>): (n: nat)
    ensures forall i :: 0 <= i < |cols| ==> n <= |cols[i]|
    ensures |cols| > 0 ==> exists i :: 0 <= i < |cols| && n == |cols[i]|
    decreases |cols|
  {
    if |cols| == 0 then 0
    else if |cols| == 1 then |cols[0]|
    else
      var rest := MinLength(cols[1..]);
      assert forall i :: 1 <= i < |cols| ==> cols[i] == cols[1..][i - 1];
      if |cols[0]| <= rest then |cols[0]| else rest
  }

  /** `list(map(list, zip(*cols)))`: row `r` holds entry `r` of every
      column, as many rows as the shortest column. */
  function Transpose<T>(cols: seq<seq<T>>): (rows: seq<seq<T>>)
    ensures |rows| == MinLength(cols)
    ensures forall r :: 0 <= r < |rows| ==> |rows[r]| == |cols|
  {
    var n := MinLength(cols);
    seq(n, r requires 0 <= r < n => seq(|cols|, i requires 0 <= i < |cols| => cols[i][r]))
  }

  /** The simulation tuples of `generate_simfiles` for the value lists of
      the sorted conditions. `reduce` without a start value fails on an
      empty condition list. */
  function SimTuples<T>(ls: seq<seq<T>>): Option<seq<seq<T>>> {
    if |ls| == 0 then None
    else Some(Transpose(Columns(ls)))
  }

  function Columns<T>(ls: seq<seq<T>>): (cols: seq<seq<T>>)
    ensures |cols| == |ls|
    ensures forall i :: 0 <= i < |ls| ==> cols[i] == Column(ls, i)
  {
    seq(|ls|, i requires 0 <= i < |ls| => Column(ls, i))
  }

  lemma MinLengthEqual<T>(cols: seq<seq<T>>, n: nat)
    requires |cols| > 0 && forall i :: 0 <= i < |cols| ==> |cols[i]| == n
    ensures MinLength(cols) == n
  {
  }

  lemma {:induction false} ColumnsLength<T>(ls: seq<seq<T>>)
    requires |ls| > 0
    ensures |Transpose(Columns(ls))| == Product(Lengths(ls))
  {
    var cols := Columns(ls);
    forall i | 0 <= i < |ls|
      ensures |cols[i]| == Product(Lengths(ls))
    {
      ColumnLength(ls, i);
    }
    MinLengthEqual(cols, Product(Lengths(ls)));
  }

  /** Which value of condition `i` combination `r` takes: digit `i` of
      `r` in the mixed radix whose digit bases are the value counts. */
  function Digit<T>(ls: seq<seq<T>>, i: nat, r: nat): (d: nat)
    requires i < |ls| && r < Product(Lengths(ls))
    ensures d < |ls[i]|
  {
    PlaceValueBounds(ls, i, r);
    (r / PlaceValue(ls, i)) % |ls[i]|
  }

  lemma {:induction false} PlaceValueBounds<T>(ls: seq<seq<T>>, i: nat, r: nat)
    requires i < |ls| && r < Product(Lengths(ls))
    ensures PlaceValue(ls, i) > 0 && |ls[i]| > 0
  {
    var lens := Lengths(ls);
    ProductSplit(lens, i);
    MulPositive(Product(lens[..i]) * lens[i], Product(lens[i + 1..]));
    MulPositive(Product(lens[..i]), lens[i]);
  }

  /** There is one tuple per combination: as many as the product of the
      value counts, each with one value per condition, and tuple `r` takes
      from condition `i` the value its mixed-radix digit selects. */
  lemma {:induction false} SimTuplesShape<T>(ls: seq<seq<T>>)
    requires |ls| > 0
    ensures |SimTuples(ls).value| == Product(Lengths(ls))
    ensures forall r :: 0 <= r < |SimTuples(ls).value| ==> |SimTuples(ls).value[r]| == |ls|
    ensures forall r, i :: 0 <= r < |SimTuples(ls).value| && 0 <= i < |ls| ==>
      SimTuples(ls).value[r][i] == ls[i][Digit(ls, i, r)]
  {
    var cols := Columns(ls);
    var rows := Transpose(cols);
    assert SimTuples(ls).value == rows;
    ColumnsLength(ls);
    forall r, i | 0 <= r < |rows| && 0 <= i < |ls|
      ensures rows[r][i] == ls[i][Digit(ls, i, r)]
    {
      assert rows[r][i] == cols[i][r];
      ColumnAt(ls, i, r);
    }
  }

  /** A datasheet pin record: its name and the other keys, copied as they
      are. */
  datatype Pin = Pin(name: String, fields: map<String, String>)

  /** The parts of a vector pin name: the base and the two range ends. */
  datatype Vector = Vector(base: String, first: nat, last: nat)

  /** The patterns `([^\[]+)\[([0-9]+):([0-9]+)\]` and
      `([^<]+)\<([0-9]+):([0-9]+)\>` matched at the start of `s` (anything
      after the closing bracket is ignored): a non-empty base free of the
      opening bracket, the bracket, digits, ':', digits, the closing
      bracket. */
  function MatchBracketed(s: String, open: char, close: char): Option<Vector> {
    var i := IndexOf(s, open);
    if i == 0 || i == |s| then None else MatchRange(s[..i], s[i + 1..], Some(close))
  }

  /** The pattern `([^0-9]+)([0-9]+):([0-9]+)` matched at the start of
      `s`: a non-empty base without digits, digits, ':', digits. */
  function MatchPlain(s: String): Option<Vector> {
    var i := TextRun(s);
    if i == 0 || i == |s| then None else MatchRange(s[..i], s[i..], None)
  }

  /** The text after the base: digits, ':', then the end of the range. */
  function MatchRange(base: String, t: String, close: Option<char>): Option<Vector> {
    var d := DigitRun(t);
    if d == 0 || d == |t| || t[d] != ':' then None
    else
      assert AllDigits(t[..d]);
      MatchEnd(base, DecimalValue(t[..d]), t[d + 1..], close)
  }

  /** The last range end: digits, then the closing bracket if there is
      one. */
  function MatchEnd(base: String, first: nat, u: String, close: Option<char>): Option<Vector> {
    var d := DigitRun(u);
    if d == 0 then None
    else if close.Some? && (d == |u| || u[d] != close.value) then None
    else
      assert AllDigits(u[..d]);
      Some(Vector(base, first, DecimalValue(u[..d])))
  }

  /** The name of bit `i` of the vector `base`. */
  function BitName(base: String, open: String, i: nat, close: String): String {
    base + open + NatToDecimal(i) + close
  }

  /** The vector name `base[a:b]`, with `open` and `close` for the brackets. */
  function RangeName(base: String, open: char, a: nat, b: nat, close: char): String {
    base + ([open] + (NatToDecimal(a) + ([':'] + (NatToDecimal(b) + [close]))))
  }

  function Min(a: nat, b: nat): nat {
    if a <= b then a else b
  }

  function Low(v: Vector): nat {
    Min(v.first, v.last)
  }

  /** One copy of `p` per index from the smaller range end to the larger,
      ascending, named `base + open + str(index) + close`. */
  function Expand(p: Pin, v: Vector, open: String, close: String): (r: seq<Pin>)
    ensures |r| == (if v.first <= v.last then v.last - v.first else v.first - v.last) + 1
    ensures forall j :: 0 <= j < |r| ==> r[j] == Pin(BitName(v.base, open, Low(v) + j, close), p.fields)
  {
    var lo := Low(v);
    var hi := if v.first <= v.last then v.last else v.first;
    seq(hi - lo + 1, j requires 0 <= j <= hi - lo => p.(name := BitName(v.base, open, lo + j, close)))
  }

  /** The pins one datasheet pin stands for: a vector `a[0:3]`, `a<0:3>`
      or `a0:3` becomes its bits, anything else stays as it is. */
  function ExpandPin(p: Pin): seq<Pin> {
    match MatchBracketed(p.name, '[', ']')
    case Some(v) => Expand(p, v, "[", "]")
    case None =>
      match MatchBracketed(p.name, '<', '>')
      case Some(v) => Expand(p, v, "<", ">")
      case None =>
        match MatchPlain(p.name)
        case Some(v) => Expand(p, v, "", "")
        case None => [p]
  }

  /** The expanded pin list of `generate_simfiles`, in datasheet order. */
  function ExpandPins(pins: seq<Pin>): seq<Pin>
    decreases |pins|
  {
    if |pins| == 0 then [] else ExpandPin(pins[0]) + ExpandPins(pins[1..])
  }

  lemma IndexOfIs(s: String, x: char, k: nat)
    requires k < |s| && s[k] == x && forall j :: 0 <= j < k ==> s[j] != x
    ensures IndexOf(s, x) == k
  {
  }

  /** A number followed by a non-digit: the digit run is the number. */
  lemma {:induction false} NumberThen(n: nat, c: char, rest: String)
    requires !IsDigit(c)
    ensures var t := NatToDecimal(n) + ([c] + rest);
      var d := DigitRun(t);
      && d == |NatToDecimal(n)| && d < |t| && t[d] == c && t[d + 1..] == rest
      && AllDigits(t[..d]) && DecimalValue(t[..d]) == n
  {
    var da := NatToDecimal(n);
    var t := da + ([c] + rest);
    DigitRunIs(t, |da|);
    assert t[..|da|] == da;
    assert t[|da| + 1..] == rest;
    DecimalRoundTrip(n);
  }

  lemma {:induction false} MatchRangeRoundTrip(base: String, close: char, a: nat, b: nat, tail: String)
    requires close != ':' && !IsDigit(close)
    ensures MatchRange(base, NatToDecimal(a) + ([':'] + (NatToDecimal(b) + ([close] + tail))), Some(close))
      == Some(Vector(base, a, b))
  {
    var u := NatToDecimal(b) + ([close] + tail);
    var t := NatToDecimal(a) + ([':'] + u);
    var d := DigitRun(t);
    assert 0 < d < |t| && t[d] == ':' && t[d + 1..] == u && AllDigits(t[..d]) && DecimalValue(t[..d]) == a by {
      NumberThen(a, ':', u);
    }
    var e := DigitRun(u);
    assert 0 < e < |u| && u[e] == close && AllDigits(u[..e]) && DecimalValue(u[..e]) == b by {
      NumberThen(b, close, tail);
    }
  }

  /** The bracket matcher reads back what a vector name spells. */
  lemma {:induction false} MatchBracketedRoundTrip(base: String, open: char, close: char, a: nat, b: nat, tail: String)
    requires |base| > 0 && open !in base && close != ':' && !IsDigit(close)
    ensures MatchBracketed(base + ([open] + (NatToDecimal(a) + ([':'] + (NatToDecimal(b) + ([close] + tail))))), open, close)
      == Some(Vector(base, a, b))
  {
    var t := NatToDecimal(a) + ([':'] + (NatToDecimal(b) + ([close] + tail)));
    BaseThen(base, open, t);
    assert MatchRange(base, t, Some(close)) == Some(Vector(base, a, b)) by {
      MatchRangeRoundTrip(base, close, a, b, tail);
    }
  }

  /** The first `open` after a base free of it ends the base. */
  lemma {:induction false} BaseThen(base: String, open: char, t: String)
    requires |base| > 0 && open !in base
    ensures var s := base + ([open] + t);
      IndexOf(s, open) == |base| && s[..|base|] == base && s[|base| + 1..] == t
  {
    var s := base + ([open] + t);
    IndexOfIs(s, open, |base|);
    assert s[..|base|] == base;
    assert s[|base| + 1..] == t;
  }

  /** A pin whose name reads as the vector `base[a:b]` expands to
      `|a - b| + 1` pins named `base[i]` for `i` from `min(a, b)` up to
      `max(a, b)`, each keeping the other keys. */
  lemma ExpandPinBracket(p: Pin, v: Vector)
    requires MatchBracketed(p.name, '[', ']') == Some(v)
    ensures var r := ExpandPin(p);
      && |r| == (if v.first <= v.last then v.last - v.first else v.first - v.last) + 1
      && forall j :: 0 <= j < |r| ==> r[j] == Pin(BitName(v.base, "[", Low(v) + j, "]"), p.fields)
  {
  }

  /** A name without ':' is not a vector and is passed through. */
  lemma {:induction false} ExpandScalar(p: Pin)
    requires ':' !in p.name
    ensures ExpandPin(p) == [p]
  {
    NoColonNoMatch(p.name, '[', ']');
    NoColonNoMatch(p.name, '<', '>');
    var s := p.name;
    var i := TextRun(s);
    if 0 < i < |s| {
      var t := s[i..];
      var d1 := DigitRun(t);
      if d1 < |t| {
        assert t[d1] == s[i + d1];
      }
    }
  }

  lemma {:induction false} NoColonNoMatch(s: String, open: char, close: char)
    requires ':' !in s
    ensures MatchBracketed(s, open, close).None?
  {
    var i := IndexOf(s, open);
    if 0 < i < |s| {
      var t := s[i + 1..];
      var d1 := DigitRun(t);
      if d1 < |t| {
        assert t[d1] == s[i + 1 + d1];
      }
    }
  }

  lemma {:induction false} ExpandPinsAppend(a: seq<Pin>, b: seq<Pin>)
    ensures ExpandPins(a + b) == ExpandPins(a) + ExpandPins(b)
    decreases |a|
  {
    if |a| == 0 {
      assert a + b == b;
    } else {
      assert (a + b)[1..] == a[1..] + b;
      ExpandPinsAppend(a[1..], b);
    }
  }

  /** A pin list without vectors is unchanged. */
  lemma {:induction false} ExpandPinsScalars(pins: seq<Pin>)
    requires forall i :: 0 <= i < |pins| ==> ':' !in pins[i].name
    ensures ExpandPins(pins) == pins
    decreases |pins|
  {
    if |pins| > 0 {
      ExpandScalar(pins[0]);
      ExpandPinsScalars(pins[1..]);
    }
  }
}

=== FILE: cdl2spi.dfy ===
/** CDL to SPICE token rewriting (common/cdl2spi.py). A netlist line has
    already been split on white space into tokens; each `Map...` function
    takes the token list and returns the rewritten one. */
module Cdl2Spi {
  import opened Text
  import opened Seqs
  import opened Wrappers

  type Tokens = seq<String>

  /** Tokens produced by `str.split()` are never empty. */
  predicate NonEmptyTokens(tok: Tokens) {
    forall i :: 0 <= i < |tok| ==> tok[i] != []
  }

  predicate HasEq(t: String) { '=' in t }
  predicate NoEq(t: String) { '=' !in t }
  predicate IsDollar(t: String) { StartsWith(t, "$") }

  // ---------------------------------------------------------------------
  // getAreaScale

  /** Decimal exponent of an SI scale suffix (independent reference table). */
  function ScaleExponent(suffix: String): Option<int> {
    if suffix == "m" then Some(-3)
    else if suffix == "u" then Some(-6)
    else if suffix == "n" then Some(-9)
    else if suffix == "p" then Some(-12)
    else if suffix == "f" then Some(-15)
    else if suffix == "a" then Some(-18)
    else None
  }

  /** Suffix for an area when lengths carry suffix `dscale`: the square of
      the linear scale, for the three linear scales the converter knows. */
  function GetAreaScale(dscale: String): (ascale: String)
    ensures ascale != [] ==>
      ScaleExponent(dscale).Some? && ScaleExponent(ascale) == Some(2 * ScaleExponent(dscale).value)
    ensures ascale == [] <==> dscale != "m" && dscale != "u" && dscale != "n"
  {
    if dscale == "m" then "u"
    else if dscale == "u" then "p"
    else if dscale == "n" then "a"
    else ""
  }

  // ---------------------------------------------------------------------
  // uniqInm / mapInm

  /** The table of instance names already used, keyed by the lower-cased
      (subcircuit, instance) pair. */
  type UsedNames = set<(String, String)>

  datatype Named = Named(name: String, used: UsedNames)

  /** `uniqInm` tries at most this many suffixes before giving up. */
  const MaxSuffix: nat := 1000000

  function Candidate(nm: String, i: nat): String {
    nm + "_q" + NatToDecimal(i)
  }

  predicate Taken(used: UsedNames, sub: String, nm: String) {
    (Lower(sub), Lower(nm)) in used
  }

  /** Smallest suffix at or above `i` whose candidate is still free. */
  function FirstFree(used: UsedNames, sub: String, nm: String, i: nat): (r: Option<nat>)
    requires i <= MaxSuffix
    ensures r.Some? ==> i <= r.value < MaxSuffix && !Taken(used, sub, Candidate(nm, r.value))
    ensures r.Some? ==> forall j :: i <= j < r.value ==> Taken(used, sub, Candidate(nm, j))
    ensures r.None? ==> forall j :: i <= j < MaxSuffix ==> Taken(used, sub, Candidate(nm, j))
    decreases MaxSuffix - i
  {
    if i == MaxSuffix then None
    else if !Taken(used, sub, Candidate(nm, i)) then Some(i)
    else FirstFree(used, sub, nm, i + 1)
  }

  /** `uniqInm`: the name itself on first use in the subcircuit, otherwise
      `nm_q<i>` for the smallest unused `i`; comparisons ignore case. The
      returned name is recorded as used. */
  function UniqInm(used: UsedNames, sub: String, nm: String): (r: Result<Named, String>)
    ensures r.Success? ==> !Taken(used, sub, r.value.name)
    ensures r.Success? ==> r.value.used == used + {(Lower(sub), Lower(r.value.name))}
    ensures !Taken(used, sub, nm) ==> r.Success? && r.value.name == nm
    ensures Taken(used, sub, nm) && r.Success? ==>
      exists i :: 0 <= i < MaxSuffix && r.value.name == Candidate(nm, i)
        && forall j :: 0 <= j < i ==> Taken(used, sub, Candidate(nm, j))
    ensures r.Failure? <==>
      Taken(used, sub, nm) && forall j :: 0 <= j < MaxSuffix ==> Taken(used, sub, Candidate(nm, j))
  {
    if !Taken(used, sub, nm) then
      Success(Named(nm, used + {(Lower(sub), Lower(nm))}))
    else
      match FirstFree(used, sub, nm, 0)
      case Some(i) =>
        var nm2 := Candidate(nm, i);
        Success(Named(nm2, used + {(Lower(sub), Lower(nm2))}))
      case None =>
        Failure("uniqInm: range overflow")
  }

  function SlashToBar(c: char): char {
    if c == '/' then '|' else c
  }

  lemma {:induction false} CandidateChars(nm: String, i: nat)
    ensures |Candidate(nm, i)| > |nm|
    ensures Candidate(nm, i)[..|nm|] == nm
    ensures forall k :: |nm| <= k < |Candidate(nm, i)| ==> Candidate(nm, i)[k] != '/'
  {
    var d := NatToDecimal(i);
    assert Candidate(nm, i) == nm + ("_q" + d);
    forall k | |nm| <= k < |Candidate(nm, i)|
      ensures Candidate(nm, i)[k] != '/'
    {
      if k >= |nm| + 2 {
        assert Candidate(nm, i)[k] == d[k - |nm| - 2];
        assert IsDigit(d[k - |nm| - 2]);
      }
    }
  }

  /** `mapInm`: every '/' of the instance name becomes '|' (illegal in
      ngspice names), then the name is made unique. */
  function MapInm(used: UsedNames, sub: String, nm: String): (r: Result<Named, String>)
    ensures r.Success? ==> '/' !in r.value.name
    ensures r.Success? ==> |r.value.name| >= |nm|
    ensures r.Success? ==> forall k :: 0 <= k < |nm| ==> r.value.name[k] == SlashToBar(nm[k])
    ensures r.Success? ==> !Taken(used, sub, r.value.name)
  {
    var nm2 := seq(|nm|, k requires 0 <= k < |nm| => SlashToBar(nm[k]));
    UniqInmName(used, sub, nm2);
    UniqInm(used, sub, nm2)
  }

  /** A unique name starts with the name asked for, and whatever suffix it
      gains holds no '/'. */
  lemma UniqInmName(used: UsedNames, sub: String, nm: String)
    ensures var r := UniqInm(used, sub, nm);
      r.Success? ==>
        && |r.value.name| >= |nm|
        && (forall k :: 0 <= k < |nm| ==> r.value.name[k] == nm[k])
        && (forall k :: |nm| <= k < |r.value.name| ==> r.value.name[k] != '/')
  {
    var r := UniqInm(used, sub, nm);
    if r.Success? && r.value.name != nm {
      var i :| 0 <= i < MaxSuffix && r.value.name == Candidate(nm, i);
      CandidateChars(nm, i);
      assert forall k :: 0 <= k < |nm| ==> r.value.name[k] == r.value.name[..|nm|][k];
    }
  }

  // ---------------------------------------------------------------------
  // mapSubcktDef / mapSubcktInst

  /** Index of the first token at or after `from` that contains '=', or
      `|tok|` when there is none. */
  function FirstAssign(tok: Tokens, from: nat): (r: nat)
    ensures r <= |tok|
    ensures r < |tok| ==> from <= r && HasEq(tok[r])
    ensures forall j :: from <= j < r ==> NoEq(tok[j])
    decreases |tok| - from
  {
    if from >= |tok| then |tok|
    else if HasEq(tok[from]) then from
    else FirstAssign(tok, from + 1)
  }

  /** Index of the first token in [lo, hi) that starts with '/', or `hi`. */
  function FirstSlash(tok: Tokens, lo: nat, hi: nat): (r: nat)
    requires lo <= hi <= |tok| && NonEmptyTokens(tok)
    ensures lo <= r <= hi
    ensures r < hi ==> tok[r][0] == '/'
    ensures forall j :: lo <= j < r ==> tok[j][0] != '/'
    decreases hi - lo
  {
    if lo == hi then hi
    else if tok[lo][0] == '/' then lo
    else FirstSlash(tok, lo + 1, hi)
  }

  /** Token `i` with its leading '/' removed, or dropped if it was "/". */
  function StripSlashAt(tok: Tokens, i: nat): Tokens
    requires i < |tok| && tok[i] != []
  {
    if tok[i][1..] == [] then tok[..i] + tok[i + 1..] else tok[..i] + [tok[i][1..]] + tok[i + 1..]
  }

  /** `mapSubcktDef`: on a `.subckt NAME ...` line, strip the '/' from the
      first token (from the third on, up to and including the first
      parameter assignment) that starts with '/'. */
  function MapSubcktDef(tok: Tokens): (r: Tokens)
    requires NonEmptyTokens(tok)
    ensures |tok| >= 2 ==> |r| >= 2 && r[..2] == tok[..2]
    ensures r == tok || exists i :: (2 <= i < |tok| && i <= FirstAssign(tok, 2)
                                     && tok[i][0] == '/' && (forall j :: 2 <= j < i ==> tok[j][0] != '/')
                                     && r == StripSlashAt(tok, i))
    ensures r == tok <==> forall j :: 2 <= j < |tok| && j <= FirstAssign(tok, 2) ==> tok[j][0] != '/'
  {
    if |tok| <= 2 then tok
    else
      var a := FirstAssign(tok, 2);
      var param0 := if a < |tok| then a + 1 else |tok|;
      var i := FirstSlash(tok, 2, param0);
      if i < param0 then
        var r := StripSlashAt(tok, i);
        assert |r| < |tok| || r[i] != tok[i];
        r
      else tok
  }

  /** Walk back from `k` over standalone "/" tokens, never below index 1. */
  function SkipSlashesBack(tok: Tokens, k: int): (m: int)
    requires -1 <= k < |tok|
    ensures m <= k && -1 <= m
    ensures m > 1 ==> tok[m] != "/"
    ensures m < k ==> 1 <= m
    ensures forall j :: m < j <= k ==> tok[j] == "/"
    decreases k
  {
    if k > 1 && tok[k] == "/" then
      var r := SkipSlashesBack(tok, k - 1);
      assert forall j :: r < j <= k - 1 ==> tok[j] == "/";
      r
    else k
  }

  /** `mapSubcktInst`: on an `xNAME pins... MODEL params...` line, remove a
      standalone "/" just before the model name, or else a '/' butting the
      front of the model name. The model name is the token before the first
      parameter assignment (the last token if there is none), skipping
      standalone "/" tokens. Nothing from the first assignment on changes. */
  function MapSubcktInst(tok: Tokens): (r: Tokens)
    ensures |tok| > 0 ==> |r| > 0 && r[0] == tok[0]
    ensures r == tok
      || (exists k :: 1 <= k < FirstAssign(tok, 1) && tok[k] == "/"
            && r == tok[..k] + tok[k + 1..])
      || (exists k :: 1 <= k < FirstAssign(tok, 1) && StartsWith(tok[k], "/")
            && r == tok[..k] + [tok[k][1..]] + tok[k + 1..]
            && forall j :: k < j < FirstAssign(tok, 1) ==> tok[j] == "/")
  {
    var param0 := FirstAssign(tok, 1);
    var modndx: int := if param0 < |tok| then param0 - 1 else |tok| - 1;
    var m := SkipSlashesBack(tok, modndx);
    var slashndx := m - 1;
    if slashndx > 0 && tok[slashndx] == "/" then
      assert 1 <= slashndx < param0;
      tok[..slashndx] + tok[slashndx + 1..]
    else if m > 0 && StartsWith(tok[m], "/") then
      assert 1 <= m < param0;
      tok[..m] + [tok[m][1..]] + tok[m + 1..]
    else tok
  }

  /** Where `mapSubcktInst` starts looking for the model name: the token
      before the first assignment, or the last token when there is none. */
  function ModelStart(tok: Tokens): int {
    var a := FirstAssign(tok, 1);
    if a < |tok| then a - 1 else |tok| - 1
  }

  /** `m` is the model index of `mapSubcktInst`: at most `ModelStart`, only
      standalone "/" tokens between the two, and the walk back stopped there
      because the token is not "/" or index 1 was reached. */
  predicate ModelIndex(tok: Tokens, m: int) {
    && -1 <= m <= ModelStart(tok)
    && (m < ModelStart(tok) ==> 1 <= m)
    && (m > 1 ==> tok[m] != "/")
    && forall j :: m < j <= ModelStart(tok) ==> tok[j] == "/"
  }

  /** There is one model index, so the cases below are about one token. */
  lemma ModelIndexUnique(tok: Tokens, a: int, b: int)
    requires ModelIndex(tok, a) && ModelIndex(tok, b)
    ensures a == b
  {
  }

  /** What `mapSubcktInst` does, case by case, with `m` the model index: a
      standalone "/" just before the model name is deleted; otherwise a
      model name that starts with '/' loses it; otherwise nothing changes. */
  lemma {:induction false} MapSubcktInstIs(tok: Tokens, m: int)
    requires ModelIndex(tok, m)
    ensures m - 1 > 0 && tok[m - 1] == "/" ==>
      MapSubcktInst(tok) == tok[..m - 1] + tok[m..]
    ensures !(m - 1 > 0 && tok[m - 1] == "/") && m > 0 && StartsWith(tok[m], "/") ==>
      MapSubcktInst(tok) == tok[..m] + [tok[m][1..]] + tok[m + 1..]
    ensures !(m - 1 > 0 && tok[m - 1] == "/") && !(m > 0 && StartsWith(tok[m], "/")) ==>
      MapSubcktInst(tok) == tok
  {
    var k := SkipSlashesBack(tok, ModelStart(tok));
    ModelIndexExists(tok);
    ModelIndexUnique(tok, k, m);
    MapSubcktInstAt(tok, k);
  }

  /** The three cases of `mapSubcktInst` at the index its walk back finds. */
  lemma MapSubcktInstAt(tok: Tokens, m: int)
    requires m == SkipSlashesBack(tok, ModelStart(tok))
    ensures m - 1 > 0 && tok[m - 1] == "/" ==>
      MapSubcktInst(tok) == tok[..m - 1] + tok[m..]
    ensures !(m - 1 > 0 && tok[m - 1] == "/") && m > 0 && StartsWith(tok[m], "/") ==>
      MapSubcktInst(tok) == tok[..m] + [tok[m][1..]] + tok[m + 1..]
    ensures !(m - 1 > 0 && tok[m - 1] == "/") && !(m > 0 && StartsWith(tok[m], "/")) ==>
      MapSubcktInst(tok) == tok
  {
  }

  /** The model index always exists. */
  lemma ModelIndexExists(tok: Tokens)
    ensures ModelIndex(tok, SkipSlashesBack(tok, ModelStart(tok)))
  {
  }

  // ---------------------------------------------------------------------
  // mapCDLparam

  /** Index of the first '=' in `t`, as `str.find`, or `|t|` if absent. */
  function EqIndex(t: String): (e: nat)
    ensures e <= |t|
    ensures e < |t| ==> t[e] == '='
    ensures forall k :: 0 <= k < e ==> t[k] != '='
  {
    IndexOf(t, '=')
  }

  /** A CDL parameter `$name=value` whose name is neither `SUB` nor `.model`
      (any case): the form whose '$' the converter drops. Stated by
      decomposing the token, independently of the scan in `MapParamToken`. */
  predicate IsDollarParam(t: String) {
    exists n: nat :: 1 < n < |t| && t[0] == '$' && t[n] == '=' && '=' !in t[1..n]
      && Lower(t[1..n]) != "sub" && Lower(t[1..n]) != ".model"
  }

  /** The scan in `MapParamToken` recognises exactly the decomposed form. */
  lemma {:induction false} DollarParamByScan(t: String)
    ensures IsDollarParam(t) <==>
      (StartsWith(t, "$") && 1 < EqIndex(t) < |t|
       && Lower(t[1..EqIndex(t)]) != "sub" && Lower(t[1..EqIndex(t)]) != ".model")
  {
    var e := EqIndex(t);
    if IsDollarParam(t) {
      var n: nat :| 1 < n < |t| && t[0] == '$' && t[n] == '=' && '=' !in t[1..n]
        && Lower(t[1..n]) != "sub" && Lower(t[1..n]) != ".model";
      assert forall k :: 1 <= k < n ==> t[1..n][k - 1] == t[k];
    }
    if StartsWith(t, "$") && 1 < e < |t| {
      assert t[0] == "$"[0];
      assert forall k :: 0 <= k < |t[1..e]| ==> t[1..e][k] == t[k + 1];
    }
  }

  function MapParamToken(t: String): (r: String)
    ensures IsDollarParam(t) ==> r == t[1..] && r != t
    ensures !IsDollarParam(t) ==> r == t
  {
    DollarParamByScan(t);
    if !StartsWith(t, "$") then t
    else
      var eqi := EqIndex(t);
      if eqi > 1 && eqi < |t| then
        var pnml := Lower(t[1..eqi]);
        if pnml == "sub" || pnml == ".model" then t else t[1..]
      else t
  }

  /** `mapCDLparam`: drop the '$' of every `$name=value` token after the
      first, except `$SUB=` and `$.model=`; every other token is unchanged. */
  function MapCDLparam(tok: Tokens): (r: Tokens)
    ensures |r| == |tok|
    ensures |tok| > 0 ==> r[0] == tok[0]
    ensures forall i :: 1 <= i < |tok| ==> (r[i] != tok[i] <==> IsDollarParam(tok[i]))
    ensures forall i :: 1 <= i < |tok| && IsDollarParam(tok[i]) ==> r[i] == tok[i][1..]
  {
    seq(|tok|, i requires 0 <= i < |tok| => if i == 0 then tok[0] else MapParamToken(tok[i]))
  }

  // ---------------------------------------------------------------------
  // mapCDLtermModel

  /** A token that is neither a `$` directive nor an assignment: a node,
      a model name or a bare value. */
  predicate IsPositional(t: String) { !IsDollar(t) && NoEq(t) }

  predicate IsSubDirective(t: String) { StartsWith(Lower(t), "$sub=") }
  predicate IsModelDirective(t: String) { StartsWith(Lower(t), "$.model=") }
  predicate IsBracketModel(t: String) { StartsWith(Lower(t), "$[") && EndsWith(Lower(t), "]") }

  lemma {:induction false} BracketModelLength(t: String)
    requires IsBracketModel(t)
    ensures |t| >= 3
  {
    var lt := Lower(t);
    assert lt[..2] == "$[";
    assert lt[|lt| - 1..] == "]";
    assert lt[1] == lt[..2][1] == '[';
    assert lt[|lt| - 1] == lt[|lt| - 1..][0] == ']';
  }

  /** The terminal name `m` can come from `t` (a `$SUB=` directive). */
  predicate TermFrom(t: String, m: String) {
    IsSubDirective(t) && t[5..] == m
  }

  /** The model name `m` can come from `t`: a bare token, `$.model=m` or
      `$[m]`, with the directive key in any case. */
  predicate ModelFrom(t: String, m: String) {
    (IsPositional(t) && t == m)
    || (IsModelDirective(t) && t[8..] == m)
    || (IsBracketModel(t) && |t| >= 3 && t[2..|t| - 1] == m)
  }

  /** The tokens the scan is allowed to remove. */
  predicate Extractable(t: String) {
    IsSubDirective(t) || IsModelDirective(t) || IsBracketModel(t) || IsPositional(t)
  }

  datatype TermModel = TermModel(term: String, model: String, rest: Tokens)

  /** What the scan over `pre` promises, starting from `term` and `model`:
      the first token stays; the others keep their order and only
      extractable tokens are removed; a known terminal or model is kept; a
      new one is taken from some token after the first. */
  predicate ScanSpec(pre: Tokens, term: String, model: String, r: TermModel) {
    && (|pre| > 0 ==> |r.rest| > 0 && r.rest[0] == pre[0])
    && IsSubseq(r.rest, pre)
    && multiset(r.rest) <= multiset(pre)
    && (forall t :: t in multiset(pre) - multiset(r.rest) ==> Extractable(t))
    && (term != "" ==> r.term == term)
    && (model != "" ==> r.model == model)
    && (r.term != term ==> exists i :: 1 <= i < |pre| && TermFrom(pre[i], r.term))
    && (r.model != model ==> exists i :: 1 <= i < |pre| && ModelFrom(pre[i], r.model))
  }

  /** The right-to-left scan of `mapCDLtermModel` over `pre` (indices down
      to 1), starting from the terminal and model found so far. The first
      bare token met while no model is known becomes the model and ends the
      scan; directives are removed, the rightmost one of each kind wins. */
  function ScanTermModel(pre: Tokens, term: String, model: String): (r: TermModel)
    ensures ScanSpec(pre, term, model, r)
    decreases |pre|, 0
  {
    if |pre| <= 1 then
      SubseqRefl(pre);
      TermModel(term, model, pre)
    else
      var last := |pre| - 1;
      var t := pre[last];
      var init := pre[..last];
      assert pre == init + [t];
      if !IsDollar(t) && HasEq(t) then
        KeepLast(init, t, term, model)
      else if !IsDollar(t) && model == "" then
        BareModel(init, t, term, model)
      else if IsSubDirective(t) then
        DropLast(init, t, if term == "" then t[5..] else term, model, term, model)
      else if IsModelDirective(t) then
        DropLast(init, t, term, if model == "" then t[8..] else model, term, model)
      else if IsBracketModel(t) then
        BracketModelLength(t);
        DropLast(init, t, term, if model == "" then t[2..|t| - 1] else model, term, model)
      else
        KeepLast(init, t, term, model)
  }

  /** The bare token `t` becomes the model; the scan ends. */
  function BareModel(init: Tokens, t: String, term: String, model: String): (r: TermModel)
    requires |init| > 0 && IsPositional(t) && model == ""
    ensures ScanSpec(init + [t], term, model, r)
  {
    SubseqRefl(init);
    SubseqExtend(init, init, t);
    assert ModelFrom((init + [t])[|init|], t);
    assert multiset(init + [t]) - multiset(init) == multiset{t};
    TermModel(term, t, init)
  }

  /** The scan keeps the last token and carries on to its left. */
  function KeepLast(init: Tokens, t: String, term: String, model: String): (r: TermModel)
    requires |init| > 0
    ensures ScanSpec(init + [t], term, model, r)
    decreases |init|, 1
  {
    var d := ScanTermModel(init, term, model);
    SubseqSnoc(d.rest, init, t);
    assert multiset(init + [t]) - multiset(d.rest + [t]) == multiset(init) - multiset(d.rest);
    TermFromSnoc(init, t, term, term, d.term);
    ModelFromSnoc(init, t, model, model, d.model);
    d.(rest := d.rest + [t])
  }

  /** The scan removes the directive `t` (the last token), having updated
      the terminal or model from it, and carries on to its left. */
  function DropLast(init: Tokens, t: String, term': String, model': String,
                    term: String, model: String): (r: TermModel)
    requires |init| > 0 && Extractable(t)
    requires term' == term || (term == "" && TermFrom(t, term'))
    requires model' == model || (model == "" && ModelFrom(t, model'))
    ensures ScanSpec(init + [t], term, model, r)
    decreases |init|, 1
  {
    var d := ScanTermModel(init, term', model');
    SubseqExtend(d.rest, init, t);
    var pre := init + [t];
    assert multiset(pre) - multiset(d.rest) == (multiset(init) - multiset(d.rest)) + multiset{t};
    TermFromSnoc(init, t, term, term', d.term);
    ModelFromSnoc(init, t, model, model', d.model);
    d
  }

  /** A terminal found in `init`, or taken from `t`, is found in `init + [t]`. */
  lemma {:induction false} TermFromSnoc(init: Tokens, t: String, term: String, term': String, found: String)
    requires |init| > 0
    requires found != term' ==> exists i :: 1 <= i < |init| && TermFrom(init[i], found)
    requires term' == term || TermFrom(t, term')
    ensures found != term ==> exists i :: 1 <= i < |init| + 1 && TermFrom((init + [t])[i], found)
  {
    var pre := init + [t];
    if found != term {
      if found != term' {
        var i :| 1 <= i < |init| && TermFrom(init[i], found);
        assert pre[i] == init[i];
      } else {
        assert pre[|init|] == t && TermFrom(pre[|init|], found);
      }
    }
  }

  /** A model found in `init`, or taken from `t`, is found in `init + [t]`. */
  lemma {:induction false} ModelFromSnoc(init: Tokens, t: String, model: String, model': String, found: String)
    requires |init| > 0
    requires found != model' ==> exists i :: 1 <= i < |init| && ModelFrom(init[i], found)
    requires model' == model || ModelFrom(t, model')
    ensures found != model ==> exists i :: 1 <= i < |init| + 1 && ModelFrom((init + [t])[i], found)
  {
    var pre := init + [t];
    if found != model {
      if found != model' {
        var i :| 1 <= i < |init| && ModelFrom(init[i], found);
        assert pre[i] == init[i];
      } else {
        assert pre[|init|] == t && ModelFrom(pre[|init|], found);
      }
    }
  }

  /** `mapCDLtermModel`: pull the `$SUB=` terminal and the model name (a bare
      token, `$.model=` or `$[...]`) out of a device line. Missing ones are
      "". The remaining tokens keep their order and only extractable tokens
      are removed. */
  function MapCDLtermModel(tok: Tokens): (r: TermModel)
    ensures |tok| > 0 ==> |r.rest| > 0 && r.rest[0] == tok[0]
    ensures IsSubseq(r.rest, tok)
    ensures forall t :: t in multiset(tok) - multiset(r.rest) ==> Extractable(t)
    ensures r.term != "" ==> exists i :: 1 <= i < |tok| && TermFrom(tok[i], r.term)
    ensures r.model != "" ==> exists i :: 1 <= i < |tok| && ModelFrom(tok[i], r.model)
  {
    ScanTermModel(tok, "", "")
  }

  /** A line `name nodes... MODEL params...` whose parameters are plain
      assignments yields MODEL as the model, no terminal, and loses only
      the model token. */
  lemma {:induction false} TermModelBareModel(front: Tokens, m: String, params: Tokens)
    requires |front| > 0 && IsPositional(m)
    requires forall i :: 0 <= i < |params| ==> !IsDollar(params[i]) && HasEq(params[i])
    ensures MapCDLtermModel(front + [m] + params) == TermModel("", m, front + params)
    decreases |params|
  {
    var tok := front + [m] + params;
    if |params| == 0 {
      assert tok == front + [m];
      ScanBareLast(front, m);
    } else {
      var init := params[..|params| - 1];
      var t := params[|params| - 1];
      TermModelBareModel(front, m, init);
      var pre := front + [m] + init;
      assert tok == pre + [t];
      ScanAssignLast(pre, t);
      assert front + params == (front + init) + [t];
    }
  }

  /** A trailing assignment is kept and the scan carries on to its left. */
  lemma {:induction false} ScanAssignLast(pre: Tokens, t: String)
    requires |pre| > 0 && !IsDollar(t) && HasEq(t)
    ensures var d := ScanTermModel(pre, "", "");
      ScanTermModel(pre + [t], "", "") == d.(rest := d.rest + [t])
  {
    assert (pre + [t])[..|pre|] == pre;
  }

  /** A trailing bare token becomes the model and ends the scan. */
  lemma {:induction false} ScanBareLast(pre: Tokens, m: String)
    requires |pre| > 0 && IsPositional(m)
    ensures ScanTermModel(pre + [m], "", "") == TermModel("", m, pre)
  {
    assert (pre + [m])[..|pre|] == pre;
  }

  // The directives after the model name, described from the right.

  predicate IsDirective(t: String) {
    IsSubDirective(t) || IsModelDirective(t) || IsBracketModel(t)
  }

  /** The model name a `$.model=` or `$[...]` directive gives. */
  function ModelValue(t: String): String
    requires IsModelDirective(t) || IsBracketModel(t)
  {
    if IsModelDirective(t) then t[8..]
    else
      BracketModelLength(t);
      t[2..|t| - 1]
  }

  /** The value of the rightmost `$SUB=` directive whose value is not
      empty, or "". */
  function RightmostSub(ds: Tokens): String {
    if |ds| == 0 then ""
    else
      var t := ds[|ds| - 1];
      if IsSubDirective(t) && t[5..] != "" then t[5..] else RightmostSub(ds[..|ds| - 1])
  }

  /** The value of the rightmost model directive whose value is not empty,
      or "". */
  function RightmostModel(ds: Tokens): String {
    if |ds| == 0 then ""
    else
      var t := ds[|ds| - 1];
      if (IsModelDirective(t) || IsBracketModel(t)) && ModelValue(t) != "" then ModelValue(t)
      else RightmostModel(ds[..|ds| - 1])
  }

  /** The tokens that are not directives, in order. */
  function DropDirectives(ds: Tokens): (r: Tokens)
    ensures forall i :: 0 <= i < |r| ==> !IsDirective(r[i])
  {
    if |ds| == 0 then []
    else
      var t := ds[|ds| - 1];
      if IsDirective(t) then DropDirectives(ds[..|ds| - 1]) else DropDirectives(ds[..|ds| - 1]) + [t]
  }

  function FirstNonEmpty(a: String, b: String): String {
    if a != "" then a else b
  }

  /** A directive starts with '$', and the three kinds of directive
      differ in their second character. */
  lemma DirectiveKinds(t: String)
    ensures IsDirective(t) ==> IsDollar(t)
    ensures IsSubDirective(t) ==> !IsModelDirective(t) && !IsBracketModel(t)
    ensures IsModelDirective(t) ==> !IsBracketModel(t)
  {
    if IsDirective(t) {
      assert Lower(t)[0] == '$';
      assert LowerChar(t[0]) == '$';
      assert IsSubDirective(t) ==> Lower(t)[1] == 's';
      assert IsModelDirective(t) ==> Lower(t)[1] == '.';
      assert IsBracketModel(t) ==> Lower(t)[1] == '[';
    }
  }

  /** A trailing `$SUB=` directive leaves the line and sets the terminal if
      none is known. */
  lemma {:induction false} ScanSubLast(pre: Tokens, t: String, term: String, model: String)
    requires |pre| > 0 && IsSubDirective(t)
    ensures ScanTermModel(pre + [t], term, model)
         == ScanTermModel(pre, if term == "" then t[5..] else term, model)
  {
    DirectiveKinds(t);
    assert (pre + [t])[..|pre|] == pre;
  }

  /** A trailing model directive leaves the line and sets the model if none
      is known. */
  lemma {:induction false} ScanModelLast(pre: Tokens, t: String, term: String, model: String)
    requires |pre| > 0 && (IsModelDirective(t) || IsBracketModel(t))
    ensures ScanTermModel(pre + [t], term, model)
         == ScanTermModel(pre, term, if model == "" then ModelValue(t) else model)
  {
    DirectiveKinds(t);
    assert (pre + [t])[..|pre|] == pre;
  }

  /** A trailing token that is neither bare nor a directive stays, and the
      scan carries on to its left. */
  lemma {:induction false} ScanKeepLast(pre: Tokens, t: String, term: String, model: String)
    requires |pre| > 0 && !IsDirective(t) && (!IsPositional(t) || model != "")
    ensures var d := ScanTermModel(pre, term, model);
      ScanTermModel(pre + [t], term, model) == d.(rest := d.rest + [t])
  {
    assert (pre + [t])[..|pre|] == pre;
  }

  /** The scan over tokens none of which is bare: the directives are
      removed, everything else stays, and a terminal or model not yet known
      is the rightmost non-empty one. */
  lemma {:induction false} ScanDirectives(pre: Tokens, ds: Tokens, term: String, model: String)
    requires |pre| > 0
    requires forall i :: 0 <= i < |ds| ==> !IsPositional(ds[i])
    ensures var d := ScanTermModel(pre, FirstNonEmpty(term, RightmostSub(ds)),
                                        FirstNonEmpty(model, RightmostModel(ds)));
      ScanTermModel(pre + ds, term, model) == d.(rest := d.rest + DropDirectives(ds))
    decreases |ds|
  {
    if |ds| == 0 {
      assert pre + ds == pre;
    } else {
      var init := ds[..|ds| - 1];
      var t := ds[|ds| - 1];
      assert ds == init + [t];
      assert pre + ds == pre + init + [t];
      if IsSubDirective(t) {
        ScanSubDirective(pre, init, t, term, model);
      } else if IsModelDirective(t) || IsBracketModel(t) {
        ScanModelDirective(pre, init, t, term, model);
      } else {
        ScanOtherToken(pre, init, t, term, model);
      }
    }
  }

  lemma {:induction false} ScanOtherToken(pre: Tokens, init: Tokens, t: String, term: String, model: String)
    requires |pre| > 0 && !IsPositional(t)
    requires !IsSubDirective(t) && !IsModelDirective(t) && !IsBracketModel(t)
    requires forall i :: 0 <= i < |init| ==> !IsPositional(init[i])
    ensures var ds := init + [t];
      var d := ScanTermModel(pre, FirstNonEmpty(term, RightmostSub(ds)),
                                  FirstNonEmpty(model, RightmostModel(ds)));
      ScanTermModel(pre + init + [t], term, model) == d.(rest := d.rest + DropDirectives(ds))
    decreases |init| + 1, 0
  {
    var ds := init + [t];
    assert ds[..|ds| - 1] == init && ds[|ds| - 1] == t;
    DirectiveKinds(t);
    ScanKeepLast(pre + init, t, term, model);
    ScanDirectives(pre, init, term, model);
    assert RightmostSub(ds) == RightmostSub(init);
    assert RightmostModel(ds) == RightmostModel(init);
    assert DropDirectives(ds) == DropDirectives(init) + [t];
  }

  lemma {:induction false} ScanSubDirective(pre: Tokens, init: Tokens, t: String, term: String, model: String)
    requires |pre| > 0 && IsSubDirective(t)
    requires forall i :: 0 <= i < |init| ==> !IsPositional(init[i])
    ensures var ds := init + [t];
      var d := ScanTermModel(pre, FirstNonEmpty(term, RightmostSub(ds)),
                                  FirstNonEmpty(model, RightmostModel(ds)));
      ScanTermModel(pre + init + [t], term, model) == d.(rest := d.rest + DropDirectives(ds))
    decreases |init| + 1, 0
  {
    var ds := init + [t];
    assert ds[..|ds| - 1] == init && ds[|ds| - 1] == t;
    DirectiveKinds(t);
    var term' := if term == "" then t[5..] else term;
    ScanSubLast(pre + init, t, term, model);
    ScanDirectives(pre, init, term', model);
    assert FirstNonEmpty(term', RightmostSub(init)) == FirstNonEmpty(term, RightmostSub(ds));
    assert RightmostModel(ds) == RightmostModel(init);
    assert DropDirectives(ds) == DropDirectives(init);
  }

  lemma {:induction false} ScanModelDirective(pre: Tokens, init: Tokens, t: String, term: String, model: String)
    requires |pre| > 0 && (IsModelDirective(t) || IsBracketModel(t))
    requires forall i :: 0 <= i < |init| ==> !IsPositional(init[i])
    ensures var ds := init + [t];
      var d := ScanTermModel(pre, FirstNonEmpty(term, RightmostSub(ds)),
                                  FirstNonEmpty(model, RightmostModel(ds)));
      ScanTermModel(pre + init + [t], term, model) == d.(rest := d.rest + DropDirectives(ds))
    decreases |init| + 1, 0
  {
    var ds := init + [t];
    assert ds[..|ds| - 1] == init && ds[|ds| - 1] == t;
    DirectiveKinds(t);
    var model' := if model == "" then ModelValue(t) else model;
    ScanModelLast(pre + init, t, term, model);
    ScanDirectives(pre, init, term, model');
    assert FirstNonEmpty(model', RightmostModel(init)) == FirstNonEmpty(model, RightmostModel(ds));
    assert RightmostSub(ds) == RightmostSub(init);
    assert DropDirectives(ds) == DropDirectives(init);
  }

  /** Node tokens are kept once the model is known. */
  lemma {:induction false} ScanNodes(front: Tokens, term: String, model: String)
    requires |front| > 0 && model != ""
    requires forall i :: 1 <= i < |front| ==> IsPositional(front[i])
    ensures ScanTermModel(front, term, model) == TermModel(term, model, front)
    decreases |front|
  {
    if |front| > 1 {
      var init := front[..|front| - 1];
      var t := front[|front| - 1];
      assert front == init + [t];
      DirectiveKinds(t);
      ScanNodes(init, term, model);
      ScanKeepLast(init, t, term, model);
    }
  }

  /** A bare token while no model is known becomes the model and ends the
      scan, whatever terminal is known. */
  lemma {:induction false} ScanBareModel(front: Tokens, m: String, term: String)
    requires |front| > 0 && IsPositional(m)
    ensures ScanTermModel(front + [m], term, "") == TermModel(term, m, front)
  {
    assert (front + [m])[..|front|] == front;
  }

  /** A device line `name nodes... MODEL tail...` whose tail has no bare
      token: the terminal is the rightmost non-empty `$SUB=` of the tail;
      the model is the rightmost non-empty `$.model=` or `$[...]` of the
      tail, and MODEL only when there is none (MODEL then leaves the line);
      the directives leave the line and every other token stays in order. */
  lemma {:induction false} TermModelDirectives(front: Tokens, m: String, ds: Tokens)
    requires |front| > 0 && IsPositional(m)
    requires forall i :: 1 <= i < |front| ==> IsPositional(front[i])
    requires forall i :: 0 <= i < |ds| ==> !IsPositional(ds[i])
    ensures var r := MapCDLtermModel(front + [m] + ds);
      && r.term == RightmostSub(ds)
      && r.model == (if RightmostModel(ds) != "" then RightmostModel(ds) else m)
      && r.rest == (if RightmostModel(ds) != "" then front + [m] else front) + DropDirectives(ds)
  {
    if RightmostModel(ds) != "" {
      TermModelNamed(front, m, ds);
    } else {
      TermModelBare(front, m, ds);
    }
  }

  /** The case of `TermModelDirectives` where a directive names the model. */
  lemma {:induction false} TermModelNamed(front: Tokens, m: String, ds: Tokens)
    requires |front| > 0 && IsPositional(m)
    requires forall i :: 1 <= i < |front| ==> IsPositional(front[i])
    requires forall i :: 0 <= i < |ds| ==> !IsPositional(ds[i])
    requires RightmostModel(ds) != ""
    ensures MapCDLtermModel(front + [m] + ds)
      == TermModel(RightmostSub(ds), RightmostModel(ds), front + [m] + DropDirectives(ds))
  {
    var term := RightmostSub(ds);
    var model := RightmostModel(ds);
    ScanDirectives(front + [m], ds, "", "");
    assert FirstNonEmpty("", term) == term && FirstNonEmpty("", model) == model;
    ScanNodes(front + [m], term, model);
  }

  /** The case of `TermModelDirectives` where MODEL is the model. */
  lemma {:induction false} TermModelBare(front: Tokens, m: String, ds: Tokens)
    requires |front| > 0 && IsPositional(m)
    requires forall i :: 0 <= i < |ds| ==> !IsPositional(ds[i])
    requires RightmostModel(ds) == ""
    ensures MapCDLtermModel(front + [m] + ds)
      == TermModel(RightmostSub(ds), m, front + DropDirectives(ds))
  {
    var term := RightmostSub(ds);
    ScanDirectives(front + [m], ds, "", "");
    assert FirstNonEmpty("", term) == term && FirstNonEmpty("", "") == "";
    ScanBareModel(front, m, term);
  }

  // ---------------------------------------------------------------------
  // mapDiscard / mapPartAssign

  predicate NotDollar(t: String) { !IsDollar(t) }
  predicate IsDollarAssign(t: String) { IsDollar(t) && HasEq(t) }
  predicate IsDollarDirective(t: String) { IsDollar(t) && NoEq(t) }

  datatype Discarded = Discarded(assign: Tokens, directive: Tokens, rest: Tokens)

  /** `mapDiscard`: move every `$` token after the first into `assign`
      (those with '=') or `directive` (the others). The source walks the
      line from the right, so both lists come out in reverse line order. */
  function MapDiscard(tok: Tokens): (r: Discarded)
    ensures |tok| > 0 ==> |r.rest| > 0 && r.rest[0] == tok[0]
    ensures |r.assign| + |r.directive| + |r.rest| == |tok|
    decreases |tok|
  {
    if |tok| <= 1 then Discarded([], [], tok)
    else
      var t := tok[|tok| - 1];
      var d := MapDiscard(tok[..|tok| - 1]);
      if !IsDollar(t) then d.(rest := d.rest + [t])
      else if HasEq(t) then d.(assign := [t] + d.assign)
      else d.(directive := [t] + d.directive)
  }

  /** The right-to-left walk of `mapDiscard` agrees with an order-preserving
      filter: the rest is the first token and the non-`$` tokens after it,
      and the two `$` lists are the matching tokens reversed. */
  lemma {:induction false} DiscardRestByFilter(tok: Tokens)
    requires |tok| > 0
    ensures MapDiscard(tok).rest == [tok[0]] + Filter(tok[1..], NotDollar)
    decreases |tok|
  {
    if |tok| > 1 {
      var t := tok[|tok| - 1];
      var init := tok[..|tok| - 1];
      DiscardRestByFilter(init);
      assert tok[1..] == init[1..] + [t];
      FilterSnoc(init[1..], t, NotDollar);
    }
  }

  lemma {:induction false} DiscardAssignByFilter(tok: Tokens)
    requires |tok| > 0
    ensures MapDiscard(tok).assign == Reverse(Filter(tok[1..], IsDollarAssign))
    decreases |tok|
  {
    if |tok| > 1 {
      var t := tok[|tok| - 1];
      var init := tok[..|tok| - 1];
      DiscardAssignByFilter(init);
      assert tok[1..] == init[1..] + [t];
      FilterSnoc(init[1..], t, IsDollarAssign);
      if IsDollarAssign(t) {
        ReverseSnoc(Filter(init[1..], IsDollarAssign), t);
      }
    }
  }

  lemma {:induction false} DiscardDirectiveByFilter(tok: Tokens)
    requires |tok| > 0
    ensures MapDiscard(tok).directive == Reverse(Filter(tok[1..], IsDollarDirective))
    decreases |tok|
  {
    if |tok| > 1 {
      var t := tok[|tok| - 1];
      var init := tok[..|tok| - 1];
      DiscardDirectiveByFilter(init);
      assert tok[1..] == init[1..] + [t];
      FilterSnoc(init[1..], t, IsDollarDirective);
      if IsDollarDirective(t) {
        ReverseSnoc(Filter(init[1..], IsDollarDirective), t);
      }
    }
  }

  /** Nothing is lost by `mapDiscard`: the three lists together hold the
      input's tokens. */
  lemma {:induction false} DiscardKeepsAll(tok: Tokens)
    ensures var r := MapDiscard(tok);
      multiset(r.assign) + multiset(r.directive) + multiset(r.rest) == multiset(tok)
    decreases |tok|
  {
    if |tok| > 1 {
      var t := tok[|tok| - 1];
      var init := tok[..|tok| - 1];
      var d := MapDiscard(init);
      DiscardKeepsAll(init);
      assert tok == init + [t];
      var r := MapDiscard(tok);
      if !IsDollar(t) {
        assert r == d.(rest := d.rest + [t]);
      } else if HasEq(t) {
        assert r == d.(assign := [t] + d.assign);
      } else {
        assert r == d.(directive := [t] + d.directive);
      }
      assert multiset(r.assign) + multiset(r.directive) + multiset(r.rest)
        == multiset(d.assign) + multiset(d.directive) + multiset(d.rest) + multiset{t};
    }
  }

  /** No `$` token is left after the first. */
  lemma {:induction false} DiscardNoDollar(tok: Tokens)
    ensures forall i :: 1 <= i < |MapDiscard(tok).rest| ==> !IsDollar(MapDiscard(tok).rest[i])
  {
    if |tok| > 0 {
      DiscardRestByFilter(tok);
      var f := Filter(tok[1..], NotDollar);
      assert forall i :: 1 <= i < |MapDiscard(tok).rest| ==> MapDiscard(tok).rest[i] == f[i - 1];
    }
  }

  datatype Parts = Parts(assign: Tokens, nona: Tokens)

  /** `mapPartAssign`: split a token slice into assignments and the rest,
      each part in input order. */
  function MapPartAssign(tok: Tokens): (r: Parts)
    ensures forall i :: 0 <= i < |r.assign| ==> HasEq(r.assign[i])
    ensures forall i :: 0 <= i < |r.nona| ==> NoEq(r.nona[i])
    ensures IsSubseq(r.assign, tok) && IsSubseq(r.nona, tok)
  {
    FilterIsSubseq(tok, HasEq);
    FilterIsSubseq(tok, NoEq);
    Parts(Filter(tok, HasEq), Filter(tok, NoEq))
  }

  /** The two parts together hold every token, counted with multiplicity. */
  lemma {:induction false} PartAssignKeepsAll(tok: Tokens)
    ensures var r := MapPartAssign(tok);
      |r.assign| + |r.nona| == |tok| && multiset(r.assign) + multiset(r.nona) == multiset(tok)
  {
    FilterPartition(tok, HasEq, NoEq);
  }

  // ---------------------------------------------------------------------
  // mapLookup

  /** `t` is an assignment `nm=...`, the name compared case-insensitively. */
  predicate AssignsTo(t: String, nm: String)
    ensures AssignsTo(t, nm) ==> |nm| + 1 <= |t|
  {
    StartsWithCI(t, nm + "=")
  }

  function ValueOf(t: String, nm: String): String
    requires AssignsTo(t, nm)
  {
    t[|nm| + 1..]
  }

  lemma {:induction false} AssignsHasEq(t: String, nm: String)
    requires AssignsTo(t, nm)
    ensures HasEq(t)
  {
    StartsWithCIAt(t, nm + "=", |nm|);
    assert LowerChar(t[|nm|]) == '=';
    assert t[|nm|] == '=';
  }

  datatype Found = Found(value: String, rest: Tokens)

  /** `mapLookup`: the value of an `nm=` token after the first token, and
      with `edit` the line without those tokens. The source walks from the
      right and records a value only while it still holds "", so the value
      comes from the rightmost `nm=` token whose value is not empty. */
  function MapLookup(tok: Tokens, nm: String, edit: bool): (r: Found)
    ensures !edit ==> r.rest == tok
    ensures |tok| > 0 ==> |r.rest| > 0 && r.rest[0] == tok[0]
    ensures |r.rest| <= |tok|
    decreases |tok|
  {
    if |tok| <= 1 then Found("", tok)
    else
      var t := tok[|tok| - 1];
      var d := MapLookup(tok[..|tok| - 1], nm, edit);
      var hit := AssignsTo(t, nm);
      var value := if hit && ValueOf(t, nm) != "" then ValueOf(t, nm) else d.value;
      Found(value, if hit && edit then d.rest else d.rest + [t])
  }

  /** The rightmost `nm=` token of `tok` (after the first) with a
      non-empty value is at index `i`. */
  predicate LastValueAt(tok: Tokens, nm: String, i: nat) {
    1 <= i < |tok| && AssignsTo(tok[i], nm) && ValueOf(tok[i], nm) != ""
    && forall j :: i < j < |tok| && AssignsTo(tok[j], nm) ==> ValueOf(tok[j], nm) == ""
  }

  /** A non-empty value found is that of the rightmost `nm=` token with a
      non-empty value. */
  lemma {:induction false} LookupValueFound(tok: Tokens, nm: String, edit: bool)
    ensures var v := MapLookup(tok, nm, edit).value;
      v != "" ==> exists i: nat :: LastValueAt(tok, nm, i) && ValueOf(tok[i], nm) == v
    decreases |tok|
  {
    if |tok| > 1 {
      var t := tok[|tok| - 1];
      var init := tok[..|tok| - 1];
      var v := MapLookup(tok, nm, edit).value;
      if AssignsTo(t, nm) && ValueOf(t, nm) != "" {
        assert LastValueAt(tok, nm, |tok| - 1);
      } else if v != "" {
        assert v == MapLookup(init, nm, edit).value;
        LookupValueFound(init, nm, edit);
        var i: nat :| LastValueAt(init, nm, i) && ValueOf(init[i], nm) == v;
        assert tok == init + [t];
        LastValueAtSnoc(init, t, nm, i);
      }
    }
  }

  /** The other direction: when the rightmost `nm=` token with a non-empty
      value is at index `i`, its value is the one found. */
  lemma {:induction false} LookupValueIs(tok: Tokens, nm: String, edit: bool, i: nat)
    requires LastValueAt(tok, nm, i)
    ensures MapLookup(tok, nm, edit).value == ValueOf(tok[i], nm)
    decreases |tok|
  {
    if i < |tok| - 1 {
      var init := tok[..|tok| - 1];
      assert init[i] == tok[i];
      assert LastValueAt(init, nm, i) by {
        forall j | i < j < |init| && AssignsTo(init[j], nm)
          ensures ValueOf(init[j], nm) == ""
        {
          assert init[j] == tok[j];
        }
      }
      LookupValueIs(init, nm, edit, i);
    }
  }

  lemma {:induction false} LastValueAtSnoc(init: Tokens, t: String, nm: String, i: nat)
    requires LastValueAt(init, nm, i)
    requires !(AssignsTo(t, nm) && ValueOf(t, nm) != "")
    ensures LastValueAt(init + [t], nm, i) && (init + [t])[i] == init[i]
  {
    var tok := init + [t];
    forall j | i < j < |tok| && AssignsTo(tok[j], nm)
      ensures ValueOf(tok[j], nm) == ""
    {
      if j < |init| {
        assert tok[j] == init[j];
      }
    }
  }

  /** The value is "" when no `nm=` token has a non-empty value. */
  lemma {:induction false} LookupValueEmpty(tok: Tokens, nm: String, edit: bool)
    requires forall i :: 1 <= i < |tok| && AssignsTo(tok[i], nm) ==> ValueOf(tok[i], nm) == ""
    ensures MapLookup(tok, nm, edit).value == ""
    decreases |tok|
  {
    if |tok| > 1 {
      var init := tok[..|tok| - 1];
      assert forall i :: 1 <= i < |init| ==> init[i] == tok[i];
      LookupValueEmpty(init, nm, edit);
      assert AssignsTo(tok[|tok| - 1], nm) ==> ValueOf(tok[|tok| - 1], nm) == "";
    }
  }

  /** The tokens a lookup leaves are in their original order. */
  lemma {:induction false} LookupKeepsOrder(tok: Tokens, nm: String, edit: bool)
    ensures IsSubseq(MapLookup(tok, nm, edit).rest, tok)
    decreases |tok|
  {
    if |tok| <= 1 {
      SubseqRefl(tok);
    } else {
      var t := tok[|tok| - 1];
      var init := tok[..|tok| - 1];
      var d := MapLookup(init, nm, edit);
      LookupKeepsOrder(init, nm, edit);
      assert tok == init + [t];
      if AssignsTo(t, nm) && edit {
        SubseqExtend(d.rest, init, t);
      } else {
        SubseqSnoc(d.rest, init, t);
      }
    }
  }

  /** The tokens of `s` that do not assign to `nm`, in order: the
      reference for what an editing lookup leaves after the first token. */
  function DropKey(s: Tokens, nm: String): Tokens
    decreases |s|
  {
    if |s| == 0 then []
    else if AssignsTo(s[0], nm) then DropKey(s[1..], nm)
    else [s[0]] + DropKey(s[1..], nm)
  }

  /** Nothing that assigns to `nm` is left. */
  lemma {:induction false} DropKeyRemovesKey(s: Tokens, nm: String, x: String)
    requires x in DropKey(s, nm)
    ensures x in s && !AssignsTo(x, nm)
    decreases |s|
  {
    if AssignsTo(s[0], nm) || x != s[0] {
      DropKeyRemovesKey(s[1..], nm, x);
    }
  }

  lemma {:induction false} DropKeyAppend(a: Tokens, b: Tokens, nm: String)
    ensures DropKey(a + b, nm) == DropKey(a, nm) + DropKey(b, nm)
    decreases |a|
  {
    if |a| > 0 {
      assert (a + b)[0] == a[0] && (a + b)[1..] == a[1..] + b;
      DropKeyAppend(a[1..], b, nm);
    } else {
      assert a + b == b;
    }
  }

  /** Tokens without '=' never assign, so none of them is dropped. */
  lemma {:induction false} DropKeyKeepsPlain(s: Tokens, nm: String)
    ensures Filter(DropKey(s, nm), NoEq) == Filter(s, NoEq)
    decreases |s|
  {
    if |s| > 0 {
      DropKeyKeepsPlain(s[1..], nm);
      if AssignsTo(s[0], nm) {
        AssignsHasEq(s[0], nm);
      }
    }
  }

  lemma {:induction false} DropKeyNoAssignments(s: Tokens, nm: String)
    requires forall i :: 0 <= i < |s| ==> NoEq(s[i])
    ensures DropKey(s, nm) == s
    decreases |s|
  {
    if |s| > 0 {
      if AssignsTo(s[0], nm) {
        AssignsHasEq(s[0], nm);
      }
      DropKeyNoAssignments(s[1..], nm);
      assert s == [s[0]] + s[1..];
    }
  }

  /** The right-to-left walk of an editing `mapLookup` keeps the first token
      and exactly the later tokens that do not assign to `nm`. */
  lemma {:induction false} LookupRestByDropKey(tok: Tokens, nm: String)
    requires |tok| > 0
    ensures MapLookup(tok, nm, true).rest == [tok[0]] + DropKey(tok[1..], nm)
    decreases |tok|
  {
    if |tok| > 1 {
      var t := tok[|tok| - 1];
      var init := tok[..|tok| - 1];
      LookupRestByDropKey(init, nm);
      assert tok[1..] == init[1..] + [t];
      DropKeyAppend(init[1..], [t], nm);
      assert [t][1..] == [];
    }
  }

  datatype Options = Options(dscale: String, ignore: seq<String>)

  datatype Looked = Looked(values: seq<String>, rest: Tokens)

  /** A run of editing lookups, one per key, in order; `values[k]` is what
      the lookup of `keys[k]` found. */
  function LookupAll(tok: Tokens, keys: seq<String>): (r: Looked)
    ensures |r.values| == |keys|
    ensures |keys| > 0 ==> r.values[0] == MapLookup(tok, keys[0], true).value
    ensures |tok| > 0 ==> |r.rest| > 0 && r.rest[0] == tok[0]
    ensures |r.rest| <= |tok|
    decreases |keys|
  {
    if |keys| == 0 then Looked([], tok)
    else
      var f := MapLookup(tok, keys[0], true);
      var more := LookupAll(f.rest, keys[1..]);
      Looked([f.value] + more.values, more.rest)
  }

  /** `DropKey` for every key in turn. */
  function DropKeys(s: Tokens, keys: seq<String>): Tokens
    decreases |keys|
  {
    if |keys| == 0 then s else DropKeys(DropKey(s, keys[0]), keys[1..])
  }

  /** What is left comes from `s` and assigns to none of the keys. */
  lemma {:induction false} DropKeysRemovesKeys(s: Tokens, keys: seq<String>, x: String)
    requires x in DropKeys(s, keys)
    ensures x in s
    ensures forall k :: 0 <= k < |keys| ==> !AssignsTo(x, keys[k])
    decreases |keys|
  {
    if |keys| > 0 {
      var d := DropKey(s, keys[0]);
      DropKeysRemovesKeys(d, keys[1..], x);
      DropKeyRemovesKey(s, keys[0], x);
      assert forall k :: 1 <= k < |keys| ==> keys[k] == keys[1..][k - 1];
    }
  }

  lemma {:induction false} DropKeysAppend(a: Tokens, b: Tokens, keys: seq<String>)
    ensures DropKeys(a + b, keys) == DropKeys(a, keys) + DropKeys(b, keys)
    decreases |keys|
  {
    if |keys| > 0 {
      DropKeyAppend(a, b, keys[0]);
      DropKeysAppend(DropKey(a, keys[0]), DropKey(b, keys[0]), keys[1..]);
    }
  }

  lemma {:induction false} DropKeysKeepsPlain(s: Tokens, keys: seq<String>)
    ensures Filter(DropKeys(s, keys), NoEq) == Filter(s, NoEq)
    decreases |keys|
  {
    if |keys| > 0 {
      DropKeyKeepsPlain(s, keys[0]);
      DropKeysKeepsPlain(DropKey(s, keys[0]), keys[1..]);
    }
  }

  lemma {:induction false} DropKeysNoAssignments(s: Tokens, keys: seq<String>)
    requires forall i :: 0 <= i < |s| ==> NoEq(s[i])
    ensures DropKeys(s, keys) == s
    decreases |keys|
  {
    if |keys| > 0 {
      DropKeyNoAssignments(s, keys[0]);
      DropKeysNoAssignments(s, keys[1..]);
    }
  }

  lemma {:induction false} LookupAllByDropKeys(tok: Tokens, keys: seq<String>)
    requires |tok| > 0
    ensures LookupAll(tok, keys).rest == [tok[0]] + DropKeys(tok[1..], keys)
    decreases |keys|
  {
    if |keys| > 0 {
      var f := MapLookup(tok, keys[0], true);
      LookupRestByDropKey(tok, keys[0]);
      LookupAllByDropKeys(f.rest, keys[1..]);
      assert f.rest[1..] == DropKey(tok[1..], keys[0]);
    }
  }

  // ---------------------------------------------------------------------
  // mapMos / mapRes

  /** The first `k` tokens are positional: the instance name, then nodes
      (and for a MOSFET the model name), none a `$` directive or an
      assignment. The caller has checked that there are `k` of them. */
  predicate PositionalHead(tok: Tokens, k: nat) {
    1 <= k <= |tok| && forall i :: 1 <= i < k ==> IsPositional(tok[i])
  }

  /** The bare values given after the first `k` tokens, in order. */
  function Plain(tok: Tokens, k: nat): Tokens
    requires k <= |tok|
  {
    Filter(tok[k..], IsPositional)
  }

  /** What survives the `$` discard and the editing lookups. */
  function Stripped(tok: Tokens, keys: seq<String>): Tokens {
    LookupAll(MapDiscard(tok).rest, keys).rest
  }

  lemma {:induction false} DiscardHead(tok: Tokens, k: nat)
    requires PositionalHead(tok, k)
    ensures MapDiscard(tok).rest == tok[..k] + Filter(tok[k..], NotDollar)
  {
    var h := tok[1..k];
    var tail := tok[k..];
    calc {
      MapDiscard(tok).rest;
      == { DiscardRestByFilter(tok); }
      [tok[0]] + Filter(tok[1..], NotDollar);
      == { assert tok[1..] == h + tail; FilterAppend(h, tail, NotDollar); }
      [tok[0]] + (Filter(h, NotDollar) + Filter(tail, NotDollar));
      == { assert forall i :: 0 <= i < |h| ==> h[i] == tok[i + 1];
           FilterAllKept(h, NotDollar); }
      [tok[0]] + (h + Filter(tail, NotDollar));
      == { assert [tok[0]] + h == tok[..k]; }
      tok[..k] + Filter(tail, NotDollar);
    }
  }

  lemma {:induction false} LookupAllHead(d: Tokens, keys: seq<String>, k: nat)
    requires 1 <= k <= |d|
    requires forall i :: 1 <= i < k ==> NoEq(d[i])
    ensures LookupAll(d, keys).rest == d[..k] + DropKeys(d[k..], keys)
  {
    var h := d[1..k];
    var tail := d[k..];
    calc {
      LookupAll(d, keys).rest;
      == { LookupAllByDropKeys(d, keys); }
      [d[0]] + DropKeys(d[1..], keys);
      == { assert d[1..] == h + tail; DropKeysAppend(h, tail, keys); }
      [d[0]] + (DropKeys(h, keys) + DropKeys(tail, keys));
      == { DropKeysNoAssignments(h, keys); }
      [d[0]] + (h + DropKeys(tail, keys));
      == { assert [d[0]] + h == d[..k]; }
      d[..k] + DropKeys(tail, keys);
    }
  }

  /** The discard and the lookups keep a positional head in place and,
      behind it, keep the bare values in order. */
  lemma {:induction false} StrippedHead(tok: Tokens, keys: seq<String>, k: nat)
    requires PositionalHead(tok, k)
    ensures var t := Stripped(tok, keys);
      k <= |t| && t[..k] == tok[..k] && t[k..] == DropKeys(Filter(tok[k..], NotDollar), keys)
    ensures var t := Stripped(tok, keys);
      k <= |t| && Filter(t[k..], NoEq) == Plain(tok, k)
  {
    var f := Filter(tok[k..], NotDollar);
    var d := tok[..k] + f;
    DiscardHead(tok, k);
    assert forall i :: 1 <= i < k ==> d[i] == tok[i];
    LookupAllHead(d, keys, k);
    assert d[..k] == tok[..k] && d[k..] == f;
    var t := Stripped(tok, keys);
    assert t == tok[..k] + DropKeys(f, keys);
    assert t[k..] == DropKeys(f, keys);
    DropKeysKeepsPlain(f, keys);
    FilterCompose(tok[k..], NotDollar, NoEq, IsPositional);
  }

  /** Behind a positional head nothing is added and no `$` token is left. */
  lemma {:induction false} StrippedMember(tok: Tokens, keys: seq<String>, k: nat, x: String)
    requires PositionalHead(tok, k)
    requires k <= |Stripped(tok, keys)| && x in Stripped(tok, keys)[k..]
    ensures x in tok[k..] && !IsDollar(x)
  {
    StrippedHead(tok, keys, k);
    var f := Filter(tok[k..], NotDollar);
    DropKeysRemovesKeys(f, keys, x);
    FilterMember(tok[k..], NotDollar, x);
  }

  /** No `$` token survives after the first. */
  lemma {:induction false} StrippedNoDollar(tok: Tokens, keys: seq<String>, x: String)
    requires |tok| > 0
    requires |Stripped(tok, keys)| > 0 && x in Stripped(tok, keys)[1..]
    ensures !IsDollar(x)
  {
    var d := MapDiscard(tok).rest;
    DiscardRestByFilter(tok);
    LookupAllByDropKeys(d, keys);
    assert d[1..] == Filter(tok[1..], NotDollar);
    DropKeysRemovesKeys(d[1..], keys, x);
    FilterMember(tok[1..], NotDollar, x);
  }

  /** An output parameter is written `KEY=value`: the key does not start
      with `$` and ends with the '='. */
  predicate GoodKey(key: String) { |key| > 0 && key[0] != '$' && key[|key| - 1] == '=' }

  /** The `KEY=value+suffix` tokens for the set values among `specs`
      (key, value, suffix), in order; an empty value writes nothing. */
  function Params(specs: seq<(String, String, String)>): (r: Tokens)
    requires forall i :: 0 <= i < |specs| ==> GoodKey(specs[i].0)
    ensures forall i :: 0 <= i < |r| ==> !IsDollar(r[i]) && HasEq(r[i])
    ensures |specs| > 0 && specs[0].1 != "" ==> |r| > 0 && r[0] == specs[0].0 + specs[0].1 + specs[0].2
    ensures (forall i :: 0 <= i < |specs| ==> specs[i].1 == "") <==> r == []
    decreases |specs|
  {
    if |specs| == 0 then []
    else
      var key := specs[0].0;
      var value := specs[0].1;
      var suffix := specs[0].2;
      assert GoodKey(key);
      var rest := Params(specs[1..]);
      assert forall i :: 1 <= i < |specs| ==> specs[i] == specs[1..][i - 1];
      if value == "" then rest
      else
        var t := key + value + suffix;
        assert t[0] == key[0];
        assert t[|key| - 1] == '=';
        [t] + rest
  }

  /** The token `Params` writes for one spec: none when its value is empty. */
  function ParamToken(spec: (String, String, String)): Tokens {
    if spec.1 != "" then [spec.0 + spec.1 + spec.2] else []
  }

  /** The `W=` and `L=` tokens `MosParams` writes for the set values of w
      and l. */
  function WLFront(w: String, l: String, ds: String): (r: Tokens)
    ensures |r| <= 2
  {
    ParamToken(("W=", w, ds)) + ParamToken(("L=", l, ds))
  }

  /** The keys `MosParams` writes after W and L. */
  function MosOtherSpecs(vs: seq<String>, ds: String, ascale: String): (r: seq<(String, String, String)>)
    requires |vs| == 7
    ensures forall i :: 0 <= i < |r| ==> GoodKey(r[i].0) && LowerChar(r[i].0[0]) != 'w' && LowerChar(r[i].0[0]) != 'l'
  {
    [("AD=", vs[1], ascale), ("AS=", vs[0], ascale), ("PD=", vs[3], ds), ("PS=", vs[2], ds),
     ("SA=", vs[4], ds), ("SB=", vs[5], ds), ("SD=", vs[6], ds)]
  }

  /** The rebuilt MOSFET parameters from W, L and the looked-up values of
      `as`, `ad`, `ps`, `pd`, `sa`, `sb`, `sd` (in that order in `v`): W and
      L, then AD, AS, PD, PS, SA, SB, SD, each only when it is set. */
  function MosParams(w: String, l: String, v: seq<String>, ds: String, ascale: String): (r: Tokens)
    requires |v| == 7
    ensures forall i :: 0 <= i < |r| ==> !IsDollar(r[i]) && HasEq(r[i])
    ensures w != "" ==> |r| > 0 && r[0] == "W=" + w + ds
    ensures w != "" && l != "" ==> |r| > 1 && r[1] == "L=" + l + ds
  {
    var front := WLFront(w, l, ds);
    var r := front + Params(MosOtherSpecs(v, ds, ascale));
    assert forall i :: 0 <= i < |front| ==> !IsDollar(r[i]) && HasEq(r[i]) by {
      forall i | 0 <= i < |front|
        ensures !IsDollar(r[i]) && HasEq(r[i])
      {
        assert r[i] == front[i] && front[i][0] in "WL" && front[i][1] == '=';
      }
    }
    r
  }

  /** No token after the first is a `$` token. */
  predicate NoDollarTail(t: Tokens) {
    forall i :: 1 <= i < |t| ==> !IsDollar(t[i])
  }

  /** The MOSFET line rebuilt from what is left after the lookups (`t`) and
      the looked-up values `v` of w, l, as, ad, ps, pd, sa, sb, sd: the six
      leading tokens, then W, L (the first two bare values after the head
      override the looked-up ones), AD, AS, PD, PS, SA, SB, SD, the
      remaining bare values and the assignments. */
  function MosLine(t: Tokens, v: seq<String>, ds: String): (r: Tokens)
    requires |v| == 9 && NoDollarTail(t)
    ensures |t| > 0 ==> |r| > 0 && r[0] == t[0]
    ensures NoDollarTail(r)
  {
    var parts := MapPartAssign(Drop(t, 6));
    var nona := parts.nona;
    var w := if |nona| > 0 then nona[0] else v[0];
    var l := if |nona| > 1 then nona[1] else v[1];
    var params := MosParams(w, l, v[2..], ds, GetAreaScale(ds));
    var r := Take(t, 6) + (params + Drop(nona, 2) + parts.assign);
    assert NoDollarTail(r) by {
      MosLineNoDollar(t, parts, params, r);
    }
    r
  }

  lemma {:induction false} MosLineNoDollar(t: Tokens, parts: Parts, params: Tokens, r: Tokens)
    requires NoDollarTail(t)
    requires IsSubseq(parts.nona, Drop(t, 6)) && IsSubseq(parts.assign, Drop(t, 6))
    requires forall i :: 0 <= i < |params| ==> !IsDollar(params[i])
    requires r == Take(t, 6) + (params + Drop(parts.nona, 2) + parts.assign)
    ensures NoDollarTail(r)
  {
    var head := Take(t, 6);
    var rest := Drop(parts.nona, 2);
    var n := |head| + |params|;
    var m := n + |rest|;
    forall i | 1 <= i < |r|
      ensures !IsDollar(r[i])
    {
      if i < |head| {
        assert r[i] == t[i];
      } else if i < n {
        assert r[i] == params[i - |head|];
      } else {
        var x := r[i];
        if i < m {
          assert x == parts.nona[i - n + |parts.nona| - |rest|];
          SubseqMember(parts.nona, Drop(t, 6), x);
        } else {
          assert x == parts.assign[i - m];
          SubseqMember(parts.assign, Drop(t, 6), x);
        }
        assert |t| > 6 && Drop(t, 6) == t[6..];
        var j :| 0 <= j < |t[6..]| && t[6..][j] == x;
        assert x == t[j + 6];
      }
    }
  }

  /** With six tokens in front, `MosLine` keeps them and the first two bare
      values after them become `W=` and `L=`. */
  lemma {:induction false} MosLineHead(t: Tokens, v: seq<String>, ds: String)
    requires |v| == 9 && NoDollarTail(t) && 6 <= |t|
    requires forall i :: 0 <= i < |Filter(t[6..], NoEq)| ==> Filter(t[6..], NoEq)[i] != []
    ensures var r := MosLine(t, v, ds);
      6 <= |r| && r[..6] == t[..6]
    ensures var r := MosLine(t, v, ds); var p := Filter(t[6..], NoEq);
      |p| >= 1 ==> |r| > 6 && r[6] == "W=" + p[0] + ds
    ensures var r := MosLine(t, v, ds); var p := Filter(t[6..], NoEq);
      |p| >= 2 ==> |r| > 7 && r[7] == "L=" + p[1] + ds
  {
    var parts := MapPartAssign(Drop(t, 6));
    assert Drop(t, 6) == t[6..];
    var p := parts.nona;
    var w := if |p| > 0 then p[0] else v[0];
    var l := if |p| > 1 then p[1] else v[1];
    var params := MosParams(w, l, v[2..], ds, GetAreaScale(ds));
    var head := Take(t, 6);
    var tail := params + Drop(p, 2) + parts.assign;
    var r := head + tail;
    assert MosLine(t, v, ds) == r;
    if |p| >= 1 {
      assert w == p[0] && w != [];
      assert r[6] == params[0];
    }
    if |p| >= 2 {
      assert l == p[1] && l != [];
      assert r[7] == params[1];
    }
  }

  /** Behind the six leading tokens, the only bare tokens `MosLine` writes
      are the bare values beyond the second, in order. */
  lemma {:induction false} MosLineBare(t: Tokens, v: seq<String>, ds: String)
    requires |v| == 9 && NoDollarTail(t) && 6 <= |t|
    ensures var r := MosLine(t, v, ds);
      6 <= |r| && Filter(r[6..], NoEq) == Drop(Filter(t[6..], NoEq), 2)
  {
    var parts := MapPartAssign(Drop(t, 6));
    assert Drop(t, 6) == t[6..];
    var p := parts.nona;
    var w := if |p| > 0 then p[0] else v[0];
    var l := if |p| > 1 then p[1] else v[1];
    var params := MosParams(w, l, v[2..], ds, GetAreaScale(ds));
    var tail := params + Drop(p, 2) + parts.assign;
    assert MosLine(t, v, ds) == Take(t, 6) + tail;
    assert (Take(t, 6) + tail)[6..] == tail;
    BareBetween(params, Drop(p, 2), parts.assign);
  }

  /** A token that starts with another letter does not assign to `nm`. */
  lemma NotAssignsByLead(x: String, nm: String)
    requires |nm| > 0 && |x| > 0 && LowerChar(x[0]) != LowerChar(nm[0])
    ensures !AssignsTo(x, nm)
  {
    assert (nm + "=")[0] == nm[0];
  }

  /** An assignment holds an `=`. */
  lemma AssignsEq(x: String, nm: String)
    ensures AssignsTo(x, nm) ==> HasEq(x)
  {
    if AssignsTo(x, nm) {
      AssignsHasEq(x, nm);
    }
  }

  /** Every token `Params` writes starts with the first letter of its key. */
  lemma {:induction false} ParamsLead(specs: seq<(String, String, String)>, c: char)
    requires forall i :: 0 <= i < |specs| ==> GoodKey(specs[i].0) && LowerChar(specs[i].0[0]) != c
    ensures forall i :: 0 <= i < |Params(specs)| ==> |Params(specs)[i]| > 0 && LowerChar(Params(specs)[i][0]) != c
    decreases |specs|
  {
    if |specs| > 0 {
      assert forall i :: 0 <= i < |specs| - 1 ==> specs[1..][i] == specs[i + 1];
      ParamsLead(specs[1..], c);
      var t := specs[0].0 + specs[0].1 + specs[0].2;
      assert t[0] == specs[0].0[0];
    }
  }

  /** `MosParams` writes W and L when they are set, then only tokens of
      other keys. */
  lemma MosParamsLead(w: String, l: String, vs: seq<String>, ds: String, ascale: String)
    requires |vs| == 7
    ensures var p := MosParams(w, l, vs, ds, ascale); var front := WLFront(w, l, ds);
      |front| <= |p| && p[..|front|] == front
    ensures var p := MosParams(w, l, vs, ds, ascale); var n := |WLFront(w, l, ds)|;
      forall i :: n <= i < |p| ==> |p[i]| > 0 && LowerChar(p[i][0]) != 'w' && LowerChar(p[i][0]) != 'l'
  {
    var others := MosOtherSpecs(vs, ds, ascale);
    ParamsLead(others, 'w');
    ParamsLead(others, 'l');
  }

  /** W and L in front, then tokens of other keys, bare values and
      assignments to neither key: no `W=` after the first place and no `L=`
      after the second. */
  lemma WLTail(w: String, l: String, ds: String, params: Tokens, rest: Tokens, assign: Tokens)
    requires |WLFront(w, l, ds)| <= |params| && params[..|WLFront(w, l, ds)|] == WLFront(w, l, ds)
    requires forall i :: |WLFront(w, l, ds)| <= i < |params| ==>
               |params[i]| > 0 && LowerChar(params[i][0]) != 'w' && LowerChar(params[i][0]) != 'l'
    requires forall i :: 0 <= i < |rest| ==> NoEq(rest[i])
    requires forall i :: 0 <= i < |assign| ==> !AssignsTo(assign[i], "w") && !AssignsTo(assign[i], "l")
    ensures var u := params + rest + assign;
      forall i :: 1 <= i < |u| ==> !AssignsTo(u[i], "w")
    ensures var u := params + rest + assign;
      forall i :: 2 <= i < |u| ==> !AssignsTo(u[i], "l")
  {
    var front := WLFront(w, l, ds);
    var u := params + rest + assign;
    forall i | 1 <= i < |u|
      ensures !AssignsTo(u[i], "w")
      ensures i >= 2 ==> !AssignsTo(u[i], "l")
    {
      var x := u[i];
      if i < |front| {
        assert i == 1 && x == front[1] == "L=" + l + ds;
        NotAssignsByLead(x, "w");
      } else if i < |params| {
        assert x == params[i];
        NotAssignsByLead(x, "w");
        NotAssignsByLead(x, "l");
      } else if i < |params| + |rest| {
        assert x == rest[i - |params|];
        AssignsEq(x, "w");
        AssignsEq(x, "l");
      } else {
        assert x == assign[i - |params| - |rest|];
      }
    }
  }

  /** Behind the six leading tokens, when the tokens after the head assign
      neither w nor l, `MosLine` writes no `W=` token after the first place
      and no `L=` token after the second. */
  lemma {:induction false} MosLineOneWL(t: Tokens, v: seq<String>, ds: String)
    requires |v| == 9 && NoDollarTail(t) && 6 <= |t|
    requires forall i :: 6 <= i < |t| ==> !AssignsTo(t[i], "w") && !AssignsTo(t[i], "l")
    ensures var r := MosLine(t, v, ds);
      forall i :: 7 <= i < |r| ==> !AssignsTo(r[i], "w")
    ensures var r := MosLine(t, v, ds);
      forall i :: 8 <= i < |r| ==> !AssignsTo(r[i], "l")
  {
    var parts := MapPartAssign(Drop(t, 6));
    assert Drop(t, 6) == t[6..];
    var p := parts.nona;
    var w := if |p| > 0 then p[0] else v[0];
    var l := if |p| > 1 then p[1] else v[1];
    var params := MosParams(w, l, v[2..], ds, GetAreaScale(ds));
    var rest := Drop(p, 2);
    MosParamsLead(w, l, v[2..], ds, GetAreaScale(ds));
    forall i | 0 <= i < |rest|
      ensures NoEq(rest[i])
    {
      assert rest[i] == p[i + 2];
    }
    AssignsNoWL(t[6..], parts.assign);
    WLTail(w, l, ds, params, rest, parts.assign);
    var u := params + rest + parts.assign;
    assert MosLine(t, v, ds) == Take(t, 6) + u;
    HeadShift(Take(t, 6), u);
  }

  /** Tokens picked out of a list that assigns neither w nor l assign
      neither either. */
  lemma AssignsNoWL(src: Tokens, assign: Tokens)
    requires IsSubseq(assign, src)
    requires forall i :: 0 <= i < |src| ==> !AssignsTo(src[i], "w") && !AssignsTo(src[i], "l")
    ensures forall i :: 0 <= i < |assign| ==> !AssignsTo(assign[i], "w") && !AssignsTo(assign[i], "l")
  {
    forall i | 0 <= i < |assign|
      ensures !AssignsTo(assign[i], "w") && !AssignsTo(assign[i], "l")
    {
      SubseqMember(assign, src, assign[i]);
    }
  }

  /** The first and second places behind a six-token head. */
  lemma HeadShift(h: Tokens, u: Tokens)
    requires |h| == 6
    requires forall i :: 1 <= i < |u| ==> !AssignsTo(u[i], "w")
    requires forall i :: 2 <= i < |u| ==> !AssignsTo(u[i], "l")
    ensures forall i :: 7 <= i < |h + u| ==> !AssignsTo((h + u)[i], "w")
    ensures forall i :: 8 <= i < |h + u| ==> !AssignsTo((h + u)[i], "l")
  {
    assert forall i :: 6 <= i < |h + u| ==> (h + u)[i] == u[i - 6];
  }

  /** Filtering out the assignments around a run of bare values leaves
      exactly that run. */
  lemma {:induction false} BareBetween(before: Tokens, bare: Tokens, after: Tokens)
    requires forall i :: 0 <= i < |before| ==> HasEq(before[i])
    requires forall i :: 0 <= i < |bare| ==> NoEq(bare[i])
    requires forall i :: 0 <= i < |after| ==> HasEq(after[i])
    ensures Filter(before + bare + after, NoEq) == bare
  {
    FilterAppend(before + bare, after, NoEq);
    FilterAppend(before, bare, NoEq);
    FilterNoneKept(before, NoEq);
    FilterNoneKept(after, NoEq);
    FilterAllKept(bare, NoEq);
  }

  /** The keys `mapMos` looks up, in order. */
  function MosKeys(opts: Options): seq<String> {
    ["w", "l"] + opts.ignore + ["as", "ad", "ps", "pd", "sa", "sb", "sd"]
  }

  /** `mapMos`: reformat a MOSFET line `mNAME d g s b MODEL ...`. `$`
      tokens are discarded; `W=`, `L=`, the ignored keys and the area,
      perimeter and stress keys are taken out and the line is rebuilt by
      `MosLine`, with W, L, PD, PS, SA, SB, SD scaled by `dscale` and AD, AS
      by the matching area suffix. */
  function MapMos(tok: Tokens, opts: Options): (r: Tokens)
    ensures |tok| > 0 ==> |r| > 0 && r[0] == tok[0]
    ensures NoDollarTail(r)
  {
    var keys := MosKeys(opts);
    StrippedNoDollarTail(tok, keys);
    MosLine(Stripped(tok, keys), MosValues(LookupAll(MapDiscard(tok).rest, keys).values, |opts.ignore|), opts.dscale)
  }

  /** The values of w and l, then of as, ad, ps, pd, sa, sb, sd, skipping
      the `n` ignored keys between them. */
  function MosValues(v: seq<String>, n: nat): (r: seq<String>)
    requires |v| == n + 9
    ensures |r| == 9 && r[..2] == v[..2] && r[2..] == v[n + 2..]
  {
    [v[0], v[1]] + v[n + 2..]
  }

  lemma {:induction false} StrippedNoDollarTail(tok: Tokens, keys: seq<String>)
    ensures NoDollarTail(Stripped(tok, keys))
  {
    var t := Stripped(tok, keys);
    forall i | 1 <= i < |t|
      ensures !IsDollar(t[i])
    {
      assert t[i] == t[1..][i - 1];
      StrippedNoDollar(tok, keys, t[i]);
    }
  }

  /** When the six leading tokens are positional (`mNAME d g s b MODEL`),
      they are kept; the first two bare values after them become `W=` and
      `L=` (scaled by `dscale`) in place of any `W=`/`L=` assignments; the
      remaining bare values follow in order and no other bare token is
      written after the head. */
  lemma {:induction false} MosPositionalValues(tok: Tokens, opts: Options)
    requires PositionalHead(tok, 6) && NonEmptyTokens(tok)
    ensures var r := MapMos(tok, opts);
      6 <= |r| && r[..6] == tok[..6]
    ensures var r := MapMos(tok, opts); var p := Plain(tok, 6);
      |p| >= 1 ==> |r| > 6 && r[6] == "W=" + p[0] + opts.dscale
    ensures var r := MapMos(tok, opts); var p := Plain(tok, 6);
      |p| >= 2 ==> |r| > 7 && r[7] == "L=" + p[1] + opts.dscale
    ensures var r := MapMos(tok, opts);
      6 <= |r| && Filter(r[6..], NoEq) == Drop(Plain(tok, 6), 2)
  {
    var keys := MosKeys(opts);
    var t := Stripped(tok, keys);
    var v := MosValues(LookupAll(MapDiscard(tok).rest, keys).values, |opts.ignore|);
    StrippedHead(tok, keys, 6);
    StrippedNoDollarTail(tok, keys);
    PlainNonEmpty(tok, 6);
    MosLineHead(t, v, opts.dscale);
    MosLineBare(t, v, opts.dscale);
  }

  /** With the six leading tokens positional, the `W=` and `L=` tokens that
      `MosPositionalValues` places are the only ones on the line: every
      `w=` and `l=` assignment given on the line is taken out. */
  lemma {:induction false} MosPositionalOneWL(tok: Tokens, opts: Options)
    requires PositionalHead(tok, 6)
    ensures var r := MapMos(tok, opts);
      forall i :: 7 <= i < |r| ==> !AssignsTo(r[i], "w")
    ensures var r := MapMos(tok, opts);
      forall i :: 8 <= i < |r| ==> !AssignsTo(r[i], "l")
  {
    var keys := MosKeys(opts);
    var t := Stripped(tok, keys);
    var v := MosValues(LookupAll(MapDiscard(tok).rest, keys).values, |opts.ignore|);
    StrippedHead(tok, keys, 6);
    StrippedNoDollarTail(tok, keys);
    forall i | 6 <= i < |t|
      ensures !AssignsTo(t[i], "w") && !AssignsTo(t[i], "l")
    {
      assert t[i] == t[6..][i - 6];
      DropKeysRemovesKeys(Filter(tok[6..], NotDollar), keys, t[i]);
      assert keys[0] == "w" && keys[1] == "l";
    }
    MosLineOneWL(t, v, opts.dscale);
  }

  /** A one-token list holding `t`, or nothing when `t` is empty. */
  function Opt(t: String): (r: Tokens)
    ensures t != [] <==> r == [t]
    ensures t == [] <==> r == []
  {
    if t != [] then [t] else []
  }

  /** The resistor line rebuilt from what is left after the lookups (`t`)
      and the looked-up values `v` of w, l, r: the three leading tokens,
      the terminal and model when known, W and L scaled by `dscale`, a
      zero value when the resistance is `short` (the first bare value
      after the head overrides the looked-up one; the other bare values
      are dropped), then the assignments. */
  function ResLine(t: Tokens, v: seq<String>, term: String, model: String, ds: String): (r: Tokens)
    requires |v| == 3
    ensures |t| > 0 ==> |r| > 0 && r[0] == t[0]
  {
    var parts := MapPartAssign(Drop(t, 3));
    var res := if |parts.nona| > 0 then parts.nona[0] else v[2];
    var params := Params([("W=", v[0], ds), ("L=", v[1], ds)]);
    var zero: Tokens := if res == "short" then ["0"] else [];
    Take(t, 3) + (Opt(term) + Opt(model) + params + zero + parts.assign)
  }

  /** With three tokens in front and a bare value after them, the line
      holds a `0` behind the head exactly when that value is `short`. */
  lemma {:induction false} ResLineShort(t: Tokens, v: seq<String>, term: String, model: String, ds: String)
    requires |v| == 3 && 3 <= |t| && |Filter(t[3..], NoEq)| > 0
    requires term != "0" && model != "0"
    ensures var r := ResLine(t, v, term, model, ds);
      3 <= |r| && r[..3] == t[..3]
    ensures var r := ResLine(t, v, term, model, ds);
      3 <= |r| && ("0" in r[3..] <==> Filter(t[3..], NoEq)[0] == "short")
  {
    var parts := MapPartAssign(Drop(t, 3));
    assert Drop(t, 3) == t[3..];
    var params := Params([("W=", v[0], ds), ("L=", v[1], ds)]);
    var zero: Tokens := if parts.nona[0] == "short" then ["0"] else [];
    var tail := Opt(term) + Opt(model) + params + zero + parts.assign;
    assert ResLine(t, v, term, model, ds) == Take(t, 3) + tail;
    assert (Take(t, 3) + tail)[3..] == tail;
    assert !HasEq("0");
    assert "0" !in params;
    assert "0" !in parts.assign;
  }

  /** Behind the three leading tokens, the only bare tokens a resistor line
      holds are the terminal, the model and the `0` of a short. */
  lemma {:induction false} ResLineBare(t: Tokens, v: seq<String>, term: String, model: String, ds: String)
    requires |v| == 3 && 3 <= |t|
    ensures var r := ResLine(t, v, term, model, ds);
      3 <= |r| && forall x :: x in r[3..] && NoEq(x) ==> x == term || x == model || x == "0"
  {
    var parts := MapPartAssign(Drop(t, 3));
    var res := if |parts.nona| > 0 then parts.nona[0] else v[2];
    var params := Params([("W=", v[0], ds), ("L=", v[1], ds)]);
    var zero: Tokens := if res == "short" then ["0"] else [];
    var tail := Opt(term) + Opt(model) + params + zero + parts.assign;
    assert ResLine(t, v, term, model, ds) == Take(t, 3) + tail;
    assert (Take(t, 3) + tail)[3..] == tail;
    forall x | x in tail && NoEq(x)
      ensures x == term || x == model || x == "0"
    {
      var a := Opt(term) + Opt(model);
      assert tail == a + params + zero + parts.assign;
      if x in params || x in parts.assign {
        assert false;
      } else if x in a {
        assert x in Opt(term) || x in Opt(model);
      } else {
        assert x in zero;
      }
    }
  }

  /** The keys `mapRes` looks up, in order. */
  function ResKeys(opts: Options): seq<String> {
    ["w", "l", "r"] + opts.ignore
  }

  /** `mapRes`: reformat a resistor line `rNAME n1 n2 ...` with the
      terminal and model already extracted. `$` tokens are discarded;
      `W=`, `L=`, `R=` and the ignored keys are taken out and the line is
      rebuilt by `ResLine`. */
  function MapRes(term: String, model: String, tok: Tokens, opts: Options): (r: Tokens)
    ensures |tok| > 0 ==> |r| > 0 && r[0] == tok[0]
  {
    var found := LookupAll(MapDiscard(tok).rest, ResKeys(opts));
    var v := found.values;
    ResLine(found.rest, v[..3], term, model, opts.dscale)
  }

  /** With the instance name and two nodes in front, a bare value after
      them decides the resistance: the line carries a `0` exactly when
      that value is `short`, and no other bare value is written. */
  lemma {:induction false} ResPositionalShort(term: String, model: String, tok: Tokens, opts: Options)
    requires PositionalHead(tok, 3) && |Plain(tok, 3)| > 0
    requires term != "0" && model != "0"
    ensures var r := MapRes(term, model, tok, opts);
      3 <= |r| && r[..3] == tok[..3]
    ensures var r := MapRes(term, model, tok, opts);
      3 <= |r| && ("0" in r[3..] <==> Plain(tok, 3)[0] == "short")
    ensures var r := MapRes(term, model, tok, opts);
      3 <= |r| && forall x :: x in r[3..] && NoEq(x) ==> x == term || x == model || x == "0"
  {
    var keys := ResKeys(opts);
    var found := LookupAll(MapDiscard(tok).rest, keys);
    var t := found.rest;
    StrippedHead(tok, keys, 3);
    var v := found.values[..3];
    assert MapRes(term, model, tok, opts) == ResLine(t, v, term, model, opts.dscale);
    ResLineShort(t, v, term, model, opts.dscale);
    ResLineBare(t, v, term, model, opts.dscale);
  }

  /** Bare values come from the tokens, so none is empty. */
  lemma {:induction false} PlainNonEmpty(tok: Tokens, k: nat)
    requires k <= |tok| && NonEmptyTokens(tok)
    ensures forall i :: 0 <= i < |Plain(tok, k)| ==> Plain(tok, k)[i] != []
  {
    forall i | 0 <= i < |Plain(tok, k)|
      ensures Plain(tok, k)[i] != []
    {
      FilterMember(tok[k..], IsPositional, Plain(tok, k)[i]);
    }
  }
}

=== FILE: font_cell.dfy ===
/** The cell that holds one character of the sky130 font
    (sky130/custom/scripts/text2mag.py, `get_cellname`): `font_` followed
    by the character's code point in upper-case hexadecimal, padded with
    zeros to two, four or six digits by the size of the code point. */
module FontCell {
  import opened Wrappers
  import opened Text
  import opened CaceGensim
  import opened Arith

  // ---------------------------------------------------------------------
  // Upper-case hexadecimal

  predicate IsHex(c: char) {
    '0' <= c <= '9' || 'A' <= c <= 'F'
  }

  predicate AllHex(s: String) {
    forall i :: 0 <= i < |s| ==> IsHex(s[i])
  }

  /** The digit of a value below sixteen, upper-case as `X` writes it. */
  function HexChar(d: nat): (c: char)
    requires d < 16
    ensures IsHex(c)
    ensures c == '0' <==> d == 0
  {
    if d < 10 then (48 + d) as char else (55 + d) as char
  }

  function HexDigitValue(c: char): (d: nat)
    requires IsHex(c)
    ensures d < 16
  {
    if c <= '9' then c as int - 48 else c as int - 55
  }

  /** Reading back a digit gives its value, and a digit is written back as
      itself. */
  lemma HexCharRoundTrip(d: nat, c: char)
    requires d < 16 && IsHex(c)
    ensures HexDigitValue(HexChar(d)) == d
    ensures HexChar(HexDigitValue(c)) == c
  {
  }

  /** The value of a string of hexadecimal digits, as `int(s, 16)` reads
      it; the empty string reads as zero. */
  function HexValue(s: String): nat
    requires AllHex(s)
  {
    if |s| == 0 then 0 else 16 * HexValue(s[..|s| - 1]) + HexDigitValue(s[|s| - 1])
  }

  /** `'{:X}'.format(n)`: the digits of `n` without leading zeros, "0" for
      zero. */
  function Hex(n: nat): (r: String)
    ensures |r| > 0 && AllHex(r)
    decreases n
  {
    if n < 16 then [HexChar(n)] else Hex(n / 16) + [HexChar(n % 16)]
  }

  function Pow16(k: nat): (p: nat)
    ensures p > 0
  {
    if k == 0 then 1 else 16 * Pow16(k - 1)
  }

  lemma {:induction false} Pow16Widths()
    ensures Pow16(2) == 0x100 && Pow16(4) == 0x10000 && Pow16(6) == 0x1000000
  {
    assert Pow16(1) == 16;
    assert Pow16(3) == 0x1000;
    assert Pow16(5) == 0x100000;
  }

  lemma {:induction false} HexValueOfHex(n: nat)
    ensures HexValue(Hex(n)) == n
    decreases n
  {
    HexCharRoundTrip(n % 16, '0');
    if n >= 16 {
      var s := Hex(n);
      assert s[..|s| - 1] == Hex(n / 16);
      HexValueOfHex(n / 16);
    }
  }

  /** A value below `16^w` needs at most `w` digits. */
  lemma {:induction false} HexShort(n: nat, w: nat)
    requires w > 0 && n < Pow16(w)
    ensures |Hex(n)| <= w
    decreases n
  {
    if n >= 16 {
      assert w > 1;
      HexShort(n / 16, w - 1);
    }
  }

  /** A value of at least `16^w` needs more than `w` digits. */
  lemma {:induction false} HexLong(n: nat, w: nat)
    requires n >= Pow16(w)
    ensures |Hex(n)| > w
    decreases n
  {
    if w > 0 {
      HexLong(n / 16, w - 1);
    }
  }

  /** The first digit of a positive value is not zero. */
  lemma {:induction false} HexLeading(n: nat)
    requires n > 0
    ensures Hex(n)[0] != '0'
    decreases n
  {
    if n >= 16 {
      HexLeading(n / 16);
    }
  }

  lemma {:induction false} ZerosHexValue(k: nat)
    ensures AllHex(Zeros(k)) && HexValue(Zeros(k)) == 0
    decreases k
  {
    if k > 0 {
      assert Zeros(k)[..k - 1] == Zeros(k - 1);
      ZerosHexValue(k - 1);
    }
  }

  /** Leading zeros do not change the value. */
  lemma {:induction false} ZerosHexPrefix(k: nat, s: String)
    requires AllHex(s)
    ensures AllHex(Zeros(k) + s) && HexValue(Zeros(k) + s) == HexValue(s)
    decreases |s|
  {
    ZerosHexValue(k);
    if |s| == 0 {
      assert Zeros(k) + s == Zeros(k);
    } else {
      var t := Zeros(k) + s;
      assert t[..|t| - 1] == Zeros(k) + s[..|s| - 1];
      ZerosHexPrefix(k, s[..|s| - 1]);
    }
  }

  lemma {:induction false} HexValueBound(s: String)
    requires AllHex(s)
    ensures HexValue(s) < Pow16(|s|)
    decreases |s|
  {
    if |s| > 0 {
      HexValueBound(s[..|s| - 1]);
    }
  }

  /** Digits that do not start with zero are worth at least `16^(n-1)`. */
  lemma {:induction false} HexValueLeading(s: String)
    requires |s| > 0 && AllHex(s) && s[0] != '0'
    ensures HexValue(s) >= Pow16(|s| - 1)
    decreases |s|
  {
    if |s| > 1 {
      var t := s[..|s| - 1];
      assert t[0] == s[0];
      HexValueLeading(t);
    }
  }

  /** Two digit strings of one length with one value are equal. */
  lemma {:induction false} HexValueInjective(a: String, b: String)
    requires |a| == |b| && AllHex(a) && AllHex(b)
    requires HexValue(a) == HexValue(b)
    ensures a == b
    decreases |a|
  {
    if |a| > 0 {
      var n := |a| - 1;
      var v := HexValue(a);
      DivModUnique(v, 16, HexValue(a[..n]), HexDigitValue(a[n]));
      DivModUnique(v, 16, HexValue(b[..n]), HexDigitValue(b[n]));
      HexCharRoundTrip(0, a[n]);
      HexCharRoundTrip(0, b[n]);
      HexValueInjective(a[..n], b[..n]);
      assert a == a[..n] + [a[n]] && b == b[..n] + [b[n]];
    }
  }

  // ---------------------------------------------------------------------
  // The cell name

  const Prefix: String := "font_"

  /** The number of digits the code point is padded to; zero when it is
      not padded. */
  function Width(cp: nat): nat {
    if cp < 0x100 then 2
    else if cp < 0x10000 then 4
    else if cp < 0x1000000 then 6
    else 0
  }

  /** The digits of a code point, padded to its width. */
  lemma {:induction false} PaddedDigits(cp: nat)
    ensures var d := PadZeros(Hex(cp), Width(cp));
      && AllHex(d) && HexValue(d) == cp
      && (Width(cp) > 0 ==> |d| == Width(cp))
      && (Width(cp) == 0 ==> |d| > 6 && d[0] != '0')
  {
    var w := Width(cp);
    var h := Hex(cp);
    HexValueOfHex(cp);
    Pow16Widths();
    if w == 0 {
      HexLong(cp, 6);
      HexLeading(cp);
    } else {
      HexShort(cp, w);
      ZerosHexPrefix(w - |h|, h);
    }
  }

  /** `get_cellname(ch)` for a character whose `ord` is `cp`. */
  function CellName(cp: nat): (r: String)
    ensures |r| > |Prefix| && r[..|Prefix|] == Prefix && AllHex(r[|Prefix|..])
    ensures HexValue(r[|Prefix|..]) == cp
    ensures cp < 0x100 ==> |r| == |Prefix| + 2
    ensures 0x100 <= cp < 0x10000 ==> |r| == |Prefix| + 4
    ensures 0x10000 <= cp < 0x1000000 ==> |r| == |Prefix| + 6
    ensures 0x1000000 <= cp ==> |r| > |Prefix| + 6 && r[|Prefix|] != '0'
  {
    PaddedDigits(cp);
    var d := PadZeros(Hex(cp), Width(cp));
    var r := Prefix + d;
    assert r[..|Prefix|] == Prefix && r[|Prefix|..] == d;
    r
  }

  /** The code point a cell name stands for, if it is one. */
  function CodePoint(name: String): (r: Option<nat>)
    ensures r.Some? <==> |name| > |Prefix| && name[..|Prefix|] == Prefix && AllHex(name[|Prefix|..])
  {
    if |name| > |Prefix| && name[..|Prefix|] == Prefix && AllHex(name[|Prefix|..]) then
      Some(HexValue(name[|Prefix|..]))
    else None
  }

  /** Reading the cell name back gives the code point. */
  lemma CodePointOfCellName(cp: nat)
    ensures CodePoint(CellName(cp)) == Some(cp)
  {
  }

  /** Distinct characters are stored in distinct cells. */
  lemma {:induction false} CellNameInjective(a: nat, b: nat)
    requires CellName(a) == CellName(b)
    ensures a == b
  {
    CodePointOfCellName(a);
    CodePointOfCellName(b);
  }

  /** Digits as `get_cellname` writes them: two of them, four for a value
      of at least 0x100, six for a value of at least 0x10000, and
      otherwise more than six without a leading zero. */
  predicate Canonical(d: String)
    requires AllHex(d)
  {
    || |d| == 2
    || (|d| == 4 && HexValue(d) >= 0x100)
    || (|d| == 6 && HexValue(d) >= 0x10000)
    || (|d| > 6 && d[0] != '0')
  }

  /** Canonical digits are the padded digits of their own value. */
  lemma {:induction false} CanonicalDigits(d: String)
    requires AllHex(d) && Canonical(d)
    ensures d == PadZeros(Hex(HexValue(d)), Width(HexValue(d)))
  {
    var cp := HexValue(d);
    var e := PadZeros(Hex(cp), Width(cp));
    Pow16Widths();
    PaddedDigits(cp);
    HexValueBound(d);
    if |d| > 6 {
      HexValueLeading(d);
      PowMonotone(6, |d| - 1);
      HexShort(cp, |d|);
      HexLong(cp, |d| - 1);
    }
    HexValueInjective(d, e);
  }

  /** A name is the cell name of `cp` exactly when it reads back as `cp`
      and its digits are written the way `get_cellname` writes them. */
  lemma {:induction false} CellNameIff(name: String, cp: nat)
    ensures name == CellName(cp) <==>
      CodePoint(name) == Some(cp) && Canonical(name[|Prefix|..])
  {
    PaddedDigits(cp);
    var r := CellName(cp);
    assert r[|Prefix|..] == PadZeros(Hex(cp), Width(cp));
    if name == CellName(cp) {
      CodePointOfCellName(cp);
      Pow16Widths();
    }
    if CodePoint(name) == Some(cp) && Canonical(name[|Prefix|..]) {
      CanonicalDigits(name[|Prefix|..]);
      assert name == name[..|Prefix|] + name[|Prefix|..] && r == r[..|Prefix|] + r[|Prefix|..];
    }
  }

  lemma {:induction false} PowMonotone(a: nat, b: nat)
    requires a <= b
    ensures Pow16(a) <= Pow16(b)
    decreases b
  {
    if a < b {
      PowMonotone(a, b - 1);
    }
  }
}

=== FILE: gds_cell.dfy ===
/** Cell replacement in a GDSII stream, as `change_gds_cell` does it: both
    streams are scanned for the structure with the given name, whose extent
    runs from the BGNSTR record before its STRNAME through the matching
    ENDSTR; the extent in the target is optionally checked against a
    checksum (the sum of the record lengths from the STRNAME through the
    ENDSTR) and then replaced by the extent from the cell stream. */
module GdsCell {
  import opened Wrappers
  import opened Seqs
  import opened Text
  import opened GdsStream
  import opened GdsRecords

  /** What a scan has found so far: the position of the latest BGNSTR
      (`saveptr`, unset before the first), the start and end of the named
      cell (the scripts' -1 is `None`), whether the scan is inside it, and
      the running checksum. */
  datatype CellScan = CellScan(saveptr: Option<nat>, start: Option<nat>, end: Option<nat>, incell: bool, sum: nat)

  const Init := CellScan(None, None, None, false, 0)

  /** The name in a STRNAME record: it must hold an ASCII string, a trailing
      padding null is dropped, and `bstring[-1]` raises on an empty
      payload. */
  function StructName(data: Bytes, r: Rec): (n: Result<String, Fault>)
    ensures n.Success? ==> r.dtype == ASCII && |Slice(data, r.pos + 4, r.pos + r.len)| > 0
    ensures r.dtype != ASCII ==> n == Failure(NotString(r.pos))
  {
    if r.dtype != ASCII then Failure(NotString(r.pos))
    else
      var b := Slice(data, r.pos + 4, r.pos + r.len);
      if |b| == 0 then Failure(EmptyString(r.pos))
      else
        match DecodeAscii(Unpad(b))
        case None => Failure(NotAscii)
        case Some(name) => Success(name)
  }

  /** A name written as the scripts write it, padded with a null to an even
      length, reads back as itself. */
  lemma {:induction false} NameRoundTrip(data: Bytes, r: Rec, name: String, b: Bytes)
    requires EncodeAscii(name) == Some(b) && |b| > 0 && forall k :: 0 <= k < |b| ==> b[k] != 0
    requires r.dtype == ASCII && r.pos + r.len <= |data| && r.len == |Pad(b)| + 4
    requires data[r.pos + 4..r.pos + r.len] == Pad(b)
    ensures StructName(data, r) == Success(name)
  {
    SliceIn(data, r.pos + 4, r.pos + r.len);
    UnpadPad(b);
    AsciiRoundTrip(name, b);
    NameFromPayload(data, r, Pad(b), name);
  }

  /** A STRNAME record whose payload, less a trailing null, decodes to
      `name` is read as `name`. */
  lemma NameFromPayload(data: Bytes, r: Rec, p: Bytes, name: String)
    requires r.dtype == ASCII && |p| > 0
    requires Slice(data, r.pos + 4, r.pos + r.len) == p
    requires DecodeAscii(Unpad(p)) == Some(name)
    ensures StructName(data, r) == Success(name)
  {
  }

  /** One pass of the scan loop over the record `r`. */
  function CellStep(data: Bytes, r: Rec, name: String, st: CellScan): (res: Result<CellScan, Fault>)
    ensures res.Success? ==> res.value.start == st.start || res.value.start == st.saveptr
    ensures res.Success? && r.rtype != STRNAME ==> res.value.start == st.start
  {
    var next :-
      if r.rtype == BGNSTR then Success(st.(saveptr := Some(r.pos)))
      else if r.rtype == STRNAME then
        var n :- StructName(data, r);
        if n != name then Success(st)
        else if st.saveptr.None? then Failure(NoBeginStr(r.pos))
        else Success(st.(start := st.saveptr, incell := true))
      else if r.rtype == ENDSTR && st.incell then
        Success(st.(incell := false, sum := st.sum + r.len, end := Some(r.pos + r.len)))
      else Success(st);
    Success(if next.incell then next.(sum := next.sum + r.len) else next)
  }

  /** The scan loop's body as a step of the record loop. */
  function Scanner(data: Bytes, name: String): Step<CellScan> {
    (r: Rec, st: CellScan) => CellStep(data, r, name, st)
  }

  /** The scan of a whole stream for the cell `name`, starting with `sp` as
      the latest BGNSTR position. */
  function CellWalkFrom(data: Bytes, name: String, sp: Option<nat>): Result<CellScan, Fault> {
    Walk(data, 0, Scanner(data, name), Init.(saveptr := sp))
  }

  /** The scan of the first stream, before any BGNSTR has been seen. */
  function CellWalk(data: Bytes, name: String): Result<CellScan, Fault> {
    CellWalkFrom(data, name, None)
  }

  /** Both ends of the cell were seen. */
  predicate Found(st: CellScan) {
    st.start.Some? && st.end.Some?
  }

  /** Both ends were seen, the start no later than the end. */
  predicate InOrder(st: CellScan) {
    Found(st) && st.start.value <= st.end.value
  }

  /** The whole script on the two streams: `celldata` holds the new cell,
      `gdsdata` the stream to change; a zero checksum is not checked. The
      scan of the target is not given a fresh BGNSTR position: it starts
      with the last one the scan of the cell stream saw. */
  function ChangeGdsCell(name: String, checksum: int, celldata: Bytes, gdsdata: Bytes): (r: Result<Bytes, Fault>)
    ensures r.Success? ==> CellWalk(celldata, name).Success? && Found(CellWalk(celldata, name).value)
    ensures r.Success? && checksum != 0 ==>
              var c := CellWalk(celldata, name).value;
              var g := CellWalkFrom(gdsdata, name, c.saveptr);
              g.Success? && Found(g.value) && g.value.sum == checksum
  {
    var c :- CellWalk(celldata, name);
    if !Found(c) then Failure(CellNotFound)
    else
      var g :- CellWalkFrom(gdsdata, name, c.saveptr);
      if !Found(g) then Failure(CellNotFound)
      else if checksum != 0 && g.sum != checksum then Failure(ChecksumMismatch(g.sum))
      else Success(Take(gdsdata, g.start.value) + Slice(celldata, c.start.value, c.end.value)
                   + Drop(gdsdata, g.end.value))
  }

  // ---------------------------------------------------------------------
  // The outcome of the splice.
  // ---------------------------------------------------------------------

  /** The script writes a stream exactly when both cells are found and the
      checksum is zero or right; a wrong checksum is reported with the sum
      found, and a cell missing from either stream as not found. */
  lemma ChangeGdsCellOutcome(name: String, checksum: int, celldata: Bytes, gdsdata: Bytes)
    ensures var r := ChangeGdsCell(name, checksum, celldata, gdsdata);
            var c := CellWalk(celldata, name);
            (c.Failure? ==> r == Failure(c.error))
            && (c.Success? && !Found(c.value) ==> r == Failure(CellNotFound))
    ensures var r := ChangeGdsCell(name, checksum, celldata, gdsdata);
            var c := CellWalk(celldata, name);
            c.Success? && Found(c.value) ==>
              var g := CellWalkFrom(gdsdata, name, c.value.saveptr);
              (r.Success? <==> g.Success? && Found(g.value) && (checksum == 0 || checksum == g.value.sum))
              && (g.Failure? ==> r == Failure(g.error))
              && (g.Success? && !Found(g.value) ==> r == Failure(CellNotFound))
              && ((g.Success? && Found(g.value) && checksum != 0 && checksum != g.value.sum)
                  ==> r == Failure(ChecksumMismatch(g.value.sum)))
  {
  }

  /** A written stream keeps every byte before the old cell's start and
      after its end, and carries the new cell's extent between them. */
  lemma {:induction false} ChangeGdsCellKeeps(name: String, checksum: int, celldata: Bytes, gdsdata: Bytes, out: Bytes)
    requires ChangeGdsCell(name, checksum, celldata, gdsdata) == Success(out)
    ensures var c := CellWalk(celldata, name).value;
            var g := CellWalkFrom(gdsdata, name, c.saveptr).value;
            var s := g.start.value;
            var e := g.end.value;
            var cell := Slice(celldata, c.start.value, c.end.value);
            s <= |gdsdata| && e <= |gdsdata| ==>
              |out| == s + |cell| + |gdsdata| - e
              && out[..s] == gdsdata[..s]
              && out[s..s + |cell|] == cell
              && out[s + |cell|..] == gdsdata[e..]
  {
    var c := CellWalk(celldata, name).value;
    var g := CellWalkFrom(gdsdata, name, c.saveptr).value;
    var s := g.start.value;
    var e := g.end.value;
    var cell := Slice(celldata, c.start.value, c.end.value);
    if s <= |gdsdata| && e <= |gdsdata| {
      assert out == Take(gdsdata, s) + cell + Drop(gdsdata, e);
      SpliceKeeps(gdsdata, s, cell, e, out);
    }
  }

  /** Replacing a cell by itself, taken from the same stream, gives the
      stream back whenever its extent is in order. */
  lemma {:induction false} SpliceSelf(name: String, data: Bytes)
    requires CellWalk(data, name).Success?
    requires InOrder(CellWalk(data, name).value)
    ensures ChangeGdsCell(name, 0, data, data) == Success(data)
  {
    var c := CellWalk(data, name).value;
    SeedIrrelevant(data, name, c.saveptr);
    var s := c.start.value;
    var e := c.end.value;
    assert ChangeGdsCell(name, 0, data, data) == Success(Take(data, s) + Slice(data, s, e) + Drop(data, e));
    SpliceSame(data, s, e);
  }

  /** Cutting `d` at `s` and `e` and putting the pieces back together gives
      `d`, however far the cuts lie past its end. */
  lemma {:induction false} SpliceSame(d: Bytes, s: nat, e: nat)
    requires s <= e
    ensures Take(d, s) + Slice(d, s, e) + Drop(d, e) == d
  {
    if e <= |d| {
      TakeDropIn(d, s, e);
      assert Slice(d, s, e) == d[s..e];
      assert d[..s] + d[s..e] + d[e..] == d;
    } else if s <= |d| {
      assert Slice(d, s, e) == d[s..];
      assert Take(d, s) + d[s..] == d;
    } else {
      assert Take(d, s) == d;
    }
  }

  // ---------------------------------------------------------------------
  // The scan over the list of records.
  // ---------------------------------------------------------------------

  /** Every STRNAME record among `recs` holds a readable name other than
      `name`. */
  predicate Quiet(data: Bytes, recs: seq<Rec>, name: String) {
    forall i :: 0 <= i < |recs| ==> QuietRec(data, recs[i], name)
  }

  /** A record whose name, if it is a STRNAME, is readable and different. */
  predicate QuietRec(data: Bytes, r: Rec, name: String) {
    r.rtype == STRNAME ==> StructName(data, r).Success? && StructName(data, r).value != name
  }

  /** No record of `recs` has type `t`. */
  predicate NoType(recs: seq<Rec>, t: byte) {
    forall i :: 0 <= i < |recs| ==> recs[i].rtype != t
  }

  /** The latest BGNSTR position once `r` has been seen. */
  function Begin(r: Rec, sp: Option<nat>): Option<nat> {
    if r.rtype == BGNSTR then Some(r.pos) else sp
  }

  /** The position of the last BGNSTR among `recs`, or `sp` when there is
      none. */
  function LastBegin(recs: seq<Rec>, sp: Option<nat>): Option<nat>
    decreases |recs|
  {
    if |recs| == 0 then sp
    else LastBegin(recs[1..], Begin(recs[0], sp))
  }

  lemma {:induction false} QuietTail(data: Bytes, recs: seq<Rec>, name: String)
    requires |recs| > 0 && Quiet(data, recs, name)
    ensures Quiet(data, recs[1..], name)
  {
    forall i | 0 <= i < |recs| - 1 ensures QuietRec(data, recs[1..][i], name) {
      assert recs[1..][i] == recs[i + 1];
    }
  }

  lemma {:induction false} NoTypeTail(recs: seq<Rec>, t: byte)
    requires |recs| > 0 && NoType(recs, t)
    ensures NoType(recs[1..], t)
  {
    forall i | 0 <= i < |recs| - 1 ensures recs[1..][i].rtype != t {
      assert recs[1..][i] == recs[i + 1];
    }
  }

  /** One record outside the cell only moves the latest BGNSTR position. */
  lemma StepOutside(data: Bytes, r: Rec, name: String, st: CellScan)
    requires !st.incell && QuietRec(data, r, name)
    ensures Scanner(data, name)(r, st) == Success(st.(saveptr := Begin(r, st.saveptr)))
  {
  }

  /** One record inside the cell other than ENDSTR adds its length. */
  lemma StepInside(data: Bytes, r: Rec, name: String, st: CellScan)
    requires st.incell && QuietRec(data, r, name) && r.rtype != ENDSTR
    ensures Scanner(data, name)(r, st)
              == Success(st.(saveptr := Begin(r, st.saveptr), sum := st.sum + r.len))
  {
  }

  /** The STRNAME naming the cell opens it at the latest BGNSTR. */
  lemma StepOpens(data: Bytes, m: Rec, name: String, st: CellScan)
    requires !st.incell && st.saveptr.Some?
    requires m.rtype == STRNAME && StructName(data, m) == Success(name)
    ensures Scanner(data, name)(m, st) == Success(st.(start := st.saveptr, incell := true, sum := st.sum + m.len))
  {
  }

  /** The first ENDSTR inside the cell closes it, counting its own length. */
  lemma StepCloses(data: Bytes, en: Rec, name: String, st: CellScan)
    requires st.incell && en.rtype == ENDSTR
    ensures Scanner(data, name)(en, st) == Success(st.(incell := false, sum := st.sum + en.len, end := Some(en.pos + en.len)))
  {
  }

  /** Outside the cell, records whose names do not match change nothing
      but the latest BGNSTR position. */
  lemma {:induction false} FoldOutside(data: Bytes, recs: seq<Rec>, name: String, st: CellScan)
    requires !st.incell && Quiet(data, recs, name)
    ensures Fold(recs, Scanner(data, name), st) == Success(st.(saveptr := LastBegin(recs, st.saveptr)))
    decreases |recs|
  {
    if |recs| > 0 {
      var r := recs[0];
      StepOutside(data, r, name, st);
      QuietTail(data, recs, name);
      FoldOutside(data, recs[1..], name, st.(saveptr := Begin(r, st.saveptr)));
    }
  }

  /** Inside the cell and before its ENDSTR, every record adds its length
      to the checksum. */
  lemma {:induction false} FoldInside(data: Bytes, recs: seq<Rec>, name: String, st: CellScan)
    requires st.incell && Quiet(data, recs, name) && NoType(recs, ENDSTR)
    ensures Fold(recs, Scanner(data, name), st)
              == Success(st.(saveptr := LastBegin(recs, st.saveptr), sum := st.sum + Lengths(recs)))
    decreases |recs|
  {
    if |recs| > 0 {
      var r := recs[0];
      StepInside(data, r, name, st);
      QuietTail(data, recs, name);
      NoTypeTail(recs, ENDSTR);
      FoldInside(data, recs[1..], name, st.(saveptr := Begin(r, st.saveptr), sum := st.sum + r.len));
    }
  }

  lemma {:induction false} LastBeginNone(recs: seq<Rec>, sp: Option<nat>)
    requires NoType(recs, BGNSTR)
    ensures LastBegin(recs, sp) == sp
    decreases |recs|
  {
    if |recs| > 0 {
      NoTypeTail(recs, BGNSTR);
      LastBeginNone(recs[1..], sp);
    }
  }

  /** Up to the STRNAME naming the cell: the cell opens at the last BGNSTR
      before it and the checksum starts with the STRNAME's length. */
  lemma {:induction false} CellOpens(data: Bytes, name: String, sp: Option<nat>, pre: seq<Rec>, b: Rec, mid: seq<Rec>, m: Rec)
    requires Quiet(data, pre, name) && Quiet(data, mid, name)
    requires b.rtype == BGNSTR && NoType(mid, BGNSTR)
    requires m.rtype == STRNAME && StructName(data, m) == Success(name)
    ensures Fold(pre + [b] + mid + [m], Scanner(data, name), Init.(saveptr := sp))
              == Success(CellScan(Some(b.pos), Some(b.pos), None, true, m.len))
  {
    var f := Scanner(data, name);
    var s0 := Init.(saveptr := sp);
    var s1 := CellScan(LastBegin(pre, sp), None, None, false, 0);
    var s2 := CellScan(Some(b.pos), None, None, false, 0);
    assert Fold(pre + [b], f, s0) == Success(s2) by {
      FoldOutside(data, pre, name, s0);
      StepOutside(data, b, name, s1);
      FoldOne(b, f, s1);
      FoldAppend(pre, [b], f, s0, s1);
    }
    assert Fold(pre + [b] + mid, f, s0) == Success(s2) by {
      FoldOutside(data, mid, name, s2);
      LastBeginNone(mid, s2.saveptr);
      FoldAppend(pre + [b], mid, f, s0, s2);
    }
    StepOpens(data, m, name, s2);
    FoldOne(m, f, s2);
    FoldAppend(pre + [b] + mid, [m], f, s0, s2);
  }

  /** From inside the cell on: the cell closes at its first ENDSTR, and the
      checksum adds every length up to and including that record. */
  lemma {:induction false} CellCloses(data: Bytes, name: String, body: seq<Rec>, en: Rec, post: seq<Rec>, st: CellScan)
    requires st.incell && Quiet(data, body, name) && Quiet(data, post, name)
    requires NoType(body, ENDSTR) && en.rtype == ENDSTR
    ensures var r := Fold(body + [en] + post, Scanner(data, name), st);
            r.Success? && r.value.start == st.start && r.value.end == Some(en.pos + en.len)
            && !r.value.incell && r.value.sum == st.sum + Lengths(body) + en.len
  {
    var f := Scanner(data, name);
    var s5 := st.(saveptr := LastBegin(body, st.saveptr), sum := st.sum + Lengths(body));
    var s6 := s5.(incell := false, sum := s5.sum + en.len, end := Some(en.pos + en.len));
    assert Fold(body + [en], f, st) == Success(s6) by {
      FoldInside(data, body, name, st);
      StepCloses(data, en, name, s5);
      FoldOne(en, f, s5);
      FoldAppend(body, [en], f, st, s5);
    }
    FoldOutside(data, post, name, s6);
    FoldAppend(body + [en], post, f, st, s6);
  }

  /** The scan over a list of records shaped as below, for `CellExtent`. */
  lemma {:induction false} CellFold(data: Bytes, name: String, sp: Option<nat>, pre: seq<Rec>, b: Rec, mid: seq<Rec>, m: Rec,
                 body: seq<Rec>, en: Rec, post: seq<Rec>)
    requires Quiet(data, pre, name) && Quiet(data, mid, name) && Quiet(data, body, name) && Quiet(data, post, name)
    requires b.rtype == BGNSTR && NoType(mid, BGNSTR)
    requires m.rtype == STRNAME && StructName(data, m) == Success(name)
    requires NoType(body, ENDSTR) && en.rtype == ENDSTR
    ensures var r := Fold(pre + [b] + mid + [m] + body + [en] + post, Scanner(data, name), Init.(saveptr := sp));
            r.Success? && r.value.start == Some(b.pos) && r.value.end == Some(en.pos + en.len)
            && r.value.sum == m.len + Lengths(body) + en.len
  {
    var front := pre + [b] + mid + [m];
    var rest := body + [en] + post;
    var s4 := CellScan(Some(b.pos), Some(b.pos), None, true, m.len);
    assert pre + [b] + mid + [m] + body + [en] + post == front + rest;
    CellOpens(data, name, sp, pre, b, mid, m);
    FoldAppend(front, rest, Scanner(data, name), Init.(saveptr := sp), s4);
    CellCloses(data, name, body, en, post, s4);
  }

  /** In a stream whose records are: any records, a BGNSTR, records with no
      BGNSTR, the STRNAME naming the cell, records with no ENDSTR, an
      ENDSTR, any records -- with no other STRNAME naming the cell and
      every name readable -- the cell runs from that BGNSTR through that
      ENDSTR, and its checksum adds up the lengths from the STRNAME through
      the ENDSTR, which is the number of bytes between the start of that
      STRNAME and the end of that ENDSTR. This holds whatever BGNSTR
      position the scan starts with. */
  lemma {:induction false} CellExtent(data: Bytes, name: String, sp: Option<nat>, pre: seq<Rec>, b: Rec, mid: seq<Rec>, m: Rec,
                   body: seq<Rec>, en: Rec, post: seq<Rec>)
    requires Records(data, 0) == Success(pre + [b] + mid + [m] + body + [en] + post)
    requires Quiet(data, pre, name) && Quiet(data, mid, name) && Quiet(data, body, name) && Quiet(data, post, name)
    requires b.rtype == BGNSTR && NoType(mid, BGNSTR)
    requires m.rtype == STRNAME && StructName(data, m) == Success(name)
    requires NoType(body, ENDSTR) && en.rtype == ENDSTR
    ensures var r := CellWalkFrom(data, name, sp);
            r.Success? && r.value.start == Some(b.pos) && r.value.end == Some(en.pos + en.len)
            && r.value.sum == m.len + Lengths(body) + en.len
            && r.value.sum == en.pos + en.len - m.pos
  {
    var all := pre + [b] + mid + [m] + body + [en] + post;
    CellFold(data, name, sp, pre, b, mid, m, body, en, post);
    WalkIsFold(data, 0, Scanner(data, name), Init.(saveptr := sp), all);
    RecordsChained(data, 0, all);
    assert all == (pre + [b] + mid) + [m] + body + [en] + post;
    SegmentSpan(pre + [b] + mid, m, body, en, post);
  }

  /** Where the records of a stream cannot all be read, the scan fails and
      the script writes nothing. */
  lemma {:induction false} UnreadableFails(name: String, checksum: int, celldata: Bytes, gdsdata: Bytes)
    requires Records(celldata, 0).Failure? || Records(gdsdata, 0).Failure?
    ensures ChangeGdsCell(name, checksum, celldata, gdsdata).Failure?
  {
    if Records(celldata, 0).Failure? {
      WalkFails(celldata, 0, Scanner(celldata, name), Init);
    } else if CellWalk(celldata, name).Success? {
      var sp := CellWalk(celldata, name).value.saveptr;
      WalkFails(gdsdata, 0, Scanner(gdsdata, name), Init.(saveptr := sp));
    }
  }

  // ---------------------------------------------------------------------
  // The BGNSTR position a scan starts with.
  // ---------------------------------------------------------------------

  /** Two scan states that differ at most in the latest BGNSTR position,
      where the first has seen none. */
  predicate Seeded(s1: CellScan, s2: CellScan) {
    s2 == s1.(saveptr := s2.saveptr) && (s1.saveptr.Some? ==> s2.saveptr == s1.saveptr)
  }

  /** A record the scan gets past from `s1` it gets past from a state that
      differs only in a position `s1` has not seen; the two stay so. */
  lemma StepSeeded(data: Bytes, r: Rec, name: String, s1: CellScan, s2: CellScan)
    requires Seeded(s1, s2) && CellStep(data, r, name, s1).Success?
    ensures CellStep(data, r, name, s2).Success?
    ensures Seeded(CellStep(data, r, name, s1).value, CellStep(data, r, name, s2).value)
  {
  }

  lemma {:induction false} WalkSeeded(data: Bytes, ptr: nat, name: String, s1: CellScan, s2: CellScan)
    requires Seeded(s1, s2) && Walk(data, ptr, Scanner(data, name), s1).Success?
    ensures Walk(data, ptr, Scanner(data, name), s2).Success?
    ensures Seeded(Walk(data, ptr, Scanner(data, name), s1).value, Walk(data, ptr, Scanner(data, name), s2).value)
    decreases |data| - ptr
  {
    if ptr < |data| && RecLen(data, ptr) != 0 && ptr + 3 < |data| {
      var reclen := RecLen(data, ptr);
      var r := Rec(ptr, reclen, data[ptr + 2], data[ptr + 3]);
      StepSeeded(data, r, name, s1, s2);
      WalkSeeded(data, ptr + reclen, name, CellStep(data, r, name, s1).value, CellStep(data, r, name, s2).value);
    }
  }

  /** A scan that gets through a stream without a BGNSTR position to start
      with finds the same cell, with the same checksum, when it is given
      one: the position it starts with matters only to a STRNAME naming the
      cell before any BGNSTR, which stops the scan that has none. */
  lemma SeedIrrelevant(data: Bytes, name: String, sp: Option<nat>)
    requires CellWalk(data, name).Success?
    ensures var c := CellWalk(data, name).value;
            var g := CellWalkFrom(data, name, sp);
            g.Success? && g.value.start == c.start && g.value.end == c.end
            && g.value.sum == c.sum && g.value.incell == c.incell
  {
    WalkSeeded(data, 0, name, Init, Init.(saveptr := sp));
  }

  /** The name "AB", in a STRNAME record at `pos` of `data`. */
  lemma NamedAB(data: Bytes, pos: nat)
    requires pos + 6 <= |data| && data[pos + 2] == STRNAME && data[pos + 3] == ASCII
    requires data[pos + 4] == 65 && data[pos + 5] == 66
    ensures StructName(data, Rec(pos, 6, STRNAME, ASCII)) == Success("AB")
  {
    var p: Bytes := [65, 66];
    assert Slice(data, pos + 4, pos + 6) == p;
    assert Unpad(p) == p;
    var d := DecodeAscii(p);
    assert d.Some? && |d.value| == 2 && d.value[0] as int == 65 && d.value[1] as int == 66;
    assert d.value == "AB";
    NameFromPayload(data, Rec(pos, 6, STRNAME, ASCII), p, "AB");
  }

  /** The length field of the record at `ptr`. */
  lemma RecLenAt(data: Bytes, ptr: nat)
    requires ptr + 2 <= |data|
    ensures RecLen(data, ptr) == data[ptr] as int * 256 + data[ptr + 1] as int
  {
    BigEndianTwo(Slice(data, ptr, ptr + 2));
  }

  /** One turn of the record loop. */
  lemma WalkOne(data: Bytes, ptr: nat, len: nat, name: String, st: CellScan, next: CellScan)
    requires ptr + 3 < |data| && RecLen(data, ptr) == len > 0
    requires Scanner(data, name)(Rec(ptr, len, data[ptr + 2], data[ptr + 3]), st) == Success(next)
    ensures Walk(data, ptr, Scanner(data, name), st) == Walk(data, ptr + len, Scanner(data, name), next)
  {
  }

  /** A turn of the record loop whose step fails stops the loop. */
  lemma WalkStops(data: Bytes, ptr: nat, len: nat, name: String, st: CellScan)
    requires ptr + 3 < |data| && RecLen(data, ptr) == len > 0
    requires CellStep(data, Rec(ptr, len, data[ptr + 2], data[ptr + 3]), name, st).Failure?
    ensures Walk(data, ptr, Scanner(data, name), st).Failure?
  {
  }

  /** The cell stream of `NameBeforeBegin`: a BGNSTR at 0, the STRNAME
      "AB" at 4 and an ENDSTR at 10. */
  lemma ExampleCell(c: Bytes)
    requires c == [0, 4, 5, 0, 0, 6, 6, 6, 65, 66, 0, 4, 7, 0]
    ensures CellWalk(c, "AB") == Success(CellScan(Some(0), Some(0), Some(14), false, 10))
  {
    var c1 := Init.(saveptr := Some(0));
    var c2 := c1.(start := Some(0), incell := true, sum := 6);
    var c3 := c2.(incell := false, sum := 10, end := Some(14));
    RecLenAt(c, 0);
    StepOutside(c, Rec(0, 4, BGNSTR, 0), "AB", Init);
    WalkOne(c, 0, 4, "AB", Init, c1);
    RecLenAt(c, 4);
    NamedAB(c, 4);
    StepOpens(c, Rec(4, 6, STRNAME, ASCII), "AB", c1);
    WalkOne(c, 4, 6, "AB", c1, c2);
    RecLenAt(c, 10);
    StepCloses(c, Rec(10, 4, ENDSTR, 0), "AB", c2);
    WalkOne(c, 10, 4, "AB", c2, c3);
  }

  /** The target of `NameBeforeBegin`: the STRNAME "AB" at 0 and an ENDSTR
      at 6. Alone its scan stops; from a BGNSTR at 0 it finds the cell. */
  lemma ExampleTarget(g: Bytes)
    requires g == [0, 6, 6, 6, 65, 66, 0, 4, 7, 0]
    ensures CellWalk(g, "AB").Failure?
    ensures CellWalkFrom(g, "AB", Some(0)) == Success(CellScan(Some(0), Some(0), Some(10), false, 10))
  {
    var c1 := Init.(saveptr := Some(0));
    var c2 := c1.(start := Some(0), incell := true, sum := 6);
    var g2 := c2.(incell := false, sum := 10, end := Some(10));
    RecLenAt(g, 0);
    NamedAB(g, 0);
    assert CellStep(g, Rec(0, 6, STRNAME, ASCII), "AB", Init) == Failure(NoBeginStr(0));
    WalkStops(g, 0, 6, "AB", Init);
    StepOpens(g, Rec(0, 6, STRNAME, ASCII), "AB", c1);
    WalkOne(g, 0, 6, "AB", c1, c2);
    RecLenAt(g, 6);
    StepCloses(g, Rec(6, 4, ENDSTR, 0), "AB", c2);
    WalkOne(g, 6, 4, "AB", c2, g2);
  }

  /** A target whose STRNAME comes before any BGNSTR of its own: the scan of
      the target alone stops, but the script's scan of it starts from the
      cell stream's last BGNSTR, here at 0, and the stream is written. */
  lemma NameBeforeBegin()
    ensures var c: Bytes := [0, 4, 5, 0, 0, 6, 6, 6, 65, 66, 0, 4, 7, 0];
            var g: Bytes := [0, 6, 6, 6, 65, 66, 0, 4, 7, 0];
            CellWalk(g, "AB").Failure? && ChangeGdsCell("AB", 0, c, g) == Success(c)
  {
    var c: Bytes := [0, 4, 5, 0, 0, 6, 6, 6, 65, 66, 0, 4, 7, 0];
    var g: Bytes := [0, 6, 6, 6, 65, 66, 0, 4, 7, 0];
    ExampleCell(c);
    ExampleTarget(g);
    assert Take(g, 0) + Slice(c, 0, 14) + Drop(g, 10) == c;
  }
}

=== FILE: gds_date.dfy ===
/** Library and structure time stamps of a GDSII stream: the rewrite done by
    `change_gds_date` and the read-back done by `get_gds_date`. A stamp is
    six 2-byte big-endian fields (year since 1900, month, day, hour,
    minute, second); BGNLIB and BGNSTR records carry a creation stamp
    followed by a modification stamp. */
module GdsDate {
  import opened Wrappers
  import opened Seqs
  import opened Text
  import opened GdsStream
  import opened GdsRecords

  datatype DateTime = DateTime(year: int, month: int, day: int, hour: int, minute: int, second: int)

  /** A command-line stamp: `int(arg)` succeeded (seconds since the epoch)
      or it did not (a `%m/%d/%Y %H:%M:%S` date). */
  datatype Stamp = Epoch(seconds: int) | Calendar(text: String)

  /** The two stamps read back from the first BGNLIB record. */
  datatype Dates = Dates(created: DateTime, modified: DateTime)

  /** A modification stamp of zero or less means "same as the creation
      stamp". */
  function EffectiveModStamp(create: Stamp, modified: Stamp): (r: Stamp)
    ensures r == modified || r == create
    ensures r != modified ==> modified.Epoch? && modified.seconds <= 0
  {
    if modified.Epoch? && modified.seconds <= 0 then create else modified
  }

  /** The 12 bytes of a stamp; `to_bytes(2)` raises when a field, or the
      year minus 1900, does not fit in 16 unsigned bits. */
  function EncodeStamp(t: DateTime): (r: Result<Bytes, Fault>)
    ensures r.Success? <==> 0 <= t.year - 1900 < 65536 && 0 <= t.month < 65536 && 0 <= t.day < 65536
                            && 0 <= t.hour < 65536 && 0 <= t.minute < 65536 && 0 <= t.second < 65536
    ensures r.Success? ==> |r.value| == 12
  {
    var year :- U16(t.year - 1900);
    var month :- U16(t.month);
    var day :- U16(t.day);
    var hour :- U16(t.hour);
    var minute :- U16(t.minute);
    var second :- U16(t.second);
    Success(year + month + day + hour + minute + second)
  }

  /** The stamp stored at `at`, read through clamped slices. */
  function DecodeStamp(data: Bytes, at: nat): DateTime {
    DateTime(BigEndian(Slice(data, at, at + 2)) + 1900,
             BigEndian(Slice(data, at + 2, at + 4)),
             BigEndian(Slice(data, at + 4, at + 6)),
             BigEndian(Slice(data, at + 6, at + 8)),
             BigEndian(Slice(data, at + 8, at + 10)),
             BigEndian(Slice(data, at + 10, at + 12)))
  }

  /** One 2-byte field `k` of two equal 12-byte windows. */
  lemma {:induction false} FieldAgree(x: Bytes, a: nat, y: Bytes, b: nat, k: nat)
    requires a + 12 <= |x| && b + 12 <= |y| && k < 6
    requires x[a..a + 12] == y[b..b + 12]
    ensures Slice(x, a + 2 * k, a + 2 * k + 2) == Slice(y, b + 2 * k, b + 2 * k + 2)
  {
    assert x[a + 2 * k] == x[a..a + 12][2 * k];
    assert x[a + 2 * k + 1] == x[a..a + 12][2 * k + 1];
    assert y[b + 2 * k] == y[b..b + 12][2 * k];
    assert y[b + 2 * k + 1] == y[b..b + 12][2 * k + 1];
  }

  /** Only the twelve bytes from `at` matter to `DecodeStamp`. */
  lemma {:induction false} DecodeStampAgree(x: Bytes, a: nat, y: Bytes, b: nat)
    requires a + 12 <= |x| && b + 12 <= |y|
    requires x[a..a + 12] == y[b..b + 12]
    ensures DecodeStamp(x, a) == DecodeStamp(y, b)
  {
    FieldAgree(x, a, y, b, 0);
    FieldAgree(x, a, y, b, 1);
    FieldAgree(x, a, y, b, 2);
    FieldAgree(x, a, y, b, 3);
    FieldAgree(x, a, y, b, 4);
    FieldAgree(x, a, y, b, 5);
  }

  /** Reading a stamp back gives the time that was written. */
  lemma {:induction false} StampRoundTrip(t: DateTime, b: Bytes)
    requires EncodeStamp(t) == Success(b)
    ensures DecodeStamp(b, 0) == t
  {
    var year := U16(t.year - 1900).value;
    var month := U16(t.month).value;
    var day := U16(t.day).value;
    var hour := U16(t.hour).value;
    var minute := U16(t.minute).value;
    var second := U16(t.second).value;
    assert b == year + month + day + hour + minute + second;
    assert Slice(b, 0, 2) == year;
    assert Slice(b, 2, 4) == month;
    assert Slice(b, 4, 6) == day;
    assert Slice(b, 6, 8) == hour;
    assert Slice(b, 8, 10) == minute;
    assert Slice(b, 10, 12) == second;
  }

  /** Any twelve bytes are the encoding of the stamp they decode to. */
  lemma {:induction false} StampDecodeEncode(b: Bytes)
    requires |b| == 12
    ensures EncodeStamp(DecodeStamp(b, 0)) == Success(b)
  {
    var t := DecodeStamp(b, 0);
    U16RoundTrip(Slice(b, 0, 2));
    U16RoundTrip(Slice(b, 2, 4));
    U16RoundTrip(Slice(b, 4, 6));
    U16RoundTrip(Slice(b, 6, 8));
    U16RoundTrip(Slice(b, 8, 10));
    U16RoundTrip(Slice(b, 10, 12));
    assert b == Slice(b, 0, 2) + Slice(b, 2, 4) + Slice(b, 4, 6) + Slice(b, 6, 8) + Slice(b, 8, 10) + Slice(b, 10, 12);
  }

  /** The record at `ptr` is a BGNLIB or BGNSTR header. */
  predicate IsHeader(data: Bytes, ptr: nat)
    requires ptr + 2 < |data|
  {
    data[ptr + 2] == BGNLIB || data[ptr + 2] == BGNSTR
  }

  /** The record at `ptr` with its 24 stamp bytes replaced; the 4-byte
      header (length, type, data type) is copied unchanged. */
  function Restamp(data: Bytes, ptr: nat, reclen: nat, create: Bytes, modified: Bytes): (r: Bytes)
    requires ptr + 3 < |data|
  {
    Take(data, ptr) + (Slice(data, ptr, ptr + 2) + [data[ptr + 2], data[ptr + 3]] + create + modified)
      + Drop(data, ptr + reclen)
  }

  /** The record walk of `change_gds_date`: every BGNLIB and BGNSTR record is
      rebuilt with the two stamps. The loop bound `datalen` is the length of
      the original data and is not updated; the walk stops at the first
      zero-length record and advances by each record's own length. */
  function DateWalk(data: Bytes, datalen: nat, ptr: nat, create: Bytes, modified: Bytes): Result<Bytes, Fault>
    decreases datalen - ptr
  {
    if ptr >= datalen then Success(data)
    else
      var reclen := RecLen(data, ptr);
      if reclen == 0 then Success(data)
      else if ptr + 3 >= |data| then Failure(Truncated(ptr))
      else if IsHeader(data, ptr) then
        DateWalk(Restamp(data, ptr, reclen, create, modified), datalen, ptr + reclen, create, modified)
      else DateWalk(data, datalen, ptr + reclen, create, modified)
  }

  /** The whole script: the modification stamp defaults to the creation
      stamp, both are converted to calendar times by `toTime` (the local
      time zone and `strptime` are outside the model), the modification
      stamp is encoded first, then the walk runs over the file. */
  function ChangeGdsDate(create: Stamp, modified: Stamp, toTime: Stamp -> Option<DateTime>, data: Bytes): (r: Result<Bytes, Fault>)
    ensures r.Success? ==> toTime(create).Some? && toTime(EffectiveModStamp(create, modified)).Some?
    ensures r.Success? && StampsFit(data, 0) ==>
              var ct := toTime(create).value;
              var mt := toTime(EffectiveModStamp(create, modified)).value;
              |r.value| == |data| && DateRead(data, 0).Success?
              && DateRead(r.value, 0) == Success(if DateRead(data, 0).value.Some? then Some(Dates(ct, mt)) else None)
  {
    var m := EffectiveModStamp(create, modified);
    var mtime :- (if toTime(m).Some? then Success(toTime(m).value) else Failure(BadTime));
    var mbytes :- EncodeStamp(mtime);
    var ctime :- (if toTime(create).Some? then Success(toTime(create).value) else Failure(BadTime));
    var cbytes :- EncodeStamp(ctime);
    var out := DateWalk(data, |data|, 0, cbytes, mbytes);
    if out.Success? && StampsFit(data, 0) then
      ChangeThenRead(data, ctime, mtime, cbytes, mbytes, out.value);
      out
    else out
  }

  /** A non-positive modification stamp gives the same file as passing the
      creation stamp twice. */
  lemma ModStampDefault(create: Stamp, n: int, toTime: Stamp -> Option<DateTime>, data: Bytes)
    requires n <= 0
    ensures ChangeGdsDate(create, Epoch(n), toTime, data) == ChangeGdsDate(create, create, toTime, data)
  {
  }

  /** The read-back of `get_gds_date`: walk to the first BGNLIB record and
      decode its two stamps, from bytes 4-16 and 16-28 of the record. Other
      records, BGNSTR included, are skipped. */
  function DateRead(data: Bytes, ptr: nat): (r: Result<Option<Dates>, Fault>)
    ensures r.Failure? ==> r.error.Truncated? && ptr <= r.error.at < |data| <= r.error.at + 3
    decreases |data| - ptr
  {
    if ptr >= |data| then Success(None)
    else
      var reclen := RecLen(data, ptr);
      if reclen == 0 then Success(None)
      else if ptr + 3 >= |data| then Failure(Truncated(ptr))
      else if data[ptr + 2] == BGNLIB then
        Success(Some(Dates(DecodeStamp(data, ptr + 4), DecodeStamp(data, ptr + 16))))
      else DateRead(data, ptr + reclen)
  }

  /** The two stamps of the BGNLIB record at `p`. */
  function LibDates(data: Bytes, p: nat): Dates {
    Dates(DecodeStamp(data, p + 4), DecodeStamp(data, p + 16))
  }

  /** `r` reports `stamps` of the first BGNLIB record of `recs`, and nothing
      when there is none. */
  predicate ReadsFirst(recs: seq<Rec>, r: Result<Option<Dates>, Fault>, stamps: nat -> Dates) {
    var k := FirstLib(recs);
    r.Success? && (r.value.None? <==> k == |recs|)
    && (k < |recs| ==> r.value == Some(stamps(recs[k].pos)))
  }

  /** Where the records can be read, the read-back reports the stamps of
      the first BGNLIB record among them, and nothing when there is none. */
  lemma {:induction false} DateReadFirst(data: Bytes, ptr: nat, recs: seq<Rec>)
    requires Records(data, ptr) == Success(recs)
    ensures ReadsFirst(recs, DateRead(data, ptr), (p: nat) => LibDates(data, p))
    decreases |data| - ptr
  {
    var stamps := (p: nat) => LibDates(data, p);
    if ptr < |data| && RecLen(data, ptr) != 0 {
      var reclen := RecLen(data, ptr);
      RecordsCons(data, ptr);
      var r := Rec(ptr, reclen, data[ptr + 2], data[ptr + 3]);
      var rest := Records(data, ptr + reclen).value;
      assert recs == [r] + rest;
      if data[ptr + 2] != BGNLIB {
        ReadStepsOver(data, ptr);
        DateReadFirst(data, ptr + reclen, rest);
        ReadsFirstCons(r, rest, DateRead(data, ptr), stamps);
      } else {
        ReadStops(data, ptr);
        assert DateRead(data, ptr) == Success(Some(stamps(r.pos)));
        ReadsFirstLib(r, rest, stamps);
      }
    } else {
      ReadEnds(data, ptr);
      assert recs == [];
    }
  }

  /** The read-back ends with nothing at the end of the data or at a
      zero-length record. */
  lemma ReadEnds(data: Bytes, ptr: nat)
    requires ptr >= |data| || RecLen(data, ptr) == 0
    ensures DateRead(data, ptr) == Success(None)
  {
  }

  /** A record other than BGNLIB in front changes nothing. */
  lemma ReadsFirstCons(r: Rec, rest: seq<Rec>, d: Result<Option<Dates>, Fault>, stamps: nat -> Dates)
    requires r.rtype != BGNLIB && ReadsFirst(rest, d, stamps)
    ensures ReadsFirst([r] + rest, d, stamps)
  {
    FirstLibCons(r, rest);
    var k := FirstLib(rest);
    assert k < |rest| ==> ([r] + rest)[k + 1] == rest[k];
  }

  /** A BGNLIB record in front is the one reported. */
  lemma ReadsFirstLib(r: Rec, rest: seq<Rec>, stamps: nat -> Dates)
    requires r.rtype == BGNLIB
    ensures ReadsFirst([r] + rest, Success(Some(stamps(r.pos))), stamps)
  {
    FirstLibCons(r, rest);
    assert ([r] + rest)[0] == r;
  }

  /** The read-back stops at a BGNLIB record with its stamps. */
  lemma ReadStops(data: Bytes, ptr: nat)
    requires ptr + 3 < |data| && RecLen(data, ptr) != 0 && data[ptr + 2] == BGNLIB
    ensures DateRead(data, ptr) == Success(Some(LibDates(data, ptr)))
  {
  }

  /** A record list that can be read and is not empty is its first record
      followed by the list from the next. */
  lemma RecordsCons(data: Bytes, ptr: nat)
    requires Records(data, ptr).Success? && ptr < |data| && RecLen(data, ptr) != 0
    ensures ptr + 3 < |data| && Records(data, ptr + RecLen(data, ptr)).Success?
    ensures Records(data, ptr).value
              == [Rec(ptr, RecLen(data, ptr), data[ptr + 2], data[ptr + 3])] + Records(data, ptr + RecLen(data, ptr)).value
  {
  }

  lemma FirstLibCons(r: Rec, rest: seq<Rec>)
    ensures FirstLib([r] + rest) == if r.rtype == BGNLIB then 0 else 1 + FirstLib(rest)
  {
    assert ([r] + rest)[1..] == rest;
  }

  /** The read-back passes over a record other than BGNLIB. */
  lemma ReadStepsOver(data: Bytes, ptr: nat)
    requires ptr + 3 < |data| && RecLen(data, ptr) != 0 && data[ptr + 2] != BGNLIB
    ensures DateRead(data, ptr) == DateRead(data, ptr + RecLen(data, ptr))
  {
  }

  /** The index of the first BGNLIB record of `recs`, or `|recs|`. */
  function FirstLib(recs: seq<Rec>): (k: nat)
    ensures k <= |recs|
    ensures k < |recs| ==> recs[k].rtype == BGNLIB
    ensures forall j :: 0 <= j < k ==> recs[j].rtype != BGNLIB
    decreases |recs|
  {
    if |recs| == 0 then 0 else if recs[0].rtype == BGNLIB then 0 else 1 + FirstLib(recs[1..])
  }

  /** Every BGNLIB and BGNSTR record the walk meets from `ptr` is 28 bytes
      long and lies inside the data, which is what the scripts expect of
      them (they only print a warning otherwise). */
  predicate StampsFit(data: Bytes, ptr: nat)
    decreases |data| - ptr
  {
    if ptr >= |data| then true
    else
      var reclen := RecLen(data, ptr);
      if reclen == 0 || ptr + 3 >= |data| then true
      else (IsHeader(data, ptr) ==> reclen == 28 && ptr + 28 <= |data|) && StampsFit(data, ptr + reclen)
  }

  /** Both walks look only at the bytes from `ptr` on. */
  lemma {:induction false} FitsAgree(x: Bytes, y: Bytes, ptr: nat)
    requires |x| == |y|
    requires forall k :: ptr <= k < |x| ==> x[k] == y[k]
    ensures StampsFit(x, ptr) == StampsFit(y, ptr)
    decreases |x| - ptr
  {
    if ptr < |x| {
      RecLenAgree(x, y, ptr);
      var reclen := RecLen(x, ptr);
      if reclen != 0 && ptr + 3 < |x| {
        FitsAgree(x, y, ptr + reclen);
      }
    }
  }

  lemma {:induction false} ReadAgree(x: Bytes, y: Bytes, ptr: nat)
    requires |x| == |y|
    requires forall k :: ptr <= k < |x| ==> x[k] == y[k]
    ensures DateRead(x, ptr) == DateRead(y, ptr)
    decreases |x| - ptr
  {
    if ptr >= |x| {
      ReadEnds(x, ptr);
      ReadEnds(y, ptr);
    } else {
      RecLenAgree(x, y, ptr);
      var reclen := RecLen(x, ptr);
      if reclen == 0 {
        ReadEnds(x, ptr);
        ReadEnds(y, ptr);
      } else if ptr + 3 >= |x| {
        ReadCutShort(x, ptr);
        ReadCutShort(y, ptr);
      } else {
        assert x[ptr + 2] == y[ptr + 2];
        if x[ptr + 2] == BGNLIB {
          ReadAgreeLib(x, y, ptr);
        } else {
          ReadStepsOver(x, ptr);
          ReadStepsOver(y, ptr);
          ReadAgree(x, y, ptr + reclen);
        }
      }
    }
  }

  /** A header cut short stops the read-back. */
  lemma ReadCutShort(data: Bytes, ptr: nat)
    requires ptr < |data| <= ptr + 3 && RecLen(data, ptr) != 0
    ensures DateRead(data, ptr) == Failure(Truncated(ptr))
  {
  }

  /** The read stops at a BGNLIB record with the stamps it holds. */
  lemma {:induction false} ReadAgreeLib(x: Bytes, y: Bytes, ptr: nat)
    requires |x| == |y| && ptr + 3 < |x| && RecLen(x, ptr) != 0 && RecLen(x, ptr) == RecLen(y, ptr)
    requires forall k :: ptr <= k < |x| ==> x[k] == y[k]
    requires x[ptr + 2] == BGNLIB
    ensures DateRead(x, ptr) == DateRead(y, ptr)
  {
    SliceAgreeStamp(x, y, ptr + 4);
    SliceAgreeStamp(x, y, ptr + 16);
  }

  lemma {:induction false} SliceAgreeStamp(x: Bytes, y: Bytes, at: nat)
    requires |x| == |y|
    requires forall k :: at <= k < |x| ==> x[k] == y[k]
    ensures DecodeStamp(x, at) == DecodeStamp(y, at)
  {
    SliceAgree(x, y, at, at + 2);
    SliceAgree(x, y, at + 2, at + 4);
    SliceAgree(x, y, at + 4, at + 6);
    SliceAgree(x, y, at + 6, at + 8);
    SliceAgree(x, y, at + 8, at + 10);
    SliceAgree(x, y, at + 10, at + 12);
  }

  /** Restamping a fitting record keeps the length, the record's header and
      every byte outside its stamps. */
  lemma {:induction false} RestampKeeps(data: Bytes, ptr: nat, create: Bytes, modified: Bytes)
    requires ptr + 28 <= |data| && |create| == 12 && |modified| == 12
    ensures |Restamp(data, ptr, 28, create, modified)| == |data|
    ensures forall k :: 0 <= k < ptr + 4 ==> Restamp(data, ptr, 28, create, modified)[k] == data[k]
    ensures forall k :: ptr + 28 <= k < |data| ==> Restamp(data, ptr, 28, create, modified)[k] == data[k]
    ensures Restamp(data, ptr, 28, create, modified)[ptr + 4..ptr + 16] == create
    ensures Restamp(data, ptr, 28, create, modified)[ptr + 16..ptr + 28] == modified
  {
    var a := Take(data, ptr);
    var h := Slice(data, ptr, ptr + 2) + [data[ptr + 2], data[ptr + 3]];
    var b := Drop(data, ptr + 28);
    var r := Restamp(data, ptr, 28, create, modified);
    assert |a| == ptr && |h| == 4 && |b| == |data| - (ptr + 28);
    assert r == a + (h + create + modified) + b;
    assert forall k :: 0 <= k < 4 ==> h[k] == data[ptr + k];
    assert r[ptr + 4..ptr + 16] == create;
    assert r[ptr + 16..ptr + 28] == modified;
  }

  /** When every stamped record fits, the walk keeps the length of the data
      and every byte before the current record's payload. */
  lemma {:induction false} DateWalkKeeps(data: Bytes, ptr: nat, create: Bytes, modified: Bytes, out: Bytes)
    requires |create| == 12 && |modified| == 12 && StampsFit(data, ptr)
    requires DateWalk(data, |data|, ptr, create, modified) == Success(out)
    ensures |out| == |data|
    ensures forall k :: 0 <= k < ptr + 4 && k < |data| ==> out[k] == data[k]
    decreases |data| - ptr
  {
    if ptr < |data| {
      var reclen := RecLen(data, ptr);
      if reclen != 0 {
        if IsHeader(data, ptr) {
          var next := Restamp(data, ptr, reclen, create, modified);
          RestampKeeps(data, ptr, create, modified);
          FitsAgree(data, next, ptr + reclen);
          DateWalkKeeps(next, ptr + reclen, create, modified, out);
        } else {
          DateWalkKeeps(data, ptr + reclen, create, modified, out);
        }
      }
    }
  }

  /** Byte `k` is one of the 24 stamp bytes of a BGNLIB or BGNSTR record
      on the record chain that starts at `ptr`. */
  predicate InStamp(data: Bytes, ptr: nat, k: nat)
    decreases |data| - ptr
  {
    if ptr >= |data| then false
    else
      var reclen := RecLen(data, ptr);
      if reclen == 0 || ptr + 3 >= |data| then false
      else (IsHeader(data, ptr) && ptr + 4 <= k < ptr + 28) || InStamp(data, ptr + reclen, k)
  }

  /** The chain, and so the stamp bytes on it, depend only on the bytes
      from `ptr` on. */
  lemma {:induction false} InStampAgree(x: Bytes, y: Bytes, ptr: nat, k: nat)
    requires |x| == |y|
    requires forall j :: ptr <= j < |x| ==> x[j] == y[j]
    ensures InStamp(x, ptr, k) == InStamp(y, ptr, k)
    decreases |x| - ptr
  {
    if ptr < |x| {
      RecLenAgree(x, y, ptr);
      var reclen := RecLen(x, ptr);
      InStampStep(x, ptr, k);
      InStampStep(y, ptr, k);
      if reclen != 0 && ptr + 3 < |x| {
        assert x[ptr + 2] == y[ptr + 2];
        InStampAgree(x, y, ptr + reclen, k);
      }
    }
  }

  /** One step along the chain. */
  lemma InStampStep(data: Bytes, ptr: nat, k: nat)
    requires ptr < |data|
    ensures InStamp(data, ptr, k) ==
      (RecLen(data, ptr) != 0 && ptr + 3 < |data| &&
       ((IsHeader(data, ptr) && ptr + 4 <= k < ptr + 28) || InStamp(data, ptr + RecLen(data, ptr), k)))
  {
  }

  /** The walk changes nothing but stamp bytes: every byte that is not one
      of the 24 stamp bytes of a BGNLIB or BGNSTR record on the chain is
      the input's. */
  lemma {:induction false} DateWalkFrame(data: Bytes, ptr: nat, create: Bytes, modified: Bytes, out: Bytes)
    requires |create| == 12 && |modified| == 12 && StampsFit(data, ptr)
    requires DateWalk(data, |data|, ptr, create, modified) == Success(out)
    ensures |out| == |data|
    ensures forall k :: 0 <= k < |data| && !InStamp(data, ptr, k) ==> out[k] == data[k]
    decreases |data| - ptr
  {
    DateWalkKeeps(data, ptr, create, modified, out);
    if ptr < |data| {
      var reclen := RecLen(data, ptr);
      if reclen != 0 {
        if IsHeader(data, ptr) {
          var next := Restamp(data, ptr, reclen, create, modified);
          RestampKeeps(data, ptr, create, modified);
          FitsAgree(data, next, ptr + reclen);
          DateWalkFrame(next, ptr + reclen, create, modified, out);
          forall k | 0 <= k < |data| && !InStamp(data, ptr, k)
            ensures out[k] == data[k]
          {
            InStampAgree(data, next, ptr + reclen, k);
          }
        } else {
          DateWalkFrame(data, ptr + reclen, create, modified, out);
        }
      }
    }
  }

  /** A reader at `ptr` that sees the same record header as in `data`
      skips a record that is not a BGNLIB exactly as it does in `data`. */
  lemma {:induction false} ReadSkips(data: Bytes, out: Bytes, ptr: nat)
    requires |out| == |data| && ptr + 3 < |data| && RecLen(data, ptr) != 0
    requires forall k :: 0 <= k < ptr + 4 && k < |data| ==> out[k] == data[k]
    requires data[ptr + 2] != BGNLIB
    ensures DateRead(out, ptr) == DateRead(out, ptr + RecLen(data, ptr))
  {
    RecLenAgree(data, out, ptr);
    assert out[ptr + 2] != BGNLIB;
  }

  /** A reader at a restamped BGNLIB record decodes the two new stamps. */
  lemma {:induction false} ReadStamped(out: Bytes, ptr: nat, ct: DateTime, mt: DateTime, create: Bytes, modified: Bytes)
    requires |create| == 12 && |modified| == 12
    requires DecodeStamp(create, 0) == ct && DecodeStamp(modified, 0) == mt
    requires ptr + 28 <= |out| && RecLen(out, ptr) == 28 && out[ptr + 2] == BGNLIB
    requires out[ptr + 4..ptr + 16] == create && out[ptr + 16..ptr + 28] == modified
    ensures DateRead(out, ptr) == Success(Some(Dates(ct, mt)))
  {
    DecodeStampAgree(out, ptr + 4, create, 0);
    DecodeStampAgree(out, ptr + 16, modified, 0);
  }

  /** Two byte strings that agree below `bound` agree on every window
      below it. */
  lemma WindowAgree(x: Bytes, y: Bytes, a: nat, b: nat, bound: nat)
    requires a <= b <= bound <= |x| && bound <= |y|
    requires forall k :: 0 <= k < bound ==> x[k] == y[k]
    ensures x[a..b] == y[a..b]
  {
  }

  /** The facts about one restamped BGNLIB or BGNSTR record that the
      read-back needs: it is 28 bytes long, the rest of the walk runs on the
      restamped data, and that data differs from the input only in the
      record's payload. */
  lemma {:induction false} WalkHeaderStep(data: Bytes, ptr: nat, create: Bytes, modified: Bytes, out: Bytes)
    requires |create| == 12 && |modified| == 12
    requires ptr < |data| && RecLen(data, ptr) != 0 && StampsFit(data, ptr)
    requires DateWalk(data, |data|, ptr, create, modified) == Success(out)
    requires ptr + 3 < |data| && IsHeader(data, ptr)
    ensures RecLen(data, ptr) == 28 && ptr + 28 <= |data|
    ensures |Restamp(data, ptr, 28, create, modified)| == |data|
    ensures forall k :: 0 <= k < ptr + 4 ==> Restamp(data, ptr, 28, create, modified)[k] == data[k]
    ensures forall k :: ptr + 28 <= k < |data| ==> Restamp(data, ptr, 28, create, modified)[k] == data[k]
    ensures StampsFit(Restamp(data, ptr, 28, create, modified), ptr + 28)
    ensures DateWalk(Restamp(data, ptr, 28, create, modified), |data|, ptr + 28, create, modified) == Success(out)
  {
    var next := Restamp(data, ptr, 28, create, modified);
    RestampKeeps(data, ptr, create, modified);
    FitsAgree(data, next, ptr + 28);
  }

  /** A record the walk leaves alone: the rest of the walk starts at the
      next record, on the same data. */
  lemma WalkSkipStep(data: Bytes, ptr: nat, create: Bytes, modified: Bytes, out: Bytes)
    requires ptr < |data| && RecLen(data, ptr) != 0 && StampsFit(data, ptr)
    requires DateWalk(data, |data|, ptr, create, modified) == Success(out)
    requires ptr + 3 < |data| && !IsHeader(data, ptr)
    ensures StampsFit(data, ptr + RecLen(data, ptr))
    ensures DateWalk(data, |data|, ptr + RecLen(data, ptr), create, modified) == Success(out)
  {
  }

  /** The read-back at a restamped BGNLIB record. */
  lemma {:induction false} ReadBackLib(data: Bytes, ptr: nat, ct: DateTime, mt: DateTime, create: Bytes, modified: Bytes, out: Bytes)
    requires |create| == 12 && |modified| == 12
    requires DecodeStamp(create, 0) == ct && DecodeStamp(modified, 0) == mt
    requires ptr < |data| && RecLen(data, ptr) != 0 && StampsFit(data, ptr)
    requires DateWalk(data, |data|, ptr, create, modified) == Success(out)
    requires ptr + 3 < |data| && data[ptr + 2] == BGNLIB
    ensures DateRead(data, ptr).Success? && DateRead(data, ptr).value.Some?
    ensures DateRead(out, ptr) == Success(Some(Dates(ct, mt)))
  {
    WalkHeaderStep(data, ptr, create, modified, out);
    var next := Restamp(data, ptr, 28, create, modified);
    DateWalkKeeps(next, ptr + 28, create, modified, out);
    RestampKeeps(data, ptr, create, modified);
    RecLenAgree(data, out, ptr);
    WindowAgree(out, next, ptr + 4, ptr + 16, ptr + 28);
    WindowAgree(out, next, ptr + 16, ptr + 28, ptr + 28);
    ReadStamped(out, ptr, ct, mt, create, modified);
  }

  /** The read-back at a restamped BGNSTR record, given the read-back
      from the next record on. */
  lemma {:induction false} ReadBackStr(data: Bytes, ptr: nat, ct: DateTime, mt: DateTime, create: Bytes, modified: Bytes, out: Bytes)
    requires |create| == 12 && |modified| == 12
    requires ptr < |data| && RecLen(data, ptr) != 0 && StampsFit(data, ptr)
    requires DateWalk(data, |data|, ptr, create, modified) == Success(out)
    requires ptr + 3 < |data| && data[ptr + 2] == BGNSTR
    requires DateRead(Restamp(data, ptr, 28, create, modified), ptr + 28).Success?
    requires DateRead(out, ptr + 28) ==
      Success(if DateRead(Restamp(data, ptr, 28, create, modified), ptr + 28).value.Some? then Some(Dates(ct, mt)) else None)
    ensures DateRead(data, ptr).Success?
    ensures DateRead(out, ptr) == Success(if DateRead(data, ptr).value.Some? then Some(Dates(ct, mt)) else None)
  {
    WalkHeaderStep(data, ptr, create, modified, out);
    var next := Restamp(data, ptr, 28, create, modified);
    ReadAgree(data, next, ptr + 28);
    DateWalkKeeps(next, ptr + 28, create, modified, out);
    ReadSkips(data, out, ptr);
  }

  /** The read-back at a record the walk leaves alone, given the read-back
      from the next record on. */
  lemma {:induction false} ReadBackSkip(data: Bytes, ptr: nat, ct: DateTime, mt: DateTime, create: Bytes, modified: Bytes, out: Bytes)
    requires |create| == 12 && |modified| == 12
    requires ptr < |data| && RecLen(data, ptr) != 0 && StampsFit(data, ptr)
    requires DateWalk(data, |data|, ptr, create, modified) == Success(out)
    requires ptr + 3 < |data| && !IsHeader(data, ptr)
    requires DateRead(data, ptr + RecLen(data, ptr)).Success?
    requires DateRead(out, ptr + RecLen(data, ptr)) ==
      Success(if DateRead(data, ptr + RecLen(data, ptr)).value.Some? then Some(Dates(ct, mt)) else None)
    ensures DateRead(data, ptr).Success?
    ensures DateRead(out, ptr) == Success(if DateRead(data, ptr).value.Some? then Some(Dates(ct, mt)) else None)
  {
    DateWalkKeeps(data, ptr, create, modified, out);
    ReadSkips(data, out, ptr);
  }

  /** Rewriting the stamps and then reading them back gives the new stamps
      whenever the file has a BGNLIB record, and nothing otherwise; a walk
      that succeeds also means the read succeeds. */
  lemma {:induction false} ChangeThenReadFrom(data: Bytes, ptr: nat, ct: DateTime, mt: DateTime,
                                               create: Bytes, modified: Bytes, out: Bytes)
    requires |create| == 12 && |modified| == 12
    requires DecodeStamp(create, 0) == ct && DecodeStamp(modified, 0) == mt
    requires StampsFit(data, ptr)
    requires DateWalk(data, |data|, ptr, create, modified) == Success(out)
    ensures DateRead(data, ptr).Success?
    ensures DateRead(out, ptr) == Success(if DateRead(data, ptr).value.Some? then Some(Dates(ct, mt)) else None)
    decreases |data| - ptr, 1
  {
    if ptr < |data| && RecLen(data, ptr) != 0 {
      assert ptr + 3 < |data|;
      if data[ptr + 2] == BGNLIB {
        ReadBackLib(data, ptr, ct, mt, create, modified, out);
      } else if data[ptr + 2] == BGNSTR {
        ChangeThenReadStr(data, ptr, ct, mt, create, modified, out);
      } else {
        ChangeThenReadSkip(data, ptr, ct, mt, create, modified, out);
      }
    }
  }

  lemma {:induction false} ChangeThenReadStr(data: Bytes, ptr: nat, ct: DateTime, mt: DateTime,
                                              create: Bytes, modified: Bytes, out: Bytes)
    requires |create| == 12 && |modified| == 12
    requires DecodeStamp(create, 0) == ct && DecodeStamp(modified, 0) == mt
    requires ptr < |data| && RecLen(data, ptr) != 0 && StampsFit(data, ptr)
    requires DateWalk(data, |data|, ptr, create, modified) == Success(out)
    requires ptr + 3 < |data| && data[ptr + 2] == BGNSTR
    ensures DateRead(data, ptr).Success?
    ensures DateRead(out, ptr) == Success(if DateRead(data, ptr).value.Some? then Some(Dates(ct, mt)) else None)
    decreases |data| - ptr, 0
  {
    WalkHeaderStep(data, ptr, create, modified, out);
    var next := Restamp(data, ptr, 28, create, modified);
    ChangeThenReadFrom(next, ptr + 28, ct, mt, create, modified, out);
    ReadBackStr(data, ptr, ct, mt, create, modified, out);
  }

  lemma {:induction false} ChangeThenReadSkip(data: Bytes, ptr: nat, ct: DateTime, mt: DateTime,
                                               create: Bytes, modified: Bytes, out: Bytes)
    requires |create| == 12 && |modified| == 12
    requires DecodeStamp(create, 0) == ct && DecodeStamp(modified, 0) == mt
    requires ptr < |data| && RecLen(data, ptr) != 0 && StampsFit(data, ptr)
    requires DateWalk(data, |data|, ptr, create, modified) == Success(out)
    requires ptr + 3 < |data| && !IsHeader(data, ptr)
    ensures DateRead(data, ptr).Success?
    ensures DateRead(out, ptr) == Success(if DateRead(data, ptr).value.Some? then Some(Dates(ct, mt)) else None)
    decreases |data| - ptr, 0
  {
    var next := ptr + RecLen(data, ptr);
    WalkSkipStep(data, ptr, create, modified, out);
    assert StampsFit(data, next) && DateWalk(data, |data|, next, create, modified) == Success(out);
    ChangeThenReadFrom(data, next, ct, mt, create, modified, out);
    ReadBackSkip(data, ptr, ct, mt, create, modified, out);
  }

  /** The whole-file form: `get_gds_date` on the output of `change_gds_date`
      reports the stamps that were written. */
  lemma {:induction false} ChangeThenRead(data: Bytes, ct: DateTime, mt: DateTime, create: Bytes, modified: Bytes, out: Bytes)
    requires EncodeStamp(ct) == Success(create) && EncodeStamp(mt) == Success(modified)
    requires StampsFit(data, 0)
    requires DateWalk(data, |data|, 0, create, modified) == Success(out)
    ensures |out| == |data|
    ensures DateRead(data, 0).Success?
    ensures DateRead(out, 0) == Success(if DateRead(data, 0).value.Some? then Some(Dates(ct, mt)) else None)
  {
    DateWalkKeeps(data, 0, create, modified, out);
    StampRoundTrip(ct, create);
    StampRoundTrip(mt, modified);
    ChangeThenReadFrom(data, 0, ct, mt, create, modified, out);
  }
}

=== FILE: gds_records.dfy ===
/** The record loop the GDSII scripts share: from a byte offset, read the
    record length, stop at the end of the data or at a zero-length record,
    fail when the type bytes of a header lie past the end, and otherwise
    hand the record to the loop body and move on by its length. The loop
    is stated for any body; the list of records it visits is its reference
    definition. */
module GdsRecords {
  import opened Wrappers
  import opened GdsStream

  /** A record as the loop sees it: position, length field, record type
      and data type. */
  datatype Rec = Rec(pos: nat, len: nat, rtype: byte, dtype: byte)

  /** The body of a loop: what one record does to the loop's state. */
  type Step<!S> = (Rec, S) -> Result<S, Fault>

  /** The loop from `ptr` with body `step`. */
  function Walk<S>(data: Bytes, ptr: nat, step: Step<S>, st: S): Result<S, Fault>
    decreases |data| - ptr
  {
    if ptr >= |data| then Success(st)
    else
      var reclen := RecLen(data, ptr);
      if reclen == 0 then Success(st)
      else if ptr + 3 >= |data| then Failure(Truncated(ptr))
      else
        match step(Rec(ptr, reclen, data[ptr + 2], data[ptr + 3]), st)
        case Failure(f) => Failure(f)
        case Success(next) => Walk(data, ptr + reclen, step, next)
  }

  /** The records the loop visits from `ptr`; a header cut short is an
      error. */
  function Records(data: Bytes, ptr: nat): (r: Result<seq<Rec>, Fault>)
    ensures r.Success? ==> forall i :: 0 <= i < |r.value| ==> r.value[i].len > 0
    decreases |data| - ptr
  {
    if ptr >= |data| then Success([])
    else
      var reclen := RecLen(data, ptr);
      if reclen == 0 then Success([])
      else if ptr + 3 >= |data| then Failure(Truncated(ptr))
      else
        match Records(data, ptr + reclen)
        case Failure(f) => Failure(f)
        case Success(rest) => Success([Rec(ptr, reclen, data[ptr + 2], data[ptr + 3])] + rest)
  }

  /** The body applied to each record of a list in turn. */
  function Fold<S>(recs: seq<Rec>, step: Step<S>, st: S): Result<S, Fault>
    decreases |recs|
  {
    if |recs| == 0 then Success(st)
    else
      match step(recs[0], st)
      case Failure(f) => Failure(f)
      case Success(next) => Fold(recs[1..], step, next)
  }

  /** The loop is the fold over the records it visits. */
  lemma {:induction false} WalkIsFold<S>(data: Bytes, ptr: nat, step: Step<S>, st: S, recs: seq<Rec>)
    requires Records(data, ptr) == Success(recs)
    ensures Walk(data, ptr, step, st) == Fold(recs, step, st)
    decreases |data| - ptr
  {
    if |recs| > 0 {
      var reclen := RecLen(data, ptr);
      var r := Rec(ptr, reclen, data[ptr + 2], data[ptr + 3]);
      var rest := recs[1..];
      assert recs == [r] + rest && Records(data, ptr + reclen) == Success(rest);
      match step(r, st) {
        case Success(next) =>
          WalkIsFold(data, ptr + reclen, step, next, rest);
        case Failure(f) =>
      }
    }
  }

  /** The loop fails wherever the records cannot all be read. */
  lemma {:induction false} WalkFails<S>(data: Bytes, ptr: nat, step: Step<S>, st: S)
    requires Records(data, ptr).Failure?
    ensures Walk(data, ptr, step, st).Failure?
    decreases |data| - ptr
  {
    if ptr + 3 < |data| {
      var reclen := RecLen(data, ptr);
      match step(Rec(ptr, reclen, data[ptr + 2], data[ptr + 3]), st) {
        case Success(next) =>
          WalkFails(data, ptr + reclen, step, next);
        case Failure(f) =>
      }
    }
  }

  /** Folding over two lists in a row. */
  lemma {:induction false} FoldAppend<S>(a: seq<Rec>, b: seq<Rec>, step: Step<S>, st: S, mid: S)
    requires Fold(a, step, st) == Success(mid)
    ensures Fold(a + b, step, st) == Fold(b, step, mid)
    decreases |a|
  {
    if |a| > 0 {
      assert (a + b)[0] == a[0] && (a + b)[1..] == a[1..] + b;
      FoldAppend(a[1..], b, step, step(a[0], st).value, mid);
    } else {
      assert a + b == b;
    }
  }

  lemma {:induction false} FoldOne<S>(r: Rec, step: Step<S>, st: S)
    ensures Fold([r], step, st) == step(r, st)
  {
    assert [r][1..] == [];
  }

  /** Each record starts where the one before it ends. */
  predicate Chained(recs: seq<Rec>) {
    forall i :: 0 <= i < |recs| - 1 ==> recs[i].pos + recs[i].len == recs[i + 1].pos
  }

  lemma {:induction false} ChainedCons(r: Rec, rest: seq<Rec>)
    requires Chained(rest) && (|rest| > 0 ==> rest[0].pos == r.pos + r.len)
    ensures Chained([r] + rest)
  {
    var recs := [r] + rest;
    forall i | 0 <= i < |recs| - 1 ensures recs[i].pos + recs[i].len == recs[i + 1].pos {
      if i > 0 {
        assert recs[i] == rest[i - 1] && recs[i + 1] == rest[i];
      }
    }
  }

  /** The records read start at `ptr` and follow each other without gaps. */
  lemma {:induction false} RecordsChained(data: Bytes, ptr: nat, recs: seq<Rec>)
    requires Records(data, ptr) == Success(recs)
    ensures Chained(recs) && (|recs| > 0 ==> recs[0].pos == ptr)
    decreases |data| - ptr
  {
    if |recs| > 0 {
      var reclen := RecLen(data, ptr);
      var r := Rec(ptr, reclen, data[ptr + 2], data[ptr + 3]);
      var rest := recs[1..];
      assert recs == [r] + rest && Records(data, ptr + reclen) == Success(rest);
      RecordsChained(data, ptr + reclen, rest);
      ChainedCons(r, rest);
    }
  }

  /** The sum of the length fields of `recs`. */
  function Lengths(recs: seq<Rec>): nat
    decreases |recs|
  {
    if |recs| == 0 then 0 else recs[0].len + Lengths(recs[1..])
  }

  lemma {:induction false} LengthsAppend(a: seq<Rec>, b: seq<Rec>)
    ensures Lengths(a + b) == Lengths(a) + Lengths(b)
    decreases |a|
  {
    if |a| > 0 {
      assert (a + b)[0] == a[0] && (a + b)[1..] == a[1..] + b;
      LengthsAppend(a[1..], b);
    } else {
      assert a + b == b;
    }
  }

  /** The lengths of contiguous records add up to the bytes they span. */
  lemma {:induction false} LengthsSpan(recs: seq<Rec>)
    requires |recs| > 0 && Chained(recs)
    ensures Lengths(recs) == recs[|recs| - 1].pos + recs[|recs| - 1].len - recs[0].pos
    decreases |recs|
  {
    if |recs| > 1 {
      assert Chained(recs[1..]) by {
        forall i | 0 <= i < |recs| - 2 ensures recs[1..][i].pos + recs[1..][i].len == recs[1..][i + 1].pos {
          assert recs[1..][i] == recs[i + 1] && recs[1..][i + 1] == recs[i + 2];
        }
      }
      LengthsSpan(recs[1..]);
    }
  }

  /** In a contiguous list, a run of records from `m` through `en` spans
      as many bytes as its lengths add up to. */
  lemma {:induction false} SegmentSpan(pre: seq<Rec>, m: Rec, body: seq<Rec>, en: Rec, post: seq<Rec>)
    requires Chained(pre + [m] + body + [en] + post)
    ensures m.len + Lengths(body) + en.len == en.pos + en.len - m.pos
  {
    var all := pre + [m] + body + [en] + post;
    var seg := [m] + body + [en];
    var k := |pre|;
    assert all == pre + seg + post;
    assert Chained(seg) by {
      forall i | 0 <= i < |seg| - 1 ensures seg[i].pos + seg[i].len == seg[i + 1].pos {
        assert seg[i] == all[k + i] && seg[i + 1] == all[k + i + 1];
      }
    }
    LengthsSpan(seg);
    LengthsAppend([m] + body, [en]);
    LengthsAppend([m], body);
    assert Lengths([en]) == en.len && Lengths([m]) == m.len;
  }
}

=== FILE: gds_stream.dfy ===
/** GDSII stream records as the byte-level scripts see them: a 2-byte
    big-endian record length (header included), a record type byte, a data
    type byte, then the payload. Python's clamped slicing, `int.from_bytes`
    and `int.to_bytes(2, 'big')` are written out here once. */
module GdsStream {
  import opened Wrappers
  import opened Seqs
  import opened Text

  type byte = b: int | 0 <= b < 256
  type Bytes = seq<byte>

  /** Record types the scripts look at. */
  const BGNLIB: byte := 1
  const LIBNAME: byte := 2
  const BGNSTR: byte := 5
  const STRNAME: byte := 6
  const ENDSTR: byte := 7
  const SNAME: byte := 18
  const STRING: byte := 25

  /** Data types: 2-byte integers and ASCII strings. */
  const INT2: byte := 2
  const ASCII: byte := 6

  /** Why a script stops without writing its output: an uncaught Python
      exception or an explicit `sys.exit(1)`. */
  datatype Fault =
    | Truncated(at: nat)          // `data[ptr + 2]` or `data[ptr + 3]` past the end
    | Overflow(value: int)        // `int.to_bytes(2, 'big')` out of range
    | EmptyString(at: nat)        // `bstring[-1]` on an empty payload
    | NotString(at: nat)          // a STRNAME record whose data type is not 6
    | NotAscii                    // `bytes(s, 'ascii')` or `.decode('ascii')`
    | NoBeginStr(at: nat)         // a matching STRNAME before any BGNSTR
    | CellNotFound
    | ChecksumMismatch(found: int)
    | Unpaired                    // old and new string lists of unequal length
    | BadTime                     // a stamp neither epoch seconds nor a date
    | Usage                       // too few command-line arguments

  /** `int.from_bytes(s, 'big')`. */
  function BigEndian(s: Bytes): (n: nat)
    decreases |s|
  {
    if |s| == 0 then 0 else BigEndian(s[..|s| - 1]) * 256 + s[|s| - 1]
  }

  lemma {:induction false} BigEndianTwo(s: Bytes)
    requires |s| == 2
    ensures BigEndian(s) == s[0] as int * 256 + s[1] as int
  {
    var h := s[..1];
    assert h[..0] == [] && h[0] == s[0];
    assert BigEndian(h) == s[0];
  }

  /** `n.to_bytes(2, byteorder='big')`, which raises for a negative value
      or one that needs more than 16 bits. */
  function U16(n: int): (r: Result<Bytes, Fault>)
    ensures r.Success? <==> 0 <= n < 65536
    ensures r.Success? ==> |r.value| == 2 && BigEndian(r.value) == n
  {
    if 0 <= n < 65536 then
      var b: Bytes := [n / 256, n % 256];
      BigEndianTwo(b);
      Success(b)
    else Failure(Overflow(n))
  }

  /** Two bytes read big-endian and written back are the same two bytes. */
  lemma {:induction false} U16RoundTrip(b: Bytes)
    requires |b| == 2
    ensures U16(BigEndian(b)) == Success(b)
  {
    BigEndianTwo(b);
    var n: int := b[0] as int * 256 + b[1] as int;
    assert n / 256 == b[0] as int && n % 256 == b[1] as int;
    assert [n / 256, n % 256] == b;
  }

  /** A value below 256 is written as a zero byte and itself. */
  lemma U16Small(n: int)
    requires 0 <= n < 256
    ensures U16(n) == Success([0, n])
  {
  }

  /** Python's `s[i:j]` for non-negative bounds: clamped to the sequence,
      empty when `j <= i`. */
  function Slice(s: Bytes, i: nat, j: int): (r: Bytes)
    ensures |r| == if j <= i || i >= |s| then 0 else (if j <= |s| then j else |s|) - i
    ensures forall k :: 0 <= k < |r| ==> r[k] == s[i + k]
  {
    if j <= i || i >= |s| then [] else if j <= |s| then s[i..j] else s[i..]
  }

  /** Within bounds, `Slice` is the plain slice. */
  lemma SliceIn(s: Bytes, i: nat, j: nat)
    requires i <= j <= |s|
    ensures Slice(s, i, j) == s[i..j]
  {
  }

  /** Two sequences of the same length that agree on `[i, j)` have the same
      slice there. */
  lemma SliceAgree(x: Bytes, y: Bytes, i: nat, j: int)
    requires |x| == |y|
    requires forall k :: i <= k < j && k < |x| ==> x[k] == y[k]
    ensures Slice(x, i, j) == Slice(y, i, j)
  {
  }

  /** The length field of the record at `ptr`, read through a clamped slice
      as the scripts do. */
  function RecLen(data: Bytes, ptr: nat): nat {
    BigEndian(Slice(data, ptr, ptr + 2))
  }

  lemma {:induction false} RecLenAgree(x: Bytes, y: Bytes, ptr: nat)
    requires |x| == |y|
    requires forall k :: ptr <= k < ptr + 2 && k < |x| ==> x[k] == y[k]
    ensures RecLen(x, ptr) == RecLen(y, ptr)
  {
    SliceAgree(x, y, ptr, ptr + 2);
  }

  /** A GDSII string padded with a null to an even length. */
  function Pad(t: Bytes): (r: Bytes)
    ensures |r| % 2 == 0 && |t| <= |r| <= |t| + 1 && r[..|t|] == t
  {
    if |t| % 2 == 0 then t else t + [0]
  }

  /** A read string with one trailing padding null dropped. */
  function Unpad(b: Bytes): (r: Bytes)
    ensures |b| - 1 <= |r| <= |b| && r == b[..|r|]
  {
    if |b| > 0 && b[|b| - 1] == 0 then b[..|b| - 1] else b
  }

  /** Padding a non-empty string without nulls and dropping the padding
      gives it back. */
  lemma {:induction false} UnpadPad(b: Bytes)
    requires |b| > 0 && forall k :: 0 <= k < |b| ==> b[k] != 0
    ensures Unpad(Pad(b)) == b
  {
    var p := Pad(b);
    if |b| % 2 == 1 {
      assert p == b + [0];
      assert p[..|p| - 1] == b;
    } else {
      assert p == b;
      assert p[|p| - 1] != 0;
    }
  }

  /** `bytes(s, 'ascii')`: fails on any character outside ASCII. */
  function EncodeAscii(s: String): (r: Option<Bytes>)
    ensures r.Some? <==> forall k :: 0 <= k < |s| ==> s[k] as int < 128
    ensures r.Some? ==> |r.value| == |s| && forall k :: 0 <= k < |s| ==> r.value[k] == s[k] as int
    decreases |s|
  {
    if |s| == 0 then Some([])
    else if s[0] as int >= 128 then None
    else
      var rest :- EncodeAscii(s[1..]);
      Some([s[0] as int] + rest)
  }

  /** `b.decode('ascii')`: fails on any byte above 127. */
  function DecodeAscii(b: Bytes): (r: Option<String>)
    ensures r.Some? <==> forall k :: 0 <= k < |b| ==> b[k] < 128
    ensures r.Some? ==> |r.value| == |b| && forall k :: 0 <= k < |b| ==> r.value[k] as int == b[k]
    decreases |b|
  {
    if |b| == 0 then Some([])
    else if b[0] >= 128 then None
    else
      var rest :- DecodeAscii(b[1..]);
      Some([b[0] as char] + rest)
  }

  /** Decoding inverts encoding, in both directions. */
  lemma {:induction false} AsciiRoundTrip(s: String, b: Bytes)
    ensures EncodeAscii(s) == Some(b) ==> DecodeAscii(b) == Some(s)
    ensures DecodeAscii(b) == Some(s) ==> EncodeAscii(s) == Some(b)
  {
    if EncodeAscii(s) == Some(b) {
      assert DecodeAscii(b).value == s;
    }
    if DecodeAscii(b) == Some(s) {
      assert EncodeAscii(s).value == b;
    }
  }
}

=== FILE: gds_string.dfy ===
/** String substitution in the name and text records of a GDSII stream, as
    `change_gds_string` does it: every LIBNAME, STRNAME, SNAME and STRING
    record of data type ASCII has each old string replaced by its new
    string, the record is re-padded to an even length and its length field
    rewritten, and the rest of the stream shifts to make room. */
module GdsString {
  import opened Wrappers
  import opened Seqs
  import opened Text
  import opened GdsStream
  import GdsRecords
  import Arith

  /** `re.sub(search, rep, s)` on bytes. Regular expressions are not part
      of this model: the loop is stated for any substitution, and the
      properties of the strings it writes for `ReplaceAll`, which is what
      `re.sub` does with a pattern and replacement free of metacharacters. */
  type Substitution = (Bytes, Bytes, Bytes) -> Bytes

  /** One old string and its replacement, as ASCII bytes. */
  datatype Pair = Pair(search: Bytes, rep: Bytes)

  /** Python's `s[start::2]`. */
  function EveryOther(s: seq<String>, start: nat): (r: seq<String>)
    ensures |r| == if start >= |s| then 0 else (|s| - start + 1) / 2
    ensures forall i :: 0 <= i < |r| ==> start + 2 * i < |s| && r[i] == s[start + 2 * i]
    decreases |s| - start
  {
    if start >= |s| then [] else [s[start]] + EveryOther(s, start + 2)
  }

  /** Every string of the list is ASCII. */
  predicate AllAscii(ss: seq<String>) {
    forall i :: 0 <= i < |ss| ==> EncodeAscii(ss[i]).Some?
  }

  /** `bytes(item, 'ascii')` for every item of a list. */
  function EncodeAll(ss: seq<String>): (r: Result<seq<Bytes>, Fault>)
    ensures r.Success? <==> AllAscii(ss)
    ensures r.Success? ==> |r.value| == |ss| && forall i :: 0 <= i < |ss| ==> Some(r.value[i]) == EncodeAscii(ss[i])
    decreases |ss|
  {
    if |ss| == 0 then Success([])
    else
      var head := EncodeAscii(ss[0]);
      if head.None? then Failure(NotAscii)
      else
        var rest :- EncodeAll(ss[1..]);
        Success([head.value] + rest)
  }

  /** How many trailing arguments are paths: two when the next-to-last
      names an existing file, which the caller decides. */
  function PathCount(secondLastIsFile: bool): nat {
    if secondLastIsFile then 2 else 1
  }

  /** The arguments before the paths. */
  function Strings(arguments: seq<String>, secondLastIsFile: bool): (r: seq<String>)
    requires |arguments| >= 3
    ensures |r| == |arguments| - PathCount(secondLastIsFile) && r == arguments[..|r|]
  {
    arguments[..|arguments| - PathCount(secondLastIsFile)]
  }

  /** The old and new strings of the command line alternate, followed by
      the paths. */
  function CommandPairs(arguments: seq<String>, secondLastIsFile: bool): (r: Result<seq<Pair>, Fault>)
    ensures |arguments| < 3 ==> r == Failure(Usage)
  {
    if |arguments| < 3 then Failure(Usage)
    else
      var strings := Strings(arguments, secondLastIsFile);
      var olds := EveryOther(strings, 0);
      var news := EveryOther(strings, 1);
      if |olds| != |news| then Failure(Unpaired)
      else
        var bsearch :- EncodeAll(olds);
        var brep :- EncodeAll(news);
        Success(seq(|olds|, i requires 0 <= i < |olds| => Pair(bsearch[i], brep[i])))
  }

  /** Every string at an even distance from `start` is picked. */
  lemma {:induction false} EveryOtherHas(s: seq<String>, start: nat, j: nat)
    requires start <= j < |s| && (j - start) % 2 == 0
    ensures s[j] in EveryOther(s, start)
    decreases j - start
  {
    if j > start {
      EveryOtherHas(s, start + 2, j);
    }
  }

  /** The even- and odd-position strings all encode exactly when every
      string does. */
  lemma {:induction false} InterleaveAscii(strings: seq<String>)
    ensures EncodeAll(EveryOther(strings, 0)).Success? && EncodeAll(EveryOther(strings, 1)).Success?
            <==> AllAscii(strings)
  {
    if AllAscii(strings) {
      PickedAscii(strings, 0);
      PickedAscii(strings, 1);
    }
    if AllAscii(EveryOther(strings, 0)) && AllAscii(EveryOther(strings, 1)) {
      EveryOtherAscii(strings);
    }
  }

  /** When every string encodes, every picked string does. */
  lemma PickedAscii(strings: seq<String>, start: nat)
    requires AllAscii(strings)
    ensures AllAscii(EveryOther(strings, start))
  {
  }

  /** When every picked string encodes, every string does. */
  lemma {:induction false} EveryOtherAscii(strings: seq<String>)
    requires AllAscii(EveryOther(strings, 0)) && AllAscii(EveryOther(strings, 1))
    ensures AllAscii(strings)
  {
    forall j | 0 <= j < |strings|
      ensures EncodeAscii(strings[j]).Some?
    {
      var start := if j % 2 == 0 then 0 else 1;
      EveryOtherHas(strings, start, j);
    }
  }

  /** The command line is accepted exactly when there are enough arguments,
      the strings before the paths pair up and all are ASCII; an odd number
      of strings is reported as unpaired. */
  lemma {:induction false} CommandPairsAccepts(arguments: seq<String>, secondLastIsFile: bool)
    ensures var r := CommandPairs(arguments, secondLastIsFile);
            (|arguments| >= 3 && !Arith.Even(|Strings(arguments, secondLastIsFile)|) ==> r == Failure(Unpaired))
            && (r.Success? <==> |arguments| >= 3 && Arith.Even(|Strings(arguments, secondLastIsFile)|)
                                && AllAscii(Strings(arguments, secondLastIsFile)))
  {
    if |arguments| >= 3 {
      var strings := Strings(arguments, secondLastIsFile);
      var n := |strings|;
      var olds := EveryOther(strings, 0);
      var news := EveryOther(strings, 1);
      Arith.HalvesAgree(n);
      assert |olds| == (n + 1) / 2 && |news| == n / 2;
      if Arith.Even(n) {
        assert |olds| == |news|;
        assert CommandPairs(arguments, secondLastIsFile).Success?
               <==> EncodeAll(olds).Success? && EncodeAll(news).Success?;
        InterleaveAscii(strings);
      } else {
        assert |olds| != |news|;
      }
    }
  }

  /** An accepted command line gives the encoded (old, new) neighbours in
      order, one pair per two strings. */
  lemma {:induction false} CommandPairsContents(arguments: seq<String>, secondLastIsFile: bool)
    ensures var r := CommandPairs(arguments, secondLastIsFile);
            var n := |arguments| - PathCount(secondLastIsFile);
            r.Success? ==>
              |r.value| == n / 2
              && forall i :: 0 <= i < n / 2 ==>
                   Some(r.value[i].search) == EncodeAscii(arguments[2 * i])
                   && Some(r.value[i].rep) == EncodeAscii(arguments[2 * i + 1])
  {
    var r := CommandPairs(arguments, secondLastIsFile);
    if r.Success? {
      var n := |arguments| - PathCount(secondLastIsFile);
      var strings := arguments[..n];
      var olds := EveryOther(strings, 0);
      var news := EveryOther(strings, 1);
      assert |olds| == (n + 1) / 2 && |news| == n / 2 && |olds| == |news|;
      forall i | 0 <= i < n / 2
        ensures Some(r.value[i].search) == EncodeAscii(arguments[2 * i])
                && Some(r.value[i].rep) == EncodeAscii(arguments[2 * i + 1])
      {
        assert olds[i] == strings[2 * i] == arguments[2 * i];
        assert news[i] == strings[1 + 2 * i] == arguments[2 * i + 1];
      }
    }
  }

  /** LIBNAME, STRNAME, SNAME and STRING records holding an ASCII string are
      the only ones edited. */
  predicate Editable(rectype: byte, dtype: byte) {
    (rectype == LIBNAME || rectype == STRNAME || rectype == SNAME || rectype == STRING) && dtype == ASCII
  }

  /** Verbatim mode tries a pair only when the search string is as long as
      the record's string without its padding null; `bstring[-1]` raises on
      an empty payload. */
  function VerbatimSkips(bstring: Bytes, reclen: nat, search: Bytes, ptr: nat): (r: Result<bool, Fault>)
    ensures r.Success? <==> |bstring| > 0
    ensures r.Success? ==> (r.value <==> |search| != reclen - 4 - (if bstring[|bstring| - 1] == 0 then 1 else 0))
  {
    if |bstring| == 0 then Failure(EmptyString(ptr))
    else
      var blen := reclen - 4 - (if bstring[|bstring| - 1] == 0 then 1 else 0);
      Success(|search| != blen)
  }

  /** Records have even length: an odd-length result loses the trailing
      null the old string was padded with, or gains one. */
  function FixParity(repstring: Bytes, bstring: Bytes, ptr: nat): (r: Result<Bytes, Fault>)
    ensures r.Success? ==> |r.value| % 2 == 0
    ensures |repstring| % 2 == 0 ==> r == Success(repstring)
    ensures r.Success? ==> r.value == repstring
                           || (|repstring| > 0 && r.value == repstring[..|repstring| - 1])
                           || r.value == repstring + [0]
  {
    if (|repstring| + 4) % 2 == 0 then Success(repstring)
    else if |bstring| == 0 then Failure(EmptyString(ptr))
    else if bstring[|bstring| - 1] == 0 then Success(repstring[..|repstring| - 1])
    else Success(repstring + [0])
  }

  /** A record rewritten by one pair: the new stream, the new string and
      the new record length. */
  datatype Edit = Edit(data: Bytes, text: Bytes, newlen: nat)

  /** One pass of the loop over the pairs for the record at `ptr`, whose
      length field says `reclen` and whose string is `bstring`. `None` when
      the pair is skipped or changes nothing. */
  function PairStep(data: Bytes, ptr: nat, reclen: nat, rectype: byte, dtype: byte, bstring: Bytes,
                    pair: Pair, verbatim: bool, sub: Substitution): (r: Result<Option<Edit>, Fault>)
    ensures r.Success? && r.value.Some? ==> r.value.value.newlen == |r.value.value.text| + 4
  {
    var skip :- if verbatim then VerbatimSkips(bstring, reclen, pair.search, ptr) else Success(false);
    if skip then Success(None)
    else
      var repstring := sub(bstring, pair.search, pair.rep);
      if repstring == bstring then Success(None)
      else
        var text :- FixParity(repstring, bstring, ptr);
        var header :- U16(|text| + 4);
        Success(Some(Edit(Take(data, ptr) + (header + [rectype, dtype] + text) + Drop(data, ptr + reclen),
                          text, |text| + 4)))
  }

  /** An edit is a whole new record of even length, with its length field,
      spliced over the old one. */
  lemma PairStepShape(data: Bytes, ptr: nat, reclen: nat, rectype: byte, dtype: byte, bstring: Bytes,
                      pair: Pair, verbatim: bool, e: Edit, sub: Substitution)
    requires PairStep(data, ptr, reclen, rectype, dtype, bstring, pair, verbatim, sub) == Success(Some(e))
    ensures e.newlen == |e.text| + 4 && e.newlen % 2 == 0 && e.newlen < 65536
    ensures e.data == Take(data, ptr) + (U16(e.newlen).value + [rectype, dtype] + e.text) + Drop(data, ptr + reclen)
  {
  }

  /** The state of the loop over the pairs: the stream, the length of the
      record at the current offset (what the offset advances by) and the loop
      bound `datalen`. */
  datatype Scan = Scan(data: Bytes, newlen: nat, datalen: int)

  /** The loop over the pairs as written: every pair is matched against the
      record's original string `bstring`, and every change is spliced over
      the original record length `reclen`. */
  function PairsAsWritten(sc: Scan, ptr: nat, reclen: nat, rectype: byte, dtype: byte, bstring: Bytes,
                          pairs: seq<Pair>, verbatim: bool, sub: Substitution): Result<Scan, Fault>
    decreases |pairs|
  {
    if |pairs| == 0 then Success(sc)
    else
      var step :- PairStep(sc.data, ptr, reclen, rectype, dtype, bstring, pairs[0], verbatim, sub);
      match step
      case None => PairsAsWritten(sc, ptr, reclen, rectype, dtype, bstring, pairs[1..], verbatim, sub)
      case Some(e) =>
        PairsAsWritten(Scan(e.data, e.newlen, sc.datalen + e.newlen - reclen), ptr, reclen, rectype, dtype,
                       bstring, pairs[1..], verbatim, sub)
  }

  /** The loop over the pairs with each pair applied to the string the
      previous one left, and each splice made over the record as it now
      stands: the record length in use is always `sc.newlen`. */
  function Pairs(sc: Scan, ptr: nat, rectype: byte, dtype: byte, bstring: Bytes,
                 pairs: seq<Pair>, verbatim: bool, sub: Substitution): (r: Result<Scan, Fault>)
    ensures r.Success? ==> r.value.datalen - r.value.newlen == sc.datalen - sc.newlen
    ensures r.Success? ==> r.value.newlen == sc.newlen || r.value.newlen >= 4
    decreases |pairs|
  {
    if |pairs| == 0 then Success(sc)
    else
      var step :- PairStep(sc.data, ptr, sc.newlen, rectype, dtype, bstring, pairs[0], verbatim, sub);
      match step
      case None => Pairs(sc, ptr, rectype, dtype, bstring, pairs[1..], verbatim, sub)
      case Some(e) =>
        Pairs(Scan(e.data, e.newlen, sc.datalen + e.newlen - sc.newlen), ptr, rectype, dtype,
              e.text, pairs[1..], verbatim, sub)
  }

  /** One changing pair, as one step of the loop as written. */
  lemma AsWrittenStep(sc: Scan, ptr: nat, reclen: nat, rectype: byte, dtype: byte, bstring: Bytes,
                      pairs: seq<Pair>, verbatim: bool, e: Edit, sub: Substitution)
    requires |pairs| > 0
    requires PairStep(sc.data, ptr, reclen, rectype, dtype, bstring, pairs[0], verbatim, sub) == Success(Some(e))
    ensures PairsAsWritten(sc, ptr, reclen, rectype, dtype, bstring, pairs, verbatim, sub)
              == PairsAsWritten(Scan(e.data, e.newlen, sc.datalen + e.newlen - reclen), ptr, reclen, rectype, dtype,
                                bstring, pairs[1..], verbatim, sub)
  {
  }

  /** One changing pair, as one step of the corrected loop. */
  lemma {:induction false} PairsSteps(sc: Scan, ptr: nat, rectype: byte, dtype: byte, bstring: Bytes,
                   pairs: seq<Pair>, verbatim: bool, e: Edit, sub: Substitution)
    requires |pairs| > 0
    requires PairStep(sc.data, ptr, sc.newlen, rectype, dtype, bstring, pairs[0], verbatim, sub) == Success(Some(e))
    ensures Pairs(sc, ptr, rectype, dtype, bstring, pairs, verbatim, sub)
              == Pairs(Scan(e.data, e.newlen, sc.datalen + e.newlen - sc.newlen), ptr, rectype, dtype,
                       e.text, pairs[1..], verbatim, sub)
  {
    var step := PairStep(sc.data, ptr, sc.newlen, rectype, dtype, bstring, pairs[0], verbatim, sub);
    assert !step.IsFailure() && step.Extract() == Some(e);
  }

  /** A pair that is skipped or changes nothing, as one step of the loop. */
  lemma PairsSkip(sc: Scan, ptr: nat, rectype: byte, dtype: byte, bstring: Bytes,
                  pairs: seq<Pair>, verbatim: bool, sub: Substitution)
    requires |pairs| > 0
    requires PairStep(sc.data, ptr, sc.newlen, rectype, dtype, bstring, pairs[0], verbatim, sub) == Success(None)
    ensures Pairs(sc, ptr, rectype, dtype, bstring, pairs, verbatim, sub)
              == Pairs(sc, ptr, rectype, dtype, bstring, pairs[1..], verbatim, sub)
  {
  }

  /** The record at `ptr`: edited when it is an ASCII name or text record,
      passed over otherwise. */
  function EditRecord(data: Bytes, datalen: int, ptr: nat, reclen: nat, pairs: seq<Pair>, verbatim: bool, sub: Substitution): (r: Result<Scan, Fault>)
    requires ptr + 3 < |data| && reclen > 0
    ensures r.Success? ==> r.value.datalen - r.value.newlen == datalen - reclen && r.value.newlen > 0
  {
    if Editable(data[ptr + 2], data[ptr + 3]) then
      Pairs(Scan(data, reclen, datalen), ptr, data[ptr + 2], data[ptr + 3],
            Slice(data, ptr + 4, ptr + reclen), pairs, verbatim, sub)
    else Success(Scan(data, reclen, datalen))
  }

  /** What the walk does to the record at `ptr`, given the loop bound: the
      new stream, the length to advance by and the new bound. */
  type Editor = (Bytes, int, nat) -> Result<Scan, Fault>

  /** An edit moves the loop bound by exactly the change in the record's
      length, and the record it leaves is not empty: what keeps the walk
      going forward. */
  ghost predicate Shifts(edit: Editor) {
    forall data: Bytes, datalen: int, ptr: nat ::
      ptr + 3 < |data| && RecLen(data, ptr) > 0 && edit(data, datalen, ptr).Success? ==>
        && edit(data, datalen, ptr).value.datalen - edit(data, datalen, ptr).value.newlen == datalen - RecLen(data, ptr)
        && edit(data, datalen, ptr).value.newlen > 0
  }

  /** The record walk with `edit` applied to each record: stop at the loop
      bound or a zero-length record, fail on a header cut short, otherwise
      edit the record and advance by its (new) length. */
  function WalkWith(data: Bytes, datalen: int, ptr: nat, edit: Editor): Result<Bytes, Fault>
    requires Shifts(edit)
    decreases datalen - ptr
  {
    if ptr >= datalen then Success(data)
    else
      var reclen := RecLen(data, ptr);
      if reclen == 0 then Success(data)
      else if ptr + 3 >= |data| then Failure(Truncated(ptr))
      else
        match edit(data, datalen, ptr)
        case Failure(f) => Failure(f)
        case Success(sc) => WalkWith(sc.data, sc.datalen, ptr + sc.newlen, edit)
  }

  /** The script's edit of one record: `EditRecord` on every record the walk
      reaches. */
  function RecordEditor(pairs: seq<Pair>, verbatim: bool, sub: Substitution): Editor {
    (data: Bytes, datalen: int, ptr: nat) =>
      var reclen := RecLen(data, ptr);
      if ptr + 3 < |data| && reclen > 0 then EditRecord(data, datalen, ptr, reclen, pairs, verbatim, sub)
      else Success(Scan(data, reclen, datalen))
  }

  lemma RecordEditorShifts(pairs: seq<Pair>, verbatim: bool, sub: Substitution)
    ensures Shifts(RecordEditor(pairs, verbatim, sub))
  {
  }

  /** The record walk of the script. The bound moves by the change in
      length of each edited record. Each record is edited by the corrected
      pair loop `Pairs`, not by `PairsAsWritten`. */
  function StringWalk(data: Bytes, datalen: int, ptr: nat, pairs: seq<Pair>, verbatim: bool, sub: Substitution): Result<Bytes, Fault> {
    RecordEditorShifts(pairs, verbatim, sub);
    WalkWith(data, datalen, ptr, RecordEditor(pairs, verbatim, sub))
  }

  /** The whole script on the bytes of the input file, with the walk's
      corrected pair loop. A command line that is refused fails before the
      stream is looked at. */
  function ChangeGdsString(arguments: seq<String>, secondLastIsFile: bool, verbatim: bool, data: Bytes,
                           sub: Substitution): (r: Result<Bytes, Fault>)
    ensures CommandPairs(arguments, secondLastIsFile).Failure? ==>
              r == Failure(CommandPairs(arguments, secondLastIsFile).error)
  {
    var pairs :- CommandPairs(arguments, secondLastIsFile);
    StringWalk(data, |data|, 0, pairs, verbatim, sub)
  }

  // ---------------------------------------------------------------------
  // What the walk leaves alone.
  // ---------------------------------------------------------------------

  /** Every pair keeps the bytes before the record it edits. */
  lemma {:induction false} PairsKeepPrefix(sc: Scan, ptr: nat, rectype: byte, dtype: byte, bstring: Bytes,
                                           pairs: seq<Pair>, verbatim: bool, r: Scan, sub: Substitution)
    requires ptr <= |sc.data|
    requires Pairs(sc, ptr, rectype, dtype, bstring, pairs, verbatim, sub) == Success(r)
    ensures ptr <= |r.data| && r.data[..ptr] == sc.data[..ptr]
    decreases |pairs|
  {
    if |pairs| > 0 {
      var step := PairStep(sc.data, ptr, sc.newlen, rectype, dtype, bstring, pairs[0], verbatim, sub).value;
      if step.None? {
        PairsSkip(sc, ptr, rectype, dtype, bstring, pairs, verbatim, sub);
        PairsKeepPrefix(sc, ptr, rectype, dtype, bstring, pairs[1..], verbatim, r, sub);
      } else {
        var e := step.value;
        PairsSteps(sc, ptr, rectype, dtype, bstring, pairs, verbatim, e, sub);
        PairStepShape(sc.data, ptr, sc.newlen, rectype, dtype, bstring, pairs[0], verbatim, e, sub);
        var next := Scan(e.data, e.newlen, sc.datalen + e.newlen - sc.newlen);
        assert Take(sc.data, ptr) == sc.data[..ptr];
        assert next.data[..ptr] == sc.data[..ptr];
        PairsKeepPrefix(next, ptr, rectype, dtype, e.text, pairs[1..], verbatim, r, sub);
      }
    }
  }

  /** Editing the record at `ptr` keeps the bytes before it. */
  lemma EditKeepsPrefix(data: Bytes, datalen: int, ptr: nat, reclen: nat, pairs: seq<Pair>, verbatim: bool,
                        sub: Substitution, sc: Scan)
    requires ptr + 3 < |data| && reclen > 0
    requires EditRecord(data, datalen, ptr, reclen, pairs, verbatim, sub) == Success(sc)
    ensures ptr <= |sc.data| && sc.data[..ptr] == data[..ptr]
  {
    if Editable(data[ptr + 2], data[ptr + 3]) {
      PairsKeepPrefix(Scan(data, reclen, datalen), ptr, data[ptr + 2], data[ptr + 3],
                      Slice(data, ptr + 4, ptr + reclen), pairs, verbatim, sc, sub);
    }
  }

  /** An edit keeps the bytes before the record it edits. */
  ghost predicate KeepsBefore(edit: Editor) {
    forall data: Bytes, datalen: int, ptr: nat ::
      ptr + 3 < |data| && RecLen(data, ptr) > 0 && edit(data, datalen, ptr).Success? ==>
        && ptr <= |edit(data, datalen, ptr).value.data|
        && edit(data, datalen, ptr).value.data[..ptr] == data[..ptr]
  }

  /** An edit passes over every record of a kind that is not edited. */
  ghost predicate SkipsPlain(edit: Editor) {
    forall data: Bytes, datalen: int, ptr: nat ::
      ptr + 3 < |data| && RecLen(data, ptr) > 0 && !Editable(data[ptr + 2], data[ptr + 3]) ==>
        edit(data, datalen, ptr) == Success(Scan(data, RecLen(data, ptr), datalen))
  }

  lemma RecordEditorKeeps(pairs: seq<Pair>, verbatim: bool, sub: Substitution)
    ensures KeepsBefore(RecordEditor(pairs, verbatim, sub))
  {
    var edit := RecordEditor(pairs, verbatim, sub);
    forall data: Bytes, datalen: int, ptr: nat
      | ptr + 3 < |data| && RecLen(data, ptr) > 0 && edit(data, datalen, ptr).Success?
      ensures ptr <= |edit(data, datalen, ptr).value.data|
      ensures edit(data, datalen, ptr).value.data[..ptr] == data[..ptr]
    {
      EditKeepsPrefix(data, datalen, ptr, RecLen(data, ptr), pairs, verbatim, sub, edit(data, datalen, ptr).value);
    }
  }

  lemma RecordEditorSkips(pairs: seq<Pair>, verbatim: bool, sub: Substitution)
    ensures SkipsPlain(RecordEditor(pairs, verbatim, sub))
  {
  }

  /** From the end of the data on, the walk stops with the data as it is. */
  lemma WalkPastEnd(data: Bytes, datalen: int, ptr: nat, edit: Editor)
    requires Shifts(edit) && ptr >= |data|
    ensures WalkWith(data, datalen, ptr, edit) == Success(data)
  {
    if ptr < datalen {
      assert Slice(data, ptr, ptr + 2) == [];
    }
  }

  /** Whatever the edits, the walk keeps every byte before `ptr`. */
  lemma {:induction false} WalkKeepsPrefix(data: Bytes, datalen: int, ptr: nat, edit: Editor, out: Bytes)
    requires Shifts(edit) && KeepsBefore(edit)
    requires ptr <= |data|
    requires WalkWith(data, datalen, ptr, edit) == Success(out)
    ensures ptr <= |out| && out[..ptr] == data[..ptr]
    decreases datalen - ptr
  {
    if ptr < datalen && RecLen(data, ptr) != 0 && ptr + 3 < |data| {
      var sc := edit(data, datalen, ptr).value;
      var n := ptr + sc.newlen;
      assert WalkWith(sc.data, sc.datalen, n, edit) == Success(out);
      if n <= |sc.data| {
        WalkKeepsPrefix(sc.data, sc.datalen, n, edit, out);
        assert out[..n][..ptr] == sc.data[..n][..ptr];
      } else {
        WalkPastEnd(sc.data, sc.datalen, n, edit);
      }
    }
  }

  /** The walk from `ptr` reaches `q` through records that are read in
      full and are none of the edited kinds. */
  predicate PassesTo(data: Bytes, ptr: nat, q: nat)
    decreases q - ptr
  {
    || ptr == q
    || (&& ptr < q && ptr + 3 < |data| && RecLen(data, ptr) > 0
        && !Editable(data[ptr + 2], data[ptr + 3])
        && PassesTo(data, ptr + RecLen(data, ptr), q))
  }

  /** No record the walk visits from `ptr` is of an edited kind. */
  predicate PlainFrom(data: Bytes, ptr: nat)
    decreases |data| - ptr
  {
    || ptr >= |data| || RecLen(data, ptr) == 0 || ptr + 3 >= |data|
    || (!Editable(data[ptr + 2], data[ptr + 3]) && PlainFrom(data, ptr + RecLen(data, ptr)))
  }

  /** A record of a kind that is not edited is stepped over. */
  lemma WalkSkips(data: Bytes, ptr: nat, edit: Editor)
    requires Shifts(edit) && SkipsPlain(edit)
    requires ptr + 3 < |data| && RecLen(data, ptr) > 0 && !Editable(data[ptr + 2], data[ptr + 3])
    ensures WalkWith(data, |data|, ptr, edit) == WalkWith(data, |data|, ptr + RecLen(data, ptr), edit)
  {
    assert edit(data, |data|, ptr) == Success(Scan(data, RecLen(data, ptr), |data|));
  }

  /** Records the walk passes over change nothing: it goes on from `q`
      with the stream it started with. */
  lemma {:induction false} WalkPasses(data: Bytes, ptr: nat, q: nat, edit: Editor)
    requires Shifts(edit) && SkipsPlain(edit)
    requires PassesTo(data, ptr, q)
    ensures WalkWith(data, |data|, ptr, edit) == WalkWith(data, |data|, q, edit)
    decreases q - ptr
  {
    if ptr != q {
      WalkSkips(data, ptr, edit);
      WalkPasses(data, ptr + RecLen(data, ptr), q, edit);
    }
  }

  /** A stream with no record of an edited kind comes out as it went in,
      unless a record header is cut short, which fails as the list of
      records does. */
  lemma {:induction false} WalkPlain(data: Bytes, ptr: nat, edit: Editor)
    requires Shifts(edit) && SkipsPlain(edit)
    requires PlainFrom(data, ptr)
    ensures GdsRecords.Records(data, ptr).Success? ==> WalkWith(data, |data|, ptr, edit) == Success(data)
    ensures GdsRecords.Records(data, ptr).Failure? ==>
              WalkWith(data, |data|, ptr, edit) == Failure(GdsRecords.Records(data, ptr).error)
    decreases |data| - ptr
  {
    if ptr < |data| && RecLen(data, ptr) != 0 && ptr + 3 < |data| {
      var n := ptr + RecLen(data, ptr);
      assert GdsRecords.Records(data, ptr).Success? <==> GdsRecords.Records(data, n).Success?;
      assert GdsRecords.Records(data, ptr).Failure? ==> GdsRecords.Records(data, ptr).error == GdsRecords.Records(data, n).error;
      WalkSkips(data, ptr, edit);
      WalkPlain(data, n, edit);
    }
  }

  /** Whatever the edits, the script's walk keeps every byte before `ptr`. */
  lemma StringWalkKeepsPrefix(data: Bytes, datalen: int, ptr: nat, pairs: seq<Pair>, verbatim: bool,
                              sub: Substitution, out: Bytes)
    requires ptr <= |data|
    requires StringWalk(data, datalen, ptr, pairs, verbatim, sub) == Success(out)
    ensures ptr <= |out| && out[..ptr] == data[..ptr]
  {
    RecordEditorShifts(pairs, verbatim, sub);
    RecordEditorKeeps(pairs, verbatim, sub);
    WalkKeepsPrefix(data, datalen, ptr, RecordEditor(pairs, verbatim, sub), out);
  }

  /** Every byte of the records before the first edited kind of record
      comes out of the script's walk unchanged. */
  lemma StringWalkCopiesPlain(data: Bytes, ptr: nat, q: nat, pairs: seq<Pair>, verbatim: bool, sub: Substitution, out: Bytes)
    requires PassesTo(data, ptr, q)
    requires StringWalk(data, |data|, ptr, pairs, verbatim, sub) == Success(out)
    ensures q <= |data| ==> q <= |out| && out[..q] == data[..q]
    ensures q >= |data| ==> out == data
  {
    var edit := RecordEditor(pairs, verbatim, sub);
    RecordEditorShifts(pairs, verbatim, sub);
    RecordEditorKeeps(pairs, verbatim, sub);
    RecordEditorSkips(pairs, verbatim, sub);
    WalkPasses(data, ptr, q, edit);
    if q <= |data| {
      WalkKeepsPrefix(data, |data|, q, edit, out);
    } else {
      WalkPastEnd(data, |data|, q, edit);
    }
  }

  /** A stream with no record of an edited kind comes out of the script's
      walk as it went in, unless a record header is cut short. */
  lemma StringWalkPlain(data: Bytes, ptr: nat, pairs: seq<Pair>, verbatim: bool, sub: Substitution)
    requires PlainFrom(data, ptr)
    ensures GdsRecords.Records(data, ptr).Success? ==> StringWalk(data, |data|, ptr, pairs, verbatim, sub) == Success(data)
    ensures GdsRecords.Records(data, ptr).Failure? ==>
              StringWalk(data, |data|, ptr, pairs, verbatim, sub) == Failure(GdsRecords.Records(data, ptr).error)
  {
    RecordEditorShifts(pairs, verbatim, sub);
    RecordEditorSkips(pairs, verbatim, sub);
    WalkPlain(data, ptr, RecordEditor(pairs, verbatim, sub));
  }

  /** The script leaves a stream with no record of an edited kind as it
      is, once the command line is accepted. */
  lemma ChangeGdsStringPlain(arguments: seq<String>, secondLastIsFile: bool, verbatim: bool, data: Bytes, sub: Substitution)
    requires CommandPairs(arguments, secondLastIsFile).Success?
    requires PlainFrom(data, 0)
    ensures GdsRecords.Records(data, 0).Success? ==> ChangeGdsString(arguments, secondLastIsFile, verbatim, data, sub) == Success(data)
    ensures GdsRecords.Records(data, 0).Failure? ==>
              ChangeGdsString(arguments, secondLastIsFile, verbatim, data, sub) == Failure(GdsRecords.Records(data, 0).error)
  {
    StringWalkPlain(data, 0, CommandPairs(arguments, secondLastIsFile).value, verbatim, sub);
  }

  /** The script copies every byte of the stream before the first record of
      an edited kind. */
  lemma ChangeGdsStringKeeps(arguments: seq<String>, secondLastIsFile: bool, verbatim: bool, data: Bytes, sub: Substitution,
                             q: nat, out: Bytes)
    requires PassesTo(data, 0, q)
    requires ChangeGdsString(arguments, secondLastIsFile, verbatim, data, sub) == Success(out)
    ensures q <= |data| ==> q <= |out| && out[..q] == data[..q]
    ensures q >= |data| ==> out == data
  {
    StringWalkCopiesPlain(data, 0, q, CommandPairs(arguments, secondLastIsFile).value, verbatim, sub, out);
  }

  // ---------------------------------------------------------------------
  // An edit replaces exactly one record.
  // ---------------------------------------------------------------------

  /** The record at `ptr` is `len` bytes long, lies inside the data, and
      carries the given type bytes and length field. */
  predicate RecordAt(data: Bytes, ptr: nat, len: nat, rectype: byte, dtype: byte) {
    ptr + 4 <= |data| && ptr + len <= |data| && RecLen(data, ptr) == len
    && data[ptr + 2] == rectype && data[ptr + 3] == dtype
  }

  lemma {:induction false} EditReplaces(data: Bytes, ptr: nat, reclen: nat, rectype: byte, dtype: byte, e: Edit)
    requires ptr + 4 <= |data| && ptr + reclen <= |data|
    requires e.newlen == |e.text| + 4 && e.newlen < 65536
    requires e.data == Take(data, ptr) + (U16(e.newlen).value + [rectype, dtype] + e.text) + Drop(data, ptr + reclen)
    ensures |e.data| == |data| + e.newlen - reclen
    ensures RecordAt(e.data, ptr, e.newlen, rectype, dtype)
    ensures e.data[..ptr] == data[..ptr]
    ensures e.data[ptr + e.newlen..] == data[ptr + reclen..]
    ensures e.data[ptr + 4..ptr + e.newlen] == e.text
  {
    var header := U16(e.newlen).value;
    var rec := header + [rectype, dtype] + e.text;
    TakeDropIn(data, ptr, ptr + reclen);
    ThreeParts(e.data, data[..ptr], rec, data[ptr + reclen..]);
    ThreeParts(rec, header, [rectype, dtype], e.text);
    assert e.data[ptr..ptr + e.newlen] == rec;
    assert Slice(e.data, ptr, ptr + 2) == rec[..2] == header;
    assert e.data[ptr + 2] == rec[2] && e.data[ptr + 3] == rec[3];
    assert e.data[ptr + 4..ptr + e.newlen] == rec[4..];
  }

  /** The pairs, applied in turn, replace the record at `ptr` by one record
      whose length field is its new length, keep every byte before and
      after it, and keep the loop bound equal to the stream length. A
      changed record has even length. */
  lemma {:induction false} PairsReplaceRecord(sc: Scan, ptr: nat, rectype: byte, dtype: byte,
                                              bstring: Bytes, pairs: seq<Pair>, verbatim: bool, r: Scan, sub: Substitution)
    requires |sc.data| == sc.datalen
    requires RecordAt(sc.data, ptr, sc.newlen, rectype, dtype)
    requires Pairs(sc, ptr, rectype, dtype, bstring, pairs, verbatim, sub) == Success(r)
    ensures |r.data| == r.datalen
    ensures RecordAt(r.data, ptr, r.newlen, rectype, dtype)
    ensures r.data[..ptr] == sc.data[..ptr]
    ensures r.data[ptr + r.newlen..] == sc.data[ptr + sc.newlen..]
    ensures r == sc || r.newlen % 2 == 0
    decreases |pairs|
  {
    if |pairs| > 0 {
      var step := PairStep(sc.data, ptr, sc.newlen, rectype, dtype, bstring, pairs[0], verbatim, sub).value;
      if step.None? {
        PairsSkip(sc, ptr, rectype, dtype, bstring, pairs, verbatim, sub);
        PairsReplaceRecord(sc, ptr, rectype, dtype, bstring, pairs[1..], verbatim, r, sub);
      } else {
        var e := step.value;
        PairsSteps(sc, ptr, rectype, dtype, bstring, pairs, verbatim, e, sub);
        PairStepShape(sc.data, ptr, sc.newlen, rectype, dtype, bstring, pairs[0], verbatim, e, sub);
        EditReplaces(sc.data, ptr, sc.newlen, rectype, dtype, e);
        var next := Scan(e.data, e.newlen, sc.datalen + e.newlen - sc.newlen);
        PairsReplaceRecord(next, ptr, rectype, dtype, e.text, pairs[1..], verbatim, r, sub);
      }
    }
  }

  /** The loop as written and the corrected loop agree while at most the
      last pair changes the record: every earlier pair is skipped by both,
      and the last one is matched against the same string and spliced over
      the same length. One pair on the command line is such a case. */
  lemma {:induction false} AsWrittenAgrees(sc: Scan, ptr: nat, rectype: byte, dtype: byte, bstring: Bytes,
                                           pairs: seq<Pair>, verbatim: bool, sub: Substitution)
    requires forall i :: 0 <= i < |pairs| - 1
               ==> PairStep(sc.data, ptr, sc.newlen, rectype, dtype, bstring, pairs[i], verbatim, sub) == Success(None)
    ensures PairsAsWritten(sc, ptr, sc.newlen, rectype, dtype, bstring, pairs, verbatim, sub)
              == Pairs(sc, ptr, rectype, dtype, bstring, pairs, verbatim, sub)
    decreases |pairs|
  {
    if |pairs| > 1 {
      assert PairStep(sc.data, ptr, sc.newlen, rectype, dtype, bstring, pairs[0], verbatim, sub) == Success(None);
      forall i | 0 <= i < |pairs[1..]| - 1
        ensures PairStep(sc.data, ptr, sc.newlen, rectype, dtype, bstring, pairs[1..][i], verbatim, sub) == Success(None)
      {
        assert pairs[1..][i] == pairs[i + 1];
      }
      AsWrittenAgrees(sc, ptr, rectype, dtype, bstring, pairs[1..], verbatim, sub);
    } else if |pairs| == 1 {
      assert pairs[1..] == [];
    }
  }

  /** The loop as written replaces the record at `ptr` by one record whose
      length field is its length, and keeps every byte around it and the
      loop bound, whenever at most its last pair changes the record. */
  lemma {:induction false} AsWrittenReplacesRecord(sc: Scan, ptr: nat, rectype: byte, dtype: byte,
                                                   bstring: Bytes, pairs: seq<Pair>, verbatim: bool, r: Scan, sub: Substitution)
    requires |sc.data| == sc.datalen
    requires RecordAt(sc.data, ptr, sc.newlen, rectype, dtype)
    requires forall i :: 0 <= i < |pairs| - 1
               ==> PairStep(sc.data, ptr, sc.newlen, rectype, dtype, bstring, pairs[i], verbatim, sub) == Success(None)
    requires PairsAsWritten(sc, ptr, sc.newlen, rectype, dtype, bstring, pairs, verbatim, sub) == Success(r)
    ensures |r.data| == r.datalen
    ensures RecordAt(r.data, ptr, r.newlen, rectype, dtype)
    ensures r.data[..ptr] == sc.data[..ptr]
    ensures r.data[ptr + r.newlen..] == sc.data[ptr + sc.newlen..]
    ensures r == sc || r.newlen % 2 == 0
  {
    AsWrittenAgrees(sc, ptr, rectype, dtype, bstring, pairs, verbatim, sub);
    PairsReplaceRecord(sc, ptr, rectype, dtype, bstring, pairs, verbatim, r, sub);
  }

  // ---------------------------------------------------------------------
  // The string inside the record.
  // ---------------------------------------------------------------------

  /** The pairs applied in turn to a string. */
  function Substitute(t: Bytes, pairs: seq<Pair>): Bytes
    decreases |pairs|
  {
    if |pairs| == 0 then t else Substitute(ReplaceAll(t, pairs[0].search, pairs[0].rep), pairs[1..])
  }

  /** Pairs with a non-empty search string and no null byte anywhere. */
  predicate CleanPairs(pairs: seq<Pair>) {
    forall i :: 0 <= i < |pairs| ==> |pairs[i].search| > 0 && 0 !in pairs[i].search && 0 !in pairs[i].rep
  }

  /** Replacing inside a padded string replaces inside the string and
      keeps the padding null. */
  lemma {:induction false} PadReplace(t: Bytes, search: Bytes, rep: Bytes)
    requires 0 !in t && |search| > 0 && 0 !in search && 0 !in rep
    ensures 0 !in ReplaceAll(t, search, rep)
    ensures ReplaceAll(Pad(t), search, rep)
              == if |t| % 2 == 1 then ReplaceAll(t, search, rep) + [0] else ReplaceAll(t, search, rep)
    ensures |t| == 0 ==> ReplaceAll(t, search, rep) == t
  {
    ReplaceAllAvoids(t, 0, search, rep);
    if |t| % 2 == 1 {
      ReplaceAllSnoc(t, 0, search, rep);
    }
  }

  /** The parity fix-up applied to the padded-string replacement `s` of a
      string `t` whose plain replacement is `u` gives `Pad(u)`. */
  lemma {:induction false} PadFix(t: Bytes, u: Bytes, ptr: nat)
    requires 0 !in t && 0 !in u && (|t| == 0 ==> u == t)
    ensures var s := if |t| % 2 == 1 then u + [0] else u;
            (s == Pad(t) <==> u == t)
            && (s != Pad(t) ==> FixParity(s, Pad(t), ptr) == Success(Pad(u)))
  {
    if |t| % 2 == 1 {
      var s := u + [0];
      assert Pad(t) == t + [0];
      if s == Pad(t) {
        assert s[..|u|] == u && Pad(t)[..|t|] == t;
      }
      if |u| % 2 == 1 {
        assert FixParity(s, Pad(t), ptr) == Success(s);
      } else {
        assert Pad(t)[|Pad(t)| - 1] == 0;
        assert s[..|s| - 1] == u;
      }
    } else {
      assert Pad(t) == t;
      if u != t && |u| % 2 == 1 {
        assert t[|t| - 1] in t;
        assert FixParity(u, t, ptr) == Success(u + [0]);
      }
    }
  }

  /** A pair that leaves the padded string alone leaves the plain string
      alone as far as padding can tell. */
  lemma {:induction false} PayloadSkip(data: Bytes, ptr: nat, reclen: nat, rectype: byte, dtype: byte, t: Bytes, p: Pair)
    requires 0 !in t && |p.search| > 0 && 0 !in p.search && 0 !in p.rep
    requires PairStep(data, ptr, reclen, rectype, dtype, Pad(t), p, false, ReplaceAll) == Success(None)
    ensures 0 !in ReplaceAll(t, p.search, p.rep)
    ensures Pad(ReplaceAll(t, p.search, p.rep)) == Pad(t)
  {
    var u := ReplaceAll(t, p.search, p.rep);
    PadReplace(t, p.search, p.rep);
    PadFix(t, u, ptr);
  }

  /** The record at `ptr` of the loop state holds exactly the string `s`
      after its four header bytes. */
  predicate Carries(sc: Scan, ptr: nat, s: Bytes) {
    sc.newlen == |s| + 4 && ptr + sc.newlen <= |sc.data| && sc.data[ptr + 4..ptr + sc.newlen] == s
  }

  /** A changing pair leaves the record at `ptr` carrying the new text. */
  lemma {:induction false} EditCarries(data: Bytes, ptr: nat, reclen: nat, rectype: byte, dtype: byte, bstring: Bytes,
                    pair: Pair, verbatim: bool, e: Edit, sub: Substitution)
    requires ptr + 4 <= |data| && ptr + reclen <= |data|
    requires PairStep(data, ptr, reclen, rectype, dtype, bstring, pair, verbatim, sub) == Success(Some(e))
    ensures Carries(Scan(e.data, e.newlen, 0), ptr, e.text)
  {
    PairStepShape(data, ptr, reclen, rectype, dtype, bstring, pair, verbatim, e, sub);
    EditReplaces(data, ptr, reclen, rectype, dtype, e);
  }

  /** A pair that changes the padded string writes the padded plain
      replacement into the record. */
  lemma {:induction false} PayloadEdit(data: Bytes, ptr: nat, rectype: byte, dtype: byte, t: Bytes, p: Pair, e: Edit)
    requires 0 !in t && |p.search| > 0 && 0 !in p.search && 0 !in p.rep
    requires ptr + |Pad(t)| + 4 <= |data|
    requires PairStep(data, ptr, |Pad(t)| + 4, rectype, dtype, Pad(t), p, false, ReplaceAll) == Success(Some(e))
    ensures 0 !in ReplaceAll(t, p.search, p.rep)
    ensures e.text == Pad(ReplaceAll(t, p.search, p.rep))
    ensures Carries(Scan(e.data, e.newlen, 0), ptr, e.text)
  {
    var u := ReplaceAll(t, p.search, p.rep);
    PadReplace(t, p.search, p.rep);
    PadFix(t, u, ptr);
    EditCarries(data, ptr, |Pad(t)| + 4, rectype, dtype, Pad(t), p, false, e, ReplaceAll);
  }

  /** The state after a changing pair satisfies the premises of
      `PairsPayload` for the rest of the pairs. */
  lemma {:induction false} PayloadNext(sc: Scan, ptr: nat, rectype: byte, dtype: byte, t: Bytes, pairs: seq<Pair>, r: Scan, e: Edit)
    requires 0 !in t && |pairs| > 0
    requires |pairs[0].search| > 0 && 0 !in pairs[0].search && 0 !in pairs[0].rep
    requires Carries(sc, ptr, Pad(t))
    requires Pairs(sc, ptr, rectype, dtype, Pad(t), pairs, false, ReplaceAll) == Success(r)
    requires PairStep(sc.data, ptr, sc.newlen, rectype, dtype, Pad(t), pairs[0], false, ReplaceAll) == Success(Some(e))
    ensures var u := ReplaceAll(t, pairs[0].search, pairs[0].rep);
            var next := Scan(e.data, e.newlen, sc.datalen + e.newlen - sc.newlen);
            0 !in u && Carries(next, ptr, Pad(u))
            && Pairs(next, ptr, rectype, dtype, Pad(u), pairs[1..], false, ReplaceAll) == Success(r)
  {
    var u := ReplaceAll(t, pairs[0].search, pairs[0].rep);
    var next := Scan(e.data, e.newlen, sc.datalen + e.newlen - sc.newlen);
    PayloadEdit(sc.data, ptr, rectype, dtype, t, pairs[0], e);
    PairsSteps(sc, ptr, rectype, dtype, Pad(t), pairs, false, e, ReplaceAll);
  }

  /** Without verbatim mode and with clean pairs, the record at `ptr` ends
      up holding the padded result of applying every pair in turn to its
      string. */
  lemma {:induction false} PairsPayload(sc: Scan, ptr: nat, rectype: byte, dtype: byte, t: Bytes,
                                        pairs: seq<Pair>, r: Scan)
    requires 0 !in t && CleanPairs(pairs) && Carries(sc, ptr, Pad(t))
    requires Pairs(sc, ptr, rectype, dtype, Pad(t), pairs, false, ReplaceAll) == Success(r)
    ensures Carries(r, ptr, Pad(Substitute(t, pairs)))
    decreases |pairs|
  {
    if |pairs| > 0 {
      var p := pairs[0];
      var u := ReplaceAll(t, p.search, p.rep);
      assert |p.search| > 0 && 0 !in p.search && 0 !in p.rep;
      assert CleanPairs(pairs[1..]) by {
        assert forall i :: 0 <= i < |pairs| - 1 ==> pairs[1..][i] == pairs[i + 1];
      }
      assert Substitute(t, pairs) == Substitute(u, pairs[1..]);
      var step := PairStep(sc.data, ptr, sc.newlen, rectype, dtype, Pad(t), p, false, ReplaceAll).value;
      if step.None? {
        PayloadSkip(sc.data, ptr, sc.newlen, rectype, dtype, t, p);
        PairsSkip(sc, ptr, rectype, dtype, Pad(t), pairs, false, ReplaceAll);
        PairsPayload(sc, ptr, rectype, dtype, u, pairs[1..], r);
      } else {
        var e := step.value;
        PayloadNext(sc, ptr, rectype, dtype, t, pairs, r, e);
        var next := Scan(e.data, e.newlen, sc.datalen + e.newlen - sc.newlen);
        PairsPayload(next, ptr, rectype, dtype, u, pairs[1..], r);
      }
    }
  }

  /** In verbatim mode a pair changes a record only when its search string
      is the record's whole string, and the record then holds exactly the
      padded replacement. */
  lemma {:induction false} VerbatimWhole(data: Bytes, ptr: nat, rectype: byte, dtype: byte, t: Bytes, pair: Pair, e: Edit)
    requires 0 !in t && CleanPairs([pair])
    requires PairStep(data, ptr, |Pad(t)| + 4, rectype, dtype, Pad(t), pair, true, ReplaceAll) == Success(Some(e))
    ensures t == pair.search && e.text == Pad(pair.rep)
  {
    assert pair == [pair][0];
    var bstring := Pad(t);
    assert |bstring| > 0;
    assert |pair.search| == |t| by {
      if |t| % 2 == 1 {
        assert bstring[|bstring| - 1] == 0;
      } else {
        assert t[|t| - 1] in t;
        assert bstring[|bstring| - 1] != 0;
      }
    }
    ReplaceAllWhole(t, pair.search, pair.rep);
    PadReplace(t, pair.search, pair.rep);
    PadFix(t, ReplaceAll(t, pair.search, pair.rep), ptr);
  }

  // ---------------------------------------------------------------------
  // Several pairs on one record, as written.
  // ---------------------------------------------------------------------

  /** The edit one changing pair makes outside verbatim mode. */
  lemma PairStepChanged(data: Bytes, ptr: nat, reclen: nat, rectype: byte, dtype: byte, bstring: Bytes,
                        pair: Pair, text: Bytes)
    requires ReplaceAll(bstring, pair.search, pair.rep) != bstring
    requires FixParity(ReplaceAll(bstring, pair.search, pair.rep), bstring, ptr) == Success(text)
    requires |text| + 4 < 65536
    ensures PairStep(data, ptr, reclen, rectype, dtype, bstring, pair, false, ReplaceAll)
              == Success(Some(Edit(Take(data, ptr) + (U16(|text| + 4).value + [rectype, dtype] + text)
                                     + Drop(data, ptr + reclen), text, |text| + 4)))
  {
  }

  /** The record `[0, 6, STRNAME, ASCII] + s` with `s` two bytes long. */
  function NameRecord(len: byte, s: Bytes): Bytes {
    [0, len, STRNAME, ASCII] + s
  }

  /** A name record of length `n` spliced in at the start of the stream. */
  lemma {:induction false} NameSplice(data: Bytes, reclen: nat, text: Bytes, tail: Bytes, n: byte)
    requires n == |text| + 4 && Drop(data, reclen) == tail
    ensures Take(data, 0) + (U16(n).value + [STRNAME, ASCII] + text) + Drop(data, reclen) == NameRecord(n, text) + tail
  {
    U16Small(n);
    assert Take(data, 0) == [];
  }

  /** One changing pair on a record at the start of the stream. */
  lemma {:induction false} WholeRecordStep(data: Bytes, reclen: nat, bstring: Bytes, pair: Pair, text: Bytes, tail: Bytes)
    requires ReplaceAll(bstring, pair.search, pair.rep) != bstring
    requires FixParity(ReplaceAll(bstring, pair.search, pair.rep), bstring, 0) == Success(text)
    requires |text| + 4 < 256 && Drop(data, reclen) == tail
    ensures PairStep(data, 0, reclen, STRNAME, ASCII, bstring, pair, false, ReplaceAll)
              == Success(Some(Edit(NameRecord(|text| + 4, text) + tail, text, |text| + 4)))
  {
    PairStepChanged(data, 0, reclen, STRNAME, ASCII, bstring, pair, text);
    NameSplice(data, reclen, text, tail, |text| + 4);
  }

  /** A -> C on the record "AB". */
  lemma {:induction false} StepAC(data: Bytes, reclen: nat, ab: Bytes, a: Pair) returns (e: Edit)
    requires ab == [65, 66] && data == NameRecord(6, ab) && reclen == 6 && a == Pair([65], [67])
    ensures e == Edit([0, 6, STRNAME, ASCII, 67, 66], [67, 66], 6)
    ensures PairStep(data, 0, reclen, STRNAME, ASCII, ab, a, false, ReplaceAll) == Success(Some(e))
  {
    ReplaceSingle(ab, 65, [67], 0);
    assert ab[..0] + [67] + ab[1..] == [67, 66] != ab;
    assert Drop(data, 6) == [];
    WholeRecordStep(data, 6, ab, a, [67, 66], []);
    e := Edit([0, 6, STRNAME, ASCII, 67, 66], [67, 66], 6);
    assert NameRecord(6, [67, 66]) + [] == e.data;
  }

  /** B -> D on the record "AB", spliced over the first six bytes of
      `data`. */
  lemma {:induction false} StepBD(data: Bytes, reclen: nat, ab: Bytes, b: Pair) returns (e: Edit)
    requires ab == [65, 66] && b == Pair([66], [68]) && reclen == 6 && |data| >= 6
    ensures e == Edit([0, 6, STRNAME, ASCII, 65, 68] + data[6..], [65, 68], 6)
    ensures PairStep(data, 0, reclen, STRNAME, ASCII, ab, b, false, ReplaceAll) == Success(Some(e))
  {
    ReplaceSingle(ab, 66, [68], 1);
    assert ab[..1] + [68] + ab[2..] == [65, 68] != ab;
    WholeRecordStep(data, reclen, ab, b, [65, 68], data[6..]);
    e := Edit([0, 6, STRNAME, ASCII, 65, 68] + data[6..], [65, 68], 6);
    assert NameRecord(6, [65, 68]) == [0, 6, STRNAME, ASCII, 65, 68];
  }

  /** B -> D on the record "CB". */
  lemma {:induction false} StepCD(data: Bytes, reclen: nat, cb: Bytes, b: Pair) returns (e: Edit)
    requires cb == [67, 66] && data == NameRecord(6, cb) && reclen == 6 && b == Pair([66], [68])
    ensures e == Edit([0, 6, STRNAME, ASCII, 67, 68], [67, 68], 6)
    ensures PairStep(data, 0, reclen, STRNAME, ASCII, cb, b, false, ReplaceAll) == Success(Some(e))
  {
    ReplaceSingle(cb, 66, [68], 1);
    assert cb[..1] + [68] + cb[2..] == [67, 68] != cb;
    assert Drop(data, 6) == [];
    WholeRecordStep(data, 6, cb, b, [67, 68], []);
    e := Edit([0, 6, STRNAME, ASCII, 67, 68], [67, 68], 6);
    assert NameRecord(6, [67, 68]) + [] == e.data;
  }

  /** A -> XX on the record "AB": the string grows to three bytes and is
      padded to four. */
  lemma {:induction false} StepAXX(data: Bytes, reclen: nat, ab: Bytes, a: Pair) returns (e: Edit)
    requires ab == [65, 66] && data == NameRecord(6, ab) && reclen == 6 && a == Pair([65], [88, 88])
    ensures e == Edit([0, 8, STRNAME, ASCII, 88, 88, 66, 0], [88, 88, 66, 0], 8)
    ensures PairStep(data, 0, reclen, STRNAME, ASCII, ab, a, false, ReplaceAll) == Success(Some(e))
  {
    var xxb: Bytes := [88, 88, 66];
    ReplaceSingle(ab, 65, [88, 88], 0);
    assert ab[..0] + [88, 88] + ab[1..] == xxb != ab;
    assert |xxb| == 3 && ab[|ab| - 1] == 66 && xxb + [0] == [88, 88, 66, 0];
    assert Drop(data, 6) == [];
    WholeRecordStep(data, 6, ab, a, [88, 88, 66, 0], []);
    e := Edit([0, 8, STRNAME, ASCII, 88, 88, 66, 0], [88, 88, 66, 0], 8);
    assert NameRecord(8, [88, 88, 66, 0]) + [] == e.data;
  }

  /** B -> D on the record "XXB" plus padding. */
  lemma {:induction false} StepXXD(data: Bytes, reclen: nat, s: Bytes, b: Pair) returns (e: Edit)
    requires s == [88, 88, 66, 0] && data == NameRecord(8, s) && reclen == 8 && b == Pair([66], [68])
    ensures e == Edit([0, 8, STRNAME, ASCII, 88, 88, 68, 0], [88, 88, 68, 0], 8)
    ensures PairStep(data, 0, reclen, STRNAME, ASCII, s, b, false, ReplaceAll) == Success(Some(e))
  {
    ReplaceSingle(s, 66, [68], 2);
    assert s[..2] + [68] + s[3..] == [88, 88, 68, 0] != s;
    assert Drop(data, 8) == [];
    WholeRecordStep(data, 8, s, b, [88, 88, 68, 0], []);
    e := Edit([0, 8, STRNAME, ASCII, 88, 88, 68, 0], [88, 88, 68, 0], 8);
    assert NameRecord(8, [88, 88, 68, 0]) + [] == e.data;
  }

  /** A last changing pair, in the loop as written. */
  lemma AsWrittenLast(sc: Scan, ptr: nat, reclen: nat, rectype: byte, dtype: byte, bstring: Bytes,
                      pairs: seq<Pair>, e: Edit, sub: Substitution)
    requires |pairs| == 1
    requires PairStep(sc.data, ptr, reclen, rectype, dtype, bstring, pairs[0], false, sub) == Success(Some(e))
    ensures PairsAsWritten(sc, ptr, reclen, rectype, dtype, bstring, pairs, false, sub)
              == Success(Scan(e.data, e.newlen, sc.datalen + e.newlen - reclen))
  {
  }

  /** Two changing pairs, in the loop as written: both splices go over the
      original record length and both see the original string. */
  lemma {:induction false} AsWrittenTwo(sc: Scan, ptr: nat, reclen: nat, rectype: byte, dtype: byte, bstring: Bytes,
                     pairs: seq<Pair>, e1: Edit, e2: Edit, sub: Substitution)
    requires |pairs| == 2
    requires PairStep(sc.data, ptr, reclen, rectype, dtype, bstring, pairs[0], false, sub) == Success(Some(e1))
    requires PairStep(e1.data, ptr, reclen, rectype, dtype, bstring, pairs[1], false, sub) == Success(Some(e2))
    ensures PairsAsWritten(sc, ptr, reclen, rectype, dtype, bstring, pairs, false, sub)
              == Success(Scan(e2.data, e2.newlen, sc.datalen + e1.newlen - reclen + e2.newlen - reclen))
  {
    var sc1 := Scan(e1.data, e1.newlen, sc.datalen + e1.newlen - reclen);
    var rest := pairs[1..];
    AsWrittenStep(sc, ptr, reclen, rectype, dtype, bstring, pairs, false, e1, sub);
    assert rest[0] == pairs[1];
    assert PairStep(sc1.data, ptr, reclen, rectype, dtype, bstring, rest[0], false, sub) == Success(Some(e2));
    AsWrittenLast(sc1, ptr, reclen, rectype, dtype, bstring, rest, e2, sub);
  }

  /** A last changing pair, in the corrected loop. */
  lemma PairsLast(sc: Scan, ptr: nat, rectype: byte, dtype: byte, bstring: Bytes, pairs: seq<Pair>, e: Edit, sub: Substitution)
    requires |pairs| == 1
    requires PairStep(sc.data, ptr, sc.newlen, rectype, dtype, bstring, pairs[0], false, sub) == Success(Some(e))
    ensures Pairs(sc, ptr, rectype, dtype, bstring, pairs, false, sub)
              == Success(Scan(e.data, e.newlen, sc.datalen + e.newlen - sc.newlen))
  {
  }

  /** Two changing pairs, in the corrected loop. */
  lemma {:induction false} PairsTwo(sc: Scan, ptr: nat, rectype: byte, dtype: byte, bstring: Bytes,
                 pairs: seq<Pair>, e1: Edit, e2: Edit, sub: Substitution)
    requires |pairs| == 2
    requires PairStep(sc.data, ptr, sc.newlen, rectype, dtype, bstring, pairs[0], false, sub) == Success(Some(e1))
    requires PairStep(e1.data, ptr, e1.newlen, rectype, dtype, e1.text, pairs[1], false, sub) == Success(Some(e2))
    ensures Pairs(sc, ptr, rectype, dtype, bstring, pairs, false, sub)
              == Success(Scan(e2.data, e2.newlen, sc.datalen + e1.newlen - sc.newlen + e2.newlen - e1.newlen))
  {
    var sc1 := Scan(e1.data, e1.newlen, sc.datalen + e1.newlen - sc.newlen);
    var rest := pairs[1..];
    PairsSteps(sc, ptr, rectype, dtype, bstring, pairs, false, e1, sub);
    assert rest[0] == pairs[1];
    assert PairStep(sc1.data, ptr, sc1.newlen, rectype, dtype, e1.text, rest[0], false, sub) == Success(Some(e2));
    PairsLast(sc1, ptr, rectype, dtype, e1.text, rest, e2, sub);
  }

  /** With the record string "AB" and the pairs A -> C, B -> D, the loop as
      written keeps only the last edit: the record ends up holding "AD". */
  lemma {:induction false} LostEdit(data: Bytes, pairs: seq<Pair>)
    requires data == [0, 6, STRNAME, ASCII, 65, 66]
    requires pairs == [Pair([65], [67]), Pair([66], [68])]
    ensures PairsAsWritten(Scan(data, 6, 6), 0, 6, STRNAME, ASCII, data[4..], pairs, false, ReplaceAll)
              == Success(Scan([0, 6, STRNAME, ASCII, 65, 68], 6, 6))
  {
    var sc := Scan(data, 6, 6);
    var ab := data[4..];
    assert data == NameRecord(6, ab);
    var e1 := StepAC(sc.data, 6, ab, pairs[0]);
    var e2 := StepBD(e1.data, 6, ab, pairs[1]);
    assert e2.data == [0, 6, STRNAME, ASCII, 65, 68] by {
      assert e1.data[6..] == [];
    }
    AsWrittenTwo(sc, 0, 6, STRNAME, ASCII, ab, pairs, e1, e2, ReplaceAll);
  }

  /** On the same record and pairs the corrected loop gives "CD". */
  lemma {:induction false} LostEditCorrected(data: Bytes, pairs: seq<Pair>)
    requires data == [0, 6, STRNAME, ASCII, 65, 66]
    requires pairs == [Pair([65], [67]), Pair([66], [68])]
    ensures Pairs(Scan(data, 6, 6), 0, STRNAME, ASCII, data[4..], pairs, false, ReplaceAll)
              == Success(Scan([0, 6, STRNAME, ASCII, 67, 68], 6, 6))
  {
    var sc := Scan(data, 6, 6);
    var ab := data[4..];
    assert data == NameRecord(6, ab);
    var e1 := StepAC(sc.data, sc.newlen, ab, pairs[0]);
    assert e1.data == NameRecord(6, e1.text);
    var e2 := StepCD(e1.data, e1.newlen, e1.text, pairs[1]);
    PairsTwo(sc, 0, STRNAME, ASCII, ab, pairs, e1, e2, ReplaceAll);
  }

  /** With the record string "AB" and the pairs A -> XX, B -> D, the loop as
      written splices its second edit over the original six bytes of a
      record that is now eight long: two stray bytes (B and the padding
      null) follow the record, and the bound says eight bytes. */
  lemma {:induction false} StaleSplice(data: Bytes, pairs: seq<Pair>)
    requires data == [0, 6, STRNAME, ASCII, 65, 66]
    requires pairs == [Pair([65], [88, 88]), Pair([66], [68])]
    ensures PairsAsWritten(Scan(data, 6, 6), 0, 6, STRNAME, ASCII, data[4..], pairs, false, ReplaceAll)
              == Success(Scan([0, 6, STRNAME, ASCII, 65, 68, 66, 0], 6, 8))
  {
    var sc := Scan(data, 6, 6);
    var ab := data[4..];
    assert data == NameRecord(6, ab);
    var e1 := StepAXX(sc.data, 6, ab, pairs[0]);
    var e2 := StepBD(e1.data, 6, ab, pairs[1]);
    assert e2.data == [0, 6, STRNAME, ASCII, 65, 68, 66, 0] by {
      assert e1.data[6..] == [66, 0];
    }
    AsWrittenTwo(sc, 0, 6, STRNAME, ASCII, ab, pairs, e1, e2, ReplaceAll);
  }

  /** On the same record and pairs the corrected loop writes one record of
      eight bytes holding "XXD" and its padding. */
  lemma {:induction false} StaleSpliceCorrected(data: Bytes, pairs: seq<Pair>)
    requires data == [0, 6, STRNAME, ASCII, 65, 66]
    requires pairs == [Pair([65], [88, 88]), Pair([66], [68])]
    ensures Pairs(Scan(data, 6, 6), 0, STRNAME, ASCII, data[4..], pairs, false, ReplaceAll)
              == Success(Scan([0, 8, STRNAME, ASCII, 88, 88, 68, 0], 8, 8))
  {
    var sc := Scan(data, 6, 6);
    var ab := data[4..];
    assert data == NameRecord(6, ab);
    var e1 := StepAXX(sc.data, sc.newlen, ab, pairs[0]);
    assert e1.data == NameRecord(8, e1.text);
    var e2 := StepXXD(e1.data, e1.newlen, e1.text, pairs[1]);
    PairsTwo(sc, 0, STRNAME, ASCII, ab, pairs, e1, e2, ReplaceAll);
  }
}

=== FILE: glob.dfy ===
/** Python's `fnmatch.fnmatch(name, pattern)` on a POSIX system, where
    names are compared as they are (no case folding). `*` matches any run
    of characters, `?` any one character, `[...]` one character of a class
    (`[!...]` one character outside it, `a-z` a range), and every other
    character itself. The whole name must match. */
module Glob {
  import opened Text

  predicate IsSpecial(c: char) {
    c == '*' || c == '?' || c == '['
  }

  /** Where the class that opens at `p[0] == '['` closes: the first `]`
      after an optional `!` and an optional leading `]`, which belong to the
      class. `|p|` when there is no such `]`, in which case the `[` stands
      for itself. */
  function ClassEnd(p: String): (j: nat)
    requires |p| > 0
    ensures 1 <= j <= |p|
    ensures j < |p| ==> p[j] == ']'
  {
    var j1 := if 1 < |p| && p[1] == '!' then 2 else 1;
    var j2 := if j1 < |p| && p[j1] == ']' then j1 + 1 else j1;
    Scan(p, j2)
  }

  /** The first `]` at or after `j`, or `|p|`. */
  function Scan(p: String, j: nat): (k: nat)
    requires j <= |p|
    ensures j <= k <= |p|
    ensures k < |p| ==> p[k] == ']'
    ensures forall m :: j <= m < k ==> p[m] != ']'
    decreases |p| - j
  {
    if j == |p| || p[j] == ']' then j else Scan(p, j + 1)
  }

  /** The items of a class: `x-y` (with `-` neither first nor last) is the
      range from `x` to `y`, which is empty when `y < x`; every other
      character is itself. */
  predicate InItems(items: String, c: char)
    decreases |items|
  {
    if |items| == 0 then false
    else if |items| >= 3 && items[1] == '-' then (items[0] <= c <= items[2]) || InItems(items[3..], c)
    else items[0] == c || InItems(items[1..], c)
  }

  /** One character against the text between the brackets. */
  predicate InClass(body: String, c: char) {
    if |body| > 0 && body[0] == '!' then !InItems(body[1..], c) else InItems(body, c)
  }

  predicate FnMatch(p: String, s: String)
    decreases |p| + |s|
  {
    if |p| == 0 then |s| == 0
    else if p[0] == '*' then FnMatch(p[1..], s) || (|s| > 0 && FnMatch(p, s[1..]))
    else if p[0] == '?' then |s| > 0 && FnMatch(p[1..], s[1..])
    else if p[0] == '[' && ClassEnd(p) < |p| then
      var j := ClassEnd(p);
      |s| > 0 && InClass(p[1..j], s[0]) && FnMatch(p[j + 1..], s[1..])
    else |s| > 0 && s[0] == p[0] && FnMatch(p[1..], s[1..])
  }

  predicate Literal(p: String) {
    forall k :: 0 <= k < |p| ==> !IsSpecial(p[k])
  }

  /** A pattern without `*`, `?` or `[` matches exactly itself. */
  lemma {:induction false} GlobLiteral(p: String, s: String)
    requires Literal(p)
    ensures FnMatch(p, s) <==> s == p
    decreases |p|
  {
    if |p| > 0 && |s| > 0 {
      GlobLiteral(p[1..], s[1..]);
      if s[1..] == p[1..] && s[0] == p[0] {
        assert s == [s[0]] + s[1..] && p == [p[0]] + p[1..];
      }
    }
  }

  /** A lone `*` matches every name. */
  lemma {:induction false} GlobStar(s: String)
    ensures FnMatch("*", s)
    decreases |s|
  {
    if |s| > 0 {
      GlobStar(s[1..]);
    }
  }

  /** A literal prefix followed by `*` matches exactly the names that start
      with the prefix. */
  lemma {:induction false} GlobPrefix(lit: String, s: String)
    requires Literal(lit)
    ensures FnMatch(lit + "*", s) <==> StartsWith(s, lit)
    decreases |lit|
  {
    if |lit| == 0 {
      assert lit + "*" == "*";
      GlobStar(s);
    } else {
      var p := lit + "*";
      assert p[0] == lit[0] && p[1..] == lit[1..] + "*";
      assert Literal(lit[1..]) by {
        assert forall k :: 0 <= k < |lit[1..]| ==> lit[1..][k] == lit[k + 1];
      }
      if |s| > 0 {
        GlobPrefix(lit[1..], s[1..]);
        if StartsWith(s[1..], lit[1..]) && s[0] == lit[0] {
          assert s[..|lit|] == [s[0]] + s[1..][..|lit| - 1];
          assert lit == [lit[0]] + lit[1..];
        }
        if StartsWith(s, lit) {
          assert s[1..][..|lit| - 1] == s[..|lit|][1..];
        }
      }
    }
  }

  /** A pattern that is one class matches one character by the class. */
  lemma {:induction false} OneClass(p: String, c: char)
    requires |p| >= 2 && p[0] == '[' && ClassEnd(p) == |p| - 1
    ensures FnMatch(p, [c]) <==> InClass(p[1..|p| - 1], c)
  {
    assert [c][1..] == [] && p[|p|..] == [];
  }

  /** The pieces of `open + items + "]"`. */
  lemma Bracketed(open: String, items: String, p: String)
    requires p == open + items + "]"
    ensures |p| == |open| + |items| + 1 && p[|p| - 1] == ']'
    ensures p[..|open|] == open && p[|open|..|p| - 1] == items
  {
  }

  /** `[...]` and `[!...]` with the same items split the characters
      between them. */
  lemma {:induction false} GlobNegates(items: String, c: char)
    requires |items| > 0 && items[0] != '!' && items[0] != ']'
    requires forall k :: 0 <= k < |items| ==> items[k] != ']'
    ensures FnMatch("[" + items + "]", [c]) <==> !FnMatch("[!" + items + "]", [c])
  {
    var p := "[" + items + "]";
    var q := "[!" + items + "]";
    Bracketed("[", items, p);
    Bracketed("[!", items, q);
    assert p[0] == '[' && p[1] == items[0];
    assert q[0] == '[' && q[1] == '!' && q[2] == items[0];
    assert forall m :: 1 <= m < |p| - 1 ==> p[m] == p[1..|p| - 1][m - 1];
    assert forall m :: 2 <= m < |q| - 1 ==> q[m] == q[2..|q| - 1][m - 2];
    assert ClassEnd(p) == |p| - 1;
    assert ClassEnd(q) == |q| - 1;
    OneClass(p, c);
    OneClass(q, c);
    assert q[1..|q| - 1] == "!" + items;
  }
}

=== FILE: insert_layer.dfy ===
/** Adding rectangles of one layer to a Magic layout
    (common/insert_layer.py, `addlayer`). The geometry is a list of
    coordinates, four to a rectangle. If the layout already paints the
    layer, the rectangles go at the end of its section; otherwise a new
    section for the layer is opened in front of the labels, the properties
    or the end marker, whichever comes first. Every line of the file is
    written back. */
module InsertLayer {
  import opened Seqs
  import opened Text
  import opened Lines

  const Section: String := "<< "
  const Labels: String := "<< labels >>"
  const Properties: String := "<< properties >>"
  const End: String := "<< end >>"

  /** The header of the layer's section. The script builds a regular
      expression from the layer name; layer names are plain words, so the
      pattern matches the text literally. */
  function LayerHeader(layer: String): String {
    Section + layer + " >>"
  }

  predicate IsLayer(layer: String, line: String) {
    StartsWith(line, LayerHeader(layer))
  }

  /** A line in front of which a missing section is opened. */
  predicate IsAnchor(line: String) {
    StartsWith(line, Labels) || StartsWith(line, Properties) || StartsWith(line, End)
  }

  /** `zip(*[iter(tokens)]*4)`: the coordinates four at a time, each group
      written as a `rect` line; a last group of fewer than four is dropped. */
  function Rects(coords: seq<String>): (r: Lines)
    decreases |coords|
  {
    if |coords| < 4 then []
    else [RectLine(coords[..4])] + Rects(coords[4..])
  }

  /** `'rect ' + ' '.join(coords)`. */
  function RectLine(group: seq<String>): String {
    "rect" + " " + Join(group, " ")
  }

  /** The state the loop carries: whether it is inside the layer's section,
      whether the rectangles were written, and the match for the properties
      header, which the script only recomputes while it is still looking
      for a place to open the section. */
  datatype St = St(inLayer: bool, done: bool, pmatch: bool)

  const Start := St(false, false, false)

  /** The body of the loop for one line. */
  function Step(layer: String, rects: Lines, line: String, st: St): Out<St> {
    var looking := !st.done && !st.inLayer;
    var pm := if looking then StartsWith(line, Properties) else st.pmatch;
    var opens := looking && IsAnchor(line);
    var head := if opens then [LayerHeader(layer)] + rects else [];
    var done := st.done || opens;
    if IsLayer(layer, line) || pm then Out(head + [line], St(true, done, pm))
    else if st.inLayer && StartsWith(line, Section) then Out(rects + [line], St(false, true, pm))
    else Out(head + [line], St(st.inLayer, done, pm))
  }

  function StepOf(layer: String, rects: Lines): LineStep<St> {
    (line, st) => Step(layer, rects, line, st)
  }

  /** The lines `addlayer` writes back; there are never fewer than were
      read. */
  function AddLayer(lines: Lines, layer: String, geometry: String): (r: Lines)
    ensures |lines| <= |r|
  {
    var step := StepOf(layer, Rects(Split(geometry)));
    StepEndsWithLine(layer, Rects(Split(geometry)));
    RunKeeps(lines, step, Start);
    SubseqLength(lines, Run(lines, step, Start).lines);
    Run(lines, step, Start).lines
  }

  /** Every step writes its own line last. */
  lemma StepEndsWithLine(layer: String, rects: Lines)
    ensures forall l, s :: |StepOf(layer, rects)(l, s).lines| > 0
                          && StepOf(layer, rects)(l, s).lines[|StepOf(layer, rects)(l, s).lines| - 1] == l
  {
    forall l, s
      ensures |StepOf(layer, rects)(l, s).lines| > 0
              && StepOf(layer, rects)(l, s).lines[|StepOf(layer, rects)(l, s).lines| - 1] == l
    {
    }
  }

  // ---------------------------------------------------------------------
  // The rectangles

  /** One `rect` line per complete group of four coordinates; the line
      splits back into `rect` and the four coordinates of its group. */
  lemma {:induction false} RectsParse(coords: seq<String>)
    requires forall i :: 0 <= i < |coords| ==> IsWord(coords[i])
    ensures |Rects(coords)| == |coords| / 4
    ensures forall i :: 0 <= i < |coords| / 4 ==>
      Split(Rects(coords)[i]) == ["rect"] + coords[4 * i..4 * i + 4]
    decreases |coords|
  {
    if |coords| >= 4 {
      var rest := coords[4..];
      assert forall i :: 0 <= i < |rest| ==> rest[i] == coords[i + 4];
      RectsParse(rest);
      RectTokens(coords[..4]);
      forall i | 1 <= i < |coords| / 4
        ensures Split(Rects(coords)[i]) == ["rect"] + coords[4 * i..4 * i + 4]
      {
        assert Rects(coords)[i] == Rects(rest)[i - 1];
        assert rest[4 * (i - 1)..4 * (i - 1) + 4] == coords[4 * i..4 * i + 4];
      }
    }
  }

  /** A `rect` line splits into `rect` and its coordinates. */
  lemma {:induction false} RectTokens(group: seq<String>)
    requires forall i :: 0 <= i < |group| ==> IsWord(group[i])
    ensures Split(RectLine(group)) == ["rect"] + group
  {
    assert IsWord("rect");
    SplitWordSpace("rect", Join(group, " "));
    SplitJoin(group);
  }

  /** The coordinates of the geometry argument, grouped. */
  lemma {:induction false} GeometryRects(geometry: String)
    ensures |Rects(Split(geometry))| == |Split(geometry)| / 4
    ensures forall i :: 0 <= i < |Split(geometry)| / 4 ==>
      Split(Rects(Split(geometry))[i]) == ["rect"] + Split(geometry)[4 * i..4 * i + 4]
  {
    RectsParse(Split(geometry));
  }

  // ---------------------------------------------------------------------
  // Every line is kept

  /** Whatever the file holds, every line is written back, in order; the
      script only ever adds lines. */
  lemma {:induction false} AddLayerKeeps(lines: Lines, layer: String, geometry: String)
    ensures IsSubseq(lines, AddLayer(lines, layer, geometry))
  {
    var step := StepOf(layer, Rects(Split(geometry)));
    forall l, s
      ensures |step(l, s).lines| > 0 && step(l, s).lines[|step(l, s).lines| - 1] == l
    {
    }
    RunKeeps(lines, step, Start);
  }

  // ---------------------------------------------------------------------
  // Line by line

  /** A line before the place the script is looking for. */
  predicate Plain(layer: String, line: String) {
    !IsAnchor(line) && !IsLayer(layer, line)
  }

  /** The layer's header begins a section. */
  lemma {:induction false} LayerIsSection(layer: String, line: String)
    ensures IsLayer(layer, line) ==> StartsWith(line, Section)
  {
    if IsLayer(layer, line) {
      assert line[..|Section|] == line[..|LayerHeader(layer)|][..|Section|];
    }
  }

  lemma {:induction false} PlainRun(pre: Lines, layer: String, rects: Lines)
    requires forall i :: 0 <= i < |pre| ==> Plain(layer, pre[i])
    ensures Run(pre, StepOf(layer, rects), Start) == Out(pre, Start)
  {
    RunCopies(pre, StepOf(layer, rects), Start);
  }

  /** Lines that are not headers of the layer pass through once the
      rectangles are written and the loop is outside the section, or once
      the stale properties match keeps it inside. */
  lemma {:induction false} AfterRun(post: Lines, layer: String, rects: Lines, st: St)
    requires forall i :: 0 <= i < |post| ==> !IsLayer(layer, post[i])
    requires st.done && (st.inLayer == st.pmatch)
    ensures Run(post, StepOf(layer, rects), st) == Out(post, st)
  {
    RunCopies(post, StepOf(layer, rects), st);
  }

  /** Inside the section, lines that do not begin a section pass through. */
  lemma {:induction false} BodyRun(body: Lines, layer: String, rects: Lines)
    requires forall i :: 0 <= i < |body| ==> !StartsWith(body[i], Section)
    ensures Run(body, StepOf(layer, rects), St(true, false, false)) == Out(body, St(true, false, false))
  {
    forall i | 0 <= i < |body|
      ensures StepOf(layer, rects)(body[i], St(true, false, false)) == Out([body[i]], St(true, false, false))
    {
      LayerIsSection(layer, body[i]);
    }
    RunCopies(body, StepOf(layer, rects), St(true, false, false));
  }

  /** The first line of a new section: the header and the rectangles go
      in front of it. */
  lemma AnchorStep(layer: String, rects: Lines, anchor: String)
    requires IsAnchor(anchor) && !IsLayer(layer, anchor)
    ensures var pm := StartsWith(anchor, Properties);
            Step(layer, rects, anchor, Start) == Out([LayerHeader(layer)] + rects + [anchor], St(pm, true, pm))
  {
  }

  lemma HeaderStep(layer: String, rects: Lines, h: String)
    requires IsLayer(layer, h) && !IsAnchor(h)
    ensures Step(layer, rects, h, Start) == Out([h], St(true, false, false))
  {
  }

  /** The next section header ends the layer's section: the rectangles go
      in front of it. */
  lemma NextStep(layer: String, rects: Lines, next: String)
    requires StartsWith(next, Section) && !IsLayer(layer, next)
    ensures Step(layer, rects, next, St(true, false, false)) == Out(rects + [next], St(false, true, false))
  {
  }

  // ---------------------------------------------------------------------
  // The whole file

  /** The layer's section exists, before any labels, properties or end:
      its rectangles are written just before the next section header, and
      nothing else changes. */
  lemma {:induction false} ExistingSection(pre: Lines, h: String, body: Lines, next: String, post: Lines, layer: String, geometry: String)
    requires forall i :: 0 <= i < |pre| ==> Plain(layer, pre[i])
    requires IsLayer(layer, h) && !IsAnchor(h)
    requires forall i :: 0 <= i < |body| ==> !StartsWith(body[i], Section)
    requires StartsWith(next, Section) && !IsLayer(layer, next)
    requires forall i :: 0 <= i < |post| ==> !IsLayer(layer, post[i])
    ensures AddLayer(pre + [h] + body + [next] + post, layer, geometry)
         == pre + [h] + body + Rects(Split(geometry)) + [next] + post
  {
    var rects := Rects(Split(geometry));
    var step := StepOf(layer, rects);
    var inside := St(true, false, false);
    var after := St(false, true, false);
    PlainRun(pre, layer, rects);
    HeaderStep(layer, rects, h);
    BodyRun(body, layer, rects);
    RunAround(pre, h, body, step, Start, Out(pre, Start), Out(body, inside));
    NextStep(layer, rects, next);
    AfterRun(post, layer, rects, after);
    RunAround(pre + [h] + body, next, post, step, Start, Out(pre + [h] + body, inside), Out(post, after));
    AssocPair(pre + [h] + body, rects, [next], post);
  }

  /** The layer's section does not exist: it is opened, with the
      rectangles, in front of the first labels, properties or end line,
      and nothing else changes. */
  lemma {:induction false} NewSection(pre: Lines, anchor: String, post: Lines, layer: String, geometry: String)
    requires forall i :: 0 <= i < |pre| ==> Plain(layer, pre[i])
    requires IsAnchor(anchor) && !IsLayer(layer, anchor)
    requires forall i :: 0 <= i < |post| ==> !IsLayer(layer, post[i])
    ensures AddLayer(pre + [anchor] + post, layer, geometry)
         == pre + [LayerHeader(layer)] + Rects(Split(geometry)) + [anchor] + post
  {
    var rects := Rects(Split(geometry));
    var step := StepOf(layer, rects);
    var pm := StartsWith(anchor, Properties);
    var after := St(pm, true, pm);
    var added := [LayerHeader(layer)] + rects + [anchor];
    PlainRun(pre, layer, rects);
    AnchorStep(layer, rects, anchor);
    AfterRun(post, layer, rects, after);
    RunAround(pre, anchor, post, step, Start, Out(pre, Start), Out(post, after));
    AssocMiddle(pre, [LayerHeader(layer)], rects, [anchor], post);
  }

  /** A file with neither the layer nor any labels, properties or end line
      is written back unchanged. */
  lemma {:induction false} NoPlace(lines: Lines, layer: String, geometry: String)
    requires forall i :: 0 <= i < |lines| ==> Plain(layer, lines[i])
    ensures AddLayer(lines, layer, geometry) == lines
  {
    PlainRun(lines, layer, Rects(Split(geometry)));
  }
}

=== FILE: insert_property.dfy ===
/** Adding a property to a Magic layout (common/insert_property.py,
    `addprop`): the `.mag` file is rewritten line by line. A `string` line
    naming the property inside the `<< properties >>` section is replaced
    (or left alone under `noupdate`); if the section never named it, the
    property is written just before `<< end >>`, under a new section header
    when the file had none. */
module InsertProperty {
  import opened Wrappers
  import opened Seqs
  import opened Text
  import opened Lines

  const Header: String := "<< properties >>"
  const End: String := "<< end >>"

  /** Why the script stops with an exception. */
  datatype Fault =
    | NoName                  // the property text has no token (`split()[0]`)
    | NoTokens(line: String)  // a blank line inside the properties section
    | ShortString(line: String) // a `string` line with fewer than three tokens

  /** The flags the loop carries from line to line. `printed` is reset
      for every line, so it is not part of the state. */
  datatype St = St(inProps: bool, done: bool)

  /** The line the script writes for the property. */
  function Entry(prop: String): String {
    "string " + prop
  }

  /** `re.match` anchors at the start of the line only. */
  predicate IsHeader(line: String) {
    StartsWith(line, Header)
  }

  predicate IsEnd(line: String) {
    StartsWith(line, End)
  }

  /** A `string` line inside the section that names the property. */
  predicate Named(line: String, name: String) {
    var t := Split(line);
    |t| >= 3 && t[0] == "string" && t[1] == name
  }

  /** What one line writes: the replacement entry, then (at the end marker)
      the missing header and entry, then the line itself unless it was
      replaced. `st` is the state after the line was looked at. */
  function Emit(line: String, prop: String, st: St, printed: bool): Out<St> {
    if IsEnd(line) then
      var marker := (if st.inProps then [] else [Header]) + (if st.done then [] else [Entry(prop)]);
      Out((if printed then [Entry(prop)] else []) + marker + (if printed then [] else [line]), st)
    else if printed then Out([Entry(prop)], st)
    else Out([line], st)
  }

  /** The body of the loop over the lines of the file. */
  function Step(name: String, prop: String, noupdate: bool, line: String, st: St): Result<Out<St>, Fault> {
    if IsHeader(line) then
      Success(Emit(line, prop, St(true, st.done), false))
    else if st.inProps then
      var t := Split(line);
      if |t| == 0 then Failure(NoTokens(line))
      else if t[0] == "string" then
        if |t| < 3 then Failure(ShortString(line))
        else if t[1] == name then Success(Emit(line, prop, St(true, true), !noupdate))
        else Success(Emit(line, prop, st, false))
      else Success(Emit(line, prop, st, false))
    else Success(Emit(line, prop, st, false))
  }

  function StepOf(name: String, prop: String, noupdate: bool): TryStep<St, Fault> {
    (line, st) => Step(name, prop, noupdate, line, st)
  }

  /** The lines `addprop` writes back for the lines it read. The property
      name is the first token of the property text; a text with no token
      raises before the file is opened for writing. */
  function AddProp(lines: Lines, prop: String, noupdate: bool): (r: Result<Lines, Fault>)
    ensures r == Failure(NoName) <==> |Split(prop)| == 0
  {
    var t := Split(prop);
    if |t| == 0 then Failure(NoName)
    else
      TryFaults(lines, StepOf(t[0], prop, noupdate), St(false, false), (e: Fault) => !e.NoName?);
      match Try(lines, StepOf(t[0], prop, noupdate), St(false, false))
      case Failure(e) => Failure(e)
      case Success(o) => Success(o.lines)
  }

  // ---------------------------------------------------------------------
  // The shape of a layout file

  /** A line that is neither a section header for properties nor the end. */
  predicate Plain(line: String) {
    !IsHeader(line) && !IsEnd(line)
  }

  /** A line the properties section can hold without the script raising. */
  predicate PropLine(line: String) {
    Plain(line) && |Split(line)| > 0 && (Split(line)[0] == "string" ==> |Split(line)| >= 3)
  }

  /** The section names the property somewhere. */
  predicate HasProp(props: Lines, name: String) {
    exists i :: 0 <= i < |props| && Named(props[i], name)
  }

  /** The section with every line naming the property replaced by the
      new entry, unless `noupdate` is set. */
  function Updated(props: Lines, name: String, prop: String, noupdate: bool): Lines {
    seq(|props|, i requires 0 <= i < |props| =>
      if Named(props[i], name) && !noupdate then Entry(prop) else props[i])
  }

  // ---------------------------------------------------------------------
  // Line by line

  lemma PlainCopied(name: String, prop: String, noupdate: bool, line: String)
    requires Plain(line)
    ensures Step(name, prop, noupdate, line, St(false, false)) == Success(Out([line], St(false, false)))
  {
  }

  lemma {:induction false} HeaderCopied(name: String, prop: String, noupdate: bool, line: String)
    requires IsHeader(line)
    ensures Step(name, prop, noupdate, line, St(false, false)) == Success(Out([line], St(true, false)))
  {
    HeaderNotEnd(line);
  }

  /** The two markers differ in their fourth character. */
  lemma {:induction false} HeaderNotEnd(line: String)
    ensures !(IsHeader(line) && IsEnd(line))
  {
    if IsHeader(line) {
      assert line[3] == 'p' by {
        assert line[..|Header|][3] == line[3];
      }
      assert |line| >= |End| ==> line[..|End|][3] == line[3];
    }
  }

  /** Outside the section the end marker brings the header and the entry. */
  lemma {:induction false} EndOutside(name: String, prop: String, noupdate: bool, line: String)
    requires IsEnd(line)
    ensures Step(name, prop, noupdate, line, St(false, false))
         == Success(Out([Header, Entry(prop), line], St(false, false)))
  {
    HeaderNotEnd(line);
    assert [] + ([Header] + [Entry(prop)]) + [line] == [Header, Entry(prop), line];
  }

  /** Inside the section, a line that is not well formed raises. */
  lemma BadStep(name: String, prop: String, noupdate: bool, line: String, done: bool)
    requires Plain(line) && !PropLine(line)
    ensures Step(name, prop, noupdate, line, St(true, done))
         == Failure(if |Split(line)| == 0 then NoTokens(line) else ShortString(line))
  {
  }

  /** The end marker starts with `<`, so inside the section it is not a
      `string` line. */
  lemma {:induction false} EndStep(name: String, prop: String, noupdate: bool, line: String, done: bool)
    requires IsEnd(line)
    ensures Step(name, prop, noupdate, line, St(true, done))
         == Success(Out((if done then [] else [Entry(prop)]) + [line], St(true, done)))
  {
    assert line[0] == End[0];
    SplitHead(line);
    var tail := if done then [] else [Entry(prop)];
    assert [] + ([] + tail) + [line] == tail + [line];
  }

  lemma PropStep(name: String, prop: String, noupdate: bool, line: String, done: bool)
    requires PropLine(line)
    ensures Step(name, prop, noupdate, line, St(true, done))
         == Success(Out([if Named(line, name) && !noupdate then Entry(prop) else line],
                        St(true, done || Named(line, name))))
  {
  }

  /** The properties section, line by line. */
  lemma {:induction false} PropsRun(props: Lines, name: String, prop: String, noupdate: bool, done: bool)
    requires forall i :: 0 <= i < |props| ==> PropLine(props[i])
    ensures Try(props, StepOf(name, prop, noupdate), St(true, done))
         == Success(Out(Updated(props, name, prop, noupdate), St(true, done || HasProp(props, name))))
    decreases |props|
  {
    if |props| > 0 {
      var l := props[0];
      var rest := props[1..];
      var d := done || Named(l, name);
      PropStep(name, prop, noupdate, l, done);
      assert forall i :: 0 <= i < |rest| ==> rest[i] == props[i + 1];
      PropsRun(rest, name, prop, noupdate, d);
      assert Updated(props, name, prop, noupdate)
          == [if Named(l, name) && !noupdate then Entry(prop) else l] + Updated(rest, name, prop, noupdate);
      assert HasProp(props, name) == (Named(l, name) || HasProp(rest, name)) by {
        if HasProp(rest, name) {
          var i :| 0 <= i < |rest| && Named(rest[i], name);
          assert Named(props[i + 1], name);
        }
        if HasProp(props, name) && !Named(l, name) {
          var i :| 0 <= i < |props| && Named(props[i], name);
          assert i > 0 && Named(rest[i - 1], name);
        }
      }
    }
  }

  lemma {:induction false} PlainRun(pre: Lines, name: String, prop: String, noupdate: bool)
    requires forall i :: 0 <= i < |pre| ==> Plain(pre[i])
    ensures Try(pre, StepOf(name, prop, noupdate), St(false, false)) == Success(Out(pre, St(false, false)))
  {
    forall i | 0 <= i < |pre|
      ensures StepOf(name, prop, noupdate)(pre[i], St(false, false)) == Success(Out([pre[i]], St(false, false)))
    {
      PlainCopied(name, prop, noupdate, pre[i]);
    }
    TryCopies(pre, StepOf(name, prop, noupdate), St(false, false));
  }

  // ---------------------------------------------------------------------
  // The whole file

  /** A file with a properties section: every line naming the property is
      replaced (kept under `noupdate`), every other line is copied in
      order, and when no line named it the entry goes just before the end
      marker. */
  lemma {:induction false} AddPropSection(pre: Lines, h: String, props: Lines, e: String, prop: String, noupdate: bool)
    requires forall i :: 0 <= i < |pre| ==> Plain(pre[i])
    requires IsHeader(h) && IsEnd(e)
    requires forall i :: 0 <= i < |props| ==> PropLine(props[i])
    requires |Split(prop)| > 0
    ensures AddProp(pre + [h] + props + [e], prop, noupdate)
         == Success(pre + [h] + Updated(props, Split(prop)[0], prop, noupdate)
                    + (if HasProp(props, Split(prop)[0]) then [] else [Entry(prop)]) + [e])
  {
    var name := Split(prop)[0];
    var out := SectionRun(pre, h, props, e, name, prop, noupdate);
  }

  /** The loop up to the end of the properties section. */
  lemma {:induction false} PrefixRun(pre: Lines, h: String, props: Lines, name: String, prop: String, noupdate: bool)
    requires forall i :: 0 <= i < |pre| ==> Plain(pre[i])
    requires IsHeader(h)
    requires forall i :: 0 <= i < |props| ==> PropLine(props[i])
    ensures Try(pre + [h] + props, StepOf(name, prop, noupdate), St(false, false))
         == Success(Out(pre + [h] + Updated(props, name, prop, noupdate), St(true, HasProp(props, name))))
  {
    var step := StepOf(name, prop, noupdate);
    var s0, s1 := St(false, false), St(true, false);
    PlainRun(pre, name, prop, noupdate);
    HeaderCopied(name, prop, noupdate, h);
    TryThen(pre, h, step, s0, Out(pre, s0), Out([h], s1));
    PropsRun(props, name, prop, noupdate, false);
    TryAppend(pre + [h], props, step, s0, Out(pre + [h], s1),
              Out(Updated(props, name, prop, noupdate), St(true, HasProp(props, name))));
  }

  /** The loop over a file with a properties section. */
  lemma {:induction false} SectionRun(pre: Lines, h: String, props: Lines, e: String, name: String, prop: String, noupdate: bool)
      returns (out: Out<St>)
    requires forall i :: 0 <= i < |pre| ==> Plain(pre[i])
    requires IsHeader(h) && IsEnd(e)
    requires forall i :: 0 <= i < |props| ==> PropLine(props[i])
    ensures Try(pre + [h] + props + [e], StepOf(name, prop, noupdate), St(false, false)) == Success(out)
    ensures out.lines == pre + [h] + Updated(props, name, prop, noupdate)
                         + (if HasProp(props, name) then [] else [Entry(prop)]) + [e]
  {
    var up := Updated(props, name, prop, noupdate);
    var has := HasProp(props, name);
    PrefixRun(pre, h, props, name, prop, noupdate);
    EndStep(name, prop, noupdate, e, has);
    var last := Out((if has then [] else [Entry(prop)]) + [e], St(true, has));
    TryThen(pre + [h] + props, e, StepOf(name, prop, noupdate), St(false, false), Out(pre + [h] + up, St(true, has)), last);
    out := Out(pre + [h] + up + last.lines, St(true, has));
  }

  /** A file without a properties section gets one, holding only the
      entry, just before the end marker. */
  lemma {:induction false} AddPropNewSection(pre: Lines, e: String, prop: String, noupdate: bool)
    requires forall i :: 0 <= i < |pre| ==> Plain(pre[i])
    requires IsEnd(e)
    requires |Split(prop)| > 0
    ensures AddProp(pre + [e], prop, noupdate) == Success(pre + [Header, Entry(prop), e])
  {
    var name := Split(prop)[0];
    PlainRun(pre, name, prop, noupdate);
    EndOutside(name, prop, noupdate, e);
    TryThen(pre, e, StepOf(name, prop, noupdate), St(false, false), Out(pre, St(false, false)),
            Out([Header, Entry(prop), e], St(false, false)));
  }

  /** A line in the section that is blank, or a `string` line with fewer
      than three tokens, stops the script. */
  lemma {:induction false} AddPropRaises(pre: Lines, h: String, props: Lines, b: String, rest: Lines, prop: String, noupdate: bool)
    requires forall i :: 0 <= i < |pre| ==> Plain(pre[i])
    requires IsHeader(h)
    requires forall i :: 0 <= i < |props| ==> PropLine(props[i])
    requires Plain(b) && !PropLine(b)
    requires |Split(prop)| > 0
    ensures AddProp(pre + [h] + props + [b] + rest, prop, noupdate)
         == Failure(if |Split(b)| == 0 then NoTokens(b) else ShortString(b))
  {
    var name := Split(prop)[0];
    var step := StepOf(name, prop, noupdate);
    var has := HasProp(props, name);
    PrefixRun(pre, h, props, name, prop, noupdate);
    BadStep(name, prop, noupdate, b, has);
    TryFailsAt(pre + [h] + props, b, rest, step, St(false, false),
               Out(pre + [h] + Updated(props, name, prop, noupdate), St(true, has)));
  }

  // ---------------------------------------------------------------------
  // Consequences

  /** Under `noupdate` a file whose section already names the property is
      written back unchanged. */
  lemma {:induction false} NoUpdateKeeps(pre: Lines, h: String, props: Lines, e: String, prop: String)
    requires forall i :: 0 <= i < |pre| ==> Plain(pre[i])
    requires IsHeader(h) && IsEnd(e)
    requires forall i :: 0 <= i < |props| ==> PropLine(props[i])
    requires |Split(prop)| > 0 && HasProp(props, Split(prop)[0])
    ensures AddProp(pre + [h] + props + [e], prop, true) == Success(pre + [h] + props + [e])
  {
    AddPropSection(pre, h, props, e, prop, true);
    assert Updated(props, Split(prop)[0], prop, true) == props;
    assert pre + [h] + props + [] + [e] == pre + [h] + props + [e];
  }

  /** The tokens of the entry line: `string`, then the property's own. */
  lemma {:induction false} SplitEntry(prop: String)
    ensures Split(Entry(prop)) == ["string"] + Split(prop)
  {
    var w: String := "string";
    assert IsWord(w);
    assert Entry(prop) == w + (" " + prop);
    SplitWord(w, " " + prop);
    SplitSpace(" " + prop);
    assert (" " + prop)[1..] == prop;
  }

  /** With a value after its name, the entry is a well-formed `string`
      line naming the property. */
  lemma {:induction false} EntryNamed(prop: String)
    requires |Split(prop)| >= 2
    ensures PropLine(Entry(prop)) && Named(Entry(prop), Split(prop)[0])
  {
    SplitEntry(prop);
    var l := Entry(prop);
    assert l[0] == 's';
    assert |l| >= |Header| ==> l[..|Header|][0] == l[0];
    assert |l| >= |End| ==> l[..|End|][0] == l[0];
  }

  /** What the first run leaves in the section. */
  function Rewritten(props: Lines, prop: String): Lines
    requires |Split(prop)| > 0
  {
    var name := Split(prop)[0];
    Updated(props, name, prop, false) + (if HasProp(props, name) then [] else [Entry(prop)])
  }

  /** Replacing keeps the section well formed. */
  lemma {:induction false} UpdatedLines(props: Lines, prop: String)
    requires |Split(prop)| >= 2
    requires forall i :: 0 <= i < |props| ==> PropLine(props[i])
    ensures var up := Updated(props, Split(prop)[0], prop, false);
            forall i :: 0 <= i < |up| ==> PropLine(up[i]) && (Named(up[i], Split(prop)[0]) ==> up[i] == Entry(prop))
  {
    EntryNamed(prop);
  }

  /** The section the first run leaves is well formed, names the property,
      and replacing in it again changes nothing. */
  lemma {:induction false} RewrittenStable(props: Lines, prop: String)
    requires |Split(prop)| >= 2
    requires forall i :: 0 <= i < |props| ==> PropLine(props[i])
    ensures var name := Split(prop)[0];
            var props2 := Rewritten(props, prop);
            (forall i :: 0 <= i < |props2| ==> PropLine(props2[i]))
            && HasProp(props2, name)
            && Updated(props2, name, prop, false) == props2
  {
    var name := Split(prop)[0];
    var up := Updated(props, name, prop, false);
    var extra := if HasProp(props, name) then [] else [Entry(prop)];
    var props2 := up + extra;
    assert props2 == Rewritten(props, prop);
    EntryNamed(prop);
    UpdatedLines(props, prop);
    forall i | 0 <= i < |props2|
      ensures PropLine(props2[i]) && (Named(props2[i], name) ==> props2[i] == Entry(prop))
    {
      if i < |up| {
        assert props2[i] == up[i];
      } else {
        assert props2[i] == Entry(prop);
      }
    }
    if HasProp(props, name) {
      var i :| 0 <= i < |props| && Named(props[i], name);
      assert props2[i] == up[i] == Entry(prop);
    } else {
      assert props2[|up|] == Entry(prop);
    }
  }

  /** Without `noupdate`, running the script a second time on its own
      output changes nothing, provided the property has a value after its
      name (a bare name writes a two-token `string` line, which a second
      run rejects). */
  lemma {:induction false} AddPropIdempotent(pre: Lines, h: String, props: Lines, e: String, prop: String)
    requires forall i :: 0 <= i < |pre| ==> Plain(pre[i])
    requires IsHeader(h) && IsEnd(e)
    requires forall i :: 0 <= i < |props| ==> PropLine(props[i])
    requires |Split(prop)| >= 2
    ensures AddProp(pre + [h] + props + [e], prop, false) == Success(pre + [h] + Rewritten(props, prop) + [e])
    ensures AddProp(pre + [h] + Rewritten(props, prop) + [e], prop, false)
         == Success(pre + [h] + Rewritten(props, prop) + [e])
  {
    var name := Split(prop)[0];
    var props2 := Rewritten(props, prop);
    AddPropSection(pre, h, props, e, prop, false);
    assert pre + [h] + Updated(props, name, prop, false) + (if HasProp(props, name) then [] else [Entry(prop)]) + [e]
        == pre + [h] + props2 + [e];
    RewrittenStable(props, prop);
    AddPropSection(pre, h, props2, e, prop, false);
    assert pre + [h] + props2 + [] + [e] == pre + [h] + props2 + [e];
  }

  /** The same for a file that had no section: the second run finds the
      section the first one made. */
  lemma {:induction false} NewSectionIdempotent(pre: Lines, e: String, prop: String)
    requires forall i :: 0 <= i < |pre| ==> Plain(pre[i])
    requires IsEnd(e)
    requires |Split(prop)| >= 2
    ensures AddProp(pre + [Header, Entry(prop), e], prop, false) == Success(pre + [Header, Entry(prop), e])
  {
    var p2 := Rewritten([], prop);
    RewrittenStable([], prop);
    assert p2 == [Entry(prop)];
    assert IsHeader(Header);
    AddPropSection(pre, Header, p2, e, prop, false);
    assert pre + [Header] + p2 + [e] == pre + [Header, Entry(prop), e];
    assert pre + [Header] + p2 + [] + [e] == pre + [Header, Entry(prop), e];
  }
}

=== FILE: lef_library.dfy ===
/** Merging the LEF files of a library into one library file
    (common/create_lef_library.py, `create_lef_library`). The library file
    is named after the library root; it is never one of its own inputs;
    inputs whose file name matches an exclude pattern are dropped; and only
    when more than one input remains is the library written: the first
    file whole, every later file from its first `MACRO` line on, each
    followed by an end-of-file marker, with every `END LIBRARY` line of the
    inputs left out and one `END LIBRARY` written at the very end. */
module LefLibrary {
  import opened Wrappers
  import opened Seqs
  import opened Text
  import opened Lines
  import opened Glob

  // ---------------------------------------------------------------------
  // Paths

  /** Index of the last `c` in `s`, or -1. */
  function LastIndex(s: String, c: char): (i: int)
    ensures -1 <= i < |s|
    ensures i >= 0 ==> s[i] == c
    ensures forall k :: i < k < |s| ==> s[k] != c
    decreases |s|
  {
    if |s| == 0 then -1
    else if s[|s| - 1] == c then |s| - 1
    else LastIndex(s[..|s| - 1], c)
  }

  /** `os.path.split(p)[1]`: the text after the last `/`. */
  function Base(p: String): String {
    p[LastIndex(p, '/') + 1..]
  }

  /** `os.path.splitext(p)[0]`: `p` without the text from its last `.`,
      when that dot lies in the last path component and is preceded there
      by some character other than a dot; `p` itself otherwise. */
  function Root(p: String): (r: String)
    ensures StartsWith(p, r)
  {
    var sep := LastIndex(p, '/');
    var dot := LastIndex(p, '.');
    if dot > sep && exists k :: sep + 1 <= k < dot && p[k] != '.' then p[..dot] else p
  }

  /** The library file the merge writes. */
  function LibraryPath(destlibdir: String, destlib: String): String {
    destlibdir + "/" + Root(destlib) + ".lef"
  }

  /** A name with an extension loses exactly the extension. */
  lemma {:induction false} RootOfExtension(stem: String, ext: String)
    requires forall k :: 0 <= k < |ext| ==> ext[k] != '.' && ext[k] != '/'
    requires exists k :: LastIndex(stem, '/') < k < |stem| && stem[k] != '.'
    ensures Root(stem + "." + ext) == stem
  {
    var p := stem + "." + ext;
    var k :| LastIndex(stem, '/') < k < |stem| && stem[k] != '.';
    LastAfter(stem + ".", ext, '.');
    LastAfter(stem + ".", ext, '/');
    assert (stem + ".")[..|stem|] == stem && (stem + ".")[|stem|] == '.';
    LastIndexSnoc(stem, '.', '/');
    assert LastIndex(p, '.') == |stem|;
    assert LastIndex(p, '/') == LastIndex(stem, '/');
    assert p[k] == stem[k];
    assert p[..|stem|] == stem;
  }

  /** A tail without `c` leaves the last `c` where it was. */
  lemma {:induction false} LastAfter(s: String, t: String, c: char)
    requires forall k :: 0 <= k < |t| ==> t[k] != c
    ensures LastIndex(s + t, c) == LastIndex(s, c)
    decreases |t|
  {
    if |t| == 0 {
      assert s + t == s;
    } else {
      var u := t[..|t| - 1];
      assert (s + t)[..|s + t| - 1] == s + u;
      LastAfter(s, u, c);
    }
  }

  lemma {:induction false} LastIndexSnoc(s: String, x: char, c: char)
    requires x != c
    ensures LastIndex(s + [x], c) == LastIndex(s, c)
  {
    assert (s + [x])[..|s|] == s;
  }

  /** A name without a dot is its own root. */
  lemma RootNoDot(p: String)
    requires forall k :: 0 <= k < |p| ==> p[k] != '.'
    ensures Root(p) == p
  {
  }

  // ---------------------------------------------------------------------
  // Which files are merged

  /** `list.remove(x)` when `x` is in the list: the first occurrence goes,
      and the others keep their order. */
  function RemoveFirst(s: seq<String>, x: String): (r: seq<String>)
    ensures x in s ==> |r| == |s| - 1
    ensures x in s ==> r == s[..IndexOf(s, x)] + s[IndexOf(s, x) + 1..]
    ensures x !in s ==> r == s
    decreases |s|
  {
    if |s| == 0 then []
    else if s[0] == x then s[1..]
    else
      IndexOfCons(s, x);
      [s[0]] + RemoveFirst(s[1..], x)
  }

  /** Past a first entry other than `x`, the first `x` is one place further
      on, and the pieces around it grow by that entry. */
  lemma IndexOfCons(s: seq<String>, x: String)
    requires |s| > 0 && s[0] != x
    ensures x in s ==> x in s[1..] && IndexOf(s, x) == 1 + IndexOf(s[1..], x)
    ensures x in s ==> s[..IndexOf(s, x)] == [s[0]] + s[1..][..IndexOf(s[1..], x)]
                       && s[IndexOf(s, x) + 1..] == s[1..][IndexOf(s[1..], x) + 1..]
  {
  }

  /** The file names some exclude pattern matches: `notllist`, built by
      `fnmatch.filter` pattern by pattern. */
  function NotList(names: seq<String>, excludes: seq<String>): (r: seq<String>)
    decreases |excludes|
  {
    if |excludes| == 0 then []
    else
      var e := excludes[|excludes| - 1];
      NotList(names, excludes[..|excludes| - 1]) + Filter(names, (n: String) => FnMatch(e, n))
  }

  function Bases(ps: seq<String>): (r: seq<String>)
    ensures |r| == |ps|
    ensures forall i :: 0 <= i < |ps| ==> r[i] == Base(ps[i])
  {
    seq(|ps|, i requires 0 <= i < |ps| => Base(ps[i]))
  }

  /** Some exclude pattern matches the file's name. */
  predicate Excluded(excludes: seq<String>, p: String) {
    exists i :: 0 <= i < |excludes| && FnMatch(excludes[i], Base(p))
  }

  /** The files that are merged: the globbed files without the library
      file, and without every file whose name is in `notllist`. */
  function Inputs(llist: seq<String>, lib: String, excludes: seq<String>): seq<String> {
    var l := RemoveFirst(llist, lib);
    if |l| > 0 then
      var notl := NotList(Bases(l), excludes);
      Filter(l, (f: String) => Base(f) !in notl)
    else l
  }

  /** A name is in `notllist` exactly when one of the files has that name
      and some exclude pattern matches it. */
  lemma {:induction false} NotListIs(names: seq<String>, excludes: seq<String>, n: String)
    ensures n in NotList(names, excludes)
        <==> n in names && exists i :: 0 <= i < |excludes| && FnMatch(excludes[i], n)
    decreases |excludes|
  {
    if |excludes| > 0 {
      var e := excludes[|excludes| - 1];
      var init := excludes[..|excludes| - 1];
      NotListIs(names, init, n);
      var f := (m: String) => FnMatch(e, m);
      if n in Filter(names, f) {
        FilterMember(names, f, n);
      }
      if n in names && FnMatch(e, n) {
        FilterHas(names, f, n);
      }
      if exists i :: 0 <= i < |excludes| && FnMatch(excludes[i], n) {
        var i :| 0 <= i < |excludes| && FnMatch(excludes[i], n);
        if i < |excludes| - 1 {
          assert init[i] == excludes[i];
        }
      }
      if exists i :: 0 <= i < |init| && FnMatch(init[i], n) {
        var i :| 0 <= i < |init| && FnMatch(init[i], n);
        assert excludes[i] == init[i];
      }
    }
  }

  /** The merged files are the globbed files, in their order, without the
      library file's first occurrence and without every excluded file. */
  lemma {:induction false} InputsAre(llist: seq<String>, lib: String, excludes: seq<String>)
    ensures Inputs(llist, lib, excludes)
         == Filter(RemoveFirst(llist, lib), (f: String) => !Excluded(excludes, f))
  {
    var l := RemoveFirst(llist, lib);
    if |l| > 0 {
      var notl := NotList(Bases(l), excludes);
      forall f | f in l
        ensures (Base(f) !in notl) == !Excluded(excludes, f)
      {
        NotListIs(Bases(l), excludes, Base(f));
        var j :| 0 <= j < |l| && l[j] == f;
        assert Bases(l)[j] == Base(f);
      }
      FilterSame(l, (f: String) => Base(f) !in notl, (f: String) => !Excluded(excludes, f));
    }
  }

  /** Two selections that agree on the elements select the same. */
  lemma {:induction false} FilterSame(s: seq<String>, p: String -> bool, q: String -> bool)
    requires forall x :: x in s ==> p(x) == q(x)
    ensures Filter(s, p) == Filter(s, q)
    decreases |s|
  {
    if |s| > 0 {
      assert forall x :: x in s[1..] ==> x in s;
      FilterSame(s[1..], p, q);
    }
  }

  lemma {:induction false} RemoveFirstGone(s: seq<String>, x: String)
    requires forall i, j :: 0 <= i < j < |s| ==> s[i] != s[j]
    ensures x !in RemoveFirst(s, x)
    decreases |s|
  {
    if |s| > 0 && s[0] != x {
      RemoveFirstGone(s[1..], x);
    }
  }

  /** With distinct globbed paths (as a directory listing has), the library
      file is never one of the inputs. */
  lemma {:induction false} LibraryNotInput(llist: seq<String>, lib: String, excludes: seq<String>)
    requires forall i, j :: 0 <= i < j < |llist| ==> llist[i] != llist[j]
    ensures lib !in Inputs(llist, lib, excludes)
  {
    RemoveFirstGone(llist, lib);
    InputsAre(llist, lib, excludes);
    FilterIsSubseq(RemoveFirst(llist, lib), (f: String) => !Excluded(excludes, f));
    if lib in Inputs(llist, lib, excludes) {
      SubseqMember(Inputs(llist, lib, excludes), RemoveFirst(llist, lib), lib);
    }
  }

  // ---------------------------------------------------------------------
  // One file

  predicate IsMacro(line: String) {
    StartsWith(line, "MACRO")
  }

  /** `ltok[0] == 'END' and ltok[1] == 'LIBRARY'`. */
  predicate IsEndLibrary(line: String) {
    var t := Split(line);
    |t| > 1 && t[0] == "END" && t[1] == "LIBRARY"
  }

  function Keep(line: String): bool {
    !IsEndLibrary(line)
  }

  /** The body of the inner loop; the state is `headerseen`, and `later`
      is `headerdone`, true for every file after the first. */
  function Step(later: bool, line: String, seen: bool): Out<bool> {
    if later && !seen && !IsMacro(line) then Out([], seen)
    else Out(if IsEndLibrary(line) then [] else [line], seen || later)
  }

  function StepOf(later: bool): LineStep<bool> {
    (line, seen) => Step(later, line, seen)
  }

  /** The lines the loop writes for one file. */
  function FileLines(ls: Lines, later: bool): Lines {
    Run(ls, StepOf(later), false).lines
  }

  /** Index of the first `MACRO` line, or `|ls|`. */
  function FirstMacro(ls: Lines): (m: nat)
    ensures m <= |ls|
    ensures m < |ls| ==> IsMacro(ls[m])
    ensures forall k :: 0 <= k < m ==> !IsMacro(ls[k])
    decreases |ls|
  {
    if |ls| == 0 then 0 else if IsMacro(ls[0]) then 0 else 1 + FirstMacro(ls[1..])
  }

  /** What a file contributes: all of it for the first file, from the first
      `MACRO` line on for the others, without `END LIBRARY` lines. */
  function Body(ls: Lines, later: bool): Lines {
    Filter(if later then ls[FirstMacro(ls)..] else ls, Keep)
  }

  lemma {:induction false} KeepRun(ls: Lines, later: bool)
    ensures Run(ls, StepOf(later), true) == Out(Filter(ls, Keep), true)
  {
    RunFilters(ls, StepOf(later), true, Keep);
  }

  /** The loop writes exactly the file's body. */
  lemma {:induction false} FileLinesIs(ls: Lines, later: bool)
    ensures FileLines(ls, later) == Body(ls, later)
  {
    if !later {
      RunFilters(ls, StepOf(later), false, Keep);
    } else {
      var m := FirstMacro(ls);
      var head := ls[..m];
      var tail := ls[m..];
      assert head + tail == ls;
      RunDrops(head, StepOf(later), false);
      if m < |ls| {
        KeepRun(tail[1..], later);
        assert Run(tail, StepOf(later), false).lines
            == (if Keep(tail[0]) then [tail[0]] else []) + Filter(tail[1..], Keep);
      }
      RunAppend(head, tail, StepOf(later), false, Out([], false), Run(tail, StepOf(later), false));
    }
  }

  // ---------------------------------------------------------------------
  // The library

  const Eof: String := "#--------EOF---------"
  const EndLibrary: String := "END" + " " + "LIBRARY"

  /** The files in order, each followed by `print('#--------EOF---------\n')`,
      which writes the marker and an empty line. */
  function MergeFrom(files: seq<Lines>, later: bool): Lines
    decreases |files|
  {
    if |files| == 0 then []
    else FileLines(files[0], later) + [Eof, ""] + MergeFrom(files[1..], true)
  }

  /** The text of the library file. */
  function Merge(files: seq<Lines>): Lines {
    MergeFrom(files, false) + ["", EndLibrary]
  }

  /** What the script leaves behind: the library file and its lines, and
      the inputs it deletes under `-compile-only`. */
  datatype Library = Library(path: String, lines: Lines, deleted: seq<String>)

  /** `create_lef_library`; `llist` is the directory listing of `*.lef`
      files and `read` the contents of a file. No library is written when
      at most one input remains. */
  function CreateLefLibrary(destlibdir: String, destlib: String, llist: seq<String>, read: String -> Lines,
                            compileOnly: bool, excludes: seq<String>): (r: Option<Library>)
    ensures r.Some? <==> |Inputs(llist, LibraryPath(destlibdir, destlib), excludes)| > 1
    ensures r.Some? ==> r.value.path == LibraryPath(destlibdir, destlib)
    ensures r.Some? ==> |r.value.lines| >= 2 && r.value.lines[|r.value.lines| - 1] == EndLibrary
    ensures r.Some? ==> r.value.deleted == (if compileOnly then Inputs(llist, LibraryPath(destlibdir, destlib), excludes) else [])
  {
    var lib := LibraryPath(destlibdir, destlib);
    var inputs := Inputs(llist, lib, excludes);
    if |inputs| > 1 then
      var files := seq(|inputs|, i requires 0 <= i < |inputs| => read(inputs[i]));
      Some(Library(lib, Merge(files), if compileOnly then inputs else []))
    else None
  }

  /** The library's lines are the merge of the inputs' contents, in the
      order the inputs are listed: the first input's body, then each later
      input's body from its first `MACRO` line, each followed by the marker. */
  lemma {:induction false} LibraryOfInputs(destlibdir: String, destlib: String, llist: seq<String>, read: String -> Lines,
                                           compileOnly: bool, excludes: seq<String>, files: seq<Lines>)
    requires var inputs := Inputs(llist, LibraryPath(destlibdir, destlib), excludes);
      |files| == |inputs| && forall i :: 0 <= i < |files| ==> files[i] == read(inputs[i])
    requires CreateLefLibrary(destlibdir, destlib, llist, read, compileOnly, excludes).Some?
    ensures CreateLefLibrary(destlibdir, destlib, llist, read, compileOnly, excludes).value.lines == Merge(files)
    ensures Merge(files) == Body(files[0], false) + [Eof, ""] + MergeFrom(files[1..], true) + ["", EndLibrary]
  {
    var inputs := Inputs(llist, LibraryPath(destlibdir, destlib), excludes);
    assert seq(|inputs|, i requires 0 <= i < |inputs| => read(inputs[i])) == files;
    MergeIs(files[0], files[1..]);
    assert [files[0]] + files[1..] == files;
  }

  /** No line is an `END LIBRARY` line. */
  ghost predicate Clean(ls: Lines) {
    forall k :: 0 <= k < |ls| ==> !IsEndLibrary(ls[k])
  }

  lemma {:induction false} CleanAppend(a: Lines, b: Lines)
    requires Clean(a) && Clean(b)
    ensures Clean(a + b)
  {
    assert forall k :: 0 <= k < |a| ==> (a + b)[k] == a[k];
    assert forall k :: |a| <= k < |a + b| ==> (a + b)[k] == b[k - |a|];
  }

  lemma {:induction false} BodyClean(ls: Lines, later: bool)
    ensures Clean(FileLines(ls, later))
  {
    FileLinesIs(ls, later);
    var b := FileLines(ls, later);
    assert forall k :: 0 <= k < |b| ==> Keep(b[k]);
  }

  /** A line of one word, and an empty line, are not `END LIBRARY`. */
  lemma {:induction false} WordNotEnd(w: String)
    requires IsWord(w)
    ensures Clean([w, ""])
  {
    SplitJoin([w]);
    assert Join([w], " ") == w;
    assert Split("") == [];
  }

  lemma {:induction false} EofNotEnd()
    ensures Clean([Eof, ""])
  {
    assert IsWord(Eof);
    WordNotEnd(Eof);
  }

  /** No line of the merged files is an `END LIBRARY` line. */
  lemma {:induction false} MergeFromClean(files: seq<Lines>, later: bool)
    ensures Clean(MergeFrom(files, later))
    decreases |files|
  {
    if |files| > 0 {
      MergeFromClean(files[1..], true);
      BodyClean(files[0], later);
      EofNotEnd();
      CleanAppend(FileLines(files[0], later), [Eof, ""]);
      CleanAppend(FileLines(files[0], later) + [Eof, ""], MergeFrom(files[1..], true));
    }
  }

  lemma {:induction false} EndLibraryIs()
    ensures IsEndLibrary(EndLibrary)
  {
    assert IsWord("END") && IsWord("LIBRARY");
    SplitWordSpace("END", "LIBRARY");
    SplitJoin(["LIBRARY"]);
  }

  /** The library holds exactly one `END LIBRARY` line, its last. */
  lemma {:induction false} OneEndLibrary(files: seq<Lines>)
    ensures var m := Merge(files);
            && m[|m| - 1] == EndLibrary && IsEndLibrary(EndLibrary)
            && forall k :: 0 <= k < |m| - 1 ==> !IsEndLibrary(m[k])
  {
    var m := MergeFrom(files, false);
    MergeFromClean(files, false);
    EofNotEnd();
    assert Clean([""]) by {
      assert [""][0] == [Eof, ""][1];
    }
    CleanAppend(m, [""]);
    assert Merge(files)[..|Merge(files)| - 1] == m + [""];
    EndLibraryIs();
  }

  /** The library is the bodies of the files in order, each followed by
      the end-of-file marker. */
  lemma {:induction false} MergeIs(a: Lines, rest: seq<Lines>)
    ensures MergeFrom([a] + rest, false) == Body(a, false) + [Eof, ""] + MergeFrom(rest, true)
    ensures |rest| > 0 ==> MergeFrom(rest, true) == Body(rest[0], true) + [Eof, ""] + MergeFrom(rest[1..], true)
  {
    assert ([a] + rest)[1..] == rest;
    FileLinesIs(a, false);
    if |rest| > 0 {
      FileLinesIs(rest[0], true);
    }
  }
}

=== FILE: lines.dfy ===
/** The loop every line filter shares: read the file with `splitlines()`,
    walk its lines once while carrying a little state, and for each line
    write zero or more lines. The loop is stated for any body; filters
    whose body can raise use `Try`, the others `Run`. */
module Lines {
  import opened Wrappers
  import opened Seqs
  import opened Text

  type Lines = seq<String>

  /** What one input line produces: the lines written and the next state. */
  datatype Out<S> = Out(lines: Lines, st: S)

  /** The body of a loop that cannot raise. */
  type LineStep<!S> = (String, S) -> Out<S>

  /** The body of a loop that can raise `E`. */
  type TryStep<!S, E> = (String, S) -> Result<Out<S>, E>

  // ---------------------------------------------------------------------
  // Reading and writing a file as lines

  /** Python `str.splitlines()` for text whose only line break is `\n`:
      the pieces between newlines, where a final newline does not start
      another line and the empty text has no lines. */
  function SplitLines(s: String): (r: Lines)
    ensures forall i :: 0 <= i < |r| ==> '\n' !in r[i]
    decreases |s|
  {
    if |s| == 0 then []
    else
      var k := IndexOf(s, '\n');
      if k == |s| then [s] else [s[..k]] + SplitLines(s[k + 1..])
  }

  /** The first newline of `a + "\n" + b` is the one after `a`. */
  lemma {:induction false} FirstNewline(a: String, b: String)
    requires '\n' !in a
    ensures IndexOf(a + "\n" + b, '\n') == |a|
  {
    var s := a + "\n" + b;
    var k := IndexOf(s, '\n');
    assert s[|a|] == '\n';
    assert forall j :: 0 <= j < |a| ==> s[j] == a[j];
  }

  /** Joining lines with newlines and splitting the text again gives the
      lines back, provided none holds a newline and the last is not empty. */
  lemma {:induction false} SplitLinesJoin(ls: Lines)
    requires forall i :: 0 <= i < |ls| ==> '\n' !in ls[i]
    requires |ls| > 0 ==> ls[|ls| - 1] != []
    ensures SplitLines(Join(ls, "\n")) == ls
    decreases |ls|
  {
    if |ls| == 1 {
      assert IndexOf(ls[0], '\n') == |ls[0]|;
    } else if |ls| > 1 {
      var rest := Join(ls[1..], "\n");
      assert Join(ls, "\n") == ls[0] + "\n" + rest;
      FirstNewline(ls[0], rest);
      assert (ls[0] + "\n" + rest)[..|ls[0]|] == ls[0];
      assert (ls[0] + "\n" + rest)[|ls[0]| + 1..] == rest;
      SplitLinesJoin(ls[1..]);
    }
  }

  // ---------------------------------------------------------------------
  // A loop that cannot raise

  function Run<S>(ls: Lines, step: LineStep<S>, st: S): Out<S>
    decreases |ls|
  {
    if |ls| == 0 then Out([], st)
    else
      var o := step(ls[0], st);
      var rest := Run(ls[1..], step, o.st);
      Out(o.lines + rest.lines, rest.st)
  }

  /** Running over two pieces in a row. */
  lemma {:induction false} RunAppend<S>(a: Lines, b: Lines, step: LineStep<S>, st: S, x: Out<S>, y: Out<S>)
    requires Run(a, step, st) == x && Run(b, step, x.st) == y
    ensures Run(a + b, step, st) == Out(x.lines + y.lines, y.st)
    decreases |a|
  {
    if |a| == 0 {
      assert a + b == b && x.lines == [] && x.lines + y.lines == y.lines;
    } else {
      var o := step(a[0], st);
      var x' := Run(a[1..], step, o.st);
      assert x == Out(o.lines + x'.lines, x'.st);
      assert (a + b)[0] == a[0] && (a + b)[1..] == a[1..] + b;
      RunAppend(a[1..], b, step, o.st, x', y);
      assert Run(a + b, step, st) == Out(o.lines + (x'.lines + y.lines), y.st);
      assert o.lines + (x'.lines + y.lines) == (o.lines + x'.lines) + y.lines;
    }
  }

  lemma {:induction false} RunOne<S>(l: String, step: LineStep<S>, st: S)
    ensures Run([l], step, st) == step(l, st)
  {
    assert [l][1..] == [];
    assert step(l, st).lines + [] == step(l, st).lines;
  }

  /** Lines that the body copies without changing the state pass through. */
  lemma {:induction false} RunCopies<S>(ls: Lines, step: LineStep<S>, st: S)
    requires forall i :: 0 <= i < |ls| ==> step(ls[i], st) == Out([ls[i]], st)
    ensures Run(ls, step, st) == Out(ls, st)
    decreases |ls|
  {
    if |ls| > 0 {
      assert forall i :: 0 <= i < |ls[1..]| ==> ls[1..][i] == ls[i + 1];
      RunCopies(ls[1..], step, st);
      assert [ls[0]] + ls[1..] == ls;
    }
  }

  /** Lines that the body drops without changing the state vanish. */
  lemma {:induction false} RunDrops<S>(ls: Lines, step: LineStep<S>, st: S)
    requires forall i :: 0 <= i < |ls| ==> step(ls[i], st) == Out([], st)
    ensures Run(ls, step, st) == Out([], st)
    decreases |ls|
  {
    if |ls| > 0 {
      assert forall i :: 0 <= i < |ls[1..]| ==> ls[1..][i] == ls[i + 1];
      RunDrops(ls[1..], step, st);
    }
  }

  /** Lines that the body keeps or drops by a test, without changing the
      state, leave the lines that pass the test. */
  lemma {:induction false} RunFilters<S>(ls: Lines, step: LineStep<S>, st: S, keep: String -> bool)
    requires forall i :: 0 <= i < |ls| ==>
      step(ls[i], st) == Out(if keep(ls[i]) then [ls[i]] else [], st)
    ensures Run(ls, step, st) == Out(Filter(ls, keep), st)
    decreases |ls|
  {
    if |ls| > 0 {
      assert forall i :: 0 <= i < |ls[1..]| ==> ls[1..][i] == ls[i + 1];
      RunFilters(ls[1..], step, st, keep);
    }
  }

  /** A body that writes every line it reads last, after whatever it adds,
      keeps all the lines in their order. */
  lemma {:induction false} RunKeeps<S>(ls: Lines, step: LineStep<S>, st: S)
    requires forall l, s :: |step(l, s).lines| > 0 && step(l, s).lines[|step(l, s).lines| - 1] == l
    ensures IsSubseq(ls, Run(ls, step, st).lines)
    decreases |ls|
  {
    if |ls| > 0 {
      var o := step(ls[0], st);
      var rest := Run(ls[1..], step, o.st);
      RunKeeps(ls[1..], step, o.st);
      var n := |o.lines|;
      assert IsSubseq([ls[0]] + ls[1..], [ls[0]] + rest.lines);
      SubseqPrepend([ls[0]] + ls[1..], o.lines[..n - 1], [ls[0]] + rest.lines);
      assert o.lines[..n - 1] + ([ls[0]] + rest.lines) == o.lines + rest.lines;
      assert [ls[0]] + ls[1..] == ls;
    }
  }

  /** One more line after a run. */
  lemma {:induction false} RunThen<S>(a: Lines, l: String, step: LineStep<S>, st: S, x: Out<S>)
    requires Run(a, step, st) == x
    ensures Run(a + [l], step, st) == Out(x.lines + step(l, x.st).lines, step(l, x.st).st)
  {
    RunOne(l, step, x.st);
    RunAppend(a, [l], step, st, x, step(l, x.st));
  }

  /** A run around one line: the lines before it, the line, the lines
      after it. */
  lemma {:induction false} RunAround<S>(a: Lines, l: String, b: Lines, step: LineStep<S>, st: S, x: Out<S>, y: Out<S>)
    requires Run(a, step, st) == x && Run(b, step, step(l, x.st).st) == y
    ensures Run(a + [l] + b, step, st) == Out(x.lines + step(l, x.st).lines + y.lines, y.st)
  {
    RunThen(a, l, step, st, x);
    RunAppend(a + [l], b, step, st, Out(x.lines + step(l, x.st).lines, step(l, x.st).st), y);
  }

  // ---------------------------------------------------------------------
  // A loop whose body can raise

  function Try<S, E>(ls: Lines, step: TryStep<S, E>, st: S): Result<Out<S>, E>
    decreases |ls|
  {
    if |ls| == 0 then Success(Out([], st))
    else
      match step(ls[0], st)
      case Failure(e) => Failure(e)
      case Success(o) =>
        match Try(ls[1..], step, o.st)
        case Failure(e) => Failure(e)
        case Success(rest) => Success(Out(o.lines + rest.lines, rest.st))
  }

  /** Running over two pieces in a row, when neither raises. */
  lemma {:induction false} TryAppend<S, E>(a: Lines, b: Lines, step: TryStep<S, E>, st: S, x: Out<S>, y: Out<S>)
    requires Try(a, step, st) == Success(x) && Try(b, step, x.st) == Success(y)
    ensures Try(a + b, step, st) == Success(Out(x.lines + y.lines, y.st))
    decreases |a|
  {
    if |a| == 0 {
      assert a + b == b && x.lines == [] && x.lines + y.lines == y.lines;
    } else {
      var o := step(a[0], st).value;
      var x' := Try(a[1..], step, o.st).value;
      assert (a + b)[0] == a[0] && (a + b)[1..] == a[1..] + b;
      TryAppend(a[1..], b, step, o.st, x', y);
      assert o.lines + (x'.lines + y.lines) == (o.lines + x'.lines) + y.lines;
    }
  }

  /** The first piece raising makes the whole run raise the same error. */
  lemma {:induction false} TryStops<S, E>(a: Lines, b: Lines, step: TryStep<S, E>, st: S)
    requires Try(a, step, st).Failure?
    ensures Try(a + b, step, st) == Try(a, step, st)
    decreases |a|
  {
    assert (a + b)[0] == a[0] && (a + b)[1..] == a[1..] + b;
    match step(a[0], st) {
      case Failure(e) =>
      case Success(o) => TryStops(a[1..], b, step, o.st);
    }
  }

  /** A piece that raises after a piece that does not makes the whole run
      raise the same error. */
  lemma {:induction false} TryFailsAfter<S, E>(a: Lines, b: Lines, step: TryStep<S, E>, st: S, x: Out<S>)
    requires Try(a, step, st) == Success(x) && Try(b, step, x.st).Failure?
    ensures Try(a + b, step, st) == Try(b, step, x.st)
    decreases |a|
  {
    if |a| == 0 {
      assert a + b == b;
    } else {
      var o := step(a[0], st).value;
      assert (a + b)[0] == a[0] && (a + b)[1..] == a[1..] + b;
      TryFailsAfter(a[1..], b, step, o.st, Try(a[1..], step, o.st).value);
    }
  }

  /** Every error the run raises is one the body raises. */
  lemma {:induction false} TryFaults<S, E>(ls: Lines, step: TryStep<S, E>, st: S, ok: E -> bool)
    requires forall l, s :: step(l, s).Failure? ==> ok(step(l, s).error)
    ensures Try(ls, step, st).Failure? ==> ok(Try(ls, step, st).error)
    decreases |ls|
  {
    if |ls| > 0 && step(ls[0], st).Success? {
      TryFaults(ls[1..], step, step(ls[0], st).value.st, ok);
    }
  }

  lemma {:induction false} TryOne<S, E>(l: String, step: TryStep<S, E>, st: S, o: Out<S>)
    requires step(l, st) == Success(o)
    ensures Try([l], step, st) == Success(o)
  {
    assert [l][1..] == [];
    assert o.lines + [] == o.lines;
  }

  /** One more line after a run that did not raise. */
  lemma {:induction false} TryThen<S, E>(a: Lines, l: String, step: TryStep<S, E>, st: S, x: Out<S>, o: Out<S>)
    requires Try(a, step, st) == Success(x) && step(l, x.st) == Success(o)
    ensures Try(a + [l], step, st) == Success(Out(x.lines + o.lines, o.st))
  {
    TryOne(l, step, x.st, o);
    TryAppend(a, [l], step, st, x, o);
  }

  /** A line that raises after a run that did not stops everything. */
  lemma {:induction false} TryFailsAt<S, E>(a: Lines, l: String, rest: Lines, step: TryStep<S, E>, st: S, x: Out<S>)
    requires Try(a, step, st) == Success(x) && step(l, x.st).Failure?
    ensures Try(a + [l] + rest, step, st) == Failure(step(l, x.st).error)
  {
    assert Try([l], step, x.st) == Failure(step(l, x.st).error);
    TryFailsAfter(a, [l], step, st, x);
    TryStops(a + [l], rest, step, st);
  }

  /** Lines that the body copies without changing the state pass through. */
  lemma {:induction false} TryCopies<S, E>(ls: Lines, step: TryStep<S, E>, st: S)
    requires forall i :: 0 <= i < |ls| ==> step(ls[i], st) == Success(Out([ls[i]], st))
    ensures Try(ls, step, st) == Success(Out(ls, st))
    decreases |ls|
  {
    if |ls| > 0 {
      assert forall i :: 0 <= i < |ls[1..]| ==> ls[1..][i] == ls[i + 1];
      TryCopies(ls[1..], step, st);
      assert [ls[0]] + ls[1..] == ls;
    }
  }

  /** A body that turns line `i` into `ys[i]` and state `sts[i]` into
      `sts[i + 1]` turns the first `k` lines into the first `k` of
      `ys`. */
  lemma {:induction false} TryMaps<S, E>(xs: Lines, ys: Lines, sts: seq<S>, step: TryStep<S, E>, k: nat)
    requires |ys| == |xs| && |sts| == |xs| + 1 && k <= |xs|
    requires forall i :: 0 <= i < |xs| ==> step(xs[i], sts[i]) == Success(Out([ys[i]], sts[i + 1]))
    ensures Try(xs[..k], step, sts[0]) == Success(Out(ys[..k], sts[k]))
    decreases k
  {
    if k > 0 {
      TryMaps(xs, ys, sts, step, k - 1);
      assert xs[..k - 1] + [xs[k - 1]] == xs[..k];
      assert ys[..k - 1] + [ys[k - 1]] == ys[..k];
      TryThen(xs[..k - 1], xs[k - 1], step, sts[0], Out(ys[..k - 1], sts[k - 1]), Out([ys[k - 1]], sts[k]));
    }
  }

  /** A body that writes exactly one line for every line it reads writes
      as many lines as it reads. */
  lemma {:induction false} TryOneForOne<S, E>(ls: Lines, step: TryStep<S, E>, st: S)
    requires forall l, s :: step(l, s).Success? ==> |step(l, s).value.lines| == 1
    ensures Try(ls, step, st).Success? ==> |Try(ls, step, st).value.lines| == |ls|
    decreases |ls|
  {
    if |ls| > 0 {
      match step(ls[0], st) {
        case Failure(e) =>
        case Success(o) => TryOneForOne(ls[1..], step, o.st);
      }
    }
  }
}

=== FILE: make_stub.dfy ===
/** SPICE stub generation (runtime/makestub.py, `generate_stubs`): drop
    blank and comment lines, fold continuation lines into the line they
    continue, keep of each subcircuit only its `.subckt` and `.ends` lines
    under a five-line banner, and re-wrap every line. */
module MakeStub {
  import opened Wrappers
  import opened Seqs
  import opened Text
  import opened Lines

  // ---------------------------------------------------------------------
  // First pass: blank and comment lines

  /** A line the first pass keeps: not empty and not a `*` comment. */
  predicate Kept(line: String) {
    |line| > 0 && line[0] != '*'
  }

  function DropComments(ls: Lines): Lines {
    Filter(ls, Kept)
  }

  /** The first pass keeps exactly the non-empty, non-comment lines, in
      their order. */
  lemma {:induction false} DropCommentsExact(ls: Lines)
    ensures IsSubseq(DropComments(ls), ls)
    ensures forall x :: x in DropComments(ls) <==> x in ls && Kept(x)
  {
    FilterIsSubseq(ls, Kept);
    forall x
      ensures x in DropComments(ls) <==> x in ls && Kept(x)
    {
      if x in DropComments(ls) {
        FilterMember(ls, Kept, x);
      }
      if x in ls && Kept(x) {
        FilterHas(ls, Kept, x);
      }
    }
  }

  // ---------------------------------------------------------------------
  // Continuation lines

  /** Lines the folding cannot trip on: each kept by the first pass and
      free of newlines, as every line `splitlines` returns is. */
  predicate Clean(ls: Lines) {
    forall i :: 0 <= i < |ls| ==> Kept(ls[i]) && '\n' !in ls[i]
  }

  /** Continuation lines folded in, line by line: a line starting with `+`
      is appended to the line before it, its `+` becoming a space. A `+`
      line with no line before it stays as it is. */
  function Merge(ls: Lines): (r: Lines)
    ensures |r| <= |ls| && (|ls| > 0 ==> |r| > 0)
    decreases |ls|
  {
    if |ls| == 0 then []
    else
      var m := Merge(ls[..|ls| - 1]);
      var l := ls[|ls| - 1];
      if |m| > 0 && |l| > 0 && l[0] == '+' then m[..|m| - 1] + [m[|m| - 1] + " " + l[1..]]
      else m + [l]
  }

  /** Folding keeps lines clean, and afterwards no line but the first
      starts with `+`. */
  lemma {:induction false} MergeClean(ls: Lines)
    requires Clean(ls)
    ensures Clean(Merge(ls))
    ensures forall i :: 1 <= i < |Merge(ls)| ==> Merge(ls)[i][0] != '+'
    decreases |ls|
  {
    if |ls| > 0 {
      var init := ls[..|ls| - 1];
      var l := ls[|ls| - 1];
      assert Clean(init) by {
        forall i | 0 <= i < |init| ensures Kept(init[i]) && '\n' !in init[i] {
          assert init[i] == ls[i];
        }
      }
      MergeClean(init);
      var m := Merge(init);
      if |m| > 0 && l[0] == '+' {
        var last := m[|m| - 1] + " " + l[1..];
        assert '\n' !in l[1..] by {
          forall k | 0 <= k < |l[1..]| ensures l[1..][k] != '\n' {
            assert l[1..][k] == l[k + 1];
          }
        }
        assert last[0] == m[|m| - 1][0];
        assert '\n' !in last;
        var r := m[..|m| - 1] + [last];
        assert forall i :: 0 <= i < |m| - 1 ==> r[i] == m[i];
      }
    }
  }

  /** `'\n'.join(lines).replace('\n+', ' ').splitlines()`: the folding as
      the script does it, on the joined text. */
  function Unfold(ls: Lines): Lines {
    SplitLines(ReplaceAll(Join(ls, "\n"), "\n+", " "))
  }

  /** A newline followed by `+` cannot occur where there is no newline. */
  lemma {:induction false} NoFold(s: String)
    requires '\n' !in s
    ensures ReplaceAll(s, "\n+", " ") == s
  {
    forall i: nat | i <= |s|
      ensures !MatchAt(s, "\n+", i)
    {
      if i + 2 <= |s| {
        assert s[i..i + 2][0] == s[i];
      }
    }
    ReplaceAbsent(s, "\n+", " ");
  }

  /** The newline in front of a line is folded away exactly when the line
      starts with `+`. */
  lemma {:induction false} FoldOne(l: String)
    requires |l| > 0 && '\n' !in l
    ensures ReplaceAll("\n" + l, "\n+", " ") == if l[0] == '+' then " " + l[1..] else "\n" + l
  {
    var s := "\n" + l;
    assert s[1..] == l && s[2..] == l[1..];
    assert '\n' !in l[1..] by {
      forall k | 0 <= k < |l[1..]| ensures l[1..][k] != '\n' {
        assert l[1..][k] == l[k + 1];
      }
    }
    NoFold(l);
    NoFold(l[1..]);
    if l[0] != '+' {
      assert s[..2] != "\n+" by {
        assert s[..2][1] == l[0];
      }
    } else {
      assert s[..2] == "\n+";
    }
  }

  /** Appending text to the last of several joined lines. */
  lemma {:induction false} JoinExtendLast(m: Lines, t: String, sep: String)
    requires |m| > 0
    ensures Join(m[..|m| - 1] + [m[|m| - 1] + t], sep) == Join(m, sep) + t
  {
    var init := m[..|m| - 1];
    if |m| == 1 {
      assert m[..|m| - 1] + [m[|m| - 1] + t] == [m[0] + t];
    } else {
      JoinSnoc(init, m[|m| - 1] + t, sep);
      JoinSnoc(init, m[|m| - 1], sep);
      assert init + [m[|m| - 1]] == m;
    }
  }

  /** The joined text of clean lines ends with a character other than a
      newline. */
  lemma {:induction false} JoinLast(ls: Lines)
    requires |ls| > 0 && Clean(ls)
    ensures |Join(ls, "\n")| > 0 && Join(ls, "\n")[|Join(ls, "\n")| - 1] != '\n'
  {
    var l := ls[|ls| - 1];
    assert Kept(l) && '\n' !in l;
    if |ls| > 1 {
      JoinSnoc(ls[..|ls| - 1], l, "\n");
      assert ls[..|ls| - 1] + [l] == ls;
    }
  }

  /** The text-level folding is the line-level one, before splitting. */
  lemma {:induction false} ReplaceJoin(ls: Lines)
    requires Clean(ls)
    ensures ReplaceAll(Join(ls, "\n"), "\n+", " ") == Join(Merge(ls), "\n")
    decreases |ls|
  {
    if |ls| == 1 {
      NoFold(ls[0]);
      assert Merge(ls) == [ls[0]];
    } else if |ls| > 1 {
      var init := ls[..|ls| - 1];
      var l := ls[|ls| - 1];
      assert init + [l] == ls;
      assert Clean(init) by {
        forall i | 0 <= i < |init| ensures Kept(init[i]) && '\n' !in init[i] {
          assert init[i] == ls[i];
        }
      }
      ReplaceJoin(init);
      ReplaceJoinStep(init, l);
    }
  }

  /** One more line: its newline is folded away exactly when the line
      before it is continued. */
  lemma {:induction false} ReplaceJoinStep(init: Lines, l: String)
    requires |init| > 0 && Clean(init) && Kept(l) && '\n' !in l
    ensures ReplaceAll(Join(init, "\n"), "\n+", " ") == Join(Merge(init), "\n") ==>
            ReplaceAll(Join(init + [l], "\n"), "\n+", " ") == Join(Merge(init + [l]), "\n")
  {
    if ReplaceAll(Join(init, "\n"), "\n+", " ") == Join(Merge(init), "\n") {
      var ls := init + [l];
      assert ls[..|ls| - 1] == init && ls[|ls| - 1] == l;
      var a := Join(init, "\n");
      var m := Merge(init);
      JoinSnoc(init, l, "\n");
      Assoc(a, "\n", l);
      JoinLast(init);
      ReplaceAllSplit(a, "\n" + l, "\n+", " ");
      FoldOne(l);
      if l[0] == '+' {
        JoinExtendLast(m, " " + l[1..], "\n");
        Assoc(m[|m| - 1], " ", l[1..]);
      } else {
        JoinSnoc(m, l, "\n");
        Assoc(Join(m, "\n"), "\n", l);
      }
    }
  }

  /** The script's folding on the joined text splits back into the
      line-level folding. */
  lemma {:induction false} UnfoldIsMerge(ls: Lines)
    requires Clean(ls)
    ensures Unfold(ls) == Merge(ls)
  {
    ReplaceJoin(ls);
    MergeClean(ls);
    SplitLinesJoin(Merge(ls));
  }

  // ---------------------------------------------------------------------
  // Subcircuit headers and ends

  /** `subcrex`, matched at the start of a line: blanks, the `.subckt`
      keyword in any letter case, at least one blank, the name (a run of
      non-blanks), at least one more blank, and anything after. */
  function SubcktName(line: String): (r: Option<String>)
    ensures r.Some? ==> |r.value| > 0 && forall k :: 0 <= k < |r.value| ==> !IsBlank(r.value[k])
  {
    var rest := line[BlankLen(line)..];
    if StartsWithCI(rest, ".subckt") then NameAfter(rest[7..]) else None
  }

  /** The part of `subcrex` after the keyword. */
  function NameAfter(t: String): (r: Option<String>)
    ensures r.Some? ==> |r.value| > 0 && forall k :: 0 <= k < |r.value| ==> !IsBlank(r.value[k])
  {
    var u := t[BlankLen(t)..];
    var n := NonBlankLen(u);
    if BlankLen(t) == 0 || n == 0 || n == |u| then None else Some(u[..n])
  }

  /** `endsrex`: `.ends` after leading blanks, in any letter case, with
      anything after it. */
  predicate EndsLine(line: String) {
    StartsWithCI(line[BlankLen(line)..], ".ends")
  }

  /** Leading blanks are skipped up to the first non-blank. */
  lemma {:induction false} SkipBlanks(pad: String, s: String)
    requires forall k :: 0 <= k < |pad| ==> IsBlank(pad[k])
    requires |s| > 0 && !IsBlank(s[0])
    ensures (pad + s)[BlankLen(pad + s)..] == s
  {
    BlankLenOf(pad, s);
  }

  /** After the keyword: blanks, a name, blanks and anything. */
  lemma {:induction false} NameAfterParses(sp: String, name: String, sp2: String, rest: String)
    requires |sp| > 0 && forall k :: 0 <= k < |sp| ==> IsBlank(sp[k])
    requires |name| > 0 && forall k :: 0 <= k < |name| ==> !IsBlank(name[k])
    requires |sp2| > 0 && forall k :: 0 <= k < |sp2| ==> IsBlank(sp2[k])
    ensures NameAfter(sp + (name + (sp2 + rest))) == Some(name)
  {
    var u := name + (sp2 + rest);
    BlankLenOf(sp, u);
    assert (sp + u)[|sp|..] == u;
    NonBlankLenOf(name, sp2 + rest);
    assert u[..|name|] == name;
  }

  /** A header in the shape the pattern describes yields its name. */
  lemma {:induction false} SubcktNameParses(pad: String, kw: String, sp: String, name: String, sp2: String, rest: String)
    requires forall k :: 0 <= k < |pad| ==> IsBlank(pad[k])
    requires |kw| == 7 && StartsWithCI(kw, ".subckt")
    requires |sp| > 0 && forall k :: 0 <= k < |sp| ==> IsBlank(sp[k])
    requires |name| > 0 && forall k :: 0 <= k < |name| ==> !IsBlank(name[k])
    requires |sp2| > 0 && forall k :: 0 <= k < |sp2| ==> IsBlank(sp2[k])
    ensures SubcktName(pad + (kw + (sp + (name + (sp2 + rest))))) == Some(name)
  {
    var t := sp + (name + (sp2 + rest));
    var tail := kw + t;
    StartsWithCIAt(kw, ".subckt", 0);
    assert tail[0] == kw[0];
    SkipBlanks(pad, tail);
    StartsWithCIPrefix(kw, t, ".subckt");
    assert tail[7..] == t;
    NameAfterParses(sp, name, sp2, rest);
  }

  // ---------------------------------------------------------------------
  // Stubs

  const Rule: String := "*----------------------------------------------"

  /** The five lines written in front of every subcircuit. */
  function Banner(name: String): (r: Lines)
    ensures |r| == 5 && r[2] == "* SPICE stub entry for " + name + "."
  {
    ["", Rule, "* SPICE stub entry for " + name + ".", Rule, ""]
  }

  /** One line of the stub pass; the state says whether the line is inside
      a subcircuit. Inside, only the `.ends` line is written, and it ends
      the subcircuit; outside, every line is written, a `.subckt` line
      after a banner. */
  function StubStep(line: String, insub: bool): Out<bool> {
    if insub then
      (if EndsLine(line) then Out([line], false) else Out([], true))
    else
      match SubcktName(line)
      case Some(name) => Out(Banner(name) + [line], true)
      case None => Out([line], false)
  }

  function Stubs(ls: Lines): Lines {
    Run(ls, StubStep, false).lines
  }

  /** Lines outside any subcircuit are copied unchanged. */
  lemma {:induction false} StubsOutside(ls: Lines)
    requires forall i :: 0 <= i < |ls| ==> SubcktName(ls[i]).None?
    ensures Run(ls, StubStep, false) == Out(ls, false)
  {
    RunCopies(ls, StubStep, false);
  }

  /** The lines of a subcircuit body are dropped. */
  lemma {:induction false} StubsBody(ls: Lines)
    requires forall i :: 0 <= i < |ls| ==> !EndsLine(ls[i])
    ensures Run(ls, StubStep, true) == Out([], true)
  {
    RunDrops(ls, StubStep, true);
  }

  /** A subcircuit from its `.subckt` line to its `.ends` line leaves the
      banner and those two lines, and ends outside any subcircuit. */
  lemma {:induction false} StubsSubckt(s: String, name: String, body: Lines, e: String)
    requires SubcktName(s) == Some(name)
    requires forall i :: 0 <= i < |body| ==> !EndsLine(body[i])
    requires EndsLine(e)
    ensures Run([s] + body + [e], StubStep, false) == Out(Banner(name) + [s, e], false)
  {
    var head := Banner(name) + [s];
    assert Run([s] + body, StubStep, false) == Out(head, true) by {
      RunOne(s, StubStep, false);
      StubsBody(body);
      RunAppend([s], body, StubStep, false, Out(head, true), Out([], true));
      assert head + [] == head;
    }
    assert Run([e], StubStep, true) == Out([e], false) by {
      RunOne(e, StubStep, true);
    }
    RunAppend([s] + body, [e], StubStep, false, Out(head, true), Out([e], false));
    SnocTwo(Banner(name), s, e);
  }

  /** A subcircuit between lines outside any subcircuit becomes its banner,
      its `.subckt` line and its `.ends` line; everything before it is
      kept and what follows is processed afresh. */
  lemma {:induction false} StubsBlock(pre: Lines, s: String, name: String, body: Lines, e: String, post: Lines)
    requires forall i :: 0 <= i < |pre| ==> SubcktName(pre[i]).None?
    requires SubcktName(s) == Some(name)
    requires forall i :: 0 <= i < |body| ==> !EndsLine(body[i])
    requires EndsLine(e)
    ensures Stubs(pre + ([s] + body + [e]) + post) == pre + Banner(name) + [s, e] + Stubs(post)
  {
    var blk := [s] + body + [e];
    var out := Banner(name) + [s, e];
    StubsOutside(pre);
    StubsSubckt(s, name, body, e);
    RunAppend(pre, blk, StubStep, false, Out(pre, false), Out(out, false));
    var y := Run(post, StubStep, false);
    RunAppend(pre + blk, post, StubStep, false, Out(pre + out, false), y);
    Assoc(pre, Banner(name), [s, e]);
  }

  /** A subcircuit that is never closed keeps only its banner and its
      `.subckt` line. */
  lemma {:induction false} StubsOpen(pre: Lines, s: String, name: String, body: Lines)
    requires forall i :: 0 <= i < |pre| ==> SubcktName(pre[i]).None?
    requires SubcktName(s) == Some(name)
    requires forall i :: 0 <= i < |body| ==> !EndsLine(body[i])
    ensures Stubs(pre + ([s] + body)) == pre + Banner(name) + [s]
  {
    var head := Banner(name) + [s];
    RunOne(s, StubStep, false);
    StubsBody(body);
    RunAppend([s], body, StubStep, false, Out(head, true), Out([], true));
    assert head + [] == head;
    StubsOutside(pre);
    RunAppend(pre, [s] + body, StubStep, false, Out(pre, false), Out(head, true));
    Assoc(pre, Banner(name), [s]);
  }

  // ---------------------------------------------------------------------
  // Re-wrapping and the whole pass

  /** The re-wrapping pass: each line becomes the pieces `wrap` cuts it
      into, joined by a newline and `+ `, so that the pieces after the
      first are continuation lines. The script's `wrap` is
      `textwrap.wrap(line, 100)`. */
  function Rewrap(ls: Lines, wrap: String -> Lines): (r: Lines)
    ensures |r| == |ls|
  {
    seq(|ls|, i requires 0 <= i < |ls| => Join(wrap(ls[i]), "\n+ "))
  }

  /** Every piece behind the prefix `pl`. */
  function Prefixed(pl: String, ps: Lines): (r: Lines)
    ensures |r| == |ps|
    ensures forall i :: 0 <= i < |ps| ==> r[i] == pl + ps[i]
  {
    seq(|ps|, i requires 0 <= i < |ps| => pl + ps[i])
  }

  /** Pieces joined by `nl + pl`, behind a leading `pl`, are the prefixed
      pieces joined by `nl`. */
  lemma {:induction false} JoinPrefixed(ps: Lines, nl: String, pl: String)
    requires |ps| > 0
    ensures pl + Join(ps, nl + pl) == Join(Prefixed(pl, ps), nl)
    decreases |ps|
  {
    if |ps| > 1 {
      var j := Join(ps[1..], nl + pl);
      JoinPrefixed(ps[1..], nl, pl);
      assert Prefixed(pl, ps) == [pl + ps[0]] + Prefixed(pl, ps[1..]);
      JoinCons(pl + ps[0], Prefixed(pl, ps[1..]), nl);
      assert pl + (ps[0] + (nl + pl) + j) == (pl + ps[0]) + nl + (pl + j);
    }
  }

  /** The first piece, then the others behind `pl`, joined by `nl`. */
  lemma {:induction false} JoinSplitSep(ps: Lines, nl: String, pl: String)
    requires |ps| > 0
    ensures Join(ps, nl + pl) == Join([ps[0]] + Prefixed(pl, ps[1..]), nl)
  {
    if |ps| > 1 {
      var j := Join(ps[1..], nl + pl);
      JoinPrefixed(ps[1..], nl, pl);
      JoinCons(ps[0], ps[1..], nl + pl);
      assert [ps[0]] + ps[1..] == ps;
      JoinCons(ps[0], Prefixed(pl, ps[1..]), nl);
      assert ps[0] + (nl + pl) + j == ps[0] + nl + (pl + j);
    } else {
      assert [ps[0]] + Prefixed(pl, ps[1..]) == ps;
    }
  }

  /** The pieces of a wrapped line, as the lines a reader sees: the first
      piece, then the others as continuation lines. */
  function Wrapped(ps: Lines): (r: Lines)
    requires |ps| > 0
    ensures |r| == |ps| && r[0] == ps[0]
    ensures forall i :: 1 <= i < |ps| ==> r[i] == "+ " + ps[i]
  {
    [ps[0]] + Prefixed("+ ", ps[1..])
  }

  lemma {:induction false} WrappedJoin(ps: Lines)
    requires |ps| > 0
    ensures Join(ps, "\n+ ") == Join(Wrapped(ps), "\n")
  {
    JoinSplitSep(ps, "\n", "+ ");
    assert "\n" + "+ " == "\n+ ";
  }

  lemma {:induction false} WrappedClean(ps: Lines)
    requires |ps| > 0 && forall i :: 0 <= i < |ps| ==> '\n' !in ps[i]
    requires ps[|ps| - 1] != []
    ensures forall i :: 0 <= i < |ps| ==> '\n' !in Wrapped(ps)[i]
    ensures Wrapped(ps)[|ps| - 1] != []
  {
    var ls := Wrapped(ps);
    forall i | 0 <= i < |ls| ensures '\n' !in ls[i] {
      if i > 0 {
        assert ls[i] == "+ " + ps[i];
      }
    }
    if |ps| > 1 {
      assert ls[|ls| - 1] == "+ " + ps[|ps| - 1];
    }
  }

  /** A wrapped line reads back as its first piece followed by one
      continuation line, starting with `+ `, per further piece. */
  lemma {:induction false} RewrapReadBack(ps: Lines)
    requires |ps| > 0 && forall i :: 0 <= i < |ps| ==> '\n' !in ps[i]
    requires ps[|ps| - 1] != []
    ensures SplitLines(Join(ps, "\n+ ")) == Wrapped(ps)
  {
    WrappedJoin(ps);
    WrappedClean(ps);
    SplitLinesJoin(Wrapped(ps));
  }

  /** Lines that `wrap` leaves whole are written unchanged. */
  lemma RewrapShort(ls: Lines, wrap: String -> Lines)
    requires forall i :: 0 <= i < |ls| ==> wrap(ls[i]) == [ls[i]]
    ensures Rewrap(ls, wrap) == ls
  {
  }

  /** The text written for a netlist. When no line needs wrapping, it is
      the stub pass over the input's non-comment lines with continuation
      lines folded in. */
  function GenerateStubs(text: String, wrap: String -> Lines): (r: Lines)
    ensures (forall l :: wrap(l) == [l]) ==> r == Stubs(Merge(DropComments(SplitLines(text))))
  {
    var ls := Stubs(Unfold(DropComments(SplitLines(text))));
    StubInput(text);
    RewrapNone(ls, wrap);
    Rewrap(ls, wrap)
  }

  /** A `wrap` that leaves every line whole leaves the text as it is. */
  lemma RewrapNone(ls: Lines, wrap: String -> Lines)
    ensures (forall l :: wrap(l) == [l]) ==> Rewrap(ls, wrap) == ls
  {
    if forall l :: wrap(l) == [l] {
      RewrapShort(ls, wrap);
    }
  }

  /** The lines the stub pass sees are the input's non-comment lines with
      continuation lines folded in. */
  lemma {:induction false} StubInput(text: String)
    ensures Unfold(DropComments(SplitLines(text))) == Merge(DropComments(SplitLines(text)))
  {
    var ls := SplitLines(text);
    var kept := DropComments(ls);
    assert Clean(kept) by {
      forall i | 0 <= i < |kept| ensures Kept(kept[i]) && '\n' !in kept[i] {
        assert kept[i] in kept;
        FilterMember(ls, Kept, kept[i]);
      }
    }
    UnfoldIsMerge(kept);
  }
}

=== FILE: natural_sort.dfy ===
/** `natural_sort`: sort names so that runs of digits compare as numbers
    and the text between them compares without regard to case. The key of
    a name is Python's `re.split('([0-9]+)', name)` with every digit run
    turned into its integer value and every text run lower-cased; names
    are then ordered by `sorted`, which is stable. */
module NaturalSort {
  import opened Text
  import opened Seqs

  datatype KeyPart = TextPart(text: String) | NumPart(num: nat)

  /** The sort key of a name: text, number, text, ..., text. */
  function Key(s: String): (r: seq<KeyPart>)
    ensures |r| > 0 && r[0].TextPart?
    decreases |s|
  {
    var a := TextRun(s);
    var head := [TextPart(Lower(s[..a]))];
    if a == |s| then head
    else
      var rest := s[a..];
      var b := DigitRun(rest);
      assert AllDigits(rest[..b]);
      head + ([NumPart(DecimalValue(rest[..b]))] + Key(rest[b..]))
  }

  /** A key starts and ends with a text and texts and numbers alternate,
      so the parts compared at one position are always of the same kind. */
  lemma {:induction false} KeyAlternates(s: String)
    ensures Key(s)[|Key(s)| - 1].TextPart?
    ensures forall i :: 0 <= i < |Key(s)| - 1 ==> Key(s)[i].NumPart? != Key(s)[i + 1].NumPart?
    decreases |s|
  {
    var a := TextRun(s);
    if a < |s| {
      var rest := s[a..];
      var b := DigitRun(rest);
      var more := Key(rest[b..]);
      KeyAlternates(rest[b..]);
      var k := Key(s);
      assert k == [k[0]] + ([k[1]] + more);
      assert k[0].TextPart? && k[1].NumPart? && more[0].TextPart?;
      forall i | 0 <= i < |k| - 1
        ensures k[i].NumPart? != k[i + 1].NumPart?
      {
        if i >= 2 {
          assert k[i] == more[i - 2] && k[i + 1] == more[i - 1];
        }
      }
    }
  }

  /** Python's `<` on strings: code point by code point, a proper prefix
      first. */
  predicate StrLess(a: String, b: String) {
    if |a| == 0 then |b| > 0
    else if |b| == 0 then false
    else if a[0] == b[0] then StrLess(a[1..], b[1..])
    else a[0] < b[0]
  }

  /** Parts at the same index of two keys are of the same kind; a text and
      a number are never compared. */
  predicate PartLess(x: KeyPart, y: KeyPart) {
    match (x, y)
    case (TextPart(a), TextPart(b)) => StrLess(a, b)
    case (NumPart(m), NumPart(n)) => m < n
    case _ => false
  }

  /** Python's `<` on lists: the first differing element decides, a
      proper prefix first. */
  predicate KeyLess(a: seq<KeyPart>, b: seq<KeyPart>) {
    if |a| == 0 then |b| > 0
    else if |b| == 0 then false
    else if a[0] == b[0] then KeyLess(a[1..], b[1..])
    else PartLess(a[0], b[0])
  }

  /** Name `x` sorts strictly before name `y`. */
  predicate Before(x: String, y: String) {
    KeyLess(Key(x), Key(y))
  }

  /** No name is out of order with its successor. */
  predicate Sorted(l: seq<String>) {
    forall i :: 0 <= i < |l| - 1 ==> !Before(l[i + 1], l[i])
  }

  lemma {:induction false} StrLessAsym(a: String, b: String)
    ensures !(StrLess(a, b) && StrLess(b, a))
    decreases |a|
  {
    if |a| > 0 && |b| > 0 && a[0] == b[0] {
      StrLessAsym(a[1..], b[1..]);
    }
  }

  lemma {:induction false} KeyLessAsym(a: seq<KeyPart>, b: seq<KeyPart>)
    ensures !(KeyLess(a, b) && KeyLess(b, a))
    decreases |a|
  {
    if |a| > 0 && |b| > 0 {
      if a[0] == b[0] {
        KeyLessAsym(a[1..], b[1..]);
      } else if a[0].TextPart? && b[0].TextPart? {
        StrLessAsym(a[0].text, b[0].text);
      }
    }
  }

  lemma {:induction false} KeyLessIrrefl(a: seq<KeyPart>)
    ensures !KeyLess(a, a)
    decreases |a|
  {
    if |a| > 0 {
      KeyLessIrrefl(a[1..]);
    }
  }

  /** Insert `x` into the sorted `s` after every name that does not sort
      after it: one step of a stable insertion sort. */
  function Insert(s: seq<String>, x: String): (r: seq<String>)
    ensures |r| == |s| + 1
    ensures multiset(r) == multiset(s) + multiset{x}
    ensures r[|r| - 1] == x || (|s| > 0 && r[|r| - 1] == s[|s| - 1])
    decreases |s|
  {
    if |s| == 0 || !Before(x, s[|s| - 1]) then s + [x]
    else
      var front := s[..|s| - 1];
      assert s == front + [s[|s| - 1]];
      Insert(front, x) + [s[|s| - 1]]
  }

  lemma {:induction false} InsertSorted(s: seq<String>, x: String)
    requires Sorted(s)
    ensures Sorted(Insert(s, x))
    decreases |s|
  {
    if |s| > 0 && Before(x, s[|s| - 1]) {
      var last := s[|s| - 1];
      var front := s[..|s| - 1];
      InsertSorted(front, x);
      var m := Insert(front, x);
      assert !Before(last, m[|m| - 1]) by {
        if m[|m| - 1] == x {
          KeyLessAsym(Key(x), Key(last));
        } else {
          assert |front| > 0 && m[|m| - 1] == s[|s| - 2];
        }
      }
      var r := m + [last];
      forall i | 0 <= i < |r| - 1
        ensures !Before(r[i + 1], r[i])
      {
        if i < |m| - 1 {
          assert r[i] == m[i] && r[i + 1] == m[i + 1];
        }
      }
    }
  }

  /** `natural_sort(l)`: the names of `l` in natural order; names with
      equal keys keep their input order. */
  function NaturalSort(l: seq<String>): (r: seq<String>)
    ensures multiset(r) == multiset(l)
    ensures Sorted(r)
    decreases |l|
  {
    if |l| == 0 then []
    else
      var init := l[..|l| - 1];
      assert l == init + [l[|l| - 1]];
      var s := NaturalSort(init);
      InsertSorted(s, l[|l| - 1]);
      Insert(s, l[|l| - 1])
  }

  /** A list already in natural order is returned unchanged, so sorting
      twice is sorting once. */
  lemma {:induction false} SortSortedIdentity(l: seq<String>)
    requires Sorted(l)
    ensures NaturalSort(l) == l
    decreases |l|
  {
    if |l| > 0 {
      var init := l[..|l| - 1];
      var x := l[|l| - 1];
      SortedInit(l);
      SortSortedIdentity(init);
      NaturalSortSnoc(l);
      InsertAtEnd(init, x);
      assert init + [x] == l;
    }
  }

  lemma {:induction false} SortedInit(l: seq<String>)
    requires Sorted(l) && |l| > 0
    ensures Sorted(l[..|l| - 1])
    ensures |l| > 1 ==> !Before(l[|l| - 1], l[|l| - 2])
  {
    var init := l[..|l| - 1];
    assert forall i :: 0 <= i < |init| ==> init[i] == l[i];
  }

  lemma NaturalSortSnoc(l: seq<String>)
    requires |l| > 0
    ensures NaturalSort(l) == Insert(NaturalSort(l[..|l| - 1]), l[|l| - 1])
  {
  }

  lemma InsertAtEnd(s: seq<String>, x: String)
    requires |s| > 0 ==> !Before(x, s[|s| - 1])
    ensures Insert(s, x) == s + [x]
  {
  }

  lemma {:induction false} SortIdempotent(l: seq<String>)
    ensures NaturalSort(NaturalSort(l)) == NaturalSort(l)
  {
    SortSortedIdentity(NaturalSort(l));
  }

  /** Names with the key `k`, in order. */
  function WithKey(l: seq<String>, k: seq<KeyPart>): seq<String> {
    Filter(l, HasKey(k))
  }

  function HasKey(k: seq<KeyPart>): String -> bool {
    x => Key(x) == k
  }

  lemma {:induction false} InsertStable(s: seq<String>, x: String, k: seq<KeyPart>)
    ensures WithKey(Insert(s, x), k) == if Key(x) == k then WithKey(s, k) + [x] else WithKey(s, k)
    decreases |s|
  {
    if |s| == 0 || !Before(x, s[|s| - 1]) {
      FilterSnoc(s, x, HasKey(k));
    } else {
      var last := s[|s| - 1];
      var front := s[..|s| - 1];
      assert Insert(s, x) == Insert(front, x) + [last];
      InsertStable(front, x, k);
      KeyLessIrrefl(Key(x));
      assert s == front + [last];
      StableStep(Insert(front, x), front, x, last, k);
    }
  }

  /** Appending a name whose key differs from that of `x` to both sides
      keeps `x` last among the names with `x`'s key. */
  lemma {:induction false} StableStep(m: seq<String>, front: seq<String>, x: String, last: String, k: seq<KeyPart>)
    requires Key(last) != Key(x)
    requires WithKey(m, k) == if Key(x) == k then WithKey(front, k) + [x] else WithKey(front, k)
    ensures WithKey(m + [last], k) == if Key(x) == k then WithKey(front + [last], k) + [x] else WithKey(front + [last], k)
  {
    FilterSnoc(m, last, HasKey(k));
    FilterSnoc(front, last, HasKey(k));
  }

  /** The sort is stable: the names sharing any one key appear in the
      output in their input order. */
  lemma {:induction false} SortStable(l: seq<String>, k: seq<KeyPart>)
    ensures WithKey(NaturalSort(l), k) == WithKey(l, k)
    decreases |l|
  {
    if |l| > 0 {
      var init := l[..|l| - 1];
      var x := l[|l| - 1];
      SortStable(init, k);
      InsertStable(NaturalSort(init), x, k);
      assert l == init + [x];
      FilterSnoc(init, x, HasKey(k));
    }
  }

  /** Case does not matter: a name and its lower-case form have one key. */
  lemma {:induction false} KeyIgnoresCase(s: String)
    ensures Key(Lower(s)) == Key(s)
    decreases |s|
  {
    var t := Lower(s);
    var a := TextRun(s);
    TextRunLower(s);
    LowerTwice(s[..a]);
    assert t[..a] == Lower(s[..a]);
    if a < |s| {
      var b := DigitRun(s[a..]);
      assert Lower(s[a..]) == t[a..];
      DigitRunLower(s[a..]);
      DigitsUnchanged(s[a..], b);
      assert Lower(s[a..][b..]) == t[a..][b..];
      KeyIgnoresCase(s[a..][b..]);
    }
  }

  lemma LowerTwice(s: String)
    ensures Lower(Lower(s)) == Lower(s)
  {
  }

  lemma DigitsUnchanged(s: String, b: nat)
    requires b <= |s| && forall k :: 0 <= k < b ==> IsDigit(s[k])
    ensures Lower(s)[..b] == s[..b]
  {
  }

  lemma {:induction false} TextRunLower(s: String)
    ensures TextRun(Lower(s)) == TextRun(s)
  {
    var t := Lower(s);
    var a := TextRun(s);
    assert forall k :: 0 <= k < |s| ==> (IsDigit(t[k]) <==> IsDigit(s[k]));
    TextRunIs(t, a);
  }

  lemma {:induction false} DigitRunLower(s: String)
    ensures DigitRun(Lower(s)) == DigitRun(s)
  {
    var t := Lower(s);
    var b := DigitRun(s);
    assert forall k :: 0 <= k < |s| ==> (IsDigit(t[k]) <==> IsDigit(s[k]));
    DigitRunIs(t, b);
  }

  /** A name made of text without digits and then a number has the key
      text, number, empty text. */
  lemma {:induction false} KeyOfTextNumber(t: String, n: nat)
    requires forall k :: 0 <= k < |t| ==> !IsDigit(t[k])
    ensures Key(t + NatToDecimal(n)) == [TextPart(Lower(t)), NumPart(n), TextPart([])]
  {
    var d := NatToDecimal(n);
    var s := t + d;
    TextRunIs(s, |t|);
    assert s[..|t|] == t && s[|t|..] == d;
    DigitRunIs(d, |d|);
    assert d[..|d|] == d && d[|d|..] == [];
    DecimalRoundTrip(n);
    assert Key([]) == [TextPart(Lower([]))];
  }

  /** Digit runs compare by value: with the same text in front, the name
      with the smaller number sorts first ("a2" before "a10"). */
  lemma {:induction false} NumbersCompareByValue(t: String, m: nat, n: nat)
    requires forall k :: 0 <= k < |t| ==> !IsDigit(t[k])
    requires m < n
    ensures Before(t + NatToDecimal(m), t + NatToDecimal(n))
  {
    KeyOfTextNumber(t, m);
    KeyOfTextNumber(t, n);
    var km := [TextPart(Lower(t)), NumPart(m), TextPart([])];
    var kn := [TextPart(Lower(t)), NumPart(n), TextPart([])];
    assert km[1..] == [NumPart(m), TextPart([])];
    assert kn[1..] == [NumPart(n), TextPart([])];
  }
}

=== FILE: port_order.dfy ===
/** Renumbering the ports of a Magic layout (common/port_order.py,
    `order_ports`). After the `<< labels >>` header, an `flabel` line names a
    pin; the `port` line that follows it is rewritten with the pin's
    1-based position in the given list of port names. A pin that is not in
    the list leaves its `port` line as it is. Every line is written back,
    one output line per input line. */
module PortOrder {
  import opened Wrappers
  import opened Seqs
  import opened Text
  import opened Lines

  const Labels: String := "<< labels >>"

  /** `linetok[0]` of a blank line, or `linetok[2]` of a short `port` line
      that is to be renumbered, raises. */
  datatype Fault = NoTokens(line: String) | ShortPort(line: String)

  /** Whether the labels header was seen (the script never leaves the
      section again), and the index the next `port` line gets, 0 for
      none. */
  datatype St = St(inLabs: bool, portidx: nat)

  const Start := St(false, 0)

  predicate IsLabels(line: String) {
    StartsWith(line, Labels)
  }

  /** `portnames.index(pin) + 1`, or 0 when the pin is not listed. */
  function Position(names: seq<String>, pin: String): (p: nat)
    ensures p <= |names|
    ensures p == 0 <==> pin !in names
    ensures p > 0 ==> names[p - 1] == pin && forall j :: 0 <= j < p - 1 ==> names[j] != pin
  {
    if pin in names then IndexOf(names, pin) + 1 else 0
  }

  /** `linetok[0] + ' ' + str(portidx) + ' ' + linetok[2]`. */
  function Renumber(idx: nat, name: String): String {
    "port" + " " + NatToDecimal(idx) + " " + name
  }

  function Step(names: seq<String>, line: String, st: St): Result<Out<St>, Fault> {
    if IsLabels(line) then Success(Out([line], St(true, st.portidx)))
    else if st.inLabs then
      var t := Split(line);
      if |t| == 0 then Failure(NoTokens(line))
      else if t[0] == "port" then
        if st.portidx > 0 then
          if |t| < 3 then Failure(ShortPort(line))
          else Success(Out([Renumber(st.portidx, t[2])], St(true, 0)))
        else Success(Out([line], St(true, 0)))
      else if t[0] == "flabel" then Success(Out([line], St(true, Position(names, t[|t| - 1]))))
      else Success(Out([line], st))
    else Success(Out([line], st))
  }

  function StepOf(names: seq<String>): TryStep<St, Fault> {
    (line, st) => Step(names, line, st)
  }

  /** The lines `order_ports` writes back. */
  function OrderPorts(lines: Lines, names: seq<String>): (r: Result<Lines, Fault>)
    ensures r.Success? ==> |r.value| == |lines|
  {
    TryOneForOne(lines, StepOf(names), Start);
    match Try(lines, StepOf(names), Start)
    case Failure(e) => Failure(e)
    case Success(o) => Success(o.lines)
  }

  // ---------------------------------------------------------------------
  // The rewritten port line

  lemma {:induction false} DecimalIsWord(n: nat)
    ensures IsWord(NatToDecimal(n))
  {
    var d := NatToDecimal(n);
    assert forall k :: 0 <= k < |d| ==> IsDigit(d[k]);
  }

  /** A renumbered port line reads back as `port`, the index and the name. */
  lemma {:induction false} RenumberParse(idx: nat, name: String)
    requires IsWord(name)
    ensures Split(Renumber(idx, name)) == ["port", NatToDecimal(idx), name]
    ensures DecimalValue(NatToDecimal(idx)) == idx
  {
    assert IsWord("port");
    DecimalIsWord(idx);
    var d := NatToDecimal(idx);
    assert "port" + " " + d + " " + name == "port" + " " + (d + " " + name);
    SplitWordSpace("port", d + " " + name);
    SplitWordSpace(d, name);
    SplitJoin([name]);
    DecimalRoundTrip(idx);
  }

  // ---------------------------------------------------------------------
  // What the section becomes

  predicate IsPortLine(line: String) {
    var t := Split(line);
    |t| > 0 && t[0] == "port"
  }

  predicate IsFlabel(line: String) {
    var t := Split(line);
    |t| > 0 && t[0] == "flabel"
  }

  /** The pin an `flabel` line names: its last token. */
  function Pin(line: String): String
    requires IsFlabel(line)
  {
    var t := Split(line);
    t[|t| - 1]
  }

  /** Lines the section can hold without the script raising: every line
      has a token, and a `port` line has at least three. */
  predicate Clean(labs: Lines) {
    forall i :: 0 <= i < |labs| ==> |Split(labs[i])| > 0 && (IsPortLine(labs[i]) ==> |Split(labs[i])| >= 3)
  }

  /** The index waiting for a `port` line in front of line `k`: set by the
      last `flabel` line, cleared by every `port` line. */
  function Pending(labs: Lines, names: seq<String>, k: nat): nat
    requires k <= |labs|
    decreases k
  {
    if k == 0 then 0
    else if IsPortLine(labs[k - 1]) then 0
    else if IsFlabel(labs[k - 1]) then Position(names, Pin(labs[k - 1]))
    else Pending(labs, names, k - 1)
  }

  /** Line `k` of the section as written back. */
  function Fixed(labs: Lines, names: seq<String>, k: nat): String
    requires k < |labs| && Clean(labs)
  {
    var idx := Pending(labs, names, k);
    if IsPortLine(labs[k]) && idx > 0 then Renumber(idx, Split(labs[k])[2]) else labs[k]
  }

  function Renumbered(labs: Lines, names: seq<String>): (r: Lines)
    requires Clean(labs)
    ensures |r| == |labs|
  {
    seq(|labs|, k requires 0 <= k < |labs| => Fixed(labs, names, k))
  }

  /** No `port` or `flabel` line among lines `i` to `k - 1`. */
  ghost predicate Quiet(labs: Lines, i: nat, k: nat)
    requires i <= k <= |labs|
  {
    forall m :: i <= m < k ==> !IsPortLine(labs[m]) && !IsFlabel(labs[m])
  }

  /** The index waiting in front of line `k` comes from the last `flabel`
      line before it, when no `port` line lies in between. */
  lemma {:induction false} PendingFrom(labs: Lines, names: seq<String>, i: nat, k: nat)
    requires i < k <= |labs| && IsFlabel(labs[i]) && Quiet(labs, i + 1, k)
    ensures Pending(labs, names, k) == Position(names, Pin(labs[i]))
    decreases k
  {
    if k - 1 > i {
      PendingFrom(labs, names, i, k - 1);
    }
  }

  /** Without an `flabel` line in front, nothing is waiting. */
  lemma {:induction false} PendingNone(labs: Lines, names: seq<String>, k: nat)
    requires k <= |labs|
    requires forall m :: 0 <= m < k ==> !IsFlabel(labs[m])
    ensures Pending(labs, names, k) == 0
    decreases k
  {
    if k > 0 {
      PendingNone(labs, names, k - 1);
    }
  }

  /** A `port` line after an `flabel` line, with no other `port` or
      `flabel` line between them: it takes the pin's position in the list,
      or stays as it is when the pin is not listed. */
  lemma {:induction false} PortAfterFlabel(labs: Lines, names: seq<String>, i: nat, k: nat)
    requires Clean(labs)
    requires i < k < |labs| && IsFlabel(labs[i]) && IsPortLine(labs[k]) && Quiet(labs, i + 1, k)
    ensures Pin(labs[i]) in names ==>
      Renumbered(labs, names)[k] == Renumber(IndexOf(names, Pin(labs[i])) + 1, Split(labs[k])[2])
    ensures Pin(labs[i]) !in names ==> Renumbered(labs, names)[k] == labs[k]
  {
    PendingFrom(labs, names, i, k);
  }

  /** Only `port` lines change; a changed one reads back as `port`, the
      waiting index and the line's own third token. */
  lemma {:induction false} OnlyPortsChange(labs: Lines, names: seq<String>, k: nat)
    requires Clean(labs) && k < |labs|
    ensures Renumbered(labs, names)[k] != labs[k] ==>
      IsPortLine(labs[k]) && Pending(labs, names, k) > 0 &&
      Split(Renumbered(labs, names)[k]) == ["port", NatToDecimal(Pending(labs, names, k)), Split(labs[k])[2]]
  {
    if IsPortLine(labs[k]) && Pending(labs, names, k) > 0 {
      RenumberParse(Pending(labs, names, k), Split(labs[k])[2]);
    }
  }

  // ---------------------------------------------------------------------
  // Line by line

  /** The labels header's first token is `<<`, which is neither `port`
      nor `flabel`. */
  lemma {:induction false} HeaderNeither(line: String)
    ensures IsLabels(line) ==> !IsPortLine(line) && !IsFlabel(line)
  {
    if IsLabels(line) {
      assert line[0] == '<';
      SplitHead(line);
    }
  }

  lemma {:induction false} LabStep(labs: Lines, names: seq<String>, k: nat)
    requires Clean(labs) && k < |labs|
    ensures StepOf(names)(labs[k], St(true, Pending(labs, names, k)))
         == Success(Out([Renumbered(labs, names)[k]], St(true, Pending(labs, names, k + 1))))
  {
    HeaderNeither(labs[k]);
  }

  /** The section, line by line, is renumbered. */
  lemma {:induction false} SectionRun(labs: Lines, names: seq<String>, k: nat)
    requires Clean(labs) && k <= |labs|
    ensures Try(labs[..k], StepOf(names), St(true, 0))
         == Success(Out(Renumbered(labs, names)[..k], St(true, Pending(labs, names, k))))
  {
    var sts := seq(|labs| + 1, i requires 0 <= i <= |labs| => St(true, Pending(labs, names, i)));
    forall i | 0 <= i < |labs|
      ensures StepOf(names)(labs[i], sts[i]) == Success(Out([Renumbered(labs, names)[i]], sts[i + 1]))
    {
      assert sts[i] == St(true, Pending(labs, names, i)) && sts[i + 1] == St(true, Pending(labs, names, i + 1));
      LabStep(labs, names, i);
    }
    TryMaps(labs, Renumbered(labs, names), sts, StepOf(names), k);
  }

  lemma {:induction false} OutsideRun(pre: Lines, names: seq<String>)
    requires forall i :: 0 <= i < |pre| ==> !IsLabels(pre[i])
    ensures Try(pre, StepOf(names), Start) == Success(Out(pre, Start))
  {
    TryCopies(pre, StepOf(names), Start);
  }

  // ---------------------------------------------------------------------
  // The whole file

  /** The lines before the labels header are written back unchanged, and
      the lines after it are renumbered. */
  lemma {:induction false} OrderPortsSection(pre: Lines, h: String, labs: Lines, names: seq<String>)
    requires forall i :: 0 <= i < |pre| ==> !IsLabels(pre[i])
    requires IsLabels(h) && Clean(labs)
    ensures OrderPorts(pre + [h] + labs, names) == Success(pre + [h] + Renumbered(labs, names))
  {
    var step := StepOf(names);
    var r := Renumbered(labs, names);
    OutsideRun(pre, names);
    TryThen(pre, h, step, Start, Out(pre, Start), Out([h], St(true, 0)));
    SectionRun(labs, names, |labs|);
    assert labs[..|labs|] == labs && r[..|labs|] == r;
    TryAppend(pre + [h], labs, step, Start, Out(pre + [h], St(true, 0)), Out(r, St(true, Pending(labs, names, |labs|))));
  }

  /** A file without a labels header is written back unchanged. */
  lemma {:induction false} NoLabels(lines: Lines, names: seq<String>)
    requires forall i :: 0 <= i < |lines| ==> !IsLabels(lines[i])
    ensures OrderPorts(lines, names) == Success(lines)
  {
    OutsideRun(lines, names);
  }

  lemma {:induction false} BlankStep(names: seq<String>, b: String, st: St)
    requires st.inLabs && |Split(b)| == 0
    ensures Step(names, b, st) == Failure(NoTokens(b))
  {
    if |b| > 0 {
      assert IsSpace(b[0]);
    }
  }

  /** A blank line after the labels header stops the script. */
  lemma {:induction false} BlankRaises(pre: Lines, h: String, labs: Lines, b: String, rest: Lines, names: seq<String>)
    requires forall i :: 0 <= i < |pre| ==> !IsLabels(pre[i])
    requires IsLabels(h) && Clean(labs)
    requires |Split(b)| == 0
    ensures OrderPorts(pre + [h] + labs + [b] + rest, names) == Failure(NoTokens(b))
  {
    var step := StepOf(names);
    var r := Renumbered(labs, names);
    var after := St(true, Pending(labs, names, |labs|));
    OutsideRun(pre, names);
    TryThen(pre, h, step, Start, Out(pre, Start), Out([h], St(true, 0)));
    SectionRun(labs, names, |labs|);
    assert labs[..|labs|] == labs && r[..|labs|] == r;
    TryAppend(pre + [h], labs, step, Start, Out(pre + [h], St(true, 0)), Out(r, after));
    BlankStep(names, b, after);
    TryFailsAt(pre + [h] + labs, b, rest, step, Start, Out(pre + [h] + r, after));
  }
}

=== FILE: remove_label.dfy ===
/** Removing labels from a Magic layout (common/remove_label.py,
    `removelabel`). Inside the `<< labels >>` section every label whose
    name (the last token of its line) matches the glob pattern is dropped,
    and so is a `port` line directly after a dropped line. Everything else
    is written back in order. */
module RemoveLabel {
  import opened Wrappers
  import opened Seqs
  import opened Text
  import opened Lines
  import opened Glob

  const Section: String := "<< "
  const Labels: String := "<< labels >>"

  /** A blank line inside the section: `line.split()[-1]` raises. */
  datatype Fault = NoTokens(line: String)

  /** Whether the loop is inside the labels section, and whether it dropped
      the line before (the script's `ignore`, read back as `watch`). */
  datatype St = St(inLabels: bool, dropped: bool)

  const Start := St(false, false)

  predicate IsLabels(line: String) {
    StartsWith(line, Labels)
  }

  predicate IsPort(line: String) {
    StartsWith(line, "port")
  }

  /** The label's name matches the pattern. */
  predicate Matches(text: String, line: String) {
    var t := Split(line);
    |t| > 0 && FnMatch(text, t[|t| - 1])
  }

  function Step(text: String, line: String, st: St): Result<Out<St>, Fault> {
    var watch := st.dropped;
    if IsLabels(line) then Success(Out([line], St(true, false)))
    else if st.inLabels then
      if StartsWith(line, Section) then Success(Out([line], St(false, false)))
      else
        var t := Split(line);
        if |t| == 0 then Failure(NoTokens(line))
        else
          var drop := FnMatch(text, t[|t| - 1]) || (watch && IsPort(line));
          Success(Out(if drop then [] else [line], St(true, drop)))
    else Success(Out([line], St(false, false)))
  }

  function StepOf(text: String): TryStep<St, Fault> {
    (line, st) => Step(text, line, st)
  }

  /** The lines `removelabel` writes back to one file. The script stops
      only on a line that holds no token. */
  function RemoveLabel(lines: Lines, text: String): (r: Result<Lines, Fault>)
    ensures r.Failure? ==> |Split(r.error.line)| == 0
  {
    StepFaults(text);
    TryFaults(lines, StepOf(text), Start, (e: Fault) => |Split(e.line)| == 0);
    match Try(lines, StepOf(text), Start)
    case Failure(e) => Failure(e)
    case Success(o) => Success(o.lines)
  }

  /** A step fails only on a line with no token. */
  lemma StepFaults(text: String)
    ensures forall l, s :: StepOf(text)(l, s).Failure? ==> |Split(StepOf(text)(l, s).error.line)| == 0
  {
  }

  // ---------------------------------------------------------------------
  // Which labels go

  /** Line `i` of the section is dropped: its label matches, or it is a
      `port` line right after a dropped line. */
  predicate Removed(labs: Lines, text: String, i: nat)
    requires i < |labs|
    decreases i
  {
    Matches(text, labs[i]) || (i > 0 && Removed(labs, text, i - 1) && IsPort(labs[i]))
  }

  /** The lines of the section that are not dropped, among the first `k`. */
  function Survivors(labs: Lines, text: String, k: nat): Lines
    requires k <= |labs|
    decreases k
  {
    if k == 0 then []
    else Survivors(labs, text, k - 1) + (if Removed(labs, text, k - 1) then [] else [labs[k - 1]])
  }

  /** The survivors are lines of the section, in order, and none of them
      names a matching label. */
  lemma {:induction false} SurvivorsKept(labs: Lines, text: String, k: nat)
    requires k <= |labs|
    ensures IsSubseq(Survivors(labs, text, k), labs[..k])
    ensures forall x :: x in Survivors(labs, text, k) ==> !Matches(text, x)
    decreases k
  {
    if k > 0 {
      SurvivorsKept(labs, text, k - 1);
      assert labs[..k] == labs[..k - 1] + [labs[k - 1]];
      var prev := Survivors(labs, text, k - 1);
      if Removed(labs, text, k - 1) {
        SubseqExtend(prev, labs[..k - 1], labs[k - 1]);
        assert prev + [] == prev;
      } else {
        SubseqSnoc(prev, labs[..k - 1], labs[k - 1]);
      }
    }
  }

  /** Every line of the section that is not dropped survives. */
  lemma {:induction false} SurvivorsComplete(labs: Lines, text: String, k: nat, i: nat)
    requires i < k <= |labs| && !Removed(labs, text, i)
    ensures labs[i] in Survivors(labs, text, k)
    decreases k
  {
    if i < k - 1 {
      SurvivorsComplete(labs, text, k - 1, i);
    }
  }

  // ---------------------------------------------------------------------
  // Line by line

  /** A line the section can hold without the script raising or leaving
      the section. */
  predicate LabelLine(line: String) {
    !StartsWith(line, Section) && |Split(line)| > 0
  }

  /** The labels header starts a section. */
  lemma {:induction false} LabelsIsSection(line: String)
    ensures IsLabels(line) ==> StartsWith(line, Section)
  {
    if IsLabels(line) {
      assert line[..|Section|] == line[..|Labels|][..|Section|];
    }
  }

  /** Whether the line before line `k` of the section was dropped. */
  predicate After(labs: Lines, text: String, k: nat)
    requires k <= |labs|
  {
    k > 0 && Removed(labs, text, k - 1)
  }

  /** What the loop leaves for line `k` of the section. */
  function Kept(labs: Lines, text: String, k: nat): Out<St>
    requires k < |labs|
  {
    Out(if Removed(labs, text, k) then [] else [labs[k]], St(true, After(labs, text, k + 1)))
  }

  lemma {:induction false} LabelStep(text: String, labs: Lines, k: nat)
    requires k < |labs| && LabelLine(labs[k])
    ensures Step(text, labs[k], St(true, After(labs, text, k))) == Success(Kept(labs, text, k))
  {
    LabelsIsSection(labs[k]);
  }

  /** The section, line by line, leaves its survivors. */
  lemma {:induction false} SectionRun(labs: Lines, text: String, k: nat)
    requires k <= |labs|
    requires forall i :: 0 <= i < |labs| ==> LabelLine(labs[i])
    ensures Try(labs[..k], StepOf(text), St(true, false))
         == Success(Out(Survivors(labs, text, k), St(true, After(labs, text, k))))
    decreases k
  {
    if k > 0 {
      var a := labs[..k - 1];
      assert a + [labs[k - 1]] == labs[..k];
      SectionRun(labs, text, k - 1);
      LabelStep(text, labs, k - 1);
      TryThen(a, labs[k - 1], StepOf(text), St(true, false),
              Out(Survivors(labs, text, k - 1), St(true, After(labs, text, k - 1))), Kept(labs, text, k - 1));
    }
  }

  lemma {:induction false} OutsideRun(pre: Lines, text: String)
    requires forall i :: 0 <= i < |pre| ==> !IsLabels(pre[i])
    ensures Try(pre, StepOf(text), Start) == Success(Out(pre, Start))
  {
    TryCopies(pre, StepOf(text), Start);
  }

  // ---------------------------------------------------------------------
  // The whole file

  /** A file with a labels section: only lines of the section are dropped,
      exactly the ones `Removed` names, and every other line is written
      back in order. */
  lemma {:induction false} RemoveLabelSection(pre: Lines, h: String, labs: Lines, next: String, post: Lines, text: String)
    requires forall i :: 0 <= i < |pre| ==> !IsLabels(pre[i])
    requires IsLabels(h)
    requires forall i :: 0 <= i < |labs| ==> LabelLine(labs[i])
    requires StartsWith(next, Section) && !IsLabels(next)
    requires forall i :: 0 <= i < |post| ==> !IsLabels(post[i])
    ensures RemoveLabel(pre + [h] + labs + [next] + post, text)
         == Success(pre + [h] + Survivors(labs, text, |labs|) + [next] + post)
  {
    var step := StepOf(text);
    var inside := St(true, false);
    var r := After(labs, text, |labs|);
    var kept := Survivors(labs, text, |labs|);
    OutsideRun(pre, text);
    TryThen(pre, h, step, Start, Out(pre, Start), Out([h], inside));
    SectionRun(labs, text, |labs|);
    assert labs[..|labs|] == labs;
    TryAppend(pre + [h], labs, step, Start, Out(pre + [h], inside), Out(kept, St(true, r)));
    TryThen(pre + [h] + labs, next, step, Start, Out(pre + [h] + kept, St(true, r)), Out([next], Start));
    OutsideRun(post, text);
    TryAppend(pre + [h] + labs + [next], post, step, Start, Out(pre + [h] + kept + [next], Start), Out(post, Start));
  }

  /** A file without a labels section is written back unchanged. */
  lemma {:induction false} NoLabels(lines: Lines, text: String)
    requires forall i :: 0 <= i < |lines| ==> !IsLabels(lines[i])
    ensures RemoveLabel(lines, text) == Success(lines)
  {
    OutsideRun(lines, text);
  }

  lemma {:induction false} BlankStep(text: String, b: String, st: St)
    requires st.inLabels && |Split(b)| == 0
    ensures Step(text, b, st) == Failure(NoTokens(b))
  {
    if |b| > 0 {
      assert IsSpace(b[0]);
    }
  }

  /** A blank line in the section stops the script. */
  lemma {:induction false} BlankRaises(pre: Lines, h: String, labs: Lines, b: String, rest: Lines, text: String)
    requires forall i :: 0 <= i < |pre| ==> !IsLabels(pre[i])
    requires IsLabels(h)
    requires forall i :: 0 <= i < |labs| ==> LabelLine(labs[i])
    requires |Split(b)| == 0
    ensures RemoveLabel(pre + [h] + labs + [b] + rest, text) == Failure(NoTokens(b))
  {
    var step := StepOf(text);
    var inside := St(true, false);
    var r := After(labs, text, |labs|);
    var kept := Survivors(labs, text, |labs|);
    OutsideRun(pre, text);
    TryThen(pre, h, step, Start, Out(pre, Start), Out([h], inside));
    SectionRun(labs, text, |labs|);
    assert labs[..|labs|] == labs;
    TryAppend(pre + [h], labs, step, Start, Out(pre + [h], inside), Out(kept, St(true, r)));
    BlankStep(text, b, St(true, r));
    TryFailsAt(pre + [h] + labs, b, rest, step, Start, Out(pre + [h] + kept, St(true, r)));
  }
}

=== FILE: remove_specify.dfy ===
/** Verilog clean-up of `remove_specify` (common/remove_specify.py): join
    backslash-continued lines, then cut every `specify` ... `endspecify`
    block out of the text, and decide whether the result is written. */
module RemoveSpecify {
  import opened Wrappers
  import opened Seqs
  import opened Text

  // ---------------------------------------------------------------------
  // Backslash continuations

  /** `k` backslashes and a newline start `t`. */
  predicate EscAt(t: String, k: nat) {
    k < |t| && t[k] == '\n' && forall j :: 0 <= j < k ==> t[j] == '\\'
  }

  function Backslashes(k: nat): (r: String)
    ensures |r| == k && forall j :: 0 <= j < k ==> r[j] == '\\'
  {
    seq(k, j => '\\')
  }

  /** `re.sub(pattern, '', t)` for the pattern "`k` backslashes, a newline,
      then blanks": scanning from the left, every match is removed. The
      script's pattern `r'\\\\\n[ \t]*'` has `k == 2`. */
  function Unescape(t: String, k: nat): (r: String)
    ensures |r| <= |t|
    decreases |t|
  {
    if |t| == 0 then []
    else if EscAt(t, k) then
      Unescape(t[Skip(t, k + 1, IsBlank)..], k)
    else [t[0]] + Unescape(t[1..], k)
  }

  /** Text without a newline has nothing to join. */
  lemma {:induction false} UnescapeNoNewline(t: String, k: nat)
    requires '\n' !in t
    ensures Unescape(t, k) == t
    decreases |t|
  {
    if |t| > 0 {
      assert '\n' !in t[1..] by {
        forall j | 0 <= j < |t| - 1 ensures t[1..][j] != '\n' {
          assert t[1..][j] == t[j + 1];
        }
      }
      UnescapeNoNewline(t[1..], k);
      assert [t[0]] + t[1..] == t;
    }
  }

  /** The continuation itself: `k` backslashes, a newline and the next
      line's indentation vanish. */
  lemma {:induction false} UnescapeHere(k: nat, pad: String, b: String)
    requires forall j :: 0 <= j < |pad| ==> IsBlank(pad[j])
    requires |b| > 0 ==> !IsBlank(b[0])
    ensures Unescape(Backslashes(k) + "\n" + pad + b, k) == Unescape(b, k)
  {
    var t := Backslashes(k) + "\n" + pad + b;
    var n := k + 1 + |pad|;
    EscShape(k, pad, b);
    UnescapeAt(t, k, n);
  }

  /** Where the pieces of a continuation lie. */
  lemma {:induction false} EscShape(k: nat, pad: String, b: String)
    ensures var t := Backslashes(k) + "\n" + pad + b; var n := k + 1 + |pad|;
      && n <= |t| && EscAt(t, k)
      && (forall i :: k + 1 <= i < n ==> t[i] == pad[i - k - 1])
      && t[n..] == b
  {
    var t := Backslashes(k) + "\n" + pad + b;
    assert t[k] == '\n';
    var n := k + 1 + |pad|;
    assert t[n..] == b;
  }

  /** A continuation at the start of `t` whose indentation ends at `n`. */
  lemma {:induction false} UnescapeAt(t: String, k: nat, n: nat)
    requires EscAt(t, k) && k + 1 <= n <= |t|
    requires forall i :: k + 1 <= i < n ==> IsBlank(t[i])
    requires n < |t| ==> !IsBlank(t[n])
    ensures Unescape(t, k) == Unescape(t[n..], k)
  {
    SkipIs(t, k + 1, n, IsBlank);
  }

  /** A line ending in `k` backslashes is joined to the next one, whose
      indentation is dropped; the line itself is kept as it is. */
  lemma {:induction false} UnescapeJoins(a: String, k: nat, pad: String, b: String)
    requires '\n' !in a
    requires forall j :: 0 <= j < |pad| ==> IsBlank(pad[j])
    requires |b| > 0 ==> !IsBlank(b[0])
    ensures Unescape(a + (Backslashes(k) + "\n" + pad + b), k) == a + Unescape(b, k)
  {
    EscShape(k, pad, b);
    UnescapeKeeps(a, Backslashes(k) + "\n" + pad + b, k);
    UnescapeHere(k, pad, b);
  }

  /** Text without a newline in front of a continuation is kept. */
  lemma {:induction false} UnescapeKeeps(a: String, t: String, k: nat)
    requires '\n' !in a && EscAt(t, k)
    ensures Unescape(a + t, k) == a + Unescape(t, k)
    decreases |a|
  {
    if |a| == 0 {
      assert a + t == t;
    } else {
      assert '\n' !in a[1..] by {
        forall j | 0 <= j < |a| - 1 ensures a[1..][j] != '\n' {
          assert a[1..][j] == a[j + 1];
        }
      }
      UnescapeFront(a, t, k);
      UnescapeKeeps(a[1..], t, k);
      assert [a[0]] + (a[1..] + Unescape(t, k)) == a + Unescape(t, k);
    }
  }

  /** The first character of such text is copied. */
  lemma {:induction false} UnescapeFront(a: String, t: String, k: nat)
    requires |a| > 0 && '\n' !in a && EscAt(t, k)
    ensures Unescape(a + t, k) == [a[0]] + Unescape(a[1..] + t, k)
  {
    var s := a + t;
    assert s[1..] == a[1..] + t && s[0] == a[0];
    assert !EscAt(s, k) by {
      if k < |a| {
        assert s[k] == a[k];
      } else if k < |s| {
        assert s[k] == t[k - |a|] == '\\';
      }
    }
  }

  /** The continuation the script means, one backslash before the
      newline. */
  function JoinLines(t: String): (r: String)
    ensures |r| <= |t|
  {
    Unescape(t, 1)
  }

  /** A single backslash at the end of a line is left alone by the script's
      pattern, which asks for two. */
  lemma {:induction false} AsWrittenKeepsContinuation()
    ensures Unescape("a\\\nb", 2) == "a\\\nb"
    ensures JoinLines("a\\\nb") == "ab"
  {
    var t: String := "a\\\nb";
    assert t[0] == 'a' && t[1] == '\\' && t[2] == '\n' && t[3] == 'b';
    assert !EscAt(t[3..], 2) && !EscAt(t[2..], 2);
    assert !EscAt(t[1..], 2) by {
      assert t[1..][2] == 'b';
    }
    assert !EscAt(t, 2);
    assert Unescape(t[3..], 2) == t[3..] by {
      UnescapeNoNewline(t[3..], 2);
    }
    assert t[2..][1..] == t[3..] && t[1..][1..] == t[2..] && t[1..] == t[1..][..1] + t[2..];
    assert Unescape(t[2..], 2) == t[2..];
    assert Unescape(t[1..], 2) == t[1..];
    assert [t[0]] + t[1..] == t;
    UnescapeJoins("a", 1, "", "b");
    assert Backslashes(1) + "\n" + "" + "b" == t[1..];
    assert "a" + t[1..] == t;
    UnescapeNoNewline("b", 1);
  }

  // ---------------------------------------------------------------------
  // Searching

  /** A match found by `search`: where it starts and what the matcher
      reports about it. */
  datatype Hit<M> = Hit(at: nat, m: M)

  /** `pattern.search(v, from)`: the leftmost position from `from` on where
      `matcher` accepts the text; `matcher(v, k)` looks at `v` from `k` on. */
  function Search<M>(v: String, from: nat, matcher: (String, nat) -> Option<M>): (r: Option<Hit<M>>)
    ensures r.Some? ==> from <= r.value.at < |v| && matcher(v, r.value.at) == Some(r.value.m)
    decreases |v| - from
  {
    if from >= |v| then None
    else
      match matcher(v, from)
      case Some(m) => Some(Hit(from, m))
      case None => Search(v, from + 1, matcher)
  }

  /** The match found is the leftmost one. */
  lemma {:induction false} SearchFirst<M>(v: String, from: nat, matcher: (String, nat) -> Option<M>)
    requires Search(v, from, matcher).Some?
    ensures forall k :: from <= k < Search(v, from, matcher).value.at ==> matcher(v, k).None?
    decreases |v| - from
  {
    if matcher(v, from).None? {
      SearchFirst(v, from + 1, matcher);
    }
  }

  /** The search fails exactly when no position from `from` on matches. */
  lemma {:induction false} SearchNone<M>(v: String, from: nat, matcher: (String, nat) -> Option<M>)
    ensures Search(v, from, matcher).None? <==> forall k :: from <= k < |v| ==> matcher(v, k).None?
    decreases |v| - from
  {
    if from < |v| && matcher(v, from).None? {
      SearchNone(v, from + 1, matcher);
    }
  }

  // ---------------------------------------------------------------------
  // The two patterns

  /** `[ \t\n]` */
  predicate IsGap(c: char) { c == ' ' || c == '\t' || c == '\n' }

  /** The first position from `j` on whose character fails `p`, or the end
      of the text: where a greedy `[...]*` starting at `j` stops. */
  function Skip(v: String, j: nat, p: char -> bool): (r: nat)
    requires j <= |v|
    ensures j <= r <= |v|
    decreases |v| - j
  {
    if j < |v| && p(v[j]) then Skip(v, j + 1, p) else j
  }

  /** Every character `Skip` passes satisfies `p`, and the one it stops at
      does not. */
  lemma {:induction false} SkipStops(v: String, j: nat, p: char -> bool)
    requires j <= |v|
    ensures forall i :: j <= i < Skip(v, j, p) ==> p(v[i])
    ensures Skip(v, j, p) < |v| ==> !p(v[Skip(v, j, p)])
    decreases |v| - j
  {
    if j < |v| && p(v[j]) {
      SkipStops(v, j + 1, p);
    }
  }

  /** Those two facts determine where `Skip` stops. */
  lemma {:induction false} SkipIs(v: String, j: nat, r: nat, p: char -> bool)
    requires j <= r <= |v|
    requires forall i :: j <= i < r ==> p(v[i])
    requires r < |v| ==> !p(v[r])
    ensures Skip(v, j, p) == r
    decreases r - j
  {
    if j < r {
      SkipIs(v, j + 1, r, p);
    }
  }

  /** `Skip` reads only the characters it passes and the one it stops at. */
  lemma {:induction false} SkipLocal(x: String, y: String, j: nat, n: nat, p: char -> bool)
    requires j <= |x| && j <= |y| && Skip(y, j, p) < n <= |x| && n <= |y|
    requires forall i :: j <= i < n ==> x[i] == y[i]
    ensures Skip(x, j, p) == Skip(y, j, p)
    decreases |y| - j
  {
    if p(y[j]) {
      SkipLocal(x, y, j + 1, n, p);
    }
  }

  /** `Skip` on text with something in front of it. */
  lemma {:induction false} SkipShift(a: String, b: String, j: nat, p: char -> bool)
    requires j <= |b|
    ensures Skip(a + b, |a| + j, p) == |a| + Skip(b, j, p)
    decreases |b| - j
  {
    if j < |b| {
      assert (a + b)[|a| + j] == b[j];
      if p(b[j]) {
        SkipShift(a, b, j + 1, p);
      }
    }
  }

  /** Where a `specify` match lies: the end of its keyword and the end of
      the match after the gap, both as positions in the text. */
  datatype Spec = Spec(keyword: nat, end: nat)

  /** `\n[ \t]*specify[ \t\n]+` tried at position `k` of `v`. */
  function SpecAt(v: String, k: nat): (r: Option<Spec>)
    ensures r.Some? ==> k + 8 <= r.value.keyword < r.value.end <= |v|
    ensures r.Some? ==> v[k] == '\n' && IsGap(v[r.value.keyword])
  {
    if k < |v| && v[k] == '\n' then
      var j := Skip(v, k + 1, IsBlank);
      if MatchAt(v, "specify", j) then
        var e := Skip(v, j + 7, IsGap);
        if e == j + 7 then None else Some(Spec(j + 7, e))
      else None
    else None
  }

  /** `\n[ \t]*endspecify` tried at position `k` of `v`; the result is the
      position where the match ends. */
  function EndAt(v: String, k: nat): (r: Option<nat>)
    ensures r.Some? ==> k + 11 <= r.value <= |v| && v[k] == '\n'
  {
    if k < |v| && v[k] == '\n' then
      var j := Skip(v, k + 1, IsBlank);
      if MatchAt(v, "endspecify", j) then Some(j + 10) else None
    else None
  }

  /** No newline lies between the newline that starts a `specify` match
      and the end of its keyword. */
  lemma {:induction false} SpecNoNewline(v: String, k: nat)
    requires SpecAt(v, k).Some?
    ensures forall i :: k < i < SpecAt(v, k).value.keyword ==> v[i] != '\n'
  {
    var j := Skip(v, k + 1, IsBlank);
    SkipStops(v, k + 1, IsBlank);
    forall i | k < i < j + 7 ensures v[i] != '\n' {
      if j <= i {
        assert v[i] == v[j..j + 7][i - j];
      }
    }
  }

  /** A `specify` match is decided by the text up to its keyword and the
      gap character after it: a text that agrees that far matches too. */
  lemma {:induction false} SpecAtLocal(x: String, y: String, k: nat, n: nat)
    requires SpecAt(y, k).Some? && SpecAt(y, k).value.keyword < n <= |x| && n <= |y|
    requires x[..n] == y[..n]
    ensures SpecAt(x, k).Some? && SpecAt(x, k).value.keyword == SpecAt(y, k).value.keyword
  {
    assert forall i :: 0 <= i < n ==> x[i] == y[i] by {
      forall i | 0 <= i < n ensures x[i] == y[i] {
        assert x[..n][i] == y[..n][i];
      }
    }
    var j := Skip(y, k + 1, IsBlank);
    SkipLocal(x, y, k + 1, n, IsBlank);
    assert x[j..j + 7] == y[j..j + 7];
    var g := j + 7;
    assert x[g] == y[g];
    assert Skip(x, g, IsGap) != g;
  }

  /** The `specify` pattern on text in its shape. */
  lemma {:induction false} SpecAtOf(v: String, pad: String, gap: String)
    requires 8 + |pad| + |gap| <= |v| && v[0] == '\n'
    requires forall i :: 1 <= i < 1 + |pad| ==> v[i] == pad[i - 1]
    requires forall i :: 0 <= i < |pad| ==> IsBlank(pad[i])
    requires v[1 + |pad|..8 + |pad|] == "specify"
    requires forall i :: 8 + |pad| <= i < 8 + |pad| + |gap| ==> v[i] == gap[i - 8 - |pad|]
    requires |gap| > 0 && forall i :: 0 <= i < |gap| ==> IsGap(gap[i])
    requires 8 + |pad| + |gap| < |v| ==> !IsGap(v[8 + |pad| + |gap|])
    ensures SpecAt(v, 0) == Some(Spec(8 + |pad|, 8 + |pad| + |gap|))
  {
    var j := 1 + |pad|;
    assert v[j] == "specify"[0];
    SkipIs(v, 1, j, IsBlank);
    SkipIs(v, j + 7, j + 7 + |gap|, IsGap);
  }

  /** The `endspecify` pattern on text in its shape. */
  lemma {:induction false} EndAtOf(v: String, k: nat, pad: String)
    requires k + 11 + |pad| <= |v| && v[k] == '\n'
    requires forall i :: k + 1 <= i < k + 1 + |pad| ==> v[i] == pad[i - k - 1]
    requires forall i :: 0 <= i < |pad| ==> IsBlank(pad[i])
    requires v[k + 1 + |pad|..k + 11 + |pad|] == "endspecify"
    ensures EndAt(v, k) == Some(k + 11 + |pad|)
  {
    var j := k + 1 + |pad|;
    assert v[j] == "endspecify"[0];
    SkipIs(v, k + 1, j, IsBlank);
  }

  /** Conversely, a `specify` match has that shape: the newline, blanks,
      the keyword, a non-empty gap, and no gap character after it. */
  lemma {:induction false} SpecAtShape(v: String, k: nat)
    requires SpecAt(v, k).Some?
    ensures var sp := SpecAt(v, k).value;
      && v[k] == '\n'
      && (forall i :: k < i < sp.keyword - 7 ==> IsBlank(v[i]))
      && v[sp.keyword - 7..sp.keyword] == "specify"
      && (forall i :: sp.keyword <= i < sp.end ==> IsGap(v[i]))
      && (sp.end < |v| ==> !IsGap(v[sp.end]))
  {
    var j := Skip(v, k + 1, IsBlank);
    SkipStops(v, k + 1, IsBlank);
    SkipStops(v, j + 7, IsGap);
  }

  /** Conversely, an `endspecify` match has that shape: the newline, blanks
      and the keyword, ending where the match ends. */
  lemma {:induction false} EndAtShape(v: String, k: nat)
    requires EndAt(v, k).Some?
    ensures var e := EndAt(v, k).value;
      && v[k] == '\n'
      && (forall i :: k < i < e - 10 ==> IsBlank(v[i]))
      && v[e - 10..e] == "endspecify"
  {
    SkipStops(v, k + 1, IsBlank);
  }

  /** The `endspecify` pattern on text with something in front of it. */
  lemma {:induction false} EndAtShift(a: String, b: String, k: nat)
    requires k < |b|
    ensures EndAt(a + b, |a| + k).None? <==> EndAt(b, k).None?
  {
    var v := a + b;
    assert v[|a| + k] == b[k];
    if b[k] == '\n' {
      SkipShift(a, b, k + 1, IsBlank);
      var j := Skip(b, k + 1, IsBlank);
      if j + 10 <= |b| {
        assert v[|a| + j..|a| + j + 10] == b[j..j + 10];
      }
    }
  }

  // ---------------------------------------------------------------------
  // The removal loop

  datatype Fault =
    | NoEndspecify(at: nat)     // `ematch.end()` on a failed search

  /** Where the search for `endspecify` starts, for a `specify` match: the
      script starts it at the end of the match, after the gap, so the gap
      can swallow the newline the end pattern needs. `fixed` starts it at
      the end of the keyword instead. */
  function EndFrom(sp: Spec, fixed: bool): nat {
    if fixed then sp.keyword else sp.end
  }

  /** The text with the characters from `s + 1` up to `e` cut out. */
  function Splice(v: String, s: nat, e: nat): (r: String)
    requires s + 1 < |v| && s + 1 < e
    ensures |r| < |v| && s < |r| && SamePrefix(r, v, s + 1)
  {
    var r := v[..s + 1] + Drop(v, e);
    assert r[..s + 1] == v[..s + 1];
    SamePrefixSlices(r, v, s + 1);
    r
  }

  /** The first `n` characters of `x` and `y` exist and agree. */
  predicate SamePrefix(x: String, y: String, n: nat)
    decreases n
  {
    n == 0 || (n <= |x| && n <= |y| && x[n - 1] == y[n - 1] && SamePrefix(x, y, n - 1))
  }

  lemma {:induction false} SamePrefixSlices(x: String, y: String, n: nat)
    ensures SamePrefix(x, y, n) <==> n <= |x| && n <= |y| && x[..n] == y[..n]
    decreases n
  {
    if n > 0 {
      SamePrefixSlices(x, y, n - 1);
      if n <= |x| && n <= |y| {
        assert x[..n] == x[..n - 1] + [x[n - 1]];
        assert y[..n] == y[..n - 1] + [y[n - 1]];
        if x[..n] == y[..n] {
          assert x[n - 1] == x[..n][n - 1];
          assert x[..n - 1] == x[..n][..n - 1];
          assert y[..n - 1] == y[..n][..n - 1];
        }
      }
    }
  }

  lemma {:induction false} SamePrefixTrans(x: String, y: String, z: String, a: nat, b: nat)
    requires a <= b && SamePrefix(x, y, b) && SamePrefix(y, z, a)
    ensures SamePrefix(x, z, a)
  {
    SamePrefixSlices(x, y, b);
    SamePrefixSlices(y, z, a);
    PrefixAgree(x, y, z, a, b);
    SamePrefixSlices(x, z, a);
  }

  /** What one round of the loop finds: no block, a block with no end
      (the script raises), or the text with the block cut out. */
  datatype Round = NoBlock | NoEnd(at: nat) | Cut(at: nat, text: String)

  /** One round of the loop: cut the first block from the character after
      the newline that starts it through one character past the end of
      `endspecify`. */
  function Step(v: String, fixed: bool): (r: Round)
    ensures r.NoBlock? <==> Search(v, 0, SpecAt).None?
    ensures !r.NoBlock? ==> r.at == Search(v, 0, SpecAt).value.at
    ensures r.Cut? ==> |r.text| < |v| && r.at < |r.text| && SamePrefix(r.text, v, r.at + 1)
  {
    match Search(v, 0, SpecAt)
    case None => NoBlock
    case Some(Hit(s, sp)) =>
      match Search(v, EndFrom(sp, fixed), EndAt)
      case None => NoEnd(s)
      case Some(Hit(_, e)) => Cut(s, Splice(v, s, e + 1))
  }

  /** The script's loop for any round function: run rounds until one
      finds no block or fails. */
  function Loop(v: String, step: String -> Round): (r: Result<String, Fault>)
    requires Shrinks(step)
    ensures r.Success? ==> |r.value| <= |v| && step(r.value).NoBlock?
    decreases |v|
  {
    match step(v)
    case NoBlock => Success(v)
    case NoEnd(at) => Failure(NoEndspecify(at))
    case Cut(_, next) => Loop(next, step)
  }

  /** Every cut shortens the text. */
  ghost predicate Shrinks(step: String -> Round) {
    forall x :: step(x).Cut? ==> |step(x).text| < |x|
  }

  /** Every cut keeps the text up to and including the newline where the
      block started. */
  ghost predicate KeepsFront(step: String -> Round) {
    forall x :: step(x).Cut? ==> SamePrefix(step(x).text, x, step(x).at + 1)
  }

  /** After a cut at `x`, the next cut starts no earlier. */
  predicate Follows(step: String -> Round, x: String) {
    step(x).Cut? && step(step(x).text).Cut? ==> step(x).at <= step(step(x).text).at
  }

  ghost predicate Ordered(step: String -> Round) {
    forall x {:trigger Follows(step, x)} :: Follows(step, x)
  }

  /** The text in front of the first cut survives the whole loop. */
  lemma {:induction false} LoopKeeps(v: String, step: String -> Round)
    requires Shrinks(step) && KeepsFront(step) && Ordered(step)
    requires step(v).Cut? && Loop(v, step).Success?
    ensures SamePrefix(Loop(v, step).value, v, step(v).at + 1)
    decreases |v|
  {
    var next := step(v).text;
    assert Loop(v, step) == Loop(next, step);
    if step(next).Cut? {
      LoopKeeps(next, step);
      assert Follows(step, v);
      SamePrefixTrans(Loop(next, step).value, next, v, step(v).at + 1, step(next).at + 1);
    } else {
      assert Loop(next, step) == Success(next);
    }
  }

  /** One round of the script, `fixed` or as written. */
  function StepOf(fixed: bool): String -> Round {
    v => Step(v, fixed)
  }

  lemma {:induction false} StepFacts(fixed: bool)
    ensures Shrinks(StepOf(fixed)) && KeepsFront(StepOf(fixed)) && Ordered(StepOf(fixed))
  {
    forall x ensures Follows(StepOf(fixed), x) {
      if Step(x, fixed).Cut? && Step(Step(x, fixed).text, fixed).Cut? {
        StepOrder(x, fixed);
      }
    }
  }

  /** The loop: cut blocks until no `specify` match is left. */
  function RemoveBlocks(v: String, fixed: bool): (r: Result<String, Fault>)
    ensures r.Success? ==> |r.value| <= |v| && Search(r.value, 0, SpecAt).None?
  {
    StepFacts(fixed);
    Loop(v, StepOf(fixed))
  }

  /** What the script is meant to compute from the file's text: lines
      ending in one backslash joined to the next, then the blocks removed
      with the `endspecify` search starting at the end of the keyword. */
  function RemoveSpecify(vtext: String): (r: Result<String, Fault>)
    ensures r.Success? ==> forall k :: 0 <= k < |r.value| ==> SpecAt(r.value, k).None?
    ensures (forall k :: 0 <= k < |JoinLines(vtext)| ==> SpecAt(JoinLines(vtext), k).None?)
              ==> r == Success(JoinLines(vtext))
  {
    var v := JoinLines(vtext);
    BlocksOutcome(v, true);
    RemoveBlocks(v, true)
  }

  /** `RemovesAll` and `NoBlockUnchanged` together, for any text. */
  lemma BlocksOutcome(v: String, fixed: bool)
    ensures RemoveBlocks(v, fixed).Success? ==>
              forall k :: 0 <= k < |RemoveBlocks(v, fixed).value| ==> SpecAt(RemoveBlocks(v, fixed).value, k).None?
    ensures (forall k :: 0 <= k < |v| ==> SpecAt(v, k).None?) ==> RemoveBlocks(v, fixed) == Success(v)
  {
    if RemoveBlocks(v, fixed).Success? {
      RemovesAll(v, fixed, RemoveBlocks(v, fixed).value);
    }
    if forall k :: 0 <= k < |v| ==> SpecAt(v, k).None? {
      NoBlockUnchanged(v, fixed);
    }
  }

  /** The loop ends with no `specify` match anywhere in the text. */
  lemma {:induction false} RemovesAll(v: String, fixed: bool, r: String)
    requires RemoveBlocks(v, fixed) == Success(r)
    ensures forall k :: 0 <= k < |r| ==> SpecAt(r, k).None?
  {
    SearchNone(r, 0, SpecAt);
  }

  /** Text without a `specify` match is left as it is. */
  lemma {:induction false} NoBlockUnchanged(v: String, fixed: bool)
    requires forall k :: 0 <= k < |v| ==> SpecAt(v, k).None?
    ensures RemoveBlocks(v, fixed) == Success(v)
  {
    SearchNone(v, 0, SpecAt);
  }

  /** The first `specify` match starts at `s`. */
  predicate FirstBlock(v: String, s: nat) {
    SpecAt(v, s).Some? && forall k :: 0 <= k < s ==> SpecAt(v, k).None?
  }

  lemma {:induction false} FirstBlockFound(v: String, s: nat)
    requires FirstBlock(v, s)
    ensures Search(v, 0, SpecAt).Some? && Search(v, 0, SpecAt).value.at == s
  {
    SearchNone(v, 0, SpecAt);
    SearchFirst(v, 0, SpecAt);
  }

  /** After a cut, no `specify` match starts before the newline that
      started the block that was cut. */
  lemma {:induction false} CutKeepsOrder(v: String, next: String, s: nat)
    requires s < |v| && s < |next| && v[s] == '\n' && next[..s + 1] == v[..s + 1]
    requires forall k :: 0 <= k < s ==> SpecAt(v, k).None?
    ensures forall k :: 0 <= k < s ==> SpecAt(next, k).None?
  {
    forall k | 0 <= k < s ensures SpecAt(next, k).None? {
      if SpecAt(next, k).Some? {
        SpecNoNewline(next, k);
        assert next[s] == v[s] by {
          assert next[..s + 1][s] == v[..s + 1][s];
        }
        SpecAtLocal(v, next, k, s + 1);
        assert false;
      }
    }
  }

  /** The first block of the text left by a cut starts no earlier than
      the one that was cut. */
  lemma {:induction false} NextBlock(v: String, next: String, s: nat)
    requires FirstBlock(v, s)
    requires s < |next| && next[..s + 1] == v[..s + 1]
    requires Search(next, 0, SpecAt).Some?
    ensures s <= Search(next, 0, SpecAt).value.at
    ensures FirstBlock(next, Search(next, 0, SpecAt).value.at)
  {
    CutKeepsOrder(v, next, s);
    SearchFirst(next, 0, SpecAt);
  }

  /** The next round's block starts no earlier than this round's. */
  lemma {:induction false} StepOrder(v: String, fixed: bool)
    requires Step(v, fixed).Cut? && Step(Step(v, fixed).text, fixed).Cut?
    ensures Step(v, fixed).at <= Step(Step(v, fixed).text, fixed).at
  {
    var s := Step(v, fixed).at;
    var next := Step(v, fixed).text;
    SearchFirst(v, 0, SpecAt);
    assert FirstBlock(v, s);
    SamePrefixSlices(next, v, s + 1);
    NextBlock(v, next, s);
  }

  /** A round that finds no end makes the loop raise. */
  lemma RoundFails(v: String, fixed: bool)
    requires Step(v, fixed).NoEnd?
    ensures RemoveBlocks(v, fixed) == Failure(NoEndspecify(Step(v, fixed).at))
  {
  }

  /** A round that cuts hands what is left to the next round. */
  lemma RoundCuts(v: String, fixed: bool)
    requires Step(v, fixed).Cut?
    ensures RemoveBlocks(v, fixed) == RemoveBlocks(Step(v, fixed).text, fixed)
  {
  }

  /** A round whose `endspecify` search fails. */
  lemma StepNoEnd(v: String, fixed: bool, s: nat, sp: Spec)
    requires Search(v, 0, SpecAt) == Some(Hit(s, sp))
    requires Search(v, EndFrom(sp, fixed), EndAt).None?
    ensures Step(v, fixed) == NoEnd(s)
  {
  }

  /** A cut removes exactly one block: it starts after the newline of the
      first `specify` match and ends one character past the first
      `endspecify` match from where the search starts; everything in front
      of it and everything after it is kept. */
  lemma {:induction false} StepCut(v: String, fixed: bool)
    requires Step(v, fixed).Cut?
    ensures var s := Step(v, fixed).at;
      && SpecAt(v, s).Some?
      && exists k :: && EndFrom(SpecAt(v, s).value, fixed) <= k < |v| && EndAt(v, k).Some?
                     && (forall j :: EndFrom(SpecAt(v, s).value, fixed) <= j < k ==> EndAt(v, j).None?)
                     && Step(v, fixed).text == v[..s + 1] + Drop(v, EndAt(v, k).value + 1)
  {
    var h := Search(v, 0, SpecAt).value;
    var sp := h.m;
    assert SpecAt(v, h.at) == Some(sp);
    var end := Search(v, EndFrom(sp, fixed), EndAt).value;
    SearchFirst(v, EndFrom(sp, fixed), EndAt);
    var k := end.at;
    assert EndAt(v, k) == Some(end.m);
    assert Step(v, fixed) == Cut(h.at, Splice(v, h.at, end.m + 1));
    assert sp.keyword <= EndFrom(sp, fixed) <= k < |v|;
  }

  /** The text in front of the first block, with the newline that starts
      it, is kept by the whole loop. */
  lemma {:induction false} KeepsPrefix(v: String, fixed: bool, s: nat, r: String)
    requires FirstBlock(v, s)
    requires RemoveBlocks(v, fixed) == Success(r)
    ensures s < |r| && r[..s + 1] == v[..s + 1]
  {
    FirstBlockFound(v, s);
    StepFacts(fixed);
    var step := StepOf(fixed);
    assert Loop(v, step) == Success(r);
    assert step(v) == Step(v, fixed) && !step(v).NoBlock?;
    assert step(v).Cut? && step(v).at == s;
    LoopKeeps(v, step);
    SamePrefixSlices(r, v, s + 1);
  }

  lemma {:induction false} PrefixAgree(x: String, y: String, z: String, a: nat, b: nat)
    requires a <= b <= |x| && b <= |y| && a <= |z|
    requires x[..b] == y[..b] && y[..a] == z[..a]
    ensures x[..a] == z[..a]
  {
    assert x[..a] == x[..b][..a];
    assert y[..a] == y[..b][..a];
  }

  // ---------------------------------------------------------------------
  // Finding: an empty block

  /** The block that opens the text: a `specify` line followed directly by
      its `endspecify` line. */
  function EmptyHead(pad: String, pad2: String): String {
    "\n" + pad + "specify" + "\n" + pad2 + "endspecify"
  }

  /** Where each piece of a text that opens with an empty block lies:
      the `specify` keyword ends at `8 + |pad|`, the `endspecify` line's
      indentation ends at `9 + |pad| + |pad2|`, and `rest` follows. */
  predicate EmptyShaped(v: String, pad: String, pad2: String, rest: String) {
    var kw := 8 + |pad|;
    var en := kw + 1 + |pad2|;
    && |v| == en + 10 + |rest| && v[0] == '\n' && v[kw] == '\n'
    && (forall i :: 1 <= i < 1 + |pad| ==> v[i] == pad[i - 1])
    && v[1 + |pad|..kw] == "specify"
    && (forall i :: kw + 1 <= i < en ==> v[i] == pad2[i - kw - 1])
    && v[en..en + 10] == "endspecify"
    && v[en + 10..] == rest
  }

  lemma {:induction false} EmptyShape(pad: String, pad2: String, rest: String)
    ensures EmptyShaped(EmptyHead(pad, pad2) + rest, pad, pad2, rest)
  {
    Parts("\n", pad, "specify", "\n", pad2, "endspecify", rest);
  }

  /** Where each of seven pieces of a concatenation lies. */
  lemma {:induction false} Parts(a: String, p: String, w: String, b: String, q: String, x: String, r: String)
    ensures var v := a + p + w + b + q + x + r;
      var i1 := |a|; var i2 := i1 + |p|; var i3 := i2 + |w|; var i4 := i3 + |b|;
      var i5 := i4 + |q|; var i6 := i5 + |x|;
      && |v| == i6 + |r|
      && (forall i :: 0 <= i < i1 ==> v[i] == a[i])
      && (forall i :: i1 <= i < i2 ==> v[i] == p[i - i1])
      && v[i2..i3] == w
      && (forall i :: i3 <= i < i4 ==> v[i] == b[i - i3])
      && (forall i :: i4 <= i < i5 ==> v[i] == q[i - i4])
      && v[i5..i6] == x
      && v[i6..] == r
  {
    var v := a + p + w + b + q + x + r;
    var i1 := |a|;
    var i2 := i1 + |p|;
    var i3 := i2 + |w|;
    var i5 := i3 + |b| + |q|;
    var i6 := i5 + |x|;
    assert v[i2..i3] == w by {
      forall i | 0 <= i < |w| ensures v[i2..i3][i] == w[i] {
        assert v[i2 + i] == w[i];
      }
    }
    assert v[i5..i6] == x by {
      forall i | 0 <= i < |x| ensures v[i5..i6][i] == x[i] {
        assert v[i5 + i] == x[i];
      }
    }
    assert v[i6..] == r by {
      forall i | 0 <= i < |r| ensures v[i6..][i] == r[i] {
        assert v[i6 + i] == r[i];
      }
    }
  }

  /** The first `specify` match of such a text is the one at its start,
      and its gap takes in the newline after `specify`. */
  lemma {:induction false} EmptySpec(v: String, pad: String, pad2: String, rest: String)
    requires EmptyShaped(v, pad, pad2, rest)
    requires forall i :: 0 <= i < |pad| ==> IsBlank(pad[i])
    requires forall i :: 0 <= i < |pad2| ==> IsBlank(pad2[i])
    ensures Search(v, 0, SpecAt) == Some(Hit(0, Spec(8 + |pad|, 9 + |pad| + |pad2|)))
  {
    var kw := 8 + |pad|;
    var en := kw + 1 + |pad2|;
    var gap := "\n" + pad2;
    assert forall i :: kw <= i < en ==> v[i] == gap[i - kw];
    assert v[en] == v[en..en + 10][0];
    SpecAtOf(v, pad, gap);
  }

  /** `EndAt` on the text from `m` on, where it holds `rest`. */
  lemma {:induction false} EndAtFrom(v: String, m: nat, rest: String, k: nat)
    requires m <= |v| && v[m..] == rest && k < |rest|
    ensures EndAt(v, m + k).None? <==> EndAt(rest, k).None?
  {
    assert v == v[..m] + rest;
    EndAtShift(v[..m], rest, k);
  }

  /** The script's search for `endspecify`, from the end of the `specify`
      match, finds nothing. */
  lemma {:induction false} EmptyNoEnd(v: String, pad: String, pad2: String, rest: String)
    requires EmptyShaped(v, pad, pad2, rest)
    requires forall k :: 0 <= k < |rest| ==> EndAt(rest, k).None?
    ensures Search(v, 9 + |pad| + |pad2|, EndAt).None?
  {
    var en := 9 + |pad| + |pad2|;
    forall k | en <= k < |v| ensures EndAt(v, k).None? {
      if k < en + 10 {
        assert v[k] == v[en..en + 10][k - en];
      } else {
        EndAtFrom(v, en + 10, rest, k - en - 10);
      }
    }
    SearchNone(v, en, EndAt);
  }

  /** The corrected search, from the end of the keyword, finds the
      `endspecify` line. */
  lemma {:induction false} EmptyEnd(v: String, pad: String, pad2: String, rest: String)
    requires EmptyShaped(v, pad, pad2, rest)
    requires forall i :: 0 <= i < |pad2| ==> IsBlank(pad2[i])
    ensures Search(v, 8 + |pad|, EndAt).Some?
    ensures Search(v, 8 + |pad|, EndAt).value.m == 19 + |pad| + |pad2|
  {
    EndAtOf(v, 8 + |pad|, pad2);
  }

  /** The script's search for `endspecify` starts after the newline it
      needs, so the file is rejected; the corrected search cuts the block
      and the character after it. */
  lemma {:induction false} EmptyBlockAsWritten(pad: String, pad2: String, rest: String)
    requires forall i :: 0 <= i < |pad| ==> IsBlank(pad[i])
    requires forall i :: 0 <= i < |pad2| ==> IsBlank(pad2[i])
    requires forall k :: 0 <= k < |rest| ==> EndAt(rest, k).None?
    ensures RemoveBlocks(EmptyHead(pad, pad2) + rest, false) == Failure(NoEndspecify(0))
    ensures Step(EmptyHead(pad, pad2) + rest, true) == Cut(0, "\n" + Drop(rest, 1))
  {
    var v := EmptyHead(pad, pad2) + rest;
    EmptyShape(pad, pad2, rest);
    EmptyFails(v, pad, pad2, rest);
    EmptyCuts(v, pad, pad2, rest);
  }

  /** `EmptyBlockAsWritten` for any text of that shape: the script's
      round fails. */
  lemma {:induction false} EmptyFails(v: String, pad: String, pad2: String, rest: String)
    requires EmptyShaped(v, pad, pad2, rest)
    requires forall i :: 0 <= i < |pad| ==> IsBlank(pad[i])
    requires forall i :: 0 <= i < |pad2| ==> IsBlank(pad2[i])
    requires forall k :: 0 <= k < |rest| ==> EndAt(rest, k).None?
    ensures RemoveBlocks(v, false) == Failure(NoEndspecify(0))
  {
    EmptySpec(v, pad, pad2, rest);
    EmptyNoEnd(v, pad, pad2, rest);
    StepNoEnd(v, false, 0, Spec(8 + |pad|, 9 + |pad| + |pad2|));
    RoundFails(v, false);
  }

  /** `EmptyBlockAsWritten` for any text of that shape: the corrected
      round cuts. */
  lemma {:induction false} EmptyCuts(v: String, pad: String, pad2: String, rest: String)
    requires EmptyShaped(v, pad, pad2, rest)
    requires forall i :: 0 <= i < |pad| ==> IsBlank(pad[i])
    requires forall i :: 0 <= i < |pad2| ==> IsBlank(pad2[i])
    ensures Step(v, true) == Cut(0, "\n" + Drop(rest, 1))
  {
    EmptySpec(v, pad, pad2, rest);
    EmptyEnd(v, pad, pad2, rest);
    var e := 19 + |pad| + |pad2|;
    assert Step(v, true) == Cut(0, v[..1] + Drop(v, e + 1));
    assert v[..1] == "\n";
    DropRest(v, e, rest);
  }

  lemma DropRest(v: String, m: nat, rest: String)
    requires m <= |v| && v[m..] == rest
    ensures Drop(v, m + 1) == Drop(rest, 1)
  {
  }

  /** The smallest such file: `"\nspecify\nendspecify\n"`. */
  lemma {:induction false} EmptyBlockExample()
    ensures EmptyHead("", "") + "\n" == "\nspecify\nendspecify\n"
    ensures RemoveBlocks(EmptyHead("", "") + "\n", false).Failure?
    ensures RemoveBlocks(EmptyHead("", "") + "\n", true) == Success("\n")
  {
    SmallestText();
    var v := EmptyHead("", "") + "\n";
    assert EndAt("\n", 0).None?;
    EmptyBlockAsWritten("", "", "\n");
    NewlineLeft(v);
  }

  /** Cutting the block leaves a single newline, which has no block. */
  lemma {:induction false} NewlineLeft(v: String)
    requires Step(v, true) == Cut(0, "\n" + Drop("\n", 1))
    ensures RemoveBlocks(v, true) == Success("\n")
  {
    assert "\n" + Drop("\n", 1) == "\n";
    RoundCuts(v, true);
    assert SpecAt("\n", 0).None?;
    NoBlockUnchanged("\n", true);
  }

  lemma SmallestText()
    ensures EmptyHead("", "") + "\n" == "\nspecify\nendspecify\n"
  {
  }

  // ---------------------------------------------------------------------
  // Writing

  /** Where the result goes, if anywhere: the output file (the input file
      when none is given) is written when the text changed or when it is a
      different file. */
  function WriteTo(vfile: String, outfile: Option<String>, vtext: String, vlines: String): (r: Option<String>)
    ensures r.Some? ==> r.value == (if outfile.Some? then outfile.value else vfile)
    ensures r.None? <==> vlines == vtext && (outfile.None? || outfile.value == vfile)
  {
    var out := if outfile.Some? then outfile.value else vfile;
    if vlines != vtext then Some(out)
    else if out != vfile then Some(out)
    else None
  }
}

=== FILE: seqs.dfy ===
/** Order-preserving selection over sequences: the reference definitions the
    line and token filters are compared against. */
module Seqs {

  /** The elements of `s` that satisfy `p`, in their original order. */
  function Filter<T>(s: seq<T>, p: T -> bool): (r: seq<T>)
    ensures |r| <= |s|
    ensures forall i :: 0 <= i < |r| ==> p(r[i])
    decreases |s|
  {
    if |s| == 0 then []
    else if p(s[0]) then [s[0]] + Filter(s[1..], p)
    else Filter(s[1..], p)
  }

  lemma {:induction false} FilterAppend<T>(a: seq<T>, b: seq<T>, p: T -> bool)
    ensures Filter(a + b, p) == Filter(a, p) + Filter(b, p)
    decreases |a|
  {
    if |a| > 0 {
      assert (a + b)[1..] == a[1..] + b;
      FilterAppend(a[1..], b, p);
    } else {
      assert a + b == b;
    }
  }

  lemma {:induction false} FilterSnoc<T>(s: seq<T>, x: T, p: T -> bool)
    ensures Filter(s + [x], p) == if p(x) then Filter(s, p) + [x] else Filter(s, p)
  {
    FilterAppend(s, [x], p);
    assert [x][1..] == [];
    if !p(x) {
      assert Filter(s, p) + [] == Filter(s, p);
    }
  }

  /** Splitting `s` by a predicate and its complement loses nothing,
      counted with multiplicity. */
  lemma {:induction false} FilterPartition<T>(s: seq<T>, p: T -> bool, q: T -> bool)
    requires forall x :: q(x) == !p(x)
    ensures multiset(Filter(s, p)) + multiset(Filter(s, q)) == multiset(s)
    ensures |Filter(s, p)| + |Filter(s, q)| == |s|
    decreases |s|
  {
    if |s| > 0 {
      FilterPartition(s[1..], p, q);
      assert s == [s[0]] + s[1..];
    }
  }

  /** Filtering twice is filtering once by the conjunction. */
  lemma {:induction false} FilterCompose<T>(s: seq<T>, p: T -> bool, q: T -> bool, pq: T -> bool)
    requires forall x :: pq(x) == (p(x) && q(x))
    ensures Filter(Filter(s, p), q) == Filter(s, pq)
    decreases |s|
  {
    if |s| > 0 {
      FilterCompose(s[1..], p, q, pq);
      if p(s[0]) {
        assert Filter(s, p) == [s[0]] + Filter(s[1..], p);
        assert Filter(s, p)[1..] == Filter(s[1..], p);
      }
    }
  }

  /** A filter that every element passes changes nothing. */
  lemma {:induction false} FilterAllKept<T>(s: seq<T>, p: T -> bool)
    requires forall i :: 0 <= i < |s| ==> p(s[i])
    ensures Filter(s, p) == s
    decreases |s|
  {
    if |s| > 0 {
      FilterAllKept(s[1..], p);
      assert s == [s[0]] + s[1..];
    }
  }

  /** A filter that no element passes is empty. */
  lemma {:induction false} FilterNoneKept<T>(s: seq<T>, p: T -> bool)
    requires forall i :: 0 <= i < |s| ==> !p(s[i])
    ensures Filter(s, p) == []
    decreases |s|
  {
    if |s| > 0 {
      FilterNoneKept(s[1..], p);
    }
  }

  /** Every element of the input that passes the test is in the filter. */
  lemma {:induction false} FilterHas<T>(s: seq<T>, p: T -> bool, x: T)
    requires x in s && p(x)
    ensures x in Filter(s, p)
    decreases |s|
  {
    if s[0] != x {
      assert x in s[1..];
      FilterHas(s[1..], p, x);
    }
  }

  /** Python's clamped slice `s[:n]`. */
  function Take<T>(s: seq<T>, n: nat): (r: seq<T>)
    ensures |r| == if n <= |s| then n else |s|
    ensures r == s[..|r|]
  {
    if n <= |s| then s[..n] else s
  }

  /** Python's clamped slice `s[n:]`. */
  function Drop<T>(s: seq<T>, n: nat): (r: seq<T>)
    ensures Take(s, n) + r == s
  {
    if n <= |s| then s[n..] else []
  }

  /** The three pieces of a concatenation are its slices. */
  lemma Assoc<T>(a: seq<T>, b: seq<T>, c: seq<T>)
    ensures a + (b + c) == a + b + c
  {
  }

  /** A three-piece middle regrouped. */
  lemma AssocMiddle<T>(a: seq<T>, b: seq<T>, c: seq<T>, d: seq<T>, e: seq<T>)
    ensures a + (b + c + d) + e == a + b + c + d + e
  {
  }

  /** A two-piece middle regrouped. */
  lemma AssocPair<T>(a: seq<T>, c: seq<T>, d: seq<T>, e: seq<T>)
    ensures a + (c + d) + e == a + c + d + e
  {
  }

  /** Appending two elements one at a time or together. */
  lemma SnocTwo<T>(b: seq<T>, x: T, y: T)
    ensures b + [x] + [y] == b + [x, y]
  {
  }

  lemma ThreeParts<T>(d: seq<T>, a: seq<T>, b: seq<T>, c: seq<T>)
    requires d == a + b + c
    ensures |d| == |a| + |b| + |c|
    ensures d[..|a|] == a && d[|a|..|a| + |b|] == b && d[|a| + |b|..] == c
  {
  }

  /** `Take` and `Drop` within bounds are plain slices. */
  lemma TakeDropIn<T>(s: seq<T>, i: nat, j: nat)
    requires i <= j <= |s|
    ensures Take(s, i) == s[..i] && Drop(s, j) == s[j..]
  {
  }

  /** `d[:s] + cell + d[e:]` keeps `d` before `s` and from `e` on. */
  lemma {:induction false} SpliceKeeps<T>(d: seq<T>, s: nat, cell: seq<T>, e: nat, out: seq<T>)
    requires s <= |d| && e <= |d| && out == Take(d, s) + cell + Drop(d, e)
    ensures |out| == s + |cell| + |d| - e
    ensures out[..s] == d[..s] && out[s..s + |cell|] == cell && out[s + |cell|..] == d[e..]
  {
    ThreeParts(out, d[..s], cell, d[e..]);
  }

  /** `a` can be obtained from `b` by deleting elements. */
  predicate IsSubseq<T(==)>(a: seq<T>, b: seq<T>)
    decreases |b|
  {
    if |a| == 0 then true
    else if |b| == 0 then false
    else if a[0] == b[0] then IsSubseq(a[1..], b[1..])
    else IsSubseq(a, b[1..])
  }

  lemma {:induction false} FilterIsSubseq<T>(s: seq<T>, p: T -> bool)
    ensures IsSubseq(Filter(s, p), s)
    decreases |s|
  {
    if |s| > 0 {
      FilterIsSubseq(s[1..], p);
      if !p(s[0]) {
        var f := Filter(s[1..], p);
        if |f| > 0 {
          assert p(f[0]);
          assert f[0] != s[0];
        }
      }
    }
  }

  /** A subsequence is no longer than the sequence it comes from. */
  lemma {:induction false} SubseqLength<T>(a: seq<T>, b: seq<T>)
    requires IsSubseq(a, b)
    ensures |a| <= |b|
    decreases |b|
  {
    if |a| > 0 {
      if a[0] == b[0] {
        SubseqLength(a[1..], b[1..]);
      } else {
        SubseqLength(a, b[1..]);
      }
    }
  }

  lemma {:induction false} SubseqMember<T>(a: seq<T>, b: seq<T>, x: T)
    requires IsSubseq(a, b) && x in a
    ensures x in b
    decreases |b|
  {
    if a[0] == b[0] {
      if x != a[0] {
        assert x in a[1..];
        SubseqMember(a[1..], b[1..], x);
      }
    } else {
      SubseqMember(a, b[1..], x);
    }
  }

  /** Every element of a filter comes from the input and passes the test. */
  lemma {:induction false} FilterMember<T>(s: seq<T>, p: T -> bool, x: T)
    requires x in Filter(s, p)
    ensures x in s && p(x)
  {
    FilterIsSubseq(s, p);
    SubseqMember(Filter(s, p), s, x);
  }

  function Reverse<T>(s: seq<T>): (r: seq<T>)
    ensures |r| == |s|
    ensures forall i :: 0 <= i < |s| ==> r[i] == s[|s| - 1 - i]
    decreases |s|
  {
    if |s| == 0 then [] else [s[|s| - 1]] + Reverse(s[..|s| - 1])
  }

  lemma {:induction false} ReverseSnoc<T>(s: seq<T>, x: T)
    ensures Reverse(s + [x]) == [x] + Reverse(s)
  {
    assert (s + [x])[..|s|] == s;
  }

  /** Index of the first element of `s` that is equal to `x`, as Python's
      `list.index`; `|s|` when there is none. */
  function IndexOf<T(==)>(s: seq<T>, x: T): (i: nat)
    ensures i <= |s|
    ensures i < |s| ==> s[i] == x
    ensures forall j :: 0 <= j < i ==> s[j] != x
    ensures i == |s| <==> x !in s
    decreases |s|
  {
    if |s| == 0 then 0 else if s[0] == x then 0 else 1 + IndexOf(s[1..], x)
  }

  lemma {:induction false} SubseqSnoc<T>(a: seq<T>, b: seq<T>, x: T)
    requires IsSubseq(a, b)
    ensures IsSubseq(a + [x], b + [x])
    decreases |b|
  {
    if |a| == 0 {
      if |b| > 0 && b[0] != x {
        assert (b + [x])[1..] == b[1..] + [x];
        SubseqSnoc(a, b[1..], x);
      }
    } else {
      assert (a + [x])[0] == a[0] && (a + [x])[1..] == a[1..] + [x];
      assert (b + [x])[0] == b[0] && (b + [x])[1..] == b[1..] + [x];
      if a[0] == b[0] {
        SubseqSnoc(a[1..], b[1..], x);
      } else {
        SubseqSnoc(a, b[1..], x);
      }
    }
  }

  lemma {:induction false} SubseqExtend<T>(a: seq<T>, b: seq<T>, x: T)
    requires IsSubseq(a, b)
    ensures IsSubseq(a, b + [x])
    decreases |b|
  {
    if |a| > 0 && |b| > 0 {
      assert (b + [x])[0] == b[0] && (b + [x])[1..] == b[1..] + [x];
      if a[0] == b[0] {
        SubseqExtend(a[1..], b[1..], x);
      } else {
        SubseqExtend(a, b[1..], x);
      }
    }
  }

  lemma {:induction false} SubseqRefl<T>(a: seq<T>)
    ensures IsSubseq(a, a)
    decreases |a|
  {
    if |a| > 0 {
      SubseqRefl(a[1..]);
    }
  }

  /** Dropping the first element of a subsequence leaves a subsequence. */
  lemma {:induction false} SubseqTail<T>(a: seq<T>, b: seq<T>)
    requires IsSubseq(a, b) && |a| > 0
    ensures IsSubseq(a[1..], b)
    decreases |b|, 1
  {
    if a[0] == b[0] {
      if |a[1..]| > 0 {
        SubseqTail(a[1..], b[1..]);
        SubseqPrefixOne(a[1..], b);
      }
    } else {
      SubseqTail(a, b[1..]);
      SubseqPrefixOne(a[1..], b);
    }
  }

  /** One more element in front of the longer sequence. */
  lemma {:induction false} SubseqPrefixOne<T>(a: seq<T>, b: seq<T>)
    requires |b| > 0 && IsSubseq(a, b[1..])
    ensures IsSubseq(a, b)
    decreases |b|, 0
  {
    if |a| > 0 && a[0] == b[0] {
      SubseqTail(a, b[1..]);
    }
  }

  /** Elements in front of the longer sequence do not matter. */
  lemma {:induction false} SubseqPrepend<T>(a: seq<T>, y: seq<T>, b: seq<T>)
    requires IsSubseq(a, b)
    ensures IsSubseq(a, y + b)
    decreases |y|
  {
    if |y| > 0 {
      SubseqPrepend(a, y[1..], b);
      assert (y + b)[1..] == y[1..] + b;
      SubseqPrefixOne(a, y + b);
    } else {
      assert y + b == b;
    }
  }
}

=== FILE: subckt_params.dfy ===
/** Splitting a SPICE parameter line (common/fix_subckt_params.py,
    `param_split`). A `.param` line or a `+` continuation line is read as a
    list of parameters, each a name and the text after it (` = value `, or
    only the blanks after a bare name). Parameters whose name is selected
    go to a second line that starts with `+ `; the others stay on the first,
    which keeps the `.param` prefix. The text of every parameter is carried
    over unchanged. */
module SubcktParams {
  import opened Wrappers
  import opened Seqs
  import opened Text

  /** `[^= \t]`: a character of a parameter name. */
  predicate NameChar(c: char) {
    c != '=' && !IsBlank(c)
  }

  /** Length of the leading run of name characters. */
  function NameLen(s: String): (n: nat)
    ensures n <= |s|
    ensures forall k :: 0 <= k < n ==> NameChar(s[k])
    ensures n < |s| ==> !NameChar(s[n])
    decreases |s|
  {
    if |s| == 0 || !NameChar(s[0]) then 0 else 1 + NameLen(s[1..])
  }

  /** Length of the text `.` matches: everything up to a newline. */
  function LineLen(s: String): (n: nat)
    ensures n <= |s|
    ensures forall k :: 0 <= k < n ==> s[k] != '\n'
    ensures n < |s| ==> s[n] == '\n'
    decreases |s|
  {
    if |s| == 0 || s[0] == '\n' then 0 else 1 + LineLen(s[1..])
  }

  predicate OneLine(s: String) {
    forall k :: 0 <= k < |s| ==> s[k] != '\n'
  }

  /** A parameter: its name (group 1) and the text after it (group 2). */
  datatype Param = Param(name: String, text: String)

  /** A parameter matched at the head of the text, and the text after it. */
  datatype Cut = Cut(param: Param, rest: String)

  /** The parameters read from the text, and the text left over that no
      pattern matches. */
  datatype Scanned = Scanned(params: seq<Param>, left: String)

  /** The two lines `param_split` returns. */
  datatype Parts = Parts(first: String, second: String)

  /** The text a parameter stands for on the line. */
  function Whole(p: Param): String {
    p.name + p.text
  }

  /** The parameters, written out one after the other. */
  function Flat(ps: seq<Param>): (s: String)
    decreases |ps|
  {
    if |ps| == 0 then [] else Whole(ps[0]) + Flat(ps[1..])
  }

  /** Only blanks. */
  predicate AllBlank(s: String) {
    forall k :: 0 <= k < |s| ==> IsBlank(s[k])
  }

  /** No blank. */
  predicate NoBlank(s: String) {
    forall k :: 0 <= k < |s| ==> !IsBlank(s[k])
  }

  /** `[ \t]*=[ \t]*[^ \t]+[ \t]*`: blanks, `=`, blanks, a value and
      blanks. */
  ghost predicate Assignment(t: String) {
    exists a: String, c: String, v: String, d: String ::
      t == a + "=" + c + v + d && AllBlank(a) && AllBlank(c) && |v| > 0 && NoBlank(v) && AllBlank(d)
  }

  /** Group 2 and the text after it, as the two patterns leave them: either
      an assignment whose value and trailing blanks run as far as they can,
      or, when no value follows an `=`, the blanks alone. */
  ghost predicate Group2(t: String, rest: String) {
    || (Assignment(t) && (rest == [] || (IsBlank(t[|t| - 1]) && !IsBlank(rest[0]))))
    || (&& AllBlank(t) && (rest == [] || !IsBlank(rest[0]))
        && (rest == [] || rest[0] != '=' || AllBlank(rest[1..])))
  }

  /** `parm3rex.match(rest)`, then `parm4rex.match(rest)`: a name followed by
      `[ \t]*=[ \t]*` and a value with its trailing blanks, or else a name
      followed by blanks. Each regular expression takes every maximal run
      its groups allow, since a shorter run cannot be followed by what the
      pattern needs next. `None` when neither matches, which is when `rest`
      starts with `=` or a blank (or is empty). */
  function Next(rest: String): (r: Option<Cut>)
    ensures r.Some? ==> |r.value.param.name| > 0 && Whole(r.value.param) + r.value.rest == rest
    ensures r.None? <==> |rest| == 0 || !NameChar(rest[0])
    ensures r.Some? ==> r.value.param.name == rest[..NameLen(rest)]
    ensures r.Some? ==> Group2(r.value.param.text, r.value.rest)
  {
    var n := NameLen(rest);
    if n == 0 then None
    else
      var m := ValueLen(rest[n..]);
      CutThree(rest, n, n + m);
      ValueShape(rest[n..]);
      assert rest[n..][..m] == rest[n..n + m] && rest[n..][m..] == rest[n + m..];
      Some(Cut(Param(rest[..n], rest[n..n + m]), rest[n + m..]))
  }

  /** What `ValueLen` measures has the shape of group 2. */
  lemma {:induction false} ValueShape(after: String)
    ensures Group2(after[..ValueLen(after)], after[ValueLen(after)..])
  {
    var e := BlanksFrom(after, 0);
    if e < |after| && after[e] == '=' {
      var j := BlanksFrom(after, e + 1);
      var l := ValuesFrom(after, j);
      if l > j {
        AssignmentShape(after, e, j, l, BlanksFrom(after, l));
      } else {
        var rest := after[e..];
        assert rest[1..] == after[e + 1..];
        assert AllBlank(after[..e]);
      }
    } else {
      assert AllBlank(after[..e]);
    }
  }

  /** An `=` at `i`, a value from `j` to `l` and blanks up to `m`, each run
      as long as it can be, make an assignment. */
  lemma {:induction false} AssignmentShape(after: String, i: nat, j: nat, l: nat, m: nat)
    requires i < j < l <= m <= |after| && after[i] == '='
    requires forall k :: 0 <= k < j && k != i ==> IsBlank(after[k])
    requires forall k :: j <= k < l ==> !IsBlank(after[k])
    requires forall k :: l <= k < m ==> IsBlank(after[k])
    requires l < |after| ==> IsBlank(after[l])
    requires m < |after| ==> !IsBlank(after[m])
    ensures Group2(after[..m], after[m..])
  {
    var t := after[..m];
    var rest := after[m..];
    var a, c, w, d := after[..i], after[i + 1..j], after[j..l], after[l..m];
    assert t == a + "=" + c + w + d;
    assert AllBlank(a) && AllBlank(c) && NoBlank(w) && AllBlank(d);
    if rest != [] && m > l {
      assert rest[0] == after[m];
      assert t[|t| - 1] == after[m - 1] == d[|d| - 1];
    }
  }

  lemma CutThree(s: String, i: nat, j: nat)
    requires i <= j <= |s|
    ensures s[..i] + s[i..j] + s[j..] == s
  {
  }

  /** Length of group 2 after a name: ` = value ` when there is a value
      (parm3rex), the blanks alone otherwise (parm4rex). */
  function ValueLen(after: String): (m: nat)
    ensures m <= |after|
  {
    var e := BlanksFrom(after, 0);
    if e < |after| && after[e] == '=' then
      var j := BlanksFrom(after, e + 1);
      var l := ValuesFrom(after, j);
      if l > j then BlanksFrom(after, l) else e
    else e
  }

  /** Where the run of blanks starting at `i` ends. */
  function BlanksFrom(s: String, i: nat): (r: nat)
    requires i <= |s|
    ensures i <= r <= |s|
    ensures forall k :: i <= k < r ==> IsBlank(s[k])
    ensures r < |s| ==> !IsBlank(s[r])
    decreases |s| - i
  {
    if i < |s| && IsBlank(s[i]) then BlanksFrom(s, i + 1) else i
  }

  /** Where the run of non-blanks starting at `i` ends. */
  function ValuesFrom(s: String, i: nat): (r: nat)
    requires i <= |s|
    ensures i <= r <= |s|
    ensures forall k :: i <= k < r ==> !IsBlank(s[k])
    ensures r < |s| ==> IsBlank(s[r])
    decreases |s| - i
  {
    if i < |s| && !IsBlank(s[i]) then ValuesFrom(s, i + 1) else i
  }

  /** The `while rest != ''` loop, with the text no pattern matches handed
      back as the second component. */
  function Params(rest: String): (r: Scanned)
    requires OneLine(rest)
    ensures Flat(r.params) + r.left == rest
    ensures r.left == [] || !NameChar(r.left[0])
    decreases |rest|
  {
    if |rest| == 0 then Scanned([], [])
    else
      var n := Next(rest);
      if n.None? then Scanned([], rest)
      else
        var p := n.value.param;
        var tail := n.value.rest;
        SuffixOneLine(Whole(p), tail);
        var r := Params(tail);
        FlatCons(p, r.params, r.left);
        Scanned([p] + r.params, r.left)
  }

  lemma {:induction false} SuffixOneLine(a: String, b: String)
    requires OneLine(a + b)
    ensures OneLine(b)
  {
    assert forall k :: 0 <= k < |b| ==> b[k] == (a + b)[|a| + k];
  }

  lemma {:induction false} FlatCons(p: Param, ps: seq<Param>, left: String)
    ensures Flat([p] + ps) + left == Whole(p) + (Flat(ps) + left)
  {
    assert ([p] + ps)[1..] == ps;
  }

  lemma {:induction false} LineLenAll(s: String)
    requires OneLine(s)
    ensures LineLen(s) == |s|
    decreases |s|
  {
    if |s| > 0 {
      assert OneLine(s[1..]) by {
        assert forall k :: 0 <= k < |s[1..]| ==> s[1..][k] == s[k + 1];
      }
      LineLenAll(s[1..]);
    }
  }

  // ---------------------------------------------------------------------
  // The two parts

  /** `if part == '': part = '+ '` followed by `part += s`, for a non-empty
      `s`; nothing when `s` is empty. */
  function Add(part: String, s: String): String {
    if |s| == 0 then part else (if |part| == 0 then "+ " else part) + s
  }

  /** The loop body over the parameters, in order. */
  function Sort(ps: seq<Param>, params: seq<String>, part1: String, part2: String): Parts
    decreases |ps|
  {
    if |ps| == 0 then Parts(part1, part2)
    else if ps[0].name in params then Sort(ps[1..], params, part1, Add(part2, Whole(ps[0])))
    else Sort(ps[1..], params, Add(part1, Whole(ps[0])), part2)
  }

  function Selected(params: seq<String>): Param -> bool {
    (p: Param) => p.name in params
  }

  function Others(params: seq<String>): Param -> bool {
    (p: Param) => p.name !in params
  }

  /** What `param_split` matched at the start of the line: the `.param`
      prefix with its blanks (empty for a `+` line), and the rest of the
      line. */
  datatype Head = Head(prefix: String, rest: String)

  const ParamKw: String := ".param"

  /** The text from `k` to the first newline after it is one line. */
  lemma {:induction false} RestOneLine(line: String, k: nat)
    requires k <= |line|
    ensures OneLine(line[k..k + LineLen(line[k..])])
  {
    var n := LineLen(line[k..]);
    assert forall j :: 0 <= j < n ==> line[k..k + n][j] == line[k..][j];
  }

  /** `parm1rex.match(line)`, then `parm2rex.match(line)`. */
  function Parse(line: String): (r: Option<Head>)
    ensures r.Some? ==> OneLine(r.value.rest)
  {
    if |line| > |ParamKw| && StartsWith(line, ParamKw) && IsBlank(line[|ParamKw|]) then
      var k := |ParamKw| + BlankLen(line[|ParamKw|..]);
      RestOneLine(line, k);
      Some(Head(line[..k], line[k..k + LineLen(line[k..])]))
    else if |line| > 0 && line[0] == '+' then
      var k := 1 + BlankLen(line[1..]);
      RestOneLine(line, k);
      Some(Head([], line[k..k + LineLen(line[k..])]))
    else None
  }

  /** The two parts, from the prefix and the rest of the line. */
  function SplitRest(h: Head, params: seq<String>): Parts
    requires OneLine(h.rest)
  {
    var Scanned(ps, left) := Params(h.rest);
    var Parts(p1, p2) := Sort(ps, params, h.prefix, []);
    Parts(Add(p1, left), p2)
  }

  /** `param_split(line, params)`: the first part and the second part. A
      line that is neither a `.param` line nor a continuation comes back
      whole with an empty second part. Text at the end that no pattern
      matches stays on the first part (see `ParamSplitAsWritten`). */
  function ParamSplit(line: String, params: seq<String>): (r: Parts)
    ensures Parse(line).None? ==> r == Parts(line, [])
    ensures Parse(line).Some? ==> StartsWith(r.first, Parse(line).value.prefix)
    ensures r.second == [] || StartsWith(r.second, "+ ")
  {
    match Parse(line)
    case None => Parts(line, [])
    case Some(h) =>
      SplitRestStarts(h, params);
      SplitRest(h, params)
  }

  lemma {:induction false} SplitRestStarts(h: Head, params: seq<String>)
    requires OneLine(h.rest)
    ensures StartsWith(SplitRest(h, params).first, h.prefix)
    ensures SplitRest(h, params).second == [] || StartsWith(SplitRest(h, params).second, "+ ")
  {
    var Scanned(ps, left) := Params(h.rest);
    var Parts(p1, p2) := Sort(ps, params, h.prefix, []);
    SortIs(ps, params, h.prefix, []);
    AddKeeps(h.prefix, Flat(Filter(ps, Others(params))));
    AddKeeps(p1, left);
    AddKeeps([], Flat(Filter(ps, Selected(params))));
    if |h.prefix| == 0 {
      assert StartsWith(Add(p1, left), []);
    } else {
      assert StartsWith(p1, h.prefix);
      StartsWithTrans(Add(p1, left), p1, h.prefix);
    }
  }

  lemma {:induction false} StartsWithTrans(a: String, b: String, c: String)
    requires StartsWith(a, b) && StartsWith(b, c)
    ensures StartsWith(a, c)
  {
    assert a[..|c|] == a[..|b|][..|c|];
  }

  /** `param_split` as written: the loop never ends once the text left over
      starts with `=`, so there is no result. */
  function ParamSplitAsWritten(line: String, params: seq<String>): (r: Option<Parts>)
    ensures r.Some? ==> r.value == ParamSplit(line, params)
  {
    match Parse(line)
    case None => Some(Parts(line, []))
    case Some(h) =>
      if Params(h.rest).left != [] then None else Some(ParamSplit(line, params))
  }

  // ---------------------------------------------------------------------
  // Properties

  lemma {:induction false} AddKeeps(part: String, s: String)
    ensures StartsWith(Add(part, s), part) || |part| == 0
    ensures |s| > 0 ==> StartsWith(Add(part, s), if |part| == 0 then "+ " else part)
  {
    if |s| > 0 {
      var h := if |part| == 0 then "+ " else part;
      assert (h + s)[..|h|] == h;
    }
  }

  lemma {:induction false} AddAdd(part: String, a: String, b: String)
    ensures Add(Add(part, a), b) == Add(part, a + b)
  {
    if |a| > 0 && |b| > 0 {
      var h := if |part| == 0 then "+ " else part;
      assert h + a + b == h + (a + b);
    } else if |a| == 0 {
      assert a + b == b;
    } else {
      assert a + b == a;
    }
  }

  /** The loop appends the selected parameters to the second part and the
      others to the first, each in the order of the line. */
  lemma {:induction false} SortIs(ps: seq<Param>, params: seq<String>, part1: String, part2: String)
    ensures Sort(ps, params, part1, part2)
         == Parts(Add(part1, Flat(Filter(ps, Others(params)))), Add(part2, Flat(Filter(ps, Selected(params)))))
    decreases |ps|
  {
    if |ps| > 0 {
      var p := ps[0];
      var w := Whole(p);
      if p.name in params {
        SortIs(ps[1..], params, part1, Add(part2, w));
        AddAdd(part2, w, Flat(Filter(ps[1..], Selected(params))));
        assert Filter(ps, Selected(params)) == [p] + Filter(ps[1..], Selected(params));
        assert Flat([p] + Filter(ps[1..], Selected(params))) == w + Flat(Filter(ps[1..], Selected(params))) by {
          assert ([p] + Filter(ps[1..], Selected(params)))[1..] == Filter(ps[1..], Selected(params));
        }
      } else {
        SortIs(ps[1..], params, Add(part1, w), part2);
        AddAdd(part1, w, Flat(Filter(ps[1..], Others(params))));
        assert Filter(ps, Others(params)) == [p] + Filter(ps[1..], Others(params));
        assert Flat([p] + Filter(ps[1..], Others(params))) == w + Flat(Filter(ps[1..], Others(params))) by {
          assert ([p] + Filter(ps[1..], Others(params)))[1..] == Filter(ps[1..], Others(params));
        }
      }
    }
  }

  /** The two parts in full: the second is `+ ` and the selected
      parameters; the first is the prefix (or `+ `) and the other
      parameters, followed by any text no pattern matched. Every parameter
      goes to exactly one part with its text unchanged, and the parameters
      with the left-over text make up the rest of the line. */
  lemma {:induction false} ParamSplitParts(line: String, params: seq<String>)
    requires Parse(line).Some?
    ensures var h := Parse(line).value;
            var Scanned(ps, left) := Params(h.rest);
            && Flat(ps) + left == h.rest
            && ParamSplit(line, params).second == Add([], Flat(Filter(ps, Selected(params))))
            && ParamSplit(line, params).first == Add(Add(h.prefix, Flat(Filter(ps, Others(params)))), left)
            && (forall i :: 0 <= i < |Filter(ps, Selected(params))| ==> Filter(ps, Selected(params))[i].name in params)
            && (forall i :: 0 <= i < |Filter(ps, Others(params))| ==> Filter(ps, Others(params))[i].name !in params)
  {
    var h := Parse(line).value;
    var Scanned(ps, left) := Params(h.rest);
    SortIs(ps, params, h.prefix, []);
  }

  predicate Blanks(b: String) {
    forall k :: 0 <= k < |b| ==> IsBlank(b[k])
  }

  predicate Name(name: String) {
    |name| > 0 && forall k :: 0 <= k < |name| ==> NameChar(name[k]) && name[k] != '\n'
  }

  /** A `.param` line: the keyword and its blanks are the prefix, and the
      rest of the line is read for parameters. */
  lemma {:induction false} ParseParam(b: String, rest: String)
    requires |b| > 0 && Blanks(b) && OneLine(rest) && (|rest| > 0 ==> !IsBlank(rest[0]))
    ensures Parse(ParamKw + b + rest) == Some(Head(ParamKw + b, rest))
  {
    var line := ParamKw + b + rest;
    var k := |ParamKw| + |b|;
    assert line[..|ParamKw|] == ParamKw && line[|ParamKw|] == b[0];
    assert line[|ParamKw|..] == b + rest;
    BlankLenOf(b, rest);
    assert line[..k] == ParamKw + b && line[k..] == rest;
    LineLenAll(rest);
    assert k + LineLen(line[k..]) == |line|;
    assert line[k..|line|] == rest;
  }

  /** A `.param` line keeps `.param` and its blanks at the head of the
      first part. */
  lemma {:induction false} ParamPrefixKept(b: String, rest: String, params: seq<String>)
    requires |b| > 0 && Blanks(b) && OneLine(rest) && (|rest| > 0 ==> !IsBlank(rest[0]))
    ensures StartsWith(ParamSplit(ParamKw + b + rest, params).first, ParamKw + b)
  {
    ParseParam(b, rest);
  }

  /** A line that is neither `.param` with blanks nor `+` comes back as it
      is. */
  lemma Unparsable(line: String, params: seq<String>)
    requires |line| > 0 ==> line[0] != '+'
    requires !(|line| > |ParamKw| && StartsWith(line, ParamKw) && IsBlank(line[|ParamKw|]))
    ensures ParamSplit(line, params) == Parts(line, [])
  {
  }

  // ---------------------------------------------------------------------
  // The loop that does not end

  lemma {:induction false} NameLenOf(name: String, s: String)
    requires Name(name) && |s| > 0 && !NameChar(s[0])
    ensures NameLen(name + s) == |name|
  {
    var n := NameLen(name + s);
    assert forall k :: 0 <= k < |name| ==> (name + s)[k] == name[k];
    assert (name + s)[|name|] == s[0];
  }

  /** A bare name followed by `=` and nothing else: the second pattern
      takes the name and leaves `=`, which neither pattern matches. */
  lemma {:induction false} BareName(name: String)
    requires Name(name)
    ensures OneLine(name + "=")
    ensures Params(name + "=") == Scanned([Param(name, [])], "=")
  {
    var rest := name + "=";
    assert forall k :: 0 <= k < |rest| ==> rest[k] != '\n' by {
      assert forall k :: 0 <= k < |name| ==> rest[k] == name[k];
    }
    NextBare(name);
    EqualsLeft();
    assert [Param(name, [])] + [] == [Param(name, [])];
  }

  /** The second pattern takes a bare name and leaves the `=` after it. */
  lemma {:induction false} NextBare(name: String)
    requires Name(name)
    ensures Next(name + "=") == Some(Cut(Param(name, []), "="))
  {
    var rest := name + "=";
    NameLenOf(name, "=");
    assert rest[..|name|] == name && rest[|name|..] == "=";
    assert ValueLen("=") == 0;
  }

  /** A lone `=` is left over. */
  lemma {:induction false} EqualsLeft()
    ensures Params("=") == Scanned([], "=")
  {
    assert Next("=").None?;
  }

  /** `.param a=` and every line like it: as written the loop never
      ends. */
  lemma {:induction false} BareEqualsHangs(b: String, name: String, params: seq<String>)
    requires |b| > 0 && Blanks(b) && Name(name)
    ensures ParamSplitAsWritten(ParamKw + b + name + "=", params).None?
  {
    BareName(name);
    assert ParamKw + b + name + "=" == ParamKw + b + (name + "=");
    ParseParam(b, name + "=");
  }

  /** The one bare name, sorted. */
  lemma {:induction false} SortOne(prefix: String, name: String, params: seq<String>)
    requires |prefix| > 0 && |name| > 0
    ensures Sort([Param(name, [])], params, prefix, [])
         == if name in params then Parts(prefix, "+ " + name) else Parts(prefix + name, [])
  {
    assert [Param(name, [])][1..] == [];
    assert Whole(Param(name, [])) == name;
  }

  /** Corrected, the `=` of such a line stays on the first part and the
      name goes where it is sorted to. */
  lemma {:induction false} BareEqualsKept(b: String, name: String, params: seq<String>)
    requires |b| > 0 && Blanks(b) && Name(name)
    ensures ParamSplit(ParamKw + b + name + "=", params)
         == if name in params then Parts(ParamKw + b + "=", "+ " + name) else Parts(ParamKw + b + name + "=", [])
  {
    BareName(name);
    assert ParamKw + b + name + "=" == ParamKw + b + (name + "=");
    ParseParam(b, name + "=");
    SortOne(ParamKw + b, name, params);
  }
}

=== FILE: text.dfy ===
/** Character and string helpers shared by the text filters: Python's
    `str.lower`, `str.split()`, `str.startswith`, `str.replace`, `str(int)`
    and `int(str)`, restricted to the ASCII behaviour the filters rely on. */
module Text {

  type String = seq<char>

  /** Python `str.isspace` on the ASCII range: tab, newline, vertical tab,
      form feed, carriage return, the four separators 0x1c-0x1f and space.
      This is also what `\s` matches among ASCII characters. */
  predicate IsSpace(c: char) {
    (9 <= c as int <= 13) || (28 <= c as int <= 32)
  }

  /** The `[ \t]` character class used by most of the regular expressions. */
  predicate IsBlank(c: char) {
    c == ' ' || c == '\t'
  }

  predicate IsDigit(c: char) {
    '0' <= c <= '9'
  }

  predicate AllDigits(s: String) {
    forall k :: 0 <= k < |s| ==> IsDigit(s[k])
  }

  function LowerChar(c: char): (r: char)
    ensures 'A' <= c <= 'Z' ==> r as int == c as int + 32
    ensures !('A' <= c <= 'Z') ==> r == c
  {
    if 'A' <= c <= 'Z' then (c as int + 32) as char else c
  }

  /** `str.lower()` on ASCII letters; every other character is unchanged. */
  function Lower(s: String): (r: String)
    ensures |r| == |s|
    ensures forall k :: 0 <= k < |s| ==> r[k] == LowerChar(s[k])
  {
    seq(|s|, k requires 0 <= k < |s| => LowerChar(s[k]))
  }

  lemma {:induction false} LowerAppend(a: String, b: String)
    ensures Lower(a + b) == Lower(a) + Lower(b)
  {
    assert forall k :: 0 <= k < |a + b| ==> Lower(a + b)[k] == (Lower(a) + Lower(b))[k] by {
      forall k | 0 <= k < |a + b|
        ensures Lower(a + b)[k] == (Lower(a) + Lower(b))[k]
      {
        if k < |a| {
          assert (a + b)[k] == a[k];
        } else {
          assert (a + b)[k] == b[k - |a|];
        }
      }
    }
  }

  predicate StartsWith<T(==)>(s: seq<T>, p: seq<T>) {
    |p| <= |s| && s[..|p|] == p
  }

  predicate EndsWith<T(==)>(s: seq<T>, p: seq<T>) {
    |p| <= |s| && s[|s| - |p|..] == p
  }

  /** `Lower(t)` starts with `Lower(p)`, compared one character at a time. */
  predicate StartsWithCI(t: String, p: String)
    ensures StartsWithCI(t, p) ==> |p| <= |t|
    decreases |p|
  {
    |p| == 0 || (|t| > 0 && LowerChar(t[0]) == LowerChar(p[0]) && StartsWithCI(t[1..], p[1..]))
  }

  lemma {:induction false} StartsWithCIAt(t: String, p: String, k: nat)
    requires StartsWithCI(t, p) && k < |p|
    ensures LowerChar(t[k]) == LowerChar(p[k])
    decreases k
  {
    if k > 0 {
      StartsWithCIAt(t[1..], p[1..], k - 1);
    }
  }

  lemma {:induction false} StartsWithCIChars(t: String, p: String)
    requires |p| <= |t| && forall k :: 0 <= k < |p| ==> LowerChar(t[k]) == LowerChar(p[k])
    ensures StartsWithCI(t, p)
    decreases |p|
  {
    if |p| > 0 {
      assert forall k :: 0 <= k < |p| - 1 ==> t[1..][k] == t[k + 1] && p[1..][k] == p[k + 1];
      StartsWithCIChars(t[1..], p[1..]);
    }
  }

  /** A text starting with a prefix that itself matches `p` matches `p`. */
  lemma {:induction false} StartsWithCIPrefix(a: String, b: String, p: String)
    requires |a| == |p| && StartsWithCI(a, p)
    ensures StartsWithCI(a + b, p)
  {
    forall k | 0 <= k < |p| ensures LowerChar((a + b)[k]) == LowerChar(p[k]) {
      StartsWithCIAt(a, p, k);
    }
    StartsWithCIChars(a + b, p);
  }

  /** The character-wise test is Python's `t.lower().startswith(p.lower())`. */
  lemma {:induction false} StartsWithCIIsLower(t: String, p: String)
    ensures StartsWithCI(t, p) <==> StartsWith(Lower(t), Lower(p))
  {
    if StartsWithCI(t, p) {
      forall k | 0 <= k < |p|
        ensures Lower(t)[..|p|][k] == Lower(p)[k]
      {
        StartsWithCIAt(t, p, k);
      }
    }
    if StartsWith(Lower(t), Lower(p)) {
      assert forall k :: 0 <= k < |p| ==> Lower(t)[..|p|][k] == Lower(p)[k];
      StartsWithCIChars(t, p);
    }
  }

  /** Length of the leading run of characters that are not ASCII digits. */
  function TextRun(s: String): (n: nat)
    ensures n <= |s|
    ensures forall k :: 0 <= k < n ==> !IsDigit(s[k])
    ensures n < |s| ==> IsDigit(s[n])
  {
    if |s| == 0 || IsDigit(s[0]) then 0 else 1 + TextRun(s[1..])
  }

  /** Length of the leading run of ASCII digits. */
  function DigitRun(s: String): (n: nat)
    ensures n <= |s|
    ensures forall k :: 0 <= k < n ==> IsDigit(s[k])
    ensures n < |s| ==> !IsDigit(s[n])
  {
    if |s| == 0 || !IsDigit(s[0]) then 0 else 1 + DigitRun(s[1..])
  }

  lemma {:induction false} TextRunIs(s: String, n: nat)
    requires n <= |s| && (forall k :: 0 <= k < n ==> !IsDigit(s[k])) && (n < |s| ==> IsDigit(s[n]))
    ensures TextRun(s) == n
    decreases n
  {
    if n > 0 {
      TextRunIs(s[1..], n - 1);
    }
  }

  lemma {:induction false} DigitRunIs(s: String, n: nat)
    requires n <= |s| && (forall k :: 0 <= k < n ==> IsDigit(s[k])) && (n < |s| ==> !IsDigit(s[n]))
    ensures DigitRun(s) == n
    decreases n
  {
    if n > 0 {
      DigitRunIs(s[1..], n - 1);
    }
  }

  /** Length of the leading run of non-space characters. */
  function WordLen(s: String): (n: nat)
    ensures n <= |s|
    ensures forall k :: 0 <= k < n ==> !IsSpace(s[k])
    ensures n < |s| ==> IsSpace(s[n])
  {
    if |s| == 0 || IsSpace(s[0]) then 0 else 1 + WordLen(s[1..])
  }

  /** Length of the leading run of `[ \t]` characters. */
  function BlankLen(s: String): (n: nat)
    ensures n <= |s|
    ensures forall k :: 0 <= k < n ==> IsBlank(s[k])
    ensures n < |s| ==> !IsBlank(s[n])
    decreases |s|
  {
    if |s| == 0 || !IsBlank(s[0]) then 0 else 1 + BlankLen(s[1..])
  }

  /** Length of the leading run of `[^ \t]` characters. */
  function NonBlankLen(s: String): (n: nat)
    ensures n <= |s|
    ensures forall k :: 0 <= k < n ==> !IsBlank(s[k])
    ensures n < |s| ==> IsBlank(s[n])
    decreases |s|
  {
    if |s| == 0 || IsBlank(s[0]) then 0 else 1 + NonBlankLen(s[1..])
  }

  /** A run of blanks followed by a non-blank (or nothing) is what
      `BlankLen` measures. */
  lemma {:induction false} BlankLenOf(p: String, s: String)
    requires forall k :: 0 <= k < |p| ==> IsBlank(p[k])
    requires |s| > 0 ==> !IsBlank(s[0])
    ensures BlankLen(p + s) == |p|
  {
    assert forall k :: 0 <= k < |p| ==> (p + s)[k] == p[k];
    assert |s| > 0 ==> (p + s)[|p|] == s[0];
  }

  /** `BlankLen` is the length of the leading run of blanks, wherever the
      text goes on after the first non-blank. */
  lemma {:induction false} BlankLenIs(s: String, n: nat)
    requires n <= |s| && (forall k :: 0 <= k < n ==> IsBlank(s[k])) && (n < |s| ==> !IsBlank(s[n]))
    ensures BlankLen(s) == n
    decreases n
  {
    if n > 0 {
      BlankLenIs(s[1..], n - 1);
    }
  }

  /** A run of non-blanks followed by a blank (or nothing) is what
      `NonBlankLen` measures. */
  lemma {:induction false} NonBlankLenOf(p: String, s: String)
    requires forall k :: 0 <= k < |p| ==> !IsBlank(p[k])
    requires |s| > 0 ==> IsBlank(s[0])
    ensures NonBlankLen(p + s) == |p|
  {
    assert forall k :: 0 <= k < |p| ==> (p + s)[k] == p[k];
    assert |s| > 0 ==> (p + s)[|p|] == s[0];
  }

  predicate IsWord(w: String) {
    |w| > 0 && forall k :: 0 <= k < |w| ==> !IsSpace(w[k])
  }

  /** Python `str.split()` with no separator: the maximal runs of
      non-space characters, in order. */
  function Split(s: String): (r: seq<String>)
    ensures forall i :: 0 <= i < |r| ==> IsWord(r[i])
    ensures |r| == 0 <==> forall k :: 0 <= k < |s| ==> IsSpace(s[k])
    decreases |s|
  {
    if |s| == 0 then []
    else if IsSpace(s[0]) then
      var r := Split(s[1..]);
      assert forall k :: 1 <= k < |s| ==> s[k] == s[1..][k - 1];
      r
    else
      var n := WordLen(s);
      [s[..n]] + Split(s[n..])
  }

  /** A word followed by a space (or nothing) is what `WordLen` measures. */
  lemma {:induction false} WordLenOf(w: String, rest: String)
    requires forall k :: 0 <= k < |w| ==> !IsSpace(w[k])
    requires |rest| > 0 ==> IsSpace(rest[0])
    ensures WordLen(w + rest) == |w|
  {
    assert forall k :: 0 <= k < |w| ==> (w + rest)[k] == w[k];
    assert |rest| > 0 ==> (w + rest)[|w|] == rest[0];
  }

  /** A word in front of a space is the first token. */
  lemma {:induction false} SplitWord(w: String, rest: String)
    requires IsWord(w) && |rest| > 0 && IsSpace(rest[0])
    ensures Split(w + rest) == [w] + Split(rest)
  {
    WordLenOf(w, rest);
    assert (w + rest)[..|w|] == w && (w + rest)[|w|..] == rest;
  }

  /** A text that starts with a non-space has a first token, and that
      token starts with the same character. */
  lemma SplitHead(s: String)
    requires |s| > 0 && !IsSpace(s[0])
    ensures |Split(s)| > 0 && |Split(s)[0]| > 0 && Split(s)[0][0] == s[0]
  {
  }

  /** A leading space does not change the tokens. */
  lemma SplitSpace(s: String)
    requires |s| > 0 && IsSpace(s[0])
    ensures Split(s) == Split(s[1..])
  {
  }

  /** `sep.join(parts)`. */
  function Join(parts: seq<String>, sep: String): String {
    if |parts| == 0 then []
    else if |parts| == 1 then parts[0]
    else parts[0] + sep + Join(parts[1..], sep)
  }

  /** A word, a space and a text: the word, then the text's tokens. */
  lemma {:induction false} SplitWordSpace(w: String, rest: String)
    requires IsWord(w)
    ensures Split(w + " " + rest) == [w] + Split(rest)
  {
    assert w + " " + rest == w + (" " + rest);
    SplitWord(w, " " + rest);
    SplitSpace(" " + rest);
    assert (" " + rest)[1..] == rest;
  }

  /** Words joined with single spaces split back into the same words. */
  lemma {:induction false} SplitJoin(ws: seq<String>)
    requires forall i :: 0 <= i < |ws| ==> IsWord(ws[i])
    ensures Split(Join(ws, " ")) == ws
    decreases |ws|
  {
    if |ws| == 1 {
      WordLenOf(ws[0], []);
      assert ws[0] + [] == ws[0];
      assert ws[0][..|ws[0]|] == ws[0] && ws[0][|ws[0]|..] == [];
    } else if |ws| > 1 {
      var rest := Join(ws[1..], " ");
      assert Join(ws, " ") == ws[0] + (" " + rest);
      SplitWord(ws[0], " " + rest);
      SplitSpace(" " + rest);
      assert (" " + rest)[1..] == rest;
      SplitJoin(ws[1..]);
      assert [ws[0]] + ws[1..] == ws;
    }
  }

  /** Python `s.replace(pat, rep)` (and `re.sub` with a pattern free of
      metacharacters): every non-overlapping occurrence of `pat`, scanning
      left to right, becomes `rep`. An empty pattern matches before every
      element and at the end, as in Python. */
  function ReplaceAll<T(==)>(s: seq<T>, pat: seq<T>, rep: seq<T>): seq<T>
    decreases |s|
  {
    if |pat| == 0 then
      (if |s| == 0 then rep else rep + [s[0]] + ReplaceAll(s[1..], pat, rep))
    else if |s| < |pat| then s
    else if s[..|pat|] == pat then rep + ReplaceAll(s[|pat|..], pat, rep)
    else [s[0]] + ReplaceAll(s[1..], pat, rep)
  }

  /** Joining a first part in front of at least one more. */
  lemma {:induction false} JoinCons(x: String, ls: seq<String>, sep: String)
    requires |ls| > 0
    ensures Join([x] + ls, sep) == x + sep + Join(ls, sep)
  {
    assert ([x] + ls)[1..] == ls;
  }

  lemma {:induction false} JoinSnoc(ls: seq<String>, l: String, sep: String)
    requires |ls| > 0
    ensures Join(ls + [l], sep) == Join(ls, sep) + sep + l
    decreases |ls|
  {
    if |ls| == 1 {
      assert (ls + [l])[1..] == [l];
    } else {
      assert (ls + [l])[0] == ls[0] && (ls + [l])[1..] == ls[1..] + [l];
      JoinSnoc(ls[1..], l, sep);
    }
  }

  /** Replacing a two-element pattern works piecewise when no occurrence
      can start at the last element of the first piece. */
  lemma {:induction false} ReplaceAllSplit<T>(a: seq<T>, b: seq<T>, pat: seq<T>, rep: seq<T>)
    requires |pat| == 2 && (|a| > 0 ==> a[|a| - 1] != pat[0])
    ensures ReplaceAll(a + b, pat, rep) == ReplaceAll(a, pat, rep) + ReplaceAll(b, pat, rep)
    decreases |a|
  {
    var s := a + b;
    if |a| == 0 {
      assert s == b;
    } else if |s| < 2 {
      assert b == [] && s == a;
    } else if s[..2] == pat {
      assert |a| >= 2 && a[..2] == pat;
      assert s[2..] == a[2..] + b;
      ReplaceAllSplit(a[2..], b, pat, rep);
    } else {
      assert s[1..] == a[1..] + b;
      if |a| >= 2 {
        assert a[..2] == s[..2];
        ReplaceAllSplit(a[1..], b, pat, rep);
      } else {
        assert s[1..] == b;
      }
    }
  }

  /** `pat` occurs in `s` starting at index `i`. */
  predicate MatchAt<T(==)>(s: seq<T>, pat: seq<T>, i: nat) {
    i + |pat| <= |s| && s[i..i + |pat|] == pat
  }

  predicate Occurs<T(==)>(s: seq<T>, pat: seq<T>) {
    exists i: nat | i <= |s| :: MatchAt(s, pat, i)
  }

  lemma {:induction false} ReplaceAbsent<T>(s: seq<T>, pat: seq<T>, rep: seq<T>)
    requires |pat| > 0 && !Occurs(s, pat)
    ensures ReplaceAll(s, pat, rep) == s
    decreases |s|
  {
    if |s| >= |pat| {
      assert !MatchAt(s, pat, 0);
      assert s[..|pat|] != pat;
      forall i: nat
        ensures !MatchAt(s[1..], pat, i)
      {
        if i + |pat| <= |s[1..]| {
          assert s[1..][i..i + |pat|] == s[i + 1..i + 1 + |pat|];
          assert !MatchAt(s, pat, i + 1);
        }
      }
      ReplaceAbsent(s[1..], pat, rep);
    }
  }
  /** A first element other than a one-element pattern is kept. */
  lemma {:induction false} ReplaceSkip<T>(s: seq<T>, x: T, z: seq<T>)
    requires |s| > 0 && s[0] != x
    ensures ReplaceAll(s, [x], z) == [s[0]] + ReplaceAll(s[1..], [x], z)
  {
    assert s[..1] != [x];
  }

  /** A one-element pattern found only at the front is replaced once. */
  lemma {:induction false} ReplaceHead<T>(s: seq<T>, x: T, z: seq<T>)
    requires |s| > 0 && s[0] == x && forall j :: 1 <= j < |s| ==> s[j] != x
    ensures ReplaceAll(s, [x], z) == z + s[1..]
  {
    assert s[..1] == [x];
    forall i: nat | i <= |s[1..]|
      ensures !MatchAt(s[1..], [x], i)
    {
      if i + 1 <= |s[1..]| {
        assert s[1..][i..i + 1] == [s[i + 1]];
      }
    }
    ReplaceAbsent(s[1..], [x], z);
  }

  /** Replacing a one-element pattern that occurs exactly once, at `k`. */
  lemma {:induction false} ReplaceSingle<T>(s: seq<T>, x: T, z: seq<T>, k: nat)
    requires k < |s| && s[k] == x && forall j :: 0 <= j < |s| && j != k ==> s[j] != x
    ensures ReplaceAll(s, [x], z) == s[..k] + z + s[k + 1..]
    decreases |s|
  {
    if k > 0 {
      ReplaceSkip(s, x, z);
      ReplaceSingle(s[1..], x, z, k - 1);
      assert s[1..][..k - 1] == s[1..k];
      assert s[1..][k..] == s[k + 1..];
      assert s[..k] == [s[0]] + s[1..k];
    } else {
      ReplaceHead(s, x, z);
    }
  }

  /** An element that the pattern does not contain passes through a
      replacement at the end of the input. */
  lemma {:induction false} ReplaceAllSnoc<T>(s: seq<T>, x: T, pat: seq<T>, rep: seq<T>)
    requires |pat| > 0 && x !in pat
    ensures ReplaceAll(s + [x], pat, rep) == ReplaceAll(s, pat, rep) + [x]
    decreases |s|
  {
    var sx := s + [x];
    if |sx| >= |pat| {
      if sx[..|pat|] == pat {
        assert pat[|pat| - 1] != x;
        assert |pat| <= |s| && s[..|pat|] == pat;
        assert sx[|pat|..] == s[|pat|..] + [x];
        ReplaceAllSnoc(s[|pat|..], x, pat, rep);
      } else if |s| >= |pat| {
        assert s[..|pat|] == sx[..|pat|];
        assert sx[1..] == s[1..] + [x];
        ReplaceAllSnoc(s[1..], x, pat, rep);
      } else if |s| > 0 {
        assert sx[1..] == s[1..] + [x];
        assert s == [s[0]] + s[1..];
      } else {
        assert sx[1..] == [];
      }
    }
  }

  /** Replacing cannot introduce an element that neither the input nor the
      replacement contains. */
  lemma {:induction false} ReplaceAllAvoids<T>(s: seq<T>, x: T, pat: seq<T>, rep: seq<T>)
    requires x !in s && x !in rep
    ensures x !in ReplaceAll(s, pat, rep)
    decreases |s|
  {
    if |s| > 0 {
      assert x !in s[1..];
      ReplaceAllAvoids(s[1..], x, pat, rep);
      if |pat| > 0 && |s| >= |pat| && s[..|pat|] == pat {
        assert x !in s[|pat|..];
        ReplaceAllAvoids(s[|pat|..], x, pat, rep);
      }
    }
  }

  /** A prefix free of the pattern's first element is copied. */
  lemma {:induction false} ReplaceFree<T>(pre: seq<T>, x: seq<T>, pat: seq<T>, rep: seq<T>)
    requires |pat| > 0 && pat[0] !in pre
    ensures ReplaceAll(pre + x, pat, rep) == pre + ReplaceAll(x, pat, rep)
    decreases |pre|
  {
    var s := pre + x;
    if |pre| > 0 {
      if |s| >= |pat| {
        assert s[..|pat|][0] == pre[0];
      }
      assert s[1..] == pre[1..] + x;
      ReplaceFree(pre[1..], x, pat, rep);
      assert [pre[0]] + (pre[1..] + ReplaceAll(x, pat, rep)) == pre + ReplaceAll(x, pat, rep);
    } else {
      assert s == x;
    }
  }

  /** The pattern at the front, followed by text free of its first
      element, is replaced once. */
  lemma {:induction false} ReplaceLeading<T>(pat: seq<T>, rep: seq<T>, post: seq<T>)
    requires |pat| > 0 && pat[0] !in post
    ensures ReplaceAll(pat + post, pat, rep) == rep + post
  {
    var s := pat + post;
    assert s[..|pat|] == pat && s[|pat|..] == post;
    forall i: nat | i <= |post|
      ensures !MatchAt(post, pat, i)
    {
      if i + |pat| <= |post| {
        assert post[i..i + |pat|][0] == post[i];
      }
    }
    ReplaceAbsent(post, pat, rep);
  }

  /** Replacing a pattern whose first element occurs nowhere else. */
  lemma {:induction false} ReplaceOnce<T>(pre: seq<T>, pat: seq<T>, rep: seq<T>, post: seq<T>)
    requires |pat| > 0 && pat[0] !in pre && pat[0] !in post
    ensures ReplaceAll(pre + pat + post, pat, rep) == pre + rep + post
  {
    ReplaceLeading(pat, rep, post);
    assert pre + pat + post == pre + (pat + post);
    ReplaceFree(pre, pat + post, pat, rep);
  }

  /** A pattern as long as the input either is the input or does not occur
      in it. */
  lemma {:induction false} ReplaceAllWhole<T>(s: seq<T>, pat: seq<T>, rep: seq<T>)
    requires |pat| == |s| > 0
    ensures ReplaceAll(s, pat, rep) == if s == pat then rep else s
  {
    if s == pat {
      assert s[..|pat|] == s && s[|pat|..] == [];
      assert rep + [] == rep;
    } else {
      assert s[..|pat|] == s;
      assert |s[1..]| < |pat|;
      assert [s[0]] + s[1..] == s;
    }
  }

  function DigitChar(d: nat): (c: char)
    requires d < 10
    ensures IsDigit(c) && c as int - '0' as int == d
  {
    ('0' as int + d) as char
  }

  function DigitValue(c: char): (d: nat)
    requires IsDigit(c)
    ensures d < 10
  {
    c as int - '0' as int
  }

  /** `str(n)` for a natural number: decimal, no leading zeros. */
  function NatToDecimal(n: nat): (r: String)
    ensures |r| > 0 && AllDigits(r)
    ensures n >= 10 ==> r[0] != '0'
    decreases n
  {
    if n < 10 then [DigitChar(n)] else NatToDecimal(n / 10) + [DigitChar(n % 10)]
  }

  /** `int(s)` for a string of ASCII digits. */
  function DecimalValue(s: String): nat
    requires AllDigits(s)
    decreases |s|
  {
    if |s| == 0 then 0 else DecimalValue(s[..|s| - 1]) * 10 + DigitValue(s[|s| - 1])
  }

  lemma {:induction false} DecimalRoundTrip(n: nat)
    ensures DecimalValue(NatToDecimal(n)) == n
    decreases n
  {
    if n >= 10 {
      var s := NatToDecimal(n);
      assert s[..|s| - 1] == NatToDecimal(n / 10);
      DecimalRoundTrip(n / 10);
    }
  }

  lemma {:induction false} NatToDecimalInjective(m: nat, n: nat)
    requires NatToDecimal(m) == NatToDecimal(n)
    ensures m == n
  {
    DecimalRoundTrip(m);
    DecimalRoundTrip(n);
  }
}

=== FILE: verilog_library.dfy ===
/** Reducing a Verilog file to blackbox modules
    (common/create_verilog_library.py, `create_blackboxes`). Outside a
    module every line is copied. A module line is preceded by
    `(* blackbox *)`; inside the module only the `endmodule` line, the
    port declarations (`input`, `output`, `inout`), the preprocessor
    conditionals (`` `if``, `` `els``, `` `end``) and `supply` lines are
    kept. A module line inside a module (modules defined twice under
    conditionals) adds a level that its own `endmodule` closes. Lines are
    matched after their `//` comment is removed. */
module VerilogLibrary {
  import opened Seqs
  import opened Text
  import opened Lines

  const Blackbox: String := "(* blackbox *)"

  // ---------------------------------------------------------------------
  // Comments

  /** Index of the first `//`, or `|s|`. */
  function CommentStart(s: String): (j: nat)
    ensures j <= |s|
    ensures j < |s| ==> j + 1 < |s| && s[j] == '/' && s[j + 1] == '/'
    ensures forall k :: 0 <= k < j && k + 1 < |s| ==> !(s[k] == '/' && s[k + 1] == '/')
    decreases |s|
  {
    if |s| < 2 then |s|
    else if s[0] == '/' && s[1] == '/' then 0
    else 1 + CommentStart(s[1..])
  }

  /** Length of `s` without its trailing blanks. */
  function TrailStart(s: String): (n: nat)
    ensures n <= |s|
    ensures forall k :: n <= k < |s| ==> IsBlank(s[k])
    ensures n > 0 ==> !IsBlank(s[n - 1])
    decreases |s|
  {
    if |s| > 0 && IsBlank(s[|s| - 1]) then TrailStart(s[..|s| - 1]) else |s|
  }

  /** The comment substitution of the script: the first `//`, the blanks
      in front of it and the rest of the line go. No `//` is left, and what
      goes is all blanks up to a `//`, from just after the last character
      that is not blank. */
  function NoComment(line: String): (r: String)
    ensures StartsWith(line, r)
    ensures forall k :: 0 <= k && k + 1 < |r| ==> !(r[k] == '/' && r[k + 1] == '/')
    ensures |r| < |line| ==>
              var j := CommentStart(line);
              |r| <= j < |line| && line[j] == '/' && line[j + 1] == '/'
              && (forall k :: |r| <= k < j ==> IsBlank(line[k]))
              && (|r| > 0 ==> !IsBlank(r[|r| - 1]))
  {
    var j := CommentStart(line);
    if j == |line| then line
    else
      var p := line[..j];
      assert line[..TrailStart(p)] == p[..TrailStart(p)];
      p[..TrailStart(p)]
  }

  /** A line without a `/` has no comment to remove. */
  lemma {:induction false} NoSlash(s: String)
    requires forall k :: 0 <= k < |s| ==> s[k] != '/'
    ensures CommentStart(s) == |s| && NoComment(s) == s
    decreases |s|
  {
    if |s| >= 2 {
      assert forall k :: 0 <= k < |s[1..]| ==> s[1..][k] == s[k + 1];
      NoSlash(s[1..]);
    }
  }

  // ---------------------------------------------------------------------
  // The patterns

  /** `[ \t\n]`. */
  predicate Sep(c: char) {
    IsBlank(c) || c == '\n'
  }

  /** The text after the leading `[ \t]*`. */
  function Indented(s: String): String {
    s[BlankLen(s)..]
  }

  /** `^[ \t]*kw[ \t\n]+`: the keyword must be followed by a separator. */
  predicate Keyword(s: String, kw: String) {
    var t := Indented(s);
    |t| > |kw| && t[..|kw|] == kw && Sep(t[|kw|])
  }

  /** `^[ \t]*kw`, followed by a separator or by nothing. */
  predicate KeywordOrEnd(s: String, kw: String) {
    var t := Indented(s);
    |t| >= |kw| && t[..|kw|] == kw && (|t| == |kw| || Sep(t[|kw|]))
  }

  /** `^[ \t]*p`: a prefix, whatever follows. */
  predicate Directive(s: String, p: String) {
    StartsWith(Indented(s), p)
  }

  predicate IsModule(nc: String) {
    Keyword(nc, "module")
  }

  /** `endrex`. As written the keyword needs a separator after it, which a
      line holding only `endmodule` does not have; `fixed` also accepts the
      end of the line. */
  predicate IsEnd(fixed: bool, nc: String) {
    if fixed then KeywordOrEnd(nc, "endmodule") else Keyword(nc, "endmodule")
  }

  /** The lines a blackbox keeps inside a module. */
  predicate IsKept(nc: String) {
    Keyword(nc, "input") || Keyword(nc, "output") || Keyword(nc, "inout")
    || Directive(nc, "`if") || Directive(nc, "`els") || Directive(nc, "`end")
    || Directive(nc, "supply")
  }

  // ---------------------------------------------------------------------
  // The loop

  /** `in_mod` and `depth`. */
  datatype St = St(inMod: bool, depth: int)

  const Start := St(false, 0)

  function Step(fixed: bool, line: String, st: St): Out<St> {
    var nc := NoComment(line);
    if !st.inMod then
      if IsModule(nc) then Out([Blackbox, line], St(true, 1)) else Out([line], st)
    else if IsModule(nc) then
      if IsEnd(fixed, nc) then Out([Blackbox, line], St(st.depth != 0, st.depth))
      else Out([Blackbox] + (if IsKept(nc) then [line] else []), St(true, st.depth + 1))
    else if IsEnd(fixed, nc) then Out([line], St(st.depth - 1 != 0, st.depth - 1))
    else Out(if IsKept(nc) then [line] else [], St(true, st.depth))
  }

  function StepOf(fixed: bool): LineStep<St> {
    (line, st) => Step(fixed, line, st)
  }

  /** The lines of the blackbox text (the script joins them with
      newlines). */
  function Blackboxes(lines: Lines, fixed: bool): Lines {
    Run(lines, StepOf(fixed), Start).lines
  }

  /** `create_blackboxes`, with `endmodule` recognised at the end of a
      line. A file without module lines comes back as it was. */
  function CreateBlackboxes(lines: Lines): (r: Lines)
    ensures (forall i :: 0 <= i < |lines| ==> Plain(lines[i])) ==> r == lines
  {
    if forall i :: 0 <= i < |lines| ==> Plain(lines[i]) then
      OutsideRun(lines, true);
      Blackboxes(lines, true)
    else Blackboxes(lines, true)
  }

  // ---------------------------------------------------------------------
  // Line classes

  /** A line outside modules that does not open one. */
  predicate Plain(line: String) {
    !IsModule(NoComment(line))
  }

  /** A line inside a module that neither opens nor closes one. */
  predicate Inner(fixed: bool, line: String) {
    !IsModule(NoComment(line)) && !IsEnd(fixed, NoComment(line))
  }

  function KeptLine(line: String): bool {
    IsKept(NoComment(line))
  }

  lemma {:induction false} OutsideRun(pre: Lines, fixed: bool)
    requires forall i :: 0 <= i < |pre| ==> Plain(pre[i])
    ensures Run(pre, StepOf(fixed), Start) == Out(pre, Start)
  {
    RunCopies(pre, StepOf(fixed), Start);
  }

  lemma PlainStep(fixed: bool, line: String)
    requires Plain(line)
    ensures Step(fixed, line, Start) == Out([line], Start)
  {
  }

  lemma InnerStep(fixed: bool, line: String, d: int)
    requires Inner(fixed, line)
    ensures Step(fixed, line, St(true, d)) == Out(if KeptLine(line) then [line] else [], St(true, d))
  {
  }

  lemma {:induction false} BodyRun(body: Lines, fixed: bool, d: int)
    requires forall i :: 0 <= i < |body| ==> Inner(fixed, body[i])
    ensures Run(body, StepOf(fixed), St(true, d)) == Out(Filter(body, KeptLine), St(true, d))
  {
    forall i | 0 <= i < |body|
      ensures StepOf(fixed)(body[i], St(true, d))
           == Out(if KeptLine(body[i]) then [body[i]] else [], St(true, d))
    {
      InnerStep(fixed, body[i], d);
    }
    RunFilters(body, StepOf(fixed), St(true, d), KeptLine);
  }

  /** A module line: outside, the blackbox attribute and the line; inside,
      the attribute alone and one level more. */
  lemma OpenStep(fixed: bool, m: String)
    requires IsModule(NoComment(m))
    ensures Step(fixed, m, Start) == Out([Blackbox, m], St(true, 1))
  {
  }

  lemma {:induction false} NestedStep(fixed: bool, m: String, d: int)
    requires IsModule(NoComment(m)) && !IsKept(NoComment(m))
    ensures Step(fixed, m, St(true, d)) == Out([Blackbox], St(true, d + 1))
  {
    EndNotModule(fixed, NoComment(m));
  }

  /** No line both opens and closes a module. */
  lemma {:induction false} EndNotModule(fixed: bool, nc: String)
    ensures IsModule(nc) ==> !IsEnd(fixed, nc)
  {
    if IsModule(nc) {
      var t := Indented(nc);
      assert t[0] == 'm';
      assert |t| >= 9 ==> t[..9][0] == t[0];
    }
  }

  lemma {:induction false} CloseStep(fixed: bool, e: String, d: int)
    requires IsEnd(fixed, NoComment(e))
    ensures Step(fixed, e, St(true, d)) == Out([e], St(d - 1 != 0, d - 1))
  {
    EndNotModule(fixed, NoComment(e));
  }

  // ---------------------------------------------------------------------
  // Whole files

  /** A file without module lines is copied. */
  lemma {:induction false} NoModules(lines: Lines, fixed: bool)
    requires forall i :: 0 <= i < |lines| ==> Plain(lines[i])
    ensures Blackboxes(lines, fixed) == lines
  {
    OutsideRun(lines, fixed);
  }

  /** One module among other lines: the blackbox attribute goes in front of
      the module line, the module keeps only its ports, conditionals and
      supplies, and everything around it is copied. This holds for the
      end test as written (`fixed` false: `endmodule` followed by white
      space) and as corrected. */
  lemma {:induction false} OneModule(fixed: bool, pre: Lines, m: String, body: Lines, e: String, post: Lines)
    requires forall i :: 0 <= i < |pre| ==> Plain(pre[i])
    requires IsModule(NoComment(m))
    requires forall i :: 0 <= i < |body| ==> Inner(fixed, body[i])
    requires IsEnd(fixed, NoComment(e))
    requires forall i :: 0 <= i < |post| ==> Plain(post[i])
    ensures Blackboxes(pre + [m] + body + [e] + post, fixed)
         == pre + [Blackbox, m] + Filter(body, KeptLine) + [e] + post
  {
    var step := StepOf(fixed);
    var inside := St(true, 1);
    var kept := Filter(body, KeptLine);
    OutsideRun(pre, fixed);
    OpenStep(fixed, m);
    BodyRun(body, fixed, 1);
    RunAround(pre, m, body, step, Start, Out(pre, Start), Out(kept, inside));
    CloseStep(fixed, e, 1);
    OutsideRun(post, fixed);
    RunAround(pre + [m] + body, e, post, step, Start, Out(pre + [Blackbox, m] + kept, inside), Out(post, Start));
  }

  /** A module defined again inside a module: the inner module line gives
      only the attribute, its `endmodule` is kept, and the outer module
      ends at the second `endmodule`, for either end test. */
  lemma {:induction false} NestedModule(fixed: bool, m1: String, b1: Lines, m2: String, b2: Lines, e2: String, b3: Lines, e1: String)
    requires IsModule(NoComment(m1)) && IsModule(NoComment(m2)) && !IsKept(NoComment(m2))
    requires forall i :: 0 <= i < |b1| ==> Inner(fixed, b1[i])
    requires forall i :: 0 <= i < |b2| ==> Inner(fixed, b2[i])
    requires forall i :: 0 <= i < |b3| ==> Inner(fixed, b3[i])
    requires IsEnd(fixed, NoComment(e2)) && IsEnd(fixed, NoComment(e1))
    ensures Run([m1] + b1 + [m2] + b2 + [e2] + b3 + [e1], StepOf(fixed), Start)
         == Out([Blackbox, m1] + Filter(b1, KeptLine) + [Blackbox] + Filter(b2, KeptLine) + [e2]
                + Filter(b3, KeptLine) + [e1], Start)
  {
    var step := StepOf(fixed);
    var f1 := Filter(b1, KeptLine);
    var f2 := Filter(b2, KeptLine);
    var f3 := Filter(b3, KeptLine);
    NestedOpen(fixed, m1, b1, m2, b2);
    var x2 := Out([Blackbox, m1] + f1 + [Blackbox] + f2, St(true, 2));
    CloseStep(fixed, e2, 2);
    BodyRun(b3, fixed, 1);
    RunAround([m1] + b1 + [m2] + b2, e2, b3, step, Start, x2, Out(f3, St(true, 1)));
    var x3 := Out([Blackbox, m1] + f1 + [Blackbox] + f2 + [e2] + f3, St(true, 1));
    CloseStep(fixed, e1, 1);
    RunThen([m1] + b1 + [m2] + b2 + [e2] + b3, e1, step, Start, x3);
  }

  /** The two module lines and their bodies, up to the inner `endmodule`. */
  lemma {:induction false} NestedOpen(fixed: bool, m1: String, b1: Lines, m2: String, b2: Lines)
    requires IsModule(NoComment(m1)) && IsModule(NoComment(m2)) && !IsKept(NoComment(m2))
    requires forall i :: 0 <= i < |b1| ==> Inner(fixed, b1[i])
    requires forall i :: 0 <= i < |b2| ==> Inner(fixed, b2[i])
    ensures Run([m1] + b1 + [m2] + b2, StepOf(fixed), Start)
         == Out([Blackbox, m1] + Filter(b1, KeptLine) + [Blackbox] + Filter(b2, KeptLine), St(true, 2))
  {
    var step := StepOf(fixed);
    var f1 := Filter(b1, KeptLine);
    var f2 := Filter(b2, KeptLine);
    OpenStep(fixed, m1);
    BodyRun(b1, fixed, 1);
    RunAround([], m1, b1, step, Start, Out([], Start), Out(f1, St(true, 1)));
    assert [] + [m1] + b1 == [m1] + b1;
    var x1 := Out([Blackbox, m1] + f1, St(true, 1));
    assert [] + [Blackbox, m1] + f1 == [Blackbox, m1] + f1;
    NestedStep(fixed, m2, 1);
    BodyRun(b2, fixed, 2);
    RunAround([m1] + b1, m2, b2, step, Start, x1, Out(f2, St(true, 2)));
  }

  // ---------------------------------------------------------------------
  // A module closed by a bare `endmodule`

  const BareEnd: String := "endmodule"

  /** `endmodule` has no indentation. */
  lemma {:induction false} BareIndented(nc: String)
    requires nc == BareEnd
    ensures Indented(nc) == nc
  {
    assert nc[0] == 'e';
    BlankLenIs(nc, 0);
  }

  /** Every kept line starts, after its indentation, with `i`, `o`, a
      backquote or `s`. */
  lemma {:induction false} KeptFirst(nc: String)
    ensures IsKept(nc) ==> |Indented(nc)| > 0 && Indented(nc)[0] in {'i', 'o', '`', 's'}
  {
    var t := Indented(nc);
    if |t| > 0 {
      assert Keyword(nc, "input") ==> t[0] == t[..5][0];
      assert Keyword(nc, "output") ==> t[0] == t[..6][0];
      assert Keyword(nc, "inout") ==> t[0] == t[..5][0];
      assert Directive(nc, "`if") ==> t[0] == t[..3][0];
      assert Directive(nc, "`els") ==> t[0] == t[..4][0];
      assert Directive(nc, "`end") ==> t[0] == t[..4][0];
      assert Directive(nc, "supply") ==> t[0] == t[..6][0];
    }
  }

  /** A line reading `endmodule` neither opens a module nor is kept. */
  lemma {:induction false} BareNeither(nc: String)
    requires Indented(nc) == BareEnd
    ensures !IsModule(nc) && !IsKept(nc)
  {
    var t := Indented(nc);
    assert t[0] == 'e';
    assert |t| > 6 ==> t[..6][0] == t[0];
    KeptFirst(nc);
  }

  /** As written a line reading `endmodule` is not an end; corrected it
      is. */
  lemma {:induction false} BareEnds(nc: String)
    requires Indented(nc) == BareEnd
    ensures !IsEnd(false, nc) && IsEnd(true, nc)
  {
    var t := Indented(nc);
    assert |t| == 9 && t[..9] == t;
  }

  /** A module line followed by two lines that neither end the module nor
      are kept leaves only the blackbox attribute and the module line. */
  lemma {:induction false} DroppedAfterModule(fixed: bool, m: String, e: String, w: String)
    requires IsModule(NoComment(m))
    requires Inner(fixed, e) && !KeptLine(e) && Inner(fixed, w) && !KeptLine(w)
    ensures Blackboxes([m, e, w], fixed) == [Blackbox, m]
  {
    var step := StepOf(fixed);
    var inside := St(true, 1);
    OpenStep(fixed, m);
    InnerStep(fixed, e, 1);
    InnerStep(fixed, w, 1);
    RunDrops([e, w], step, inside);
    RunOne(m, step, Start);
    RunAppend([m], [e, w], step, Start, Out([Blackbox, m], inside), Out([], inside));
    assert [m] + [e, w] == [m, e, w];
  }

  /** A module line, its end and a plain line are copied, with the
      attribute in front of the module line. */
  lemma {:induction false} ClosedAfterModule(m: String, e: String, w: String)
    requires IsModule(NoComment(m)) && IsEnd(true, NoComment(e)) && Plain(w)
    ensures CreateBlackboxes([m, e, w]) == [Blackbox, m, e, w]
  {
    var step := StepOf(true);
    OpenStep(true, m);
    RunOne(m, step, Start);
    CloseStep(true, e, 1);
    RunThen([m], e, step, Start, Out([Blackbox, m], St(true, 1)));
    assert [Blackbox, m] + [e] == [Blackbox, m, e];
    PlainStep(true, w);
    RunThen([m] + [e], w, step, Start, Out([Blackbox, m, e], Start));
    assert [Blackbox, m, e] + [w] == [Blackbox, m, e, w];
    assert [m] + [e] + [w] == [m, e, w];
  }

  /** As written, a line that is `endmodule` once its comment is removed
      does not end the module: it is dropped, and so is a following line
      that is not a port, conditional or supply line, although it lies
      outside the module. */
  lemma {:induction false} BareEndAsWritten(m: String, e: String, w: String)
    requires IsModule(NoComment(m)) && NoComment(e) == BareEnd
    requires Inner(false, w) && !IsKept(NoComment(w))
    ensures Blackboxes([m, e, w], false) == [Blackbox, m]
  {
    BareIndented(NoComment(e));
    BareNeither(NoComment(e));
    BareEnds(NoComment(e));
    DroppedAfterModule(false, m, e, w);
  }

  /** With `endmodule` recognised at the end of the line, the same file
      keeps the `endmodule` line and copies what follows. */
  lemma {:induction false} BareEndCorrected(m: String, e: String, w: String)
    requires IsModule(NoComment(m)) && NoComment(e) == BareEnd && !IsModule(NoComment(w))
    ensures CreateBlackboxes([m, e, w]) == [Blackbox, m, e, w]
  {
    BareIndented(NoComment(e));
    BareEnds(NoComment(e));
    ClosedAfterModule(m, e, w);
  }
}

=== FILE: wrappers.dfy ===
/** Failure-compatible result types shared by every module of the model.
    A Python exception or an early `sys.exit(1)` becomes a `Failure`. */
module Wrappers {

  datatype Option<+T> = None | Some(value: T) {
    predicate IsFailure() { None? }

    function PropagateFailure<U>(): Option<U>
      requires None?
    {
      None
    }

    function Extract(): T
      requires Some?
    {
      value
    }
  }

  datatype Result<+R, +E> = Success(value: R) | Failure(error: E) {
    predicate IsFailure() { Failure? }

    function PropagateFailure<U>(): Result<U, E>
      requires Failure?
    {
      Failure(error)
    }

    function Extract(): R
      requires Success?
    {
      value
    }
  }
}
